=== FILE: README.md ===
# Wedeto DB: schema model, query renderers and dialect drivers in Dafny

This project models the core of Wedeto DB, a PHP database abstraction layer. It has three layers.

- **Schema model.** A `Table` holds columns in insertion order, a list of indexes with at most one
  recorded PRIMARY index, and a list of foreign keys. Its mutators reject duplicate columns, a second
  primary key, removing a referenced column, and removing a primary index that is not the recorded one.
  `validate` checks the serial-column and column-reference rules. A `Column` is a logical type tag plus
  metadata. It has an array form (`toArray`/`parseArray`) that round-trips for every type except
  BOOLEAN, whose constant value "BOOL" is not a constant name.
- **Query renderers.** Insert, Update, Select, UnionClause, TableClause, GetClause, JoinClause,
  SQLFunction and Operator are immutable datatypes. Each has a validating constructor and a render
  function that threads the query parameters through. The parameters hold placeholder bindings
  `:c0, :c1, …`, table registrations and sub-scope numbers.
- **Dialect drivers.** PostgreSQL and MySQL contribute:
  - the type mappings and their reverse lookups;
  - column definitions, `formatArray` and `matchMultipleValues`;
  - the DDL statement lists of `createTable`, `createIndex`, `createForeignKey` and `createSerial`,
    where executing a statement means appending it to the list;
  - `loadTable`, which assembles a table from catalog rows passed in as lists. PostgreSQL's
    definition texts are parsed by small parsers. MySQL's one-column-per-row constraint and index
    rows are grouped by name.

The model follows PHP 8 semantics where the versions differ: `count(null)` throws a TypeError, and
`isset` on a string offset reads integer text, negative offsets included.

Query/Select.php and Query/JoinClause.php come from the older `WASP\DB\Query` namespace; every other
file of the core is in `Wedeto\DB\...`. Select::toSQL calls JoinClause::toSQL with one argument where
it takes two, which throws ArgumentCountError in PHP 8 (see Findings).

Modules, one per file:

| file | module | models |
|---|---|---|
| wrappers.dfy | Wrappers | Option, Result, Outcome, errors, `MapAll` |
| strings.dfy | Strings | split/join, case mapping, trimming and prefix helpers |
| values.dfy | Values | PHP values: null, bool, int, string, array, object |
| naming.dfy | Naming | identifier quoting, table prefixing and `stripPrefix` |
| parameters.dfy | Parameters | placeholder allocation, table registration, sub-scopes |
| column.dfy | ColumnModel | `Column` |
| table.dfy | TableModel | `Table` |
| expression.dfy | Expressions | expressions, `Operator`, `SQLFunction` |
| table_clause.dfy | TableClauses | `TableClause` and source tables |
| clauses.dfy | Clauses | `GetClause`, `JoinClause`, WHERE, update fields, duplicate key |
| select.dfy | Selects | `Select` |
| union_clause.dfy | Unions | `UnionClause` |
| insert.dfy | Inserts | `Insert` |
| update.dfy | Updates | `Update` |
| pgsql.dfy | PgsqlDialect | PostgreSQL mapping, column definition, arrays |
| mysql.dfy | MysqlDialect | MySQL mapping, column definition, ENUM text, arrays |
| ddl.dfy | SchemaDdl | createTable/createIndex/createForeignKey/createSerial of both drivers |
| pg_catalog.dfy | PgsqlCatalog | PostgreSQL loadTable, getForeignKeys, getConstraints |
| mysql_catalog.dfy | MysqlCatalog | MySQL loadTable |

Some collaborators are not part of this model: Parameters, the Driver base class, SourceTableClause,
ConstantValue, FieldName and `toExpression`. They have small concrete definitions that satisfy the
behaviour the renderers rely on:
- `identQuote(x)` is the quote character, `x`, and the quote character again;
- fresh placeholders are `c0, c1, …` in allocation order;
- binding the same value node again returns its existing placeholder;
- a table's first registration decides its alias;
- `getSubScope` shares the bindings and the table registrations with its parent and only hands out a
  scope number, so a union's sub-query registers its tables in the same list as the outer query;
- `getName` prefixes a name and quotes it on request;
- `resolveTable` returns the name itself and the alias of its first registration, and for a name
  never registered the name and an empty alias, so an unregistered table renders by its own name.

`generateAlias` and MySQL's connection `quote` stay function parameters.

Two behaviours of the code are easy to misread:
- PostgreSQL's unsupported-type guard compares with `false` after `?? null`, so it never fires.
  An unmapped type then reaches `Column::factory`, where `parseArray` rejects it. `loadTable`
  therefore still fails on an unknown type, only with parseArray's message. The model gives the
  failure, not the message.
- When a foreign-key definition has ON DELETE but no ON UPDATE, PHP's `isset($matches[5])` is true
  for the unmatched middle group. The update policy is then "", not RESTRICT. The model follows the
  code.

As written, the PostgreSQL driver cannot be constructed: its property defaults name the undefined
`Column::INTEGER`, and PHP evaluates them at the first `new PGSQL` (PgsqlDialect.NewDriverAsWritten).
tests/Query/InsertTest.php:219 constructs that driver and expects PostgreSQL text, which contradicts
the code. The model follows the code for the as-written members. The corrected driver, with
`Column::INT` for `Column::INTEGER` (PgsqlDialect.NewDriver), is the one the renderers, the DDL and the
catalog use, and the test examples are stated against it.

## Model

| member | source | states |
|---|---|---|
| ColumnModel.TypeByName | src/Schema/Column/Column.php:37-57 | a name is resolved exactly when it is a constant name; the type found carries that name |
| ColumnModel.TypeByValue | src/Schema/Column/Column.php:37-57 | the type whose constant value is the given string, and none when no constant has it |
| ColumnModel.SetSerial | src/Schema/Column/Column.php:83-90 | setSerial(true) succeeds only for INT and BIGINT; setSerial(false) always succeeds; only the flag changes |
| ColumnModel.SetTable | src/Schema/Column/Column.php:102-112 | a serial column is refused when another column of the table with a different name is serial; otherwise the column is attached |
| ColumnModel.NullableInt | src/Schema/Column/Column.php:136-162 | null stays null; any other value is stored as its integer conversion |
| ColumnModel.SetMaxLength | src/Schema/Column/Column.php:136-140 | only the maximum length changes, following the null-or-integer rule |
| ColumnModel.SetNumericScale | src/Schema/Column/Column.php:147-151 | only the scale changes, following the null-or-integer rule |
| ColumnModel.SetNumericPrecision | src/Schema/Column/Column.php:158-162 | only the precision changes, following the null-or-integer rule |
| ColumnModel.Validate | src/Schema/Column/Column.php:196-243 | null passes exactly for nullable columns; other values pass exactly when the per-type check accepts them (numeric, integer-valued, bool, string, JSON-encodable) |
| ColumnModel.ValidateAsWritten | src/Schema/Column/Column.php:196-243 | as written, null is rejected for every column because the check reads an undefined property |
| ColumnModel.ValidateRenamedOnly | src/Schema/Column/Column.php:196-243 | with only the property name corrected, null passes exactly for nullable columns whose type has no check of its own; other values as in validate |
| ColumnModel.ValidateReadings | src/Schema/Column/Column.php:196-243 | the three readings agree on non-null values; on null the rename alone accepts only where the intended check does and the type check lets null through; as written null always fails |
| ColumnModel.ValidateNullDiscrepancy | src/Schema/Column/Column.php:198-199 | a nullable VARCHAR column rejects null as written and with only the rename, and accepts it when null skips the type check |
| ColumnModel.ValidateRejectsObjectsForJson | src/Schema/Column/Column.php:196-243 | no JSON column accepts an object value, because the class the check names does not exist |
| ColumnModel.BeforeInsertFilter | src/Schema/Column/Column.php:269-300 | null passes through for nullable columns; a non-null BOOLEAN value becomes 1 or 0; untyped values pass unchanged |
| ColumnModel.BeforeInsertFilterAsWritten | src/Schema/Column/Column.php:269-300 | as written, a null value is a fatal error: the method called for nullability does not exist |
| ColumnModel.BeforeInsertNullDiscrepancy | src/Schema/Column/Column.php:273 | a nullable column receiving null fails as written and passes null once corrected |
| ColumnModel.ToArray | src/Schema/Column/Column.php:302-321 | name, type, nullability as 1/0, default and serial always; length, precision and scale only when set; enum values only for ENUM |
| ColumnModel.ParseArray | src/Schema/Column/Column.php:323-340 | the upper-cased type must be a constant name; missing flags default to false and other fields to null; a non-string type is a fatal error |
| ColumnModel.ParseToArray | src/Schema/Column/Column.php:302-340 | parseArray(toArray(c)) recovers every field exactly when the type's constant name equals its value; BOOLEAN is rejected |
| ColumnModel.ParseArrayCaseInsensitive | src/Schema/Column/Column.php:325-327 | parseArray ignores the letter case of the type name |
| ColumnModel.ColumnRoundTrip | src/Schema/Column/Column.php:302-340 | rebuilding a column from its parsed array form gives back the column, detached |
| TableModel.AddColumn | src/Schema/Table.php:105-113 | a present name is rejected, as is a second serial column; otherwise the column is appended, attached, and nothing else changes |
| TableModel.AddColumnAsWritten | src/Schema/Table.php:105-113 | as written, a column refused by the serial check still stays in the column map |
| TableModel.AddColumnDiscrepancy | src/Schema/Table.php:110-111 | a second serial column is refused both ways, but as written it stays in the table |
| TableModel.GetColumn | src/Schema/Table.php:115-120 | the column of that name, or an unknown-name error |
| TableModel.RemoveColumn | src/Schema/Table.php:122-154 | a column absent from the table, or named by an index or foreign key, is rejected; otherwise only that name leaves the column list |
| TableModel.RemoveColumnAsWritten | src/Schema/Table.php:122-154 | as written the call never succeeds: a referenced entry is a fatal method call on a string, and an unreferenced column hits a type error in setTable(null) |
| TableModel.RemoveColumnDiscrepancy | src/Schema/Table.php:134-145 | an unreferenced column cannot be removed as written and is removed once corrected |
| TableModel.AddForeignKey | src/Schema/Table.php:156-161 | the key is appended and nothing else changes |
| TableModel.GetForeignKey | src/Schema/Table.php:163-169 | found exactly when some key has that name; the result is the first key of that name |
| TableModel.RemoveForeignKey | src/Schema/Table.php:171-182 | the first key of that name goes; with no match the table is unchanged |
| TableModel.GetPrimaryColumns | src/Schema/Table.php:187-196 | none without a recorded PRIMARY index; otherwise its columns in order, failing on an unknown one |
| TableModel.AddIndex | src/Schema/Table.php:198-210 | rejected exactly when a PRIMARY index meets a recorded one; otherwise appended, recorded when PRIMARY, nothing else changes |
| TableModel.GetIndex | src/Schema/Table.php:212-218 | found exactly when some index has that name; the result is the first index of that name |
| TableModel.RemoveIndex | src/Schema/Table.php:220-238 | a PRIMARY index that is not the recorded one is rejected; otherwise the primary slot is cleared for PRIMARY and the first same-name index is deleted |
| TableModel.ScanSerialSpec | src/Schema/Table.php:297-306 | the column scan passes exactly when at most one column is serial, and then yields that column's name |
| TableModel.CheckIndexesSpec | src/Schema/Table.php:308-336 | the index loop passes exactly when, for an active serial column, every PRIMARY index lists exactly that column and its name is not integer text (PHP holds such a name as an integer key, which `!==` never matches), and every entry naming a column names an existing one |
| TableModel.CheckEntriesSpec | src/Schema/Table.php:318-332 | entries with '(' are skipped, the rest are cut at the first space, and each must name an existing column |
| TableModel.CheckForeignKeysSpec | src/Schema/Table.php:338-344 | the foreign-key loop passes exactly when every foreign-key column exists |
| TableModel.ValidateSpec | src/Schema/Table.php:295-346 | validate passes exactly on tables with at most one serial column, an active serial column that is the sole column of every PRIMARY index, has a name that is not integer text, and has some PRIMARY index, index entries naming existing columns, and foreign-key columns that exist |
| TableModel.ValidateRejectsTwoSerials | src/Schema/Table.php:297-306 | two serial columns never validate |
| TableModel.ValidateRejectsIntegerSerial | src/Schema/Table.php:297-314 | an active serial column whose name is integer text, such as "5", never validates |
| TableModel.ValidateRejectsSerialWithoutPrimary | src/Schema/Table.php:335-336 | an active serial column without any PRIMARY index never validates |
| TableModel.ToArray | src/Schema/Table.php:255-277 | columns keyed by name in order; the index and foreign-key lists appear only when non-empty |
| TableModel.InitFromArrayValidates | src/Schema/Table.php:77-98 | whatever initFromArray returns has passed validate |
| TableModel.ArrayRoundTrip | src/Schema/Table.php:77-98 | importing the array form of a valid table built through the mutators gives the same table |
| TableModel.AddIndexesFrame | src/Schema/Table.php:90-93 | adding a list of indexes appends them and changes nothing but the indexes and the primary slot |
| TableModel.AddForeignKeys | src/Schema/Table.php:94-96 | adding a list of foreign keys appends them in order |
| TableModel.NewTable | src/Schema/Table.php:51-75 | the table keeps its name; with no parts it is the empty table; a built table holds exactly the column parts (attached to it), the index parts and the key parts, each in argument order |
| TableModel.AddPart | src/Schema/Table.php:64-72 | a successful constructor argument keeps the name and appends itself to the matching list only: a column (attached to the table) to the columns, an index to the indexes, a key to the foreign keys |
| TableModel.AddPartsContents | src/Schema/Table.php:51-75 | adding parts appends the columns, indexes and keys among them, each in order |
| Expressions.NewOperator | src/Query/Operator.php:40-49 | an operator not in the valid list is rejected; a null left operand stays absent; the left side converts strings to fields and the right side strings to constants, left first |
| Expressions.UnaryOperatorKeepsOperands | tests/Query/UnaryOperatorTest.php:35-49 | a unary operator keeps its operator and right operand as given, with no left operand |
| Expressions.Flatten | src/Query/SQLFunction.php:38 | flattening leaves no array argument and leaves a flat list unchanged |
| Expressions.FlattenIdempotent | src/Query/SQLFunction.php:38 | flattening twice is flattening once |
| Expressions.ConvertArguments | src/Query/SQLFunction.php:39-40 | one expression per argument in order; expressions are kept and strings become field names |
| Expressions.NewFunction | src/Query/SQLFunction.php:35-41 | the function keeps its name verbatim; its arguments are the flattened arguments converted in order, so a flat list keeps its expression nodes in place |
| Expressions.AddArgument | src/Query/SQLFunction.php:43-47 | the converted argument is appended at the end |
| Expressions.NewFunctionThenAdd | src/Query/SQLFunction.php:35-47 | constructing with one more argument equals constructing and then calling addArgument |
| Expressions.RenderFunctionShape | src/Query/SQLFunction.php:65-75 | a call renders as its name, "(", the arguments and ")"; no arguments give "NAME()" |
| Expressions.RenderReplay | src/Query/SQLFunction.php:65-75 | rendering again against parameters that know every placeholder gives the same text and binds nothing |
| Expressions.RenderTwice | src/Query/SQLFunction.php:65-75 | rendering the same expression twice yields the same text and no new placeholder |
| Expressions.RenderAppendsBindings | src/Query/SQLFunction.php:71-72 | rendering only appends bindings and keeps them named by position |
| Expressions.RenderListItems | src/Query/SQLFunction.php:71-72 | each argument of a rendered list, rendered alone afterwards, gives the text the list gave it |
| TableClauses.NewTableClause | src/Query/TableClause.php:36-46 | construction succeeds exactly with one argument, the table name |
| TableClauses.GetPrefix | src/Query/TableClause.php:48-51 | the alias when it is non-empty in PHP's sense, else the table name |
| TableClauses.SetTable | src/Query/TableClause.php:58-62 | only the table name changes |
| TableClauses.SetAlias | src/Query/TableClause.php:64-68 | only the alias changes |
| TableClauses.SetDisablePrefixing | src/Query/TableClause.php:75-79 | only the prefixing flag changes |
| TableClauses.SettersIndependent | src/Query/TableClause.php:58-84 | the setters commute, and the prefix follows a non-empty alias |
| TableClauses.RenderTableClauseCases | src/Query/TableClause.php:92-104 | the quoted resolved alias when it is non-empty and differs from the name; else the quoted bare name when prefixing is off; else the prefixed name |
| TableClauses.RenderUnregistered | src/Query/TableClause.php:99-103 | a table never registered renders by its own, prefixed unless disabled, name |
| Clauses.NewGetClause | src/Query/GetClause.php:35-39 | the alias is kept and a string expression becomes a field name |
| Clauses.RenderGet | src/Query/GetClause.php:56-70 | the expression is rendered nested; an empty alias is replaced by a generated one and stored; a non-empty alias appends " AS " and the quoted alias |
| Clauses.RenderGetKeepsAlias | src/Query/GetClause.php:63-64 | once an alias is stored, rendering again ignores the generator and gives the same text |
| Clauses.NewJoin | Query/JoinClause.php:36-56 | accepted exactly for a listed join type and a table name or source table; a name becomes a source table |
| Clauses.RegisterJoin | Query/JoinClause.php:58-62 | registering a join registers its table |
| Clauses.RenderJoin | Query/JoinClause.php:64-67 | type, " JOIN ", table, " ON ", and the condition rendered nested |
| Clauses.RenderJoinShape | Query/JoinClause.php:64-67 | a join's text opens with its type, " JOIN ", the table and " ON " |
| Clauses.RenderUpdateFieldsReplay | src/Query/Insert.php:153-156 | update fields whose values were rendered before render again with the same placeholders and bind nothing |
| Selects.Add | Query/Select.php:50-70 | WHERE, table, ORDER, LIMIT and OFFSET replace their slot; fields and joins are appended; update fields and unknown clauses are rejected |
| Selects.AddCommutes | Query/Select.php:50-70 | accepted clauses for different slots build the same query in either order |
| Selects.AddLastWins | Query/Select.php:50-70 | a later clause for a single slot replaces the earlier one |
| Selects.RegisterSelect | Query/Select.php:102-114 | registration touches only the table registrations |
| Selects.RegisterSelectDepends | Query/Select.php:102-114 | only the table and the joins decide what is registered |
| Selects.RenderSelect | Query/Select.php:116-151 | the text opens with "SELECT", a space and the comma-joined rendered fields, or "*" when there are none; only the select's fields change, taking their generated aliases; the parameters keep their driver and scope counter |
| Selects.RenderSelectAsWritten | Query/Select.php:116-151 | as written, rendering fails with an engine error exactly when the select has a join; without joins it renders as corrected |
| Selects.RenderSelectJoinDiscrepancy | Query/Select.php:135-136 | a select with a join fails as written, while the corrected text holds the first join's "type JOIN table ON condition" piece |
| Selects.SelectPartsOrder | Query/Select.php:116-151 | "SELECT" first, then the comma-joined rendered fields or "*", then the FROM, join and WHERE pieces, then ORDER, LIMIT and OFFSET in that order; absent parts leave no piece |
| Selects.SelectPartsSource | Query/Select.php:116-151 | the FROM, join and WHERE pieces follow "SELECT" and the field list |
| Selects.RenderBareSelect | Query/Select.php:116-151 | a select with only a table renders as "SELECT * FROM " and the table |
| Selects.CountQuery | Query/Select.php:40-48 | the table, joins and WHERE are kept; one COUNT() field; ORDER, LIMIT and OFFSET are dropped |
| Selects.CountQueryIdempotent | Query/Select.php:40-48 | counting a count query changes nothing |
| Selects.CountQueryKeepsSource | Query/Select.php:40-48 | the count query renders the same FROM, joins and WHERE as the query it counts |
| Unions.UnionType | src/Query/UnionClause.php:33-37 | "ALL" gives ALL, "" and "DISTINCT" give DISTINCT, every other string is rejected |
| Unions.SetType | src/Query/UnionClause.php:49-55 | an unlisted type fails with "Invalid UNION type" and the clause keeps its type; a listed one is normalised |
| Unions.NewUnion | src/Query/UnionClause.php:43-47 | the select is kept as given and the type normalised |
| Unions.SetTypeIdempotent | src/Query/UnionClause.php:49-55 | setting a clause's normalised type again changes nothing |
| Unions.RenderUnion | src/Query/UnionClause.php:79-87 | "UNION ", the type, " (", the select rendered in the sub-scope, ")"; the sub-scope is allocated on first render and stored |
| Unions.RenderUnionReusesScope | src/Query/UnionClause.php:84-85 | rendering again uses the stored sub-scope and allocates no further scope number |
| Unions.UnionAllExample | tests/Query/UnionClauseTest.php:77-99 | the test's union renders as `UNION ALL (SELECT * FROM "foo" WHERE "a" = :c0)` with true bound under c0 |
| Inserts.ConvertRecord | src/Query/Insert.php:57-62 | fields and values stay aligned in record order; plain values become fresh constants with increasing ids |
| Inserts.NewInsert | src/Query/Insert.php:43-66 | a name becomes a source table and a source table is kept; the fields are the record's keys in order; an empty primary key is not stored |
| Inserts.UpdateOnDuplicateKey | src/Query/Insert.php:68-80 | the clause is always set, with the given index fields as its conflict target; nothing else of the insert changes |
| Inserts.UpdateOnDuplicateKeyUpdates | src/Query/Insert.php:68-80 | an update is in the clause exactly when its field is not a key field and it pairs a record field with that field's value |
| Inserts.UpdatesFor | src/Query/Insert.php:73-78 | one update per non-key field, in record order, each with its own value |
| Inserts.SetPrimaryKey | src/Query/Insert.php:82-86 | only the primary key changes |
| Inserts.NormKey | src/Query/Insert.php:110-121 | a string key whose text is an integer's canonical text is stored as that integer; every other key is kept |
| Inserts.IssetAt | src/Query/Insert.php:117 | a keyed id yields the first entry under the normalised key, and nothing when that entry is null; a string id yields the one-character string at an integer offset, counted from the end when negative, and nothing out of range or for a non-integer key; any other id yields nothing |
| Inserts.IssetAtNormal | src/Query/Insert.php:117 | a key and its normalised form read the same entry |
| Inserts.StringIdOffsets | src/Query/Insert.php:117 | offset i and offset i minus the length both read character i of a string id; offsets outside that range read nothing |
| Inserts.SetInsertId | src/Query/Insert.php:108-123 | a scalar id with no primary key fails as count(null) does; otherwise only the inserted id is set, to the present primary-key entries |
| Inserts.PresentKeysMembers | src/Query/Insert.php:116-122 | an entry is recorded exactly when its key is the normalised key of a primary-key field and the id holds a non-null value there |
| Inserts.SetInsertIdSingleKey | src/Query/Insert.php:110-113 | a scalar id for a single-field key is recorded under that field |
| Inserts.SetInsertIdRow | src/Query/Insert.php:108-123 | a keyed id is restricted to the primary-key fields, dropping absent and null entries |
| Inserts.SetInsertIdStringOffsets | src/Query/Insert.php:108-123 | primary key ['id', 'x'] and the string id "12" record [0 => "1", 1 => "2"], one character per key |
| Inserts.InsertIdExample | tests/Query/InsertTest.php:69-78 | primary key ['id' => 'id'] and id 5 record ['id' => 5] |
| Inserts.RenderInsert | src/Query/Insert.php:135-160 | the text starts with "INSERT INTO ", the table and the parenthesised field list |
| Inserts.InsertParts | src/Query/Insert.php:135-160 | INSERT INTO, the table, the quoted field list, VALUES and the list of rendered values; a sixth part, the duplicate-key clause, exactly when one is set; rendering only appends placeholders and registers no table |
| Inserts.DuplicateKeyBindsNothing | src/Query/Insert.php:153-156 | the duplicate-key clause binds nothing beyond what the VALUES list binds |
| Inserts.DuplicateKeyReusesPlaceholders | src/Query/Insert.php:153-156 | each duplicate-key update shows the placeholder its field received in the VALUES list |
| Inserts.ToSqlOneField | tests/Query/InsertTest.php:215-233 | one field renders as `INSERT INTO "test_table" ("foo") VALUES (:c0)` |
| Inserts.ToSqlOnDuplicate | tests/Query/InsertTest.php:236-248 | the ON CONFLICT case renders with :c0 twice and no :c2 |
| Updates.SourceOf | src/Query/Update.php:62-75 | a source table is kept; a plain table clause becomes a source table without alias |
| Updates.SetTable | src/Query/Update.php:62-75 | a name, table clause or source table is accepted and normalised; anything else is rejected; nothing else changes |
| Updates.Add | src/Query/Update.php:48-60 | WHERE replaces, a table is set, joins and update fields are appended; any other clause is rejected |
| Updates.AddAllSpec | src/Query/Update.php:42-60 | the constructor succeeds exactly when every clause is accepted; joins and updates accumulate in order; the last WHERE and table win |
| Updates.NewUpdateRejects | src/Query/Update.php:48-60 | any unaccepted clause makes the constructor fail |
| Updates.Where | src/Query/Update.php:77-80 | the condition replaces any earlier WHERE clause and nothing else changes |
| Updates.RenderUpdate | src/Query/Update.php:102-123 | rendering succeeds exactly with a table and at least one update field; with a table but no fields it fails with "Nothing to update"; the text is "UPDATE", the table, one piece per join, "SET", the rendered update fields (one per field) joined by commas, and the WHERE clause when set, joined by spaces |
| Updates.RenderUpdateKeeps | src/Query/Update.php:102-123 | rendering only appends placeholders and keeps them named by position |
| PgsqlDialect.PgType | src/Driver/PGSQL.php:57-79 | with the INT entry keyed on INT, every logical type has a PostgreSQL name |
| PgsqlDialect.ResolveConstants | src/Driver/PGSQL.php:57-102 | a property default evaluates exactly when every class constant it names is defined, and then keeps each entry's type and name in order; otherwise the error names the first undefined constant |
| PgsqlDialect.Construct | src/Driver/PGSQL.php:57-102 | a driver object exists exactly when both property defaults evaluate; the mapping is evaluated first, so its error is the one reported |
| PgsqlDialect.NewDriverAsWritten | src/Driver/PGSQL.php:67 | as written, constructing the driver fails with "Undefined constant Column::INTEGER", so no PostgreSQL driver method is reachable |
| PgsqlDialect.Respell | src/Driver/PGSQL.php:67 | the correction changes only the undefined INTEGER constant, to INT; every defined constant is kept |
| PgsqlDialect.NewDriver | src/Driver/PGSQL.php:57-102 | with INT for INTEGER the driver is constructed, and its two tables are the source's entries in source order |
| PgsqlDialect.MapLookup | src/Driver/PGSQL.php:523-526 | a type is found exactly when some entry has it, and the name found is that of the last such entry, as a PHP array key that repeats keeps its last value |
| PgsqlDialect.ReverseLookup | src/Driver/PGSQL.php:567 | a name is found exactly when some entry has it, and the type found is that of the last such entry |
| PgsqlDialect.NewDriverMaps | src/Driver/PGSQL.php:57-79 | every logical type looked up in the constructed driver's mapping gives PgType's name |
| PgsqlDialect.ReverseIntegerLast | src/Driver/PGSQL.php:81-102 | in the constructed driver, 'integer' reads back as INT |
| PgsqlDialect.PgReverse | src/Driver/PGSQL.php:81-102 | the reverse mapping, with 'integer' mapped to INT |
| PgsqlDialect.PgReverseInverts | src/Driver/PGSQL.php:57-102 | reverse lookup inverts the mapping, except that TINYINT comes back as SMALLINT and MEDIUMINT has no entry |
| PgsqlDialect.PgIntegerDiscrepancy | src/Driver/PGSQL.php:67 | the constructed corrected driver maps INT to 'integer' and reads 'integer' back as INT; as written no driver exists (NewDriverAsWritten) |
| PgsqlDialect.ColumnDefinition | src/Driver/PGSQL.php:520-544 | fails exactly when a truthy default has no string form; otherwise the definition is exactly the quoted name, a space, the PostgreSQL type and the length or precision suffix, " NULL " or " NOT NULL ", and " DEFAULT " with the default's text only for a truthy default |
| PgsqlDialect.ColumnDefinitionAsWritten | src/Driver/PGSQL.php:520-544 | as written every call reports the constructor's undefined-constant error, whatever the column |
| PgsqlDialect.ColumnDefinitionDiscrepancy | src/Driver/PGSQL.php:522-524 | an INT primary key gets the constructor's undefined-constant error as written, and "integer" once corrected |
| PgsqlDialect.TwoPassEscape | src/Driver/PGSQL.php:200-201 | doubling backslashes and then escaping quotes escapes each character exactly once |
| PgsqlDialect.FormatArray | src/Driver/PGSQL.php:195-208 | integers bare, other scalars quoted and escaped, comma-joined in braces; a non-scalar element is rejected |
| PgsqlDialect.FormatArrayRoundTrip | src/Driver/PGSQL.php:195-208 | every literal formatArray produces parses back element by element |
| PgsqlDialect.MatchMultipleValues | src/Driver/PGSQL.php:185-193 | an "=" comparison of the field against ANY of the list |
| PgsqlDialect.MatchMultipleValuesRenders | src/Driver/PGSQL.php:185-193 | the match renders as the quoted field, "= ANY(", and one fresh placeholder bound to the whole list |
| MysqlDialect.MysqlType | src/Driver/MySQL.php:54-75 | every type but DATETIMETZ has a MySQL type |
| MysqlDialect.SearchMapping | src/Driver/MySQL.php:416-419 | the first entry, in mapping order, whose MySQL type is the name |
| MysqlDialect.ReverseType | src/Driver/MySQL.php:416-419 | the first logical type mapped to the upper-cased name; an unknown name is an unsupported type |
| MysqlDialect.ReverseTypeInverts | src/Driver/MySQL.php:54-75 | reverse lookup inverts the mapping except JSON→TEXT and TINYINT→BOOLEAN |
| MysqlDialect.ReverseTypeLowerCase | src/Driver/MySQL.php:416-419 | lower-case catalog names: "mediumtext" is TEXT and "tinyint" is BOOLEAN |
| MysqlDialect.TypeSuffix | src/Driver/MySQL.php:370-389 | fails exactly for an ENUM without values; an ENUM with values gets the quoted value list |
| MysqlDialect.ColumnDefinition | src/Driver/MySQL.php:361-405 | the definition is exactly the quoted name, a space, the MySQL type and its suffix, " NULL" or " NOT NULL", and " DEFAULT " with the default's text only for a truthy default; DATETIMETZ fails |
| MysqlDialect.EnumValuesOf | src/Driver/MySQL.php:427-436 | the ENUM body split on ',' with the quotes trimmed, never empty |
| MysqlDialect.EnumRoundTrip | src/Driver/MySQL.php:427-436 | ENUM recovery inverts the ENUM rendering for values without ',' or "'" |
| MysqlDialect.FormatArray | src/Driver/MySQL.php:102-114 | the elements comma-joined without escaping; an element containing ',' or a non-scalar is rejected |
| MysqlDialect.FormatArrayRoundTrip | src/Driver/MySQL.php:102-114 | splitting a formatted non-empty list on ',' gives back each element |
| MysqlDialect.FormatArrayRejectsComma | src/Driver/MySQL.php:106-107 | a text containing a comma is rejected whatever else the list holds |
| MysqlDialect.MatchMultipleValues | src/Driver/MySQL.php:93-100 | FIND_IN_SET of the field and the list |
| MysqlDialect.MatchMultipleValuesRenders | src/Driver/MySQL.php:93-100 | renders as FIND_IN_SET over the quoted field and one fresh placeholder bound to the list |
| SchemaDdl.ColumnListRoundTrip | src/Driver/PGSQL.php:384-389 | the quoted column list reads back as the column names |
| SchemaDdl.IndexStatement | src/Driver/PGSQL.php:378-404 | a primary key is "ALTER TABLE <table> ADD PRIMARY KEY <columns>"; any other index is "CREATE [UNIQUE] INDEX <name> ON <table> <columns>", with the table and index names prefixed and quoted |
| SchemaDdl.CreateIndex | src/Driver/PGSQL.php:378-404 | the statement is issued, then a PRIMARY index fails when the table lacks its first column |
| SchemaDdl.CreateIndexesSpec | src/Driver/PGSQL.php:343-346 | one statement per index in order; the loop finishes exactly when every PRIMARY index's first column exists |
| SchemaDdl.PolicyClauseInjective | src/Driver/PGSQL.php:437-451 | different known policies give different action clauses |
| SchemaDdl.ForeignKeyHead | src/Driver/PGSQL.php:430-434 | "ALTER TABLE <table> ADD", then PostgreSQL's "CONSTRAINT <name> FOREIGN KEY <columns>" or MySQL's "FOREIGN KEY <name><columns>", then " REFERENCES <table><columns>" |
| SchemaDdl.ForeignKeyStatement | src/Driver/PGSQL.php:417-455 | the head, then the ON UPDATE clause of the update policy, then the ON DELETE clause of the delete policy |
| SchemaDdl.ForeignKeyStatementAsWritten | src/Driver/PGSQL.php:446-451 | as written the ON DELETE clause is chosen by the update policy |
| SchemaDdl.ForeignKeyDeleteDiscrepancy | src/Driver/MySQL.php:304-309 | a key that cascades updates but restricts deletes is created cascading deletes as written; corrected, the statement ends with the delete policy |
| SchemaDdl.PgSerialStatements | src/Driver/PGSQL.php:464-484 | exactly three statements: CREATE SEQUENCE of the sequence name; one ALTER TABLE that sets the column's default to nextval of the sequence and sets NOT NULL; ALTER SEQUENCE … OWNED BY the table's column |
| SchemaDdl.NextvalDefault | src/Driver/PGSQL.php:476 | "nextval('", the sequence name, then "')"; the name reads back from the middle |
| SchemaDdl.MysqlSerialStatement | src/Driver/MySQL.php:322-330 | the column redefined with AUTO_INCREMENT; it fails when the column has no definition |
| SchemaDdl.CreateTableStatement | src/Driver/MySQL.php:186-222 | exactly CREATE TABLE, the prefixed quoted name, " (", a newline and four spaces, the column definitions joined by a comma, a newline and four spaces, and the dialect's closing |
| SchemaDdl.CreateTableOrder | src/Driver/PGSQL.php:325-361 | column definitions first (a failure issues nothing); then CREATE TABLE, the indexes, the serial setup and the foreign keys, in that order |
| SchemaDdl.CreateTableAsWrittenOrder | src/Driver/MySQL.php:186-222 | as written, PostgreSQL's createTable reports the constructor's error and issues nothing; MySQL's issues the same sequence as corrected, with each foreign key's statement as written |
| SchemaDdl.CreateTableDeleteDiscrepancy | src/Driver/MySQL.php:304-309 | for a key with update CASCADE and delete RESTRICT, the corrected createTable issues ON DELETE RESTRICT and the as-written one ON DELETE CASCADE at the same position |
| PgsqlCatalog.ColumnFromRow | src/Driver/PGSQL.php:564-598 | a column exactly when the row's type maps and is not BOOLEAN; its fields come from the row; enum labels for a user-defined type |
| PgsqlCatalog.ColumnTypeReadsBack | src/Driver/PGSQL.php:564-595 | a column created with a mapped type reads back with that type, except TINYINT, MEDIUMINT, BOOLEAN and ENUM |
| PgsqlCatalog.LoadColumn | src/Driver/PGSQL.php:601-615 | a nextval default makes the column serial with a null default; the column is appended |
| PgsqlCatalog.LoadColumnsSucceeds | src/Driver/PGSQL.php:564-616 | the column loop succeeds exactly when every row loads in turn |
| PgsqlCatalog.LoadColumnsFrame | src/Driver/PGSQL.php:564-616 | the loop keeps the table's name, keys and earlier columns and adds one column per row |
| PgsqlCatalog.LoadColumnsAppends | src/Driver/PGSQL.php:564-616 | the loaded table holds each row's loaded column, in row order |
| PgsqlCatalog.ParseActions | src/Driver/PGSQL.php:657 | the optional ON UPDATE and ON DELETE clauses, each with a known policy |
| PgsqlCatalog.ParseActionsOf | src/Driver/PGSQL.php:657 | the printed action clauses parse back to their policies |
| PgsqlCatalog.ParseFkDefinition | src/Driver/PGSQL.php:657-661 | a parsed definition has non-empty column lists, a word-character referred table and only known policies |
| PgsqlCatalog.FkDefinitionRoundTrip | src/Driver/PGSQL.php:657-661 | every printable definition text parses back to the definition |
| PgsqlCatalog.ForeignKeyFromRow | src/Driver/PGSQL.php:654-666 | an unparsable definition fails with "Invalid condef"; otherwise each policy is the captured one, RESTRICT when absent |
| PgsqlCatalog.ForeignKeyFromRowAsWritten | src/Driver/PGSQL.php:654-666 | as written it fails on exactly the definitions the corrected loader rejects; its policies are the subject of the discrepancy lemma |
| PgsqlCatalog.ForeignKeyPolicyDiscrepancy | src/Driver/PGSQL.php:663-664 | as written onDelete equals the update policy, and a lone ON DELETE gives ""; corrected, it is the delete policy |
| PgsqlCatalog.ForeignKeyRoundTrip | src/Driver/PGSQL.php:626-634 | a key printed as the catalog prints it loads back with its policies and its stripped name |
| PgsqlCatalog.ParsePrimaryKey | src/Driver/PGSQL.php:702-712 | a parsed "PRIMARY KEY (cols)" lists at least one column |
| PgsqlCatalog.PrimaryKeyRoundTrip | src/Driver/PGSQL.php:702-712 | a printed primary key parses back to its columns |
| PgsqlCatalog.ParseUniqueIndex | src/Driver/PGSQL.php:713-725 | a parsed unique index yields a word-character algorithm and at least one column |
| PgsqlCatalog.UniqueIndexRoundTrip | src/Driver/PGSQL.php:713-725 | a printed unique index parses back to its algorithm and columns |
| PgsqlCatalog.ParseIndex | src/Driver/PGSQL.php:726-742 | a parsed plain index definition has a non-empty body |
| PgsqlCatalog.IndexRoundTrip | src/Driver/PGSQL.php:726-742 | a printed index definition parses back to its algorithm, body and condition |
| PgsqlCatalog.IndexFromRow | src/Driver/PGSQL.php:696-742 | primary, unique or plain index by the row's flags; an unparsable text fails with the matching "Invalid … key" or "Invalid index" message |
| PgsqlCatalog.IndexRowsRoundTrip | src/Driver/PGSQL.php:618-624 | printed primary, unique and plain index rows load back as the indexes they describe |
| PgsqlCatalog.LoadTableWith | src/Driver/PGSQL.php:546-637 | with any foreign-key reader, a loaded table has passed validate, carries the requested name, holds one loaded column per column row, and has as indexes and foreign keys exactly what its constraint and key rows read as, in row order |
| PgsqlCatalog.LoadedStages | src/Driver/PGSQL.php:546-637 | after the column loop, adding the indexes and then the foreign keys to the fresh table leaves the loaded columns and holds exactly those indexes and keys |
| PgsqlCatalog.LoadTable | src/Driver/PGSQL.php:546-637 | a loaded table has passed validate, carries the requested name, and holds the loaded columns, the indexes of the constraint rows and the foreign keys of the key rows, in row order |
| PgsqlCatalog.LoadTableAsWritten | src/Driver/PGSQL.php:546-637 | as written every call reports the constructor's undefined-constant error |
| PgsqlCatalog.LoadTableSpec | src/Driver/PGSQL.php:546-637 | a loaded table is valid, holds one loaded column per column row, one index per constraint row and one foreign key per key row, each as its row reads, in row order |
| MysqlCatalog.GroupByPartitions | src/Driver/MySQL.php:453-469 | grouping gives distinct names; each group is exactly the rows with its key, in order; every row is in a group |
| MysqlCatalog.Filter | src/Driver/MySQL.php:456-457 | the kept rows are exactly the accepted ones |
| MysqlCatalog.ColumnFromRow | src/Driver/MySQL.php:416-436 | a column exactly when the reverse type exists and is not BOOLEAN; fields from the row; ENUM values from the column type |
| MysqlCatalog.EnumColumnReadsBack | src/Driver/MySQL.php:427-436 | an enum column printed by the catalog reads back as ENUM with its values |
| MysqlCatalog.TinyintColumnFails | src/Driver/MySQL.php:416-423 | a TINYINT column, the form BOOLEAN columns are created in, reads back as BOOLEAN and fails to load |
| MysqlCatalog.LoadColumn | src/Driver/MySQL.php:438-446 | the column is appended; an auto-increment column also gets a primary key of its own, becomes serial and is remembered |
| MysqlCatalog.LoadColumnsSerial | src/Driver/MySQL.php:411-446 | starting without a primary key, every auto-increment row names the serial column and owns the primary key, so at most one can load; without one the serial slot and primary key stay unset |
| MysqlCatalog.LoadColumnsResult | src/Driver/MySQL.php:411-446 | the loop keeps the table's name and earlier columns and adds one loaded column per row, in order |
| MysqlCatalog.SerialKeyRowSkipped | src/Driver/MySQL.php:456-457 | the serial column's PRIMARY KEY row never reaches the constraint groups |
| MysqlCatalog.RuleFor | src/Driver/MySQL.php:473-486 | the last rule row filed under the name, or none |
| MysqlCatalog.RuleKeyDiscrepancy | src/Driver/MySQL.php:476-483 | a name that still starts with the prefix after one strip gets its rules as corrected but not as written |
| MysqlCatalog.ConstraintOf | src/Driver/MySQL.php:490-507 | FOREIGN KEY, PRIMARY KEY and UNIQUE groups become keys and indexes; any other type fails with "Unsupported constraint type" |
| MysqlCatalog.IndexesOf | src/Driver/MySQL.php:512-530 | one plain index per group, named by the group, columns in row order |
| MysqlCatalog.LoadTableWith | src/Driver/MySQL.php:407-537 | with any rule-key function, a loaded table has passed validate, carries the requested name and holds one loaded column per column row; its indexes are the serial column's primary key, then one index per non-foreign-key constraint group, then one per index group; its foreign keys are one per foreign-key group, with the actions of the rule row its key finds |
| MysqlCatalog.LoadedStages | src/Driver/MySQL.php:407-537 | the three stages together give the columns, indexes and foreign keys listed for LoadTableWith |
| MysqlCatalog.AddGroupsContents | src/Driver/MySQL.php:485-530 | adding the constraint groups keeps the name and columns and appends one index per index group and one foreign key per foreign-key group, in group order |
| MysqlCatalog.LoadColumnsIndexes | src/Driver/MySQL.php:411-446 | the column loop adds at most one index, the primary key of the auto-increment column |
| MysqlCatalog.LoadTable | src/Driver/MySQL.php:407-537 | a loaded table has passed validate and holds the columns, indexes and foreign keys listed for LoadTableWith, with the corrected rule lookup |
| MysqlCatalog.LoadTableAsWritten | src/Driver/MySQL.php:407-537 | as written, a loaded table has passed validate and holds the same parts, except that each foreign key takes the actions of the rule row the as-written lookup finds |
| MysqlCatalog.RuleForAgrees | src/Driver/MySQL.php:476-483 | two key functions that agree on every rule row find the same rule |
| MysqlCatalog.AddGroupsAgree | src/Driver/MySQL.php:485-530 | two key functions that agree on every rule row add the same constraints |
| MysqlCatalog.LoadTableAsWrittenAgrees | src/Driver/MySQL.php:476-483 | when no rule name starts with the prefix twice, the as-written loader loads exactly the corrected table |
| MysqlCatalog.OneKeyGroup | src/Driver/MySQL.php:460-474 | a single foreign-key row forms one group under its stripped name |
| MysqlCatalog.OneKeyAdded | src/Driver/MySQL.php:485-530 | that group adds one foreign key with the actions of the rule found for it, "" without one |
| MysqlCatalog.ValidIgnoresActions | src/Schema/Table.php:285-300 | validity does not depend on a foreign key's actions |
| MysqlCatalog.LoadTableRuleDiscrepancy | src/Driver/MySQL.php:476-483 | a foreign key named with the prefix twice loads with its rule's actions as corrected, and with "" actions, the table otherwise equal, as written |
| MysqlCatalog.LoadTableSpec | src/Driver/MySQL.php:407-537 | a loaded table is valid, holds one loaded column per column row in order, and an auto-increment column is its serial column |
| Naming.UnquoteIdentQuote | src/Driver/PGSQL.php:384-389 | a quoted identifier reads back as the identifier |
| Naming.StripGetName | src/Driver/PGSQL.php:630 | stripping the prefix undoes unquoted prefixing |
| Wrappers.MapAll | src/Driver/PGSQL.php:618-634 | a loop over rows succeeds exactly when each row does, yields each result in order, and otherwise fails with the first failure |

## Left out

- Statement execution and catalog fetching are I/O. This covers the drivers' select/insert/update/delete, getColumns, getIndexes, the catalog queries, the table-exists check and every prepare/exec/fetch call. Catalog rows are inputs, and DDL is a returned statement list.
- generateDSN in both drivers: connection configuration.
- Logging, and MySQL's var_dump debug lines.
- DateTime formatting and JSON encoding in beforeInsertFilter and afterFetchFilter are library calls. They are a function parameter; afterFetchFilter is not modelled.
- PHP serialisation: serialize/unserialize/jsonSerialize and Table::__clone.
- Column::factory copies no property, because its loop uses an undefined variable. Its "T" subclass lookup names classes that are not part of this model. Loading builds the column from parseArray's record under the given name instead.
- Column::strToType is not called by the modelled operations.
- The PCRE engine: the catalog regexes are small parsers of the printed grammar. Their edge cases are not modelled: `.` and newlines, and `$` before a final newline.
- PostgreSQL enum labels come from a catalog query, which is a function parameter. A non-enum user-defined type, which yields one null label in PHP, is not distinguished.
- The algorithm and condition of a PostgreSQL plain index are parsed but not kept in the Index, because Index is not part of this model. `explodeFunc` is a function parameter.
- ForeignKey and Index class defaults: a missing MySQL policy is "". ForeignKey's policy constants are taken to be the catalog strings.
- dropTable, dropIndex, dropForeignKey, dropSerial and the drivers' addColumn/removeColumn are statement execution with no logic beyond the text.
- The unused locals: PostgreSQL's sequence name in loadTable and MySQL's serial column object.
- MysqlCatalog.Kept: PHP's loose `==` between a column name and the serial name treats numeric strings as numbers; the model compares strings exactly.
- MysqlCatalog.NonUnique: Non_unique is an integer here; PHP compares the driver's value loosely with 0.
- MysqlCatalog.GroupByPartitions: the order of the groups (first appearance) is the definition's and is not stated as a separate property.
- Parameters' unshown internals: the placeholder name format beyond `cN`, generateAlias (a parameter) and getDriver.
- Select ORDER, LIMIT and OFFSET clauses are not part of this model; they carry their rendered text.
- Update: rendering without a table hands null to the driver. That is outside this model; here it fails.
- Insert: replaceValues and getValue are exercised by tests but are not in Insert.php; they are not modelled.
- Tests of unshown classes (SourceSubQuery, GroupBy) and the migration runner.
- SchemaDdl.CreateTable: composes the corrected foreign-key statement. The as-written sequence is SchemaDdl.CreateTableAsWritten, related to it by CreateTableAsWrittenOrder and CreateTableDeleteDiscrepancy.
- SchemaDdl.CreateTableOrder: states the corrected sequence only; PostgreSQL's as written issues nothing, because the driver cannot be constructed.
- PgsqlCatalog.LoadTable: the corrected driver. As written (PgsqlCatalog.LoadTableAsWritten) every call fails at construction, so the as-written policy reading of ForeignKeyFromRowAsWritten is shown row by row only, by ForeignKeyPolicyDiscrepancy.
- PgsqlCatalog.LoadTableSpec: states the corrected loader only, for the same reason.
- PgsqlCatalog.ColumnFromRow: reads types through the corrected reverse mapping (PgsqlDialect.PgReverse). As written no driver exists to read them.
- PgsqlCatalog.ColumnTypeReadsBack: holds for the corrected driver only, for the same reason.
- PgsqlDialect.PgIntegerDiscrepancy: states the corrected half. The as-written half, that no driver is constructed, is the contract of PgsqlDialect.NewDriverAsWritten.
- PgsqlDialect.PgType, PgsqlDialect.PgReverse and PgsqlDialect.ColumnDefinition: the corrected driver's tables; NewDriverMaps ties PgType to the constructed mapping. PgReverse is tied to the constructed reverse mapping for 'integer' only (ReverseIntegerLast).
- MysqlCatalog.LoadTable: the corrected rule lookup. The as-written loader is MysqlCatalog.LoadTableAsWritten. LoadTableAsWrittenAgrees and LoadTableRuleDiscrepancy relate the two, the latter for one foreign key and its rule row.
- MysqlCatalog.LoadTableSpec: states the corrected loader.
- MysqlCatalog.RuleKeyAsWritten: reads the second strip's prefix as the table prefix. The Driver class is not part of this model; if it has no `prefix` property, that strip never happens and the as-written loader is the corrected one.
- TableModel.GetPrimaryColumns: Table.php caches the result on the first call and returns the cache afterwards, so after removeIndex or removeColumn PHP can return a stale list. The model recomputes it on each call.
- ColumnModel.Validate, ColumnModel.NullableInt and Values.IsNumeric: PHP's is_numeric also accepts a leading "+", exponents such as "1e3", a leading "." and leading whitespace, and `(int)` of a float truncates or saturates. There are no floats here, and the numeric text is narrowed to an optional "-", digits and at most one ".".
- Inserts.UpdateOnDuplicateKey: returns the insert with the clause set. PHP sets it in place and returns `true` (src/Query/Insert.php:79); that return value is not modelled.
- Inserts.IssetAt: an object id yields nothing. PHP throws "Cannot use object of type … as array" for a plain object and asks offsetExists of an ArrayAccess one, which is not part of this model. A string offset is read only from integer text, an optional "-" and digits; PHP's numeric-string test also accepts surrounding whitespace and a leading "+", which read nothing here.
- Inserts.NormKey: PHP's integer keys are 64-bit. Integer text beyond that range stays a string key in PHP, but becomes an integer here.
- ColumnModel.ToArray: exports the serial flag as a boolean. PHP's `$serial` defaults to null (src/Schema/Column/Column.php:72), so a column never marked serial exports null; parseArray's `isset` reads null and false alike, as false.
- Selects.RegisterSelect: registers the table and the joins' tables only. Select::registerTables also walks the fields, the join conditions, WHERE and ORDER, through the Clause base class, which is not part of this model.
- Selects.RegisterSelectDepends: says which parts decide registration under that narrowing.
- Selects.CountQuery: the COUNT() field has alias "". countQuery passes null as the alias. Against the constructor at src/Query/GetClause.php:35, whose `$alias` is a non-nullable `string`, that is a TypeError in PHP 8 whatever the strict_types setting, so there countQuery always throws. The class countQuery names resolves in the `WASP\DB\Query` namespace and is not part of this model, so the model follows the evident intent.
- Selects.RenderSelect: the corrected rendering, in which joins render. As written a select with a join throws (Selects.RenderSelectAsWritten). Select::toSQL also renders its fields and its table with one argument, while src/Query's GetClause::toSQL and TableClause::toSQL take two; the `WASP\DB\Query` classes it actually names are not part of this model, so fields and table render as if the second argument were given.
- Selects.SelectPartsOrder: states the corrected pieces; as written a select with a join throws before any text exists.
- Selects.SelectPartsSource: states the corrected pieces, for the same reason.
- TableClauses.RenderUnregistered: rests on the assumed resolveTable result for a name never registered (the name and an empty alias). If Parameters treats such a lookup as an error, the lemma describes a case the program does not reach.

## Findings

| source | as written | input that shows it | evidently intended | confidence | as-written member | corrected member |
|---|---|---|---|---|---|---|
| Query/Select.php:135-136 | each join is rendered with `$join->toSQL($parameters)`, one argument, while JoinClause::toSQL (Query/JoinClause.php:64) takes two, so PHP 8 throws ArgumentCountError | any select with one join | each join renders as "type JOIN table ON condition" | high, not executed | Selects.RenderSelectAsWritten | Selects.RenderSelect |
| src/Driver/PGSQL.php:446-451 | the ON DELETE clause is chosen by `$on_update` | a key with update CASCADE and delete RESTRICT | ON DELETE follows the delete policy | high, not executed | SchemaDdl.ForeignKeyStatementAsWritten | SchemaDdl.ForeignKeyStatement |
| src/Driver/MySQL.php:304-309 | the ON DELETE clause is chosen by `$on_update` | a key with update CASCADE and delete RESTRICT | ON DELETE follows the delete policy | high, not executed | SchemaDdl.ForeignKeyStatementAsWritten | SchemaDdl.ForeignKeyStatement |
| src/Driver/PGSQL.php:664 | the delete policy copies the update capture `$matches[5]` | "FOREIGN KEY (a) REFERENCES t(b) ON UPDATE CASCADE ON DELETE RESTRICT" | the delete policy is the delete capture | high, not executed | PgsqlCatalog.ForeignKeyFromRowAsWritten | PgsqlCatalog.ForeignKeyFromRow |
| src/Driver/PGSQL.php:67 | the `$mapping` and `$reverse_mapping` defaults name the undefined `Column::INTEGER`, so constructing the driver throws | any `new PGSQL` | the entries name `Column::INT`; INT maps to "integer" and back | high, not executed | PgsqlDialect.NewDriverAsWritten | PgsqlDialect.NewDriver |
| src/Driver/PGSQL.php:522-524 | no column gets a definition, because the driver it belongs to cannot be constructed | an INT primary-key column | the definition uses "integer" | high, not executed | PgsqlDialect.ColumnDefinitionAsWritten | PgsqlDialect.ColumnDefinition |
| src/Schema/Table.php:134 | getName() is called on index and foreign-key column entries, which are strings | removing a column of a table whose index lists "id" | the entries are compared by name | high, not executed | TableModel.RemoveColumnAsWritten | TableModel.RemoveColumn |
| src/Schema/Table.php:110-111 | the column is stored before setTable's serial check | adding a second serial column | a refused column leaves the table unchanged | medium, not executed | TableModel.AddColumnAsWritten | TableModel.AddColumn |
| src/Schema/Column/Column.php:198 | the null check reads the undefined `is_nullable` | validate(null) on a nullable VARCHAR column | null passes for nullable columns; the correction also returns early for null, because with only the property renamed null still meets the type check (ColumnModel.ValidateRenamedOnly) | high, not executed | ColumnModel.ValidateAsWritten | ColumnModel.Validate |
| src/Schema/Column/Column.php:273 | the null branch calls the undefined `isNullabe` | beforeInsertFilter(null) on a nullable column | null passes through for nullable columns | high, not executed | ColumnModel.BeforeInsertFilterAsWritten | ColumnModel.BeforeInsertFilter |
| src/Driver/MySQL.php:481-482 | rule rows are looked up under the name stripped of the prefix twice | prefix "t_" and a constraint named "t_t_fk" | rules are filed under the once-stripped name the constraint groups use | low, not executed | MysqlCatalog.RuleKeyAsWritten | MysqlCatalog.RuleKey |

=== FILE: clauses.dfy ===
/** The clauses a query is assembled from. */
module Clauses {
  // The clauses a query is assembled from: result fields (src/Query/GetClause.php),
  // joins (Query/JoinClause.php), and the WHERE, ORDER, LIMIT, OFFSET,
  // update-field and duplicate-key clauses.
  //
  // WhereClause, UpdateField and DuplicateKey are not part of this model;
  // they render as "WHERE <condition>", "<quoted field> = <value>" and, for
  // PostgreSQL, "ON CONFLICT (<fields>) DO UPDATE SET <updates>" (MySQL:
  // "ON DUPLICATE KEY UPDATE <updates>"). ORDER, LIMIT and OFFSET clauses are
  // not part of this model either and carry their rendered text.

  import opened Wrappers
  import opened Strings
  import opened Values
  import opened Naming
  import opened Parameters
  import opened Expressions
  import opened TableClauses

  /*** GetClause ***/

  datatype GetClause = GetClause(expression: Expr, alias: string)

  /** new GetClause(exp, alias = ""): strings become field names. */
  function NewGetClause(x: Operand, alias: string, nextId: nat): (r: (GetClause, nat))
    ensures r.0.alias == alias && r.0.expression == ToExpression(x, false, nextId).0
  {
    var (e, next) := ToExpression(x, false, nextId);
    (GetClause(e, alias), next)
  }

  /**
   * GetClause::toSQL. The expression is rendered nested; an empty alias is
   * replaced by one generated from the expression (Parameters::generateAlias,
   * not part of this model, is the parameter `generate`) and the clause keeps
   * it; a non-empty alias is appended quoted after " AS ".
   */
  function RenderGet(p: Params, g: GetClause, generate: Expr -> string): (r: (Params, string, GetClause))
    ensures r.0 == Render(p, g.expression, true).0
    ensures r.2.expression == g.expression
    ensures !EmptyText(g.alias) ==> r.2 == g
    ensures EmptyText(g.alias) ==> r.2.alias == generate(g.expression)
    ensures EmptyText(r.2.alias) ==> r.1 == Render(p, g.expression, true).1
    ensures !EmptyText(r.2.alias) ==>
      r.1 == Render(p, g.expression, true).1 + " AS " + IdentQuote(p.driver.dialect, r.2.alias)
  {
    var (q, sql) := Render(p, g.expression, true);
    var alias := if EmptyText(g.alias) then generate(g.expression) else g.alias;
    var g' := g.(alias := alias);
    if !EmptyText(alias) then (q, sql + " AS " + IdentQuote(p.driver.dialect, alias), g')
    else (q, sql, g')
  }

  /**
   * A generated alias is stored: once it is non-empty, rendering again uses
   * it without consulting any generator, and gives the same text.
   */
  lemma RenderGetKeepsAlias(p: Params, g: GetClause, generate: Expr -> string, again: Expr -> string)
    requires !EmptyText(RenderGet(p, g, generate).2.alias)
    ensures var (p1, s1, g1) := RenderGet(p, g, generate);
      RenderGet(p1, g1, again) == (p1, s1, g1)
  {
    var (p1, s1, g1) := RenderGet(p, g, generate);
    RenderTwice(p, g.expression, true);
  }

  /*** JoinClause ***/

  datatype JoinClause = JoinClause(joinType: string, table: SourceTable, condition: Expr)

  const JoinTypes: seq<string> := ["LEFT", "RIGHT", "OUTER", "INNER", "CROSS"]

  /**
   * new JoinClause(type, table, condition): the type must be listed; a
   * table name becomes a source table, a source table is kept, anything
   * else is rejected.
   */
  function NewJoin(joinType: string, table: TableArg, condition: Expr): (r: Result<JoinClause>)
    ensures r.Ok? <==> joinType in JoinTypes && (table.TableName? || (table.TableObject? && table.ref.BySource?))
    ensures r.Ok? ==> r.value.joinType == joinType && r.value.condition == condition
    ensures r.Ok? && table.TableName? ==> r.value.table == SourceTable(table.name, "")
    ensures r.Ok? && table.TableObject? ==> r.value.table == table.ref.src
  {
    if joinType !in JoinTypes then Fails(InvalidArgument, "Invalid join type: " + joinType)
    else
      match table
      case TableName(name) => Ok(JoinClause(joinType, SourceTable(name, ""), condition))
      case TableObject(BySource(s)) => Ok(JoinClause(joinType, s, condition))
      case TableObject(ByClause(tc)) => Fails(InvalidArgument, "Invalid table type: " + tc.table)
      case OtherArg(d) => Fails(InvalidArgument, "Invalid table type: " + d)
  }

  /** registerTables: the joined table first, then the condition (which registers nothing). */
  function RegisterJoin(p: Params, j: JoinClause): (r: Params)
    ensures r == RegisterSource(p, j.table)
  {
    RegisterSource(p, j.table)
  }

  /** JoinClause::toSQL: type, " JOIN ", table, " ON ", condition rendered nested. */
  function RenderJoin(p: Params, j: JoinClause): (r: (Params, string))
    ensures r.0 == Render(p, j.condition, true).0
    ensures r.1 == j.joinType + " JOIN " + RenderSource(p, j.table) + " ON " + Render(p, j.condition, true).1
  {
    var (q, cond) := Render(p, j.condition, true);
    (q, j.joinType + " JOIN " + RenderSource(p, j.table) + " ON " + cond)
  }

  /** A join's text opens with its type and " JOIN " and names its table right after. */
  lemma RenderJoinShape(p: Params, j: JoinClause)
    ensures StartsWith(RenderJoin(p, j).1, j.joinType + " JOIN " + RenderSource(p, j.table) + " ON ")
  {
    var s := RenderJoin(p, j).1;
    var head := j.joinType + " JOIN " + RenderSource(p, j.table) + " ON ";
    assert s == head + Render(p, j.condition, true).1;
    assert s[..|head|] == head;
  }

  /*** WHERE, ORDER, LIMIT, OFFSET ***/

  datatype WhereClause = WhereClause(condition: Expr)

  function RenderWhere(p: Params, w: WhereClause): (r: (Params, string))
    ensures r.0 == Render(p, w.condition, false).0
    ensures r.1 == "WHERE " + Render(p, w.condition, false).1
  {
    var (q, cond) := Render(p, w.condition, false);
    (q, "WHERE " + cond)
  }

  datatype TextClause = TextClause(sql: string)

  /*** Update fields and the duplicate-key clause ***/

  datatype UpdateField = UpdateField(field: string, value: Expr)

  function RenderUpdateField(p: Params, u: UpdateField): (r: (Params, string))
    ensures r.0 == Render(p, u.value, false).0
    ensures r.1 == IdentQuote(p.driver.dialect, u.field) + " = " + Render(p, u.value, false).1
  {
    var (q, v) := Render(p, u.value, false);
    (q, IdentQuote(p.driver.dialect, u.field) + " = " + v)
  }

  function RenderUpdateFields(p: Params, us: seq<UpdateField>): (r: (Params, seq<string>))
    ensures |r.1| == |us|
    ensures r.0.driver == p.driver && r.0.tables == p.tables && r.0.nextScope == p.nextScope
    decreases |us|
  {
    if |us| == 0 then (p, [])
    else
      var (q, first) := RenderUpdateField(p, us[0]);
      var (q', rest) := RenderUpdateFields(q, us[1..]);
      (q', [first] + rest)
  }

  function UpdateValues(us: seq<UpdateField>): (r: seq<Expr>)
    ensures |r| == |us| && forall i :: 0 <= i < |us| ==> r[i] == us[i].value
  {
    seq(|us|, i requires 0 <= i < |us| => us[i].value)
  }

  /** Update fields whose values were all rendered before render again to the same text. */
  lemma {:induction false} RenderUpdateFieldsReplay(p: Params, us: seq<UpdateField>, q: Params)
    requires Extends(q, RenderList(p, UpdateValues(us)).0)
    ensures RenderUpdateFields(q, us).0 == q
    ensures forall i :: 0 <= i < |us| ==>
      RenderUpdateFields(q, us).1[i] == IdentQuote(q.driver.dialect, us[i].field) + " = " + RenderList(p, UpdateValues(us)).1[i]
    decreases |us|
  {
    if |us| > 0 {
      var vs := UpdateValues(us);
      var p1 := Render(p, vs[0], false).0;
      assert UpdateValues(us[1..]) == vs[1..];
      RenderListExtends(p1, vs[1..]);
      RenderReplay(p, vs[0], false, q);
      RenderUpdateFieldsReplay(p1, us[1..], q);
    }
  }

  datatype DuplicateKey = DuplicateKey(conflicting: seq<string>, updates: seq<UpdateField>)

  function RenderDuplicateKey(p: Params, dk: DuplicateKey): (r: (Params, string))
    ensures r.0 == RenderUpdateFields(p, dk.updates).0
  {
    var (q, updates) := RenderUpdateFields(p, dk.updates);
    match p.driver.dialect
    case PGSQL =>
      (q, "ON CONFLICT (" + Join(QuoteAll(p.driver.dialect, dk.conflicting), ", ") + ") DO UPDATE SET " + Join(updates, ", "))
    case MySQL =>
      (q, "ON DUPLICATE KEY UPDATE " + Join(updates, ", "))
  }

  /*** The clause objects a query's add() receives ***/

  datatype Clause =
    | CWhere(where: WhereClause)
    | CTable(table: TableRef)
    | CGet(get: GetClause)
    | CJoin(join: JoinClause)
    | COrder(order: TextClause)
    | CLimit(limit: TextClause)
    | COffset(offset: TextClause)
    | CUpdate(update: UpdateField)
    | COther(className: string)
}

=== FILE: column.dfy ===
/** A table column. */
module ColumnModel {
  // A table column: a logical type tag plus metadata (Column.php).
  //
  // The PHP class keeps the type as the string value of a class constant.
  // Here the type is the `ColumnType` tag, and `ConstName`/`ConstValue` give
  // the constant's name and value; they differ only for BOOLEAN, whose value
  // is "BOOL". That difference is visible in `parseArray`, which accepts a
  // type when a constant of that NAME exists.

  import opened Wrappers
  import opened Strings
  import opened Values

  datatype ColumnType =
    | CHAR | VARCHAR | TEXT | JSON | ENUM
    | BOOLEAN | TINYINT | SMALLINT | MEDIUMINT | INT | BIGINT | FLOAT | DECIMAL
    | DATE | DATETIME | DATETIMETZ | TIME
    | BINARY

  /** The name of the class constant for a type. */
  function ConstName(t: ColumnType): string {
    match t
    case CHAR => "CHAR"
    case VARCHAR => "VARCHAR"
    case TEXT => "TEXT"
    case JSON => "JSON"
    case ENUM => "ENUM"
    case BOOLEAN => "BOOLEAN"
    case TINYINT => "TINYINT"
    case SMALLINT => "SMALLINT"
    case MEDIUMINT => "MEDIUMINT"
    case INT => "INT"
    case BIGINT => "BIGINT"
    case FLOAT => "FLOAT"
    case DECIMAL => "DECIMAL"
    case DATE => "DATE"
    case DATETIME => "DATETIME"
    case DATETIMETZ => "DATETIMETZ"
    case TIME => "TIME"
    case BINARY => "BINARY"
  }

  /** The string value of the class constant for a type. */
  function ConstValue(t: ColumnType): string {
    if t == BOOLEAN then "BOOL" else ConstName(t)
  }

  /** `defined(Column::NAME)`: the type whose constant is called `name`, if any. */
  function TypeByName(name: string): (r: Option<ColumnType>)
    ensures r.Some? ==> ConstName(r.value) == name
    ensures r.None? ==> forall t: ColumnType :: ConstName(t) != name
  {
    if name == "CHAR" then Some(CHAR)
    else if name == "VARCHAR" then Some(VARCHAR)
    else if name == "TEXT" then Some(TEXT)
    else if name == "JSON" then Some(JSON)
    else if name == "ENUM" then Some(ENUM)
    else if name == "BOOLEAN" then Some(BOOLEAN)
    else if name == "TINYINT" then Some(TINYINT)
    else if name == "SMALLINT" then Some(SMALLINT)
    else if name == "MEDIUMINT" then Some(MEDIUMINT)
    else if name == "INT" then Some(INT)
    else if name == "BIGINT" then Some(BIGINT)
    else if name == "FLOAT" then Some(FLOAT)
    else if name == "DECIMAL" then Some(DECIMAL)
    else if name == "DATE" then Some(DATE)
    else if name == "DATETIME" then Some(DATETIME)
    else if name == "DATETIMETZ" then Some(DATETIMETZ)
    else if name == "TIME" then Some(TIME)
    else if name == "BINARY" then Some(BINARY)
    else None
  }

  /** The type whose constant has the string value `v`, if any. */
  function TypeByValue(v: string): (r: Option<ColumnType>)
    ensures r.Some? ==> ConstValue(r.value) == v
    ensures r.None? ==> forall t: ColumnType :: ConstValue(t) != v
  {
    if v == "BOOL" then Some(BOOLEAN)
    else if v == "BOOLEAN" then None
    else TypeByName(v)
  }

  datatype Column = Column(
    name: string,
    ctype: ColumnType,
    nullable: bool,
    default: Value,
    serial: bool,
    maxLength: Option<int>,
    precision: Option<int>,
    scale: Option<int>,
    enumValues: Option<seq<string>>,
    table: Option<string>)     // name of the table the column is attached to

  /** A detached column with no type-specific metadata, as the constructor leaves it. */
  function NewColumn(name: string, ctype: ColumnType, default: Value, nullable: bool): Column {
    Column(name, ctype, nullable, default, false, None, None, None, None, None)
  }

  predicate IsSerialType(t: ColumnType) {
    t == INT || t == BIGINT
  }

  /** setSerial: only INT and BIGINT columns may become serial; clearing always succeeds. */
  function SetSerial(c: Column, serial: bool): (r: Result<Column>)
    ensures r.Ok? <==> (!serial || IsSerialType(c.ctype))
    ensures r.Ok? ==> r.value == c.(serial := serial)
    ensures r.Err? ==> r.error.kind == SchemaViolation
  {
    if serial && c.ctype != INT && c.ctype != BIGINT then
      Fails(SchemaViolation, "A serial column must be of type integer")
    else Ok(c.(serial := serial))
  }

  /**
   * setTable: a serial column may join a table only when no other column of
   * that table (by name) is serial already.
   */
  function SetTable(c: Column, tableName: string, tableColumns: seq<Column>): (r: Result<Column>)
    ensures r.Err? <==>
      (c.serial && exists i :: 0 <= i < |tableColumns| && tableColumns[i].name != c.name && tableColumns[i].serial)
    ensures r.Ok? ==> r.value == c.(table := Some(tableName))
  {
    if c.serial && OtherSerial(c.name, tableColumns) then
      Fails(SchemaViolation, "There can be only one serial column in a table")
    else Ok(c.(table := Some(tableName)))
  }

  predicate OtherSerial(name: string, cols: seq<Column>) {
    exists i :: 0 <= i < |cols| && cols[i].name != name && cols[i].serial
  }

  /** The `null or (int)` rule the three metadata setters share. */
  function NullableInt(v: Value): (r: Option<int>)
    ensures r.None? <==> v == VNull
    ensures r.Some? ==> r.value == IntCast(v)
  {
    if v == VNull then None else Some(IntCast(v))
  }

  function SetMaxLength(c: Column, v: Value): (r: Column)
    ensures r == c.(maxLength := NullableInt(v))
    ensures r.maxLength.None? <==> v == VNull
  {
    c.(maxLength := NullableInt(v))
  }

  function SetNumericScale(c: Column, v: Value): (r: Column)
    ensures r == c.(scale := NullableInt(v))
    ensures r.scale.None? <==> v == VNull
  {
    c.(scale := NullableInt(v))
  }

  function SetNumericPrecision(c: Column, v: Value): (r: Column)
    ensures r == c.(precision := NullableInt(v))
    ensures r.precision.None? <==> v == VNull
  {
    c.(precision := NullableInt(v))
  }

  /** A TEXT column whose name mentions "json" stores JSON. */
  predicate IsJsonText(c: Column) {
    c.ctype == TEXT && ContainsText(c.name, "json")
  }

  /**
   * The per-type check `validate` applies to a value once the null check is
   * passed. The JSON branch accepts scalars and arrays only: its
   * `instanceof JsonSerializable` names a class in the column's own
   * namespace, which does not exist, so no object passes.
   */
  predicate TypeAccepts(c: Column, v: Value) {
    match c.ctype
    case DECIMAL => IsNumeric(v)
    case FLOAT => IsNumeric(v)
    case INT => IsIntVal(v)
    case BOOLEAN => v.VBool?
    case DATETIME => v.VDate?
    case DATETIMETZ => v.VDate?
    case DATE => v.VDate?
    case TIME => v.VDate?
    case CHAR => v.VStr?
    case VARCHAR => v.VStr?
    case TEXT => if ContainsText(c.name, "json") then IsScalar(v) || v.VArray? else v.VStr?
    case JSON => IsScalar(v) || v.VArray?
    case _ => true
  }

  /**
   * validate as written: the null check reads the undefined property
   * `is_nullable`, which is null, so every null value is rejected whatever
   * the column's nullability.
   */
  function ValidateAsWritten(c: Column, v: Value): (r: Outcome)
    ensures v == VNull ==> r.Fail?
    ensures v != VNull ==> (r.Pass? <==> TypeAccepts(c, v))
  {
    if v == VNull then Fail(Error(SchemaViolation, "Column must not be null: " + c.name))
    else if TypeAccepts(c, v) then Pass
    else Fail(Error(InvalidArgument, "Invalid value for " + c.name))
  }

  /** validate with the null check reading `nullable`: null is accepted exactly for nullable columns. */
  function Validate(c: Column, v: Value): (r: Outcome)
    ensures v == VNull ==> (r.Pass? <==> c.nullable)
    ensures v != VNull ==> (r.Pass? <==> TypeAccepts(c, v))
  {
    if v == VNull then
      if c.nullable then Pass else Fail(Error(SchemaViolation, "Column must not be null: " + c.name))
    else if TypeAccepts(c, v) then Pass
    else Fail(Error(InvalidArgument, "Invalid value for " + c.name))
  }

  /**
   * validate with only the property name corrected: null on a nullable
   * column passes the null check but then meets the type check, which
   * lets it through only for the types that have none.
   */
  function ValidateRenamedOnly(c: Column, v: Value): (r: Outcome)
    ensures v == VNull ==> (r.Pass? <==> c.nullable && TypeAccepts(c, VNull))
    ensures v != VNull ==> (r.Pass? <==> TypeAccepts(c, v))
  {
    if v == VNull && !c.nullable then Fail(Error(SchemaViolation, "Column must not be null: " + c.name))
    else if TypeAccepts(c, v) then Pass
    else Fail(Error(InvalidArgument, "Invalid value for " + c.name))
  }

  /**
   * The three readings agree on every non-null value; on null the rename
   * alone accepts only where the intended check (an early accept for
   * nullable columns) does and the type has no check of its own.
   */
  lemma ValidateReadings(c: Column, v: Value)
    ensures v != VNull ==> ValidateAsWritten(c, v) == ValidateRenamedOnly(c, v) == Validate(c, v)
    ensures v == VNull ==> (ValidateRenamedOnly(c, v).Pass? <==> Validate(c, v).Pass? && TypeAccepts(c, v))
    ensures v == VNull ==> ValidateAsWritten(c, v).Fail?
  {
  }

  /**
   * A nullable VARCHAR column rejects null as written, still rejects it
   * with only the property renamed, and accepts it once null skips the
   * type check.
   */
  lemma ValidateNullDiscrepancy()
    ensures var c := NewColumn("note", VARCHAR, VNull, true);
      ValidateAsWritten(c, VNull).Fail? && ValidateRenamedOnly(c, VNull).Fail? && Validate(c, VNull).Pass?
  {
  }

  /** A DateTime value is an object: no JSON column accepts it as written. */
  lemma ValidateRejectsObjectsForJson(c: Column, v: Value)
    requires c.ctype == JSON && (v.VDate? || v.VObject?)
    ensures Validate(c, v).Fail?
  {
  }

  /**
   * The non-null branch of beforeInsertFilter. Date formatting and JSON
   * encoding are library calls, passed in as `encode`.
   */
  function FilterValue(c: Column, v: Value, encode: (ColumnType, Value) -> Value): Value
    requires v != VNull
  {
    match c.ctype
    case BOOLEAN => VInt(if Truthy(v) then 1 else 0)
    case DATETIME => encode(DATETIME, v)
    case DATETIMETZ => encode(DATETIMETZ, v)
    case DATE => encode(DATE, v)
    case TIME => encode(TIME, v)
    case TEXT => if ContainsText(c.name, "json") then encode(JSON, v) else v
    case JSON => encode(JSON, v)
    case _ => v
  }

  /** beforeInsertFilter as written: a null value calls the undefined method `isNullabe`. */
  function BeforeInsertFilterAsWritten(c: Column, v: Value, encode: (ColumnType, Value) -> Value): (r: Result<Value>)
    ensures v == VNull ==> r.Err? && r.error.kind == Fatal
    ensures v != VNull ==> r == Ok(FilterValue(c, v, encode))
  {
    if v == VNull then Fails(Fatal, "Call to undefined method isNullabe()")
    else Ok(FilterValue(c, v, encode))
  }

  /**
   * beforeInsertFilter with the nullability check working: null passes
   * through for nullable columns; a BOOLEAN value becomes 1 or 0; values of
   * types with no conversion pass through unchanged.
   */
  function BeforeInsertFilter(c: Column, v: Value, encode: (ColumnType, Value) -> Value): (r: Result<Value>)
    ensures v == VNull ==> (r.Ok? <==> c.nullable) && (r.Ok? ==> r.value == VNull)
    ensures v != VNull && c.ctype == BOOLEAN ==> r == Ok(VInt(if Truthy(v) then 1 else 0))
    ensures v != VNull && c.ctype !in {BOOLEAN, DATETIME, DATETIMETZ, DATE, TIME, TEXT, JSON} ==> r == Ok(v)
    ensures v != VNull && c.ctype == TEXT && !ContainsText(c.name, "json") ==> r == Ok(v)
  {
    if v == VNull then
      if c.nullable then Ok(VNull) else Fails(SchemaViolation, "Column must not be null: " + c.name)
    else Ok(FilterValue(c, v, encode))
  }

  /** A nullable column receiving null: a fatal error as written, null once corrected. */
  lemma BeforeInsertNullDiscrepancy(encode: (ColumnType, Value) -> Value)
    ensures var c := NewColumn("flag", BOOLEAN, VNull, true);
      BeforeInsertFilterAsWritten(c, VNull, encode).Err? && BeforeInsertFilter(c, VNull, encode) == Ok(VNull)
  {
  }

  /*** The structured (array) form ***/

  /**
   * The associative array toArray produces and parseArray reads, one field
   * per key the two know about; `None` is a key that is absent.
   */
  datatype ColumnArray = ColumnArray(
    columnName: Option<Value>,
    dataType: Option<Value>,
    isNullable: Option<Value>,
    columnDefault: Option<Value>,
    serial: Option<Value>,
    numericPrecision: Option<Value>,
    numericScale: Option<Value>,
    characterMaximumLength: Option<Value>,
    enumValues: Option<Value>)

  /** `$data[k] ?? null`. */
  function Get(field: Option<Value>): Value {
    field.GetOr(VNull)
  }

  /** `isset($data[k])`. */
  predicate Isset(field: Option<Value>) {
    field.Some? && field.value != VNull
  }

  function EnumValue(values: Option<seq<string>>): Value {
    match values
    case None => VNull
    case Some(xs) => VArray(StrValues(xs))
  }

  function IfSet(o: Option<int>): Option<Value> {
    match o
    case None => None
    case Some(i) => Some(VInt(i))
  }

  /** toArray: the fixed keys always, the metadata keys only when set, enum_values only for ENUM. */
  function ToArray(c: Column): (r: ColumnArray)
    ensures r.columnName == Some(VStr(c.name)) && r.dataType == Some(VStr(ConstValue(c.ctype)))
    ensures r.isNullable == Some(VInt(if c.nullable then 1 else 0))
    ensures r.columnDefault == Some(c.default) && r.serial == Some(VBool(c.serial))
    ensures r.numericPrecision.Some? <==> c.precision.Some?
    ensures r.numericScale.Some? <==> c.scale.Some?
    ensures r.characterMaximumLength.Some? <==> c.maxLength.Some?
    ensures r.enumValues.Some? <==> c.ctype == ENUM
    ensures Get(r.numericPrecision) == OptIntValue(c.precision) && Get(r.numericScale) == OptIntValue(c.scale)
    ensures Get(r.characterMaximumLength) == OptIntValue(c.maxLength)
  {
    ColumnArray(
      Some(VStr(c.name)),
      Some(VStr(ConstValue(c.ctype))),
      Some(VInt(if c.nullable then 1 else 0)),
      Some(c.default),
      Some(VBool(c.serial)),
      IfSet(c.precision),
      IfSet(c.scale),
      IfSet(c.maxLength),
      if c.ctype == ENUM then Some(EnumValue(c.enumValues)) else None)
  }

  /** The record parseArray returns. */
  datatype ParsedColumn = ParsedColumn(
    name: Value,
    ctype: ColumnType,
    maxLength: Value,
    nullable: bool,
    default: Value,
    precision: Value,
    scale: Value,
    serial: bool,
    enumValues: Value)

  /** The text `strtoupper` receives; arrays and objects are a type error. */
  function TypeText(v: Value): Option<string> {
    match v
    case VArray(_) => None
    case _ => ToPhpString(v)
  }

  /**
   * parseArray: the type is upper-cased and must be the NAME of a type
   * constant; missing flags default to false and missing fields to null.
   */
  function ParseArray(data: ColumnArray): (r: Result<ParsedColumn>)
    ensures r.Ok? <==>
      (TypeText(Get(data.dataType)).Some? && TypeByName(ToUpper(TypeText(Get(data.dataType)).value)).Some?)
    ensures r.Ok? ==> ConstName(r.value.ctype) == ToUpper(TypeText(Get(data.dataType)).value)
    ensures r.Ok? ==> r.value.nullable == Truthy(Get(data.isNullable))
    ensures r.Ok? ==> r.value.serial == Truthy(Get(data.serial))
    ensures r.Ok? ==> r.value.name == Get(data.columnName) && r.value.default == Get(data.columnDefault)
    ensures r.Ok? ==> r.value.maxLength == Get(data.characterMaximumLength)
    ensures r.Ok? ==> r.value.precision == Get(data.numericPrecision) && r.value.scale == Get(data.numericScale)
    ensures r.Ok? ==> r.value.enumValues == Get(data.enumValues)
  {
    var text := TypeText(Get(data.dataType));
    if text.None? then Fails(Fatal, "strtoupper() expects a string")
    else
      var typeName := ToUpper(text.value);
      match TypeByName(typeName)
      case None => Fails(UnsupportedType, "Invalid column type: " + typeName)
      case Some(t) =>
        Ok(ParsedColumn(
          Get(data.columnName),
          t,
          Get(data.characterMaximumLength),
          Isset(data.isNullable) && Truthy(data.isNullable.value),
          Get(data.columnDefault),
          Get(data.numericPrecision),
          Get(data.numericScale),
          Isset(data.serial) && Truthy(data.serial.value),
          Get(data.enumValues)))
  }

  /** Upper-casing of the first character of each ASCII letter range leaves type names alone. */
  lemma UpperOfConstName(t: ColumnType)
    ensures ToUpper(ConstName(t)) == ConstName(t)
  {
    var n := ConstName(t);
    assert forall i :: 0 <= i < |n| ==> !('a' <= n[i] <= 'z');
  }

  /** What parseArray recovers from toArray's output. */
  function Parsed(c: Column): ParsedColumn {
    ParsedColumn(
      VStr(c.name), c.ctype, OptIntValue(c.maxLength), c.nullable, c.default,
      OptIntValue(c.precision), OptIntValue(c.scale), c.serial,
      if c.ctype == ENUM then EnumValue(c.enumValues) else VNull)
  }

  /**
   * parseArray(toArray(c)) recovers every field exactly when the type's
   * constant name equals its value; for BOOLEAN ("BOOL") it fails.
   */
  lemma ParseToArray(c: Column)
    ensures c.ctype != BOOLEAN ==> ParseArray(ToArray(c)) == Ok(Parsed(c))
    ensures c.ctype == BOOLEAN ==> ParseArray(ToArray(c)).Err?
  {
    var a := ToArray(c);
    assert Get(a.dataType) == VStr(ConstValue(c.ctype));
    ConstValueParses(c.ctype);
  }

  /** Every constant value but BOOLEAN's names its own type once upper-cased. */
  lemma ConstValueParses(t: ColumnType)
    ensures TypeByName(ToUpper(ConstValue(t))) == (if t == BOOLEAN then None else Some(t))
  {
    if t != BOOLEAN {
      UpperOfConstName(t);
      assert ConstValue(t) == ConstName(t);
      TypeByConstName(t);
    } else {
      assert ToUpper("BOOL") == "BOOL";
    }
  }

  lemma TypeByConstName(t: ColumnType)
    ensures TypeByName(ConstName(t)) == Some(t)
  {
    var r := TypeByName(ConstName(t));
    assert r.Some?;
    ConstNameInjective(r.value, t);
  }

  lemma ConstNameInjective(a: ColumnType, b: ColumnType)
    requires ConstName(a) == ConstName(b)
    ensures a == b
  {
    assert TypeByName(ConstName(a)) == TypeByName(ConstName(b));
  }

  /** parseArray ignores the letter case of the type name. */
  lemma ParseArrayCaseInsensitive(data: ColumnArray, s: string)
    requires data.dataType == Some(VStr(s))
    ensures ParseArray(data) == ParseArray(data.(dataType := Some(VStr(ToUpper(s)))))
  {
    assert ToUpper(ToUpper(s)) == ToUpper(s);
  }

  function EnumList(v: Value): Option<seq<string>> {
    match v
    case VArray(items) => Some(seq(|items|, i requires 0 <= i < |items| => if items[i].VStr? then items[i].s else ""))
    case _ => None
  }

  /** A detached column built from a parsed record, under the given name. */
  function ColumnFromParsed(name: string, p: ParsedColumn): Column {
    Column(name, p.ctype, p.nullable, p.default, p.serial,
      NullableInt(p.maxLength), NullableInt(p.precision), NullableInt(p.scale),
      EnumList(p.enumValues), None)
  }

  /** Enum values survive the array form only on ENUM columns. */
  predicate ArrayFaithful(c: Column) {
    c.ctype != BOOLEAN && (c.ctype != ENUM ==> c.enumValues.None?)
  }

  /** Rebuilding a column from parseArray(toArray(c)) gives back c, detached. */
  lemma ColumnRoundTrip(c: Column)
    requires ArrayFaithful(c)
    ensures ParseArray(ToArray(c)).Ok?
    ensures ColumnFromParsed(c.name, ParseArray(ToArray(c)).value) == c.(table := None)
  {
    ParseToArray(c);
    if c.enumValues.Some? {
      var xs := c.enumValues.value;
      var items := StrValues(xs);
      var back := seq(|items|, i requires 0 <= i < |items| => if items[i].VStr? then items[i].s else "");
      assert back == xs;
    }
  }
}

=== FILE: ddl.dfy ===
/**
 * The DDL text the two drivers issue (createTable, createIndex,
 * createForeignKey and createSerial in src/Driver/PGSQL.php and
 * src/Driver/MySQL.php). Executing a statement is appending it to the list
 * a call returns; a failure stops the sequence, and the statements issued
 * before it stay issued.
 *
 * Where the driver passes a Table, Index or ForeignKey object to getName,
 * the object's name is what gets prefixed and quoted.
 */
module SchemaDdl {
  import opened Wrappers
  import opened Strings
  import opened Values
  import opened Naming
  import opened ColumnModel
  import opened TableModel
  import PgsqlDialect
  import MysqlDialect

  /** The statements a call executed, and whether it finished. */
  datatype Issued = Issued(stmts: seq<string>, outcome: Outcome)

  /** Run `a`, then `b` unless `a` failed. */
  function AndThen(a: Issued, b: Issued): (r: Issued)
    ensures a.outcome.Fail? ==> r == a
    ensures a.outcome.Pass? ==> r.stmts == a.stmts + b.stmts && r.outcome == b.outcome
  {
    if a.outcome.Fail? then a else Issued(a.stmts + b.stmts, b.outcome)
  }

  /*** Column lists ***/

  /** The parenthesised, comma-separated list of quoted column names. */
  function ColumnList(d: Dialect, xs: seq<string>): (r: string)
    ensures |r| >= 2 && r[0] == '(' && r[|r| - 1] == ')'
    ensures r[1..|r| - 1] == Join(QuoteAll(d, xs), ",")
  {
    var body := Join(QuoteAll(d, xs), ",");
    var r := "(" + body + ")";
    assert r[1..|r| - 1] == body;
    r
  }

  /**
   * The column list reads back: splitting its body on ',' and unquoting
   * each piece gives the column names, for a non-empty list of names
   * without commas.
   */
  lemma ColumnListRoundTrip(d: Dialect, xs: seq<string>)
    requires |xs| > 0 && forall i :: 0 <= i < |xs| ==> ',' !in xs[i]
    ensures var l := ColumnList(d, xs);
      var pieces := Split(l[1..|l| - 1], ',');
      |pieces| == |xs| && forall i :: 0 <= i < |xs| ==> Unquote(d, pieces[i]) == Some(xs[i])
  {
    var qs := QuoteAll(d, xs);
    forall i | 0 <= i < |qs| ensures ',' !in qs[i] {
      assert qs[i] == [QuoteChar(d)] + xs[i] + [QuoteChar(d)];
    }
    SplitJoin(qs, ',');
    forall i | 0 <= i < |xs| ensures Unquote(d, qs[i]) == Some(xs[i]) {
      UnquoteIdentQuote(d, xs[i]);
    }
  }

  /*** createIndex ***/

  /** The statement createIndex issues: a primary key is added to the table, any other index is created by name. */
  function IndexStatement(drv: Driver, t: Table, idx: Index): (r: string)
    ensures idx.kind == PRIMARY ==> StartsWith(r, "ALTER TABLE " + GetName(drv, t.name, true) + " ADD PRIMARY KEY ")
    ensures idx.kind == UNIQUE ==> StartsWith(r, "CREATE UNIQUE INDEX " + GetName(drv, idx.name, true) + " ON ")
    ensures idx.kind == INDEX ==> StartsWith(r, "CREATE INDEX " + GetName(drv, idx.name, true) + " ON ")
    ensures EndsWith(r, ColumnList(drv.dialect, idx.columns))
    ensures idx.kind == PRIMARY ==>
      r == "ALTER TABLE " + GetName(drv, t.name, true) + " ADD PRIMARY KEY " + ColumnList(drv.dialect, idx.columns)
    ensures idx.kind == UNIQUE ==>
      r == "CREATE UNIQUE INDEX " + GetName(drv, idx.name, true) + " ON " + GetName(drv, t.name, true) + " "
        + ColumnList(drv.dialect, idx.columns)
    ensures idx.kind == INDEX ==>
      r == "CREATE INDEX " + GetName(drv, idx.name, true) + " ON " + GetName(drv, t.name, true) + " "
        + ColumnList(drv.dialect, idx.columns)
  {
    var names := ColumnList(drv.dialect, idx.columns);
    var head := match idx.kind
      case PRIMARY => "ALTER TABLE " + GetName(drv, t.name, true) + " ADD PRIMARY KEY "
      case UNIQUE => "CREATE UNIQUE INDEX " + GetName(drv, idx.name, true) + " ON "
      case INDEX => "CREATE INDEX " + GetName(drv, idx.name, true) + " ON ";
    var mid := if idx.kind == PRIMARY then "" else GetName(drv, t.name, true) + " ";
    Concat3(head, mid, names);
    head + mid + names
  }

  /** The column a PRIMARY index is checked against: its first entry, or "" (PHP's null key) when it has none. */
  function FirstEntry(idx: Index): string {
    if |idx.columns| > 0 then idx.columns[0] else ""
  }

  predicate IndexResolves(t: Table, idx: Index) {
    idx.kind != PRIMARY || HasColumn(t, FirstEntry(idx))
  }

  /**
   * createIndex: the statement is issued first; for a PRIMARY index the
   * table is then asked for the index's first column, which fails when it
   * is unknown.
   */
  function CreateIndex(drv: Driver, t: Table, idx: Index): (r: Issued)
    ensures r.stmts == [IndexStatement(drv, t, idx)]
    ensures r.outcome.Pass? <==> IndexResolves(t, idx)
    ensures r.outcome.Fail? ==> r.outcome.error.kind == UnknownName
  {
    var stmt := IndexStatement(drv, t, idx);
    if idx.kind == PRIMARY then
      match GetColumn(t, FirstEntry(idx))
      case Err(e) =>
        assert e.kind == UnknownName;
        Issued([stmt], Fail(e))
      case Ok(_) => Issued([stmt], Pass)
    else Issued([stmt], Pass)
  }

  function IndexStatements(drv: Driver, t: Table, idxs: seq<Index>): (r: seq<string>)
    ensures |r| == |idxs| && forall i :: 0 <= i < |idxs| ==> r[i] == IndexStatement(drv, t, idxs[i])
  {
    seq(|idxs|, i requires 0 <= i < |idxs| => IndexStatement(drv, t, idxs[i]))
  }

  /** A loop of calls that each issue one statement, stopping at the first failure. */
  function RunEach<T>(step: T -> Issued, xs: seq<T>): (r: Issued)
    decreases |xs|
  {
    if |xs| == 0 then Issued([], Pass)
    else AndThen(step(xs[0]), RunEach(step, xs[1..]))
  }

  function FirstStatements<T>(step: T -> Issued, xs: seq<T>): (r: seq<string>)
    requires forall i :: 0 <= i < |xs| ==> |step(xs[i]).stmts| == 1
    ensures |r| == |xs| && forall i :: 0 <= i < |xs| ==> r[i] == step(xs[i]).stmts[0]
  {
    seq(|xs|, i requires 0 <= i < |xs| => step(xs[i]).stmts[0])
  }

  /**
   * A loop of one-statement calls that all pass issues their statements
   * in order.
   */
  lemma {:induction false} RunEachPass<T>(step: T -> Issued, xs: seq<T>)
    requires forall i :: 0 <= i < |xs| ==> |step(xs[i]).stmts| == 1 && step(xs[i]).outcome.Pass?
    ensures RunEach(step, xs) == Issued(FirstStatements(step, xs), Pass)
    decreases |xs|
  {
    if |xs| > 0 {
      assert forall i :: 1 <= i < |xs| ==> xs[1..][i - 1] == xs[i];
      RunEachPass(step, xs[1..]);
      var head := step(xs[0]);
      assert head.stmts == [head.stmts[0]];
      assert FirstStatements(step, xs) == [head.stmts[0]] + FirstStatements(step, xs[1..]);
    }
  }

  /**
   * When the call at position k is the first to fail, the loop issues the
   * statements up to and including its own and ends with its failure.
   */
  lemma {:induction false} RunEachFail<T>(step: T -> Issued, xs: seq<T>, k: nat)
    requires forall i :: 0 <= i < |xs| ==> |step(xs[i]).stmts| == 1
    requires k < |xs| && step(xs[k]).outcome.Fail?
    requires forall j :: 0 <= j < k ==> step(xs[j]).outcome.Pass?
    ensures RunEach(step, xs) == Issued(FirstStatements(step, xs[..k + 1]), step(xs[k]).outcome)
    decreases |xs|
  {
    var head := step(xs[0]);
    assert head.stmts == [head.stmts[0]];
    if k == 0 {
      assert FirstStatements(step, xs[..1]) == [head.stmts[0]];
    } else {
      assert forall i :: 1 <= i < |xs| ==> xs[1..][i - 1] == xs[i];
      RunEachFail(step, xs[1..], k - 1);
      assert xs[1..][..k] == xs[..k + 1][1..];
      assert FirstStatements(step, xs[..k + 1]) == [head.stmts[0]] + FirstStatements(step, xs[..k + 1][1..]);
    }
  }

  /** createTable's index loop. */
  function CreateIndexes(drv: Driver, t: Table, idxs: seq<Index>): (r: Issued) {
    RunEach(IndexStep(drv, t), idxs)
  }

  function IndexStep(drv: Driver, t: Table): Index -> Issued {
    idx => CreateIndex(drv, t, idx)
  }

  lemma IndexStepStatements(drv: Driver, t: Table, idxs: seq<Index>)
    ensures forall i :: 0 <= i < |idxs| ==> |IndexStep(drv, t)(idxs[i]).stmts| == 1
    ensures forall i :: 0 <= i < |idxs| ==> (IndexStep(drv, t)(idxs[i]).outcome.Pass? <==> IndexResolves(t, idxs[i]))
    ensures FirstStatements(IndexStep(drv, t), idxs) == IndexStatements(drv, t, idxs)
  {
  }

  /** The position of the first PRIMARY index whose first column the table lacks. */
  function FirstUnresolved(t: Table, idxs: seq<Index>): (r: Option<nat>)
    ensures r.None? <==> forall i :: 0 <= i < |idxs| ==> IndexResolves(t, idxs[i])
    ensures r.Some? ==> r.value < |idxs| && !IndexResolves(t, idxs[r.value])
    ensures r.Some? ==> forall j :: 0 <= j < r.value ==> IndexResolves(t, idxs[j])
    decreases |idxs|
  {
    if |idxs| == 0 then None
    else if !IndexResolves(t, idxs[0]) then Some(0)
    else
      var rest := FirstUnresolved(t, idxs[1..]);
      assert forall i :: 1 <= i < |idxs| ==> idxs[i] == idxs[1..][i - 1];
      match rest
      case None => None
      case Some(k) => Some(k + 1)
  }

  /**
   * The index loop issues one statement per index, in order; it finishes
   * when every index resolves, and otherwise stops right after the
   * statement of the first PRIMARY index whose first column the table does
   * not have.
   */
  lemma CreateIndexesSpec(drv: Driver, t: Table, idxs: seq<Index>)
    ensures CreateIndexes(drv, t, idxs).outcome.Pass? <==> FirstUnresolved(t, idxs).None?
    ensures FirstUnresolved(t, idxs).None? ==> CreateIndexes(drv, t, idxs).stmts == IndexStatements(drv, t, idxs)
    ensures FirstUnresolved(t, idxs).Some? ==>
      CreateIndexes(drv, t, idxs).stmts == IndexStatements(drv, t, idxs[..FirstUnresolved(t, idxs).value + 1])
  {
    var first := FirstUnresolved(t, idxs);
    if first.None? {
      CreateIndexesPass(drv, t, idxs);
    } else {
      CreateIndexesFail(drv, t, idxs);
    }
  }

  lemma CreateIndexesPass(drv: Driver, t: Table, idxs: seq<Index>)
    requires FirstUnresolved(t, idxs).None?
    ensures CreateIndexes(drv, t, idxs) == Issued(IndexStatements(drv, t, idxs), Pass)
  {
    IndexStepStatements(drv, t, idxs);
    RunEachPass(IndexStep(drv, t), idxs);
  }

  lemma CreateIndexesFail(drv: Driver, t: Table, idxs: seq<Index>)
    requires FirstUnresolved(t, idxs).Some?
    ensures CreateIndexes(drv, t, idxs).outcome.Fail?
    ensures CreateIndexes(drv, t, idxs).stmts == IndexStatements(drv, t, idxs[..FirstUnresolved(t, idxs).value + 1])
  {
    var k := FirstUnresolved(t, idxs).value;
    IndexStepStatements(drv, t, idxs);
    IndexStepStatements(drv, t, idxs[..k + 1]);
    RunEachFail(IndexStep(drv, t), idxs, k);
  }

  /*** createForeignKey ***/

  /** One referential action clause: a known policy is written out, anything else adds nothing. */
  function PolicyClause(action: string, policy: string): (r: string)
    ensures policy !in KnownPolicies <==> r == ""
    ensures policy in KnownPolicies ==> r == " ON " + action + " " + policy + " "
  {
    if policy == "CASCADE" then " ON " + action + " CASCADE "
    else if policy == "RESTRICT" then " ON " + action + " RESTRICT "
    else if policy == "SET NULL" then " ON " + action + " SET NULL "
    else ""
  }

  /** A written clause names its policy: different known policies give different clauses. */
  lemma PolicyClauseInjective(action: string, p: string, q: string)
    requires p in KnownPolicies && q in KnownPolicies
    requires PolicyClause(action, p) == PolicyClause(action, q)
    ensures p == q
  {
    var pre := " ON " + action + " ";
    assert PolicyClause(action, p) == pre + p + " ";
    assert PolicyClause(action, q) == pre + q + " ";
    assert (pre + p + " ")[|pre|..|pre| + |p|] == p;
    assert (pre + q + " ")[|pre|..|pre| + |q|] == q;
  }

  /**
   * The foreign-key statement up to the referential actions. PostgreSQL
   * adds a named constraint; MySQL names the key after FOREIGN KEY.
   */
  function ForeignKeyHead(drv: Driver, t: Table, fk: ForeignKey): (r: string)
    ensures StartsWith(r, "ALTER TABLE " + GetName(drv, t.name, true) + " ADD ")
    ensures EndsWith(r, " REFERENCES " + GetName(drv, fk.referredTable, true) + ColumnList(drv.dialect, fk.referredColumns))
    ensures drv.dialect == PGSQL ==>
      r == "ALTER TABLE " + GetName(drv, t.name, true) + " ADD "
        + ("CONSTRAINT " + GetName(drv, fk.name, true) + " FOREIGN KEY " + ColumnList(drv.dialect, fk.columns))
        + (" REFERENCES " + GetName(drv, fk.referredTable, true) + ColumnList(drv.dialect, fk.referredColumns))
    ensures drv.dialect == MySQL ==>
      r == "ALTER TABLE " + GetName(drv, t.name, true) + " ADD "
        + ("FOREIGN KEY " + GetName(drv, fk.name, true) + ColumnList(drv.dialect, fk.columns))
        + (" REFERENCES " + GetName(drv, fk.referredTable, true) + ColumnList(drv.dialect, fk.referredColumns))
  {
    var pre := "ALTER TABLE " + GetName(drv, t.name, true) + " ADD ";
    var key := match drv.dialect
      case PGSQL => "CONSTRAINT " + GetName(drv, fk.name, true) + " FOREIGN KEY " + ColumnList(drv.dialect, fk.columns)
      case MySQL => "FOREIGN KEY " + GetName(drv, fk.name, true) + ColumnList(drv.dialect, fk.columns);
    var refs := " REFERENCES " + GetName(drv, fk.referredTable, true) + ColumnList(drv.dialect, fk.referredColumns);
    Concat3(pre, key, refs);
    pre + key + refs
  }

  /** createForeignKey as written: the ON DELETE clause is chosen by the update policy. */
  function ForeignKeyStatementAsWritten(drv: Driver, t: Table, fk: ForeignKey): (r: string)
    ensures StartsWith(r, ForeignKeyHead(drv, t, fk))
    ensures EndsWith(r, PolicyClause("DELETE", fk.onUpdate))
    ensures r == ForeignKeyHead(drv, t, fk) + PolicyClause("UPDATE", fk.onUpdate) + PolicyClause("DELETE", fk.onUpdate)
  {
    var head := ForeignKeyHead(drv, t, fk);
    var update := PolicyClause("UPDATE", fk.onUpdate);
    var delete := PolicyClause("DELETE", fk.onUpdate);
    Concat3(head, update, delete);
    head + update + delete
  }

  /** createForeignKey corrected: each action clause follows its own policy. */
  function ForeignKeyStatement(drv: Driver, t: Table, fk: ForeignKey): (r: string)
    ensures StartsWith(r, ForeignKeyHead(drv, t, fk))
    ensures EndsWith(r, PolicyClause("DELETE", fk.onDelete))
    ensures r == ForeignKeyHead(drv, t, fk) + PolicyClause("UPDATE", fk.onUpdate) + PolicyClause("DELETE", fk.onDelete)
    ensures fk.onUpdate == fk.onDelete ==> r == ForeignKeyStatementAsWritten(drv, t, fk)
  {
    var head := ForeignKeyHead(drv, t, fk);
    var update := PolicyClause("UPDATE", fk.onUpdate);
    var delete := PolicyClause("DELETE", fk.onDelete);
    Concat3(head, update, delete);
    head + update + delete
  }

  /**
   * The corrected statement ends with the delete policy the key records;
   * as written, a key that cascades updates but restricts deletes is
   * created cascading deletes.
   */
  lemma ForeignKeyDeleteDiscrepancy(drv: Driver, t: Table, fk: ForeignKey)
    requires fk.onUpdate == "CASCADE" && fk.onDelete == "RESTRICT"
    ensures EndsWith(ForeignKeyStatementAsWritten(drv, t, fk), " ON DELETE CASCADE ")
    ensures EndsWith(ForeignKeyStatement(drv, t, fk), " ON DELETE RESTRICT ")
    ensures ForeignKeyStatementAsWritten(drv, t, fk) != ForeignKeyStatement(drv, t, fk)
  {
    DeleteClausesDiffer(ForeignKeyStatementAsWritten(drv, t, fk), ForeignKeyStatement(drv, t, fk), fk.onUpdate, fk.onDelete);
  }

  lemma DeleteClausesDiffer(a: string, b: string, u: string, d: string)
    requires u == "CASCADE" && d == "RESTRICT"
    requires EndsWith(a, PolicyClause("DELETE", u)) && EndsWith(b, PolicyClause("DELETE", d))
    ensures EndsWith(a, " ON DELETE CASCADE ") && EndsWith(b, " ON DELETE RESTRICT ") && a != b
  {
    var x := " ON DELETE CASCADE ";
    var y := " ON DELETE RESTRICT ";
    assert PolicyClause("DELETE", u) == x;
    assert PolicyClause("DELETE", d) == y;
    assert x[|x| - 2..] == "E " && y[|y| - 2..] == "T ";
    EndsWithDiffer(a, b, x, y, 2);
  }

  function ForeignKeyStatements(drv: Driver, t: Table, fks: seq<ForeignKey>): (r: seq<string>)
    ensures |r| == |fks| && forall i :: 0 <= i < |fks| ==> r[i] == ForeignKeyStatement(drv, t, fks[i])
  {
    seq(|fks|, i requires 0 <= i < |fks| => ForeignKeyStatement(drv, t, fks[i]))
  }

  function ForeignKeyStatementsAsWritten(drv: Driver, t: Table, fks: seq<ForeignKey>): (r: seq<string>)
    ensures |r| == |fks| && forall i :: 0 <= i < |fks| ==> r[i] == ForeignKeyStatementAsWritten(drv, t, fks[i])
  {
    seq(|fks|, i requires 0 <= i < |fks| => ForeignKeyStatementAsWritten(drv, t, fks[i]))
  }

  /*** Column definitions and createSerial ***/

  /** getColumnDefinition of the driver's dialect; MySQL quotes defaults through the connection. */
  function ColumnDefinition(drv: Driver, c: Column, quote: Value -> string): (r: Result<string>)
    ensures drv.dialect == PGSQL ==> r == PgsqlDialect.ColumnDefinition(c)
    ensures drv.dialect == MySQL ==> r == MysqlDialect.ColumnDefinition(c, quote)
  {
    match drv.dialect
    case PGSQL => PgsqlDialect.ColumnDefinition(c)
    case MySQL => MysqlDialect.ColumnDefinition(c, quote)
  }

  function ColumnDefinitions(drv: Driver, cols: seq<Column>, quote: Value -> string): (r: Result<seq<string>>)
    ensures r.Ok? <==> forall i :: 0 <= i < |cols| ==> ColumnDefinition(drv, cols[i], quote).Ok?
    ensures r.Ok? ==> |r.value| == |cols| && forall i :: 0 <= i < |cols| ==> r.value[i] == ColumnDefinition(drv, cols[i], quote).value
  {
    MapAll(DefinitionOf(drv, quote), cols)
  }

  function DefinitionOf(drv: Driver, quote: Value -> string): Column -> Result<string> {
    c => ColumnDefinition(drv, c, quote)
  }

  /** The name of the sequence behind a PostgreSQL serial column: prefixed, not quoted. */
  function SequenceName(drv: Driver, t: Table, c: Column): (r: string)
    ensures StripPrefix(drv, r) == t.name + "_" + c.name + "_seq"
  {
    StripGetName(drv, t.name + "_" + c.name + "_seq");
    GetName(drv, t.name + "_" + c.name + "_seq", false)
  }

  /** The default PostgreSQL's serial setup gives the column. */
  function NextvalDefault(seqName: string): (r: string)
    ensures StartsWith(r, "nextval('") && EndsWith(r, "')")
    ensures |r| == |seqName| + 11 && r[9..|r| - 2] == seqName
  {
    var r := "nextval('" + seqName + "')";
    assert r[..9] == "nextval('";
    assert r[|r| - 2..] == "')";
    r
  }

  /**
   * PostgreSQL's createSerial: create the sequence, make it the column's
   * default and set NOT NULL, then hand the sequence to the column.
   */
  function PgSerialStatements(drv: Driver, t: Table, c: Column): (r: seq<string>)
    ensures |r| == 3
    ensures StartsWith(r[0], "CREATE SEQUENCE ") && r[0][|"CREATE SEQUENCE "|..] == SequenceName(drv, t, c)
    ensures ContainsText(r[1], "SET DEFAULT " + NextvalDefault(SequenceName(drv, t, c)))
    ensures StartsWith(r[2], "ALTER SEQUENCE " + SequenceName(drv, t, c) + " OWNED BY ")
    ensures r[0] == "CREATE SEQUENCE " + SequenceName(drv, t, c)
    ensures r[1] == "ALTER TABLE " + GetName(drv, t.name, true) + " ALTER COLUMN " + IdentQuote(PGSQL, c.name) + " "
      + ("SET DEFAULT " + NextvalDefault(SequenceName(drv, t, c)))
      + (",  ALTER COLUMN " + IdentQuote(PGSQL, c.name) + " SET NOT NULL;")
    ensures r[2] == "ALTER SEQUENCE " + SequenceName(drv, t, c) + " OWNED BY "
      + GetName(drv, t.name, true) + "." + IdentQuote(PGSQL, c.name) + ";"
  {
    var tableName := GetName(drv, t.name, true);
    var colName := IdentQuote(PGSQL, c.name);
    var seqName := SequenceName(drv, t, c);
    var pre := "ALTER TABLE " + tableName + " ALTER COLUMN " + colName + " ";
    var setDefault := "SET DEFAULT " + NextvalDefault(seqName);
    var post := ",  ALTER COLUMN " + colName + " SET NOT NULL;";
    ContainsTextMiddle(pre, setDefault, post);
    PrefixOfAppend("CREATE SEQUENCE ", seqName);
    var owned := "ALTER SEQUENCE " + seqName + " OWNED BY ";
    PrefixOfAppend(owned, tableName + "." + colName + ";");
    assert owned + (tableName + "." + colName + ";") == owned + tableName + "." + colName + ";";
    ["CREATE SEQUENCE " + seqName, pre + setDefault + post, owned + tableName + "." + colName + ";"]
  }

  /** MySQL's createSerial: the column redefined with AUTO_INCREMENT; it fails when the column has no definition. */
  function MysqlSerialStatement(drv: Driver, t: Table, c: Column, quote: Value -> string): (r: Result<string>)
    ensures r.Ok? <==> MysqlDialect.ColumnDefinition(c, quote).Ok?
    ensures r.Ok? ==> StartsWith(r.value, "ALTER TABLE " + GetName(drv, t.name, true) + " MODIFY ")
    ensures r.Ok? ==> EndsWith(r.value, MysqlDialect.ColumnDefinition(c, quote).value + " AUTO_INCREMENT")
  {
    var def :- MysqlDialect.ColumnDefinition(c, quote);
    var head := "ALTER TABLE " + GetName(drv, t.name, true) + " MODIFY ";
    ModifyText(head, def);
    Ok(head + " " + def + " AUTO_INCREMENT")
  }

  lemma ModifyText(head: string, def: string)
    ensures StartsWith(head + " " + def + " AUTO_INCREMENT", head)
    ensures EndsWith(head + " " + def + " AUTO_INCREMENT", def + " AUTO_INCREMENT")
  {
    PrefixOfAppend(head, " " + def + " AUTO_INCREMENT");
    SuffixOfAppend(head + " ", def + " AUTO_INCREMENT");
    assert head + " " + def + " AUTO_INCREMENT" == head + (" " + def + " AUTO_INCREMENT");
    assert head + " " + def + " AUTO_INCREMENT" == (head + " ") + (def + " AUTO_INCREMENT");
  }

  /** createSerial of the driver's dialect. */
  function SerialStatements(drv: Driver, t: Table, c: Column, quote: Value -> string): (r: Result<seq<string>>)
    ensures drv.dialect == PGSQL ==> r == Ok(PgSerialStatements(drv, t, c))
    ensures drv.dialect == MySQL ==> (r.Ok? <==> ColumnDefinition(drv, c, quote).Ok?)
    ensures drv.dialect == MySQL && r.Ok? ==> r.value == [MysqlSerialStatement(drv, t, c, quote).value]
  {
    match drv.dialect
    case PGSQL => Ok(PgSerialStatements(drv, t, c))
    case MySQL =>
      var stmt :- MysqlSerialStatement(drv, t, c, quote);
      Ok([stmt])
  }

  lemma {:induction false} ContainsTextMiddle(a: string, b: string, c: string)
    ensures ContainsText(a + b + c, b)
    decreases |a|
  {
    if |a| == 0 {
      assert a + b + c == b + c;
      PrefixOfAppend(b, c);
    } else {
      assert (a + b + c)[1..] == a[1..] + b + c;
      ContainsTextMiddle(a[1..], b, c);
    }
  }

  /*** createTable ***/

  /** The last serial column, the one createTable sets up. */
  function LastSerial(cols: seq<Column>): (r: Option<Column>)
    ensures r.Some? <==> exists i :: 0 <= i < |cols| && cols[i].serial
    ensures r.Some? ==> r.value.serial && r.value in cols
    ensures r.Some? ==> exists i :: 0 <= i < |cols| && cols[i] == r.value && forall j :: i < j < |cols| ==> !cols[j].serial
    decreases |cols|
  {
    if |cols| == 0 then None
    else if cols[|cols| - 1].serial then Some(cols[|cols| - 1])
    else
      var r := LastSerial(cols[..|cols| - 1]);
      assert forall i :: 0 <= i < |cols| - 1 ==> cols[..|cols| - 1][i] == cols[i];
      r
  }

  function Closing(d: Dialect): string {
    match d
    case PGSQL => "\n)"
    case MySQL => "\n) ENGINE=InnoDB CHARSET=utf8 COLLATE=utf8_general_ci\n"
  }

  /** The CREATE TABLE statement: one indented column definition per line, in column order. */
  function CreateTableStatement(drv: Driver, name: string, defs: seq<string>): (r: string)
    ensures StartsWith(r, "CREATE TABLE " + GetName(drv, name, true) + " (\n    ")
    ensures EndsWith(r, Closing(drv.dialect))
    ensures r == "CREATE TABLE " + GetName(drv, name, true) + " (\n    " + Join(defs, ",\n    ") + Closing(drv.dialect)
  {
    var head := "CREATE TABLE " + GetName(drv, name, true) + " (\n" + "    ";
    var body := Join(defs, ",\n    ");
    var tail := Closing(drv.dialect);
    assert (head + body + tail)[..|head|] == head;
    assert (head + body + tail)[|head + body + tail| - |tail|..] == tail;
    head + body + tail
  }

  function SerialSetup(drv: Driver, t: Table, serial: Option<Column>, quote: Value -> string): (r: Issued) {
    match serial
    case None => Issued([], Pass)
    case Some(c) =>
      match SerialStatements(drv, t, c, quote)
      case Ok(stmts) => Issued(stmts, Pass)
      case Err(e) => Issued([], Fail(e))
  }

  function CreateForeignKeys(drv: Driver, t: Table, fks: seq<ForeignKey>): (r: Issued)
    ensures r == Issued(ForeignKeyStatements(drv, t, fks), Pass)
    decreases |fks|
  {
    if |fks| == 0 then Issued([], Pass)
    else
      var r := AndThen(Issued([ForeignKeyStatement(drv, t, fks[0])], Pass), CreateForeignKeys(drv, t, fks[1..]));
      ForeignKeyStatementsCons(drv, t, fks);
      r
  }

  lemma ForeignKeyStatementsCons(drv: Driver, t: Table, fks: seq<ForeignKey>)
    requires |fks| > 0
    ensures ForeignKeyStatements(drv, t, fks) == [ForeignKeyStatement(drv, t, fks[0])] + ForeignKeyStatements(drv, t, fks[1..])
  {
    var f := (fk: ForeignKey) => ForeignKeyStatement(drv, t, fk);
    MapCons(f, fks, ForeignKeyStatements(drv, t, fks), ForeignKeyStatements(drv, t, fks[1..]));
  }

  /**
   * createTable: the column definitions are built first (a failure there
   * issues nothing), then CREATE TABLE, each index, the serial setup of the
   * last serial column, and each foreign key.
   */
  function CreateTable(drv: Driver, t: Table, quote: Value -> string): (r: Issued)
  {
    match ColumnDefinitions(drv, t.columns, quote)
    case Err(e) => Issued([], Fail(e))
    case Ok(defs) =>
      AndThen(Issued([CreateTableStatement(drv, t.name, defs)], Pass),
        AndThen(CreateIndexes(drv, t, t.indexes),
          AndThen(SerialSetup(drv, t, LastSerial(t.columns), quote),
            CreateForeignKeys(drv, t, t.foreignKeys))))
  }

  /** The statements of the serial setup, once the definitions are known to exist. */
  function SerialPart(drv: Driver, t: Table, quote: Value -> string): seq<string>
  {
    match LastSerial(t.columns)
    case None => []
    case Some(c) =>
      match SerialStatements(drv, t, c, quote)
      case Ok(stmts) => stmts
      case Err(_) => []
  }

  /** How many statements the serial setup issues in each dialect. */
  function SerialCount(drv: Driver, t: Table): nat {
    if LastSerial(t.columns).None? then 0 else if drv.dialect == PGSQL then 3 else 1
  }

  lemma SerialSetupPasses(drv: Driver, t: Table, quote: Value -> string)
    requires ColumnDefinitions(drv, t.columns, quote).Ok?
    ensures SerialSetup(drv, t, LastSerial(t.columns), quote) == Issued(SerialPart(drv, t, quote), Pass)
    ensures |SerialPart(drv, t, quote)| == SerialCount(drv, t)
  {
    match LastSerial(t.columns)
    case None =>
    case Some(c) =>
      var i :| 0 <= i < |t.columns| && t.columns[i] == c;
      assert ColumnDefinition(drv, t.columns[i], quote).Ok?;
  }

  /** Four calls in a row, the first, third and fourth of which pass. */
  lemma Chain4(a: Issued, b: Issued, c: Issued, d: Issued)
    requires a.outcome.Pass? && c.outcome.Pass? && d.outcome.Pass?
    ensures var r := AndThen(a, AndThen(b, AndThen(c, d)));
      && (r.outcome.Pass? <==> b.outcome.Pass?)
      && (b.outcome.Pass? ==> r.stmts == a.stmts + b.stmts + c.stmts + d.stmts)
      && |a.stmts| <= |r.stmts| && r.stmts[..|a.stmts|] == a.stmts
  {
    var r := AndThen(a, AndThen(b, AndThen(c, d)));
    if b.outcome.Pass? {
      assert r.stmts == a.stmts + (b.stmts + (c.stmts + d.stmts));
    }
    assert r.stmts == a.stmts + AndThen(b, AndThen(c, d)).stmts;
  }

  /**
   * createTable fails before issuing anything exactly when a column has no
   * definition. Otherwise CREATE TABLE comes first; the whole sequence
   * finishes exactly when every PRIMARY index's first column exists, and
   * then the statements are CREATE TABLE, the indexes in order, the serial
   * setup and the foreign keys in order.
   */
  lemma CreateTableOrder(drv: Driver, t: Table, quote: Value -> string)
    ensures var defs := ColumnDefinitions(drv, t.columns, quote);
      defs.Err? ==> CreateTable(drv, t, quote) == Issued([], Fail(defs.error))
    ensures var defs := ColumnDefinitions(drv, t.columns, quote);
      defs.Ok? ==> |CreateTable(drv, t, quote).stmts| > 0 && CreateTable(drv, t, quote).stmts[0] == CreateTableStatement(drv, t.name, defs.value)
    ensures ColumnDefinitions(drv, t.columns, quote).Ok? ==>
      (CreateTable(drv, t, quote).outcome.Pass? <==> forall i :: 0 <= i < |t.indexes| ==> IndexResolves(t, t.indexes[i]))
    ensures var defs := ColumnDefinitions(drv, t.columns, quote);
      CreateTable(drv, t, quote).outcome.Pass? ==>
        && CreateTable(drv, t, quote).stmts ==
          [CreateTableStatement(drv, t.name, defs.value)] + IndexStatements(drv, t, t.indexes)
          + SerialPart(drv, t, quote) + ForeignKeyStatements(drv, t, t.foreignKeys)
        && |CreateTable(drv, t, quote).stmts| == 1 + |t.indexes| + SerialCount(drv, t) + |t.foreignKeys|
  {
    var defs := ColumnDefinitions(drv, t.columns, quote);
    if defs.Ok? {
      var a := Issued([CreateTableStatement(drv, t.name, defs.value)], Pass);
      var b := CreateIndexes(drv, t, t.indexes);
      var c := SerialSetup(drv, t, LastSerial(t.columns), quote);
      var d := CreateForeignKeys(drv, t, t.foreignKeys);
      assert CreateTable(drv, t, quote) == AndThen(a, AndThen(b, AndThen(c, d)));
      CreateIndexesSpec(drv, t, t.indexes);
      SerialSetupPasses(drv, t, quote);
      Chain4(a, b, c, d);
    }
  }

  /*** createTable as written ***/

  /**
   * createTable as written. The PostgreSQL driver cannot be constructed, so
   * nothing is issued; MySQL issues the same sequence as createTable, except
   * that each foreign key's ON DELETE clause follows its update policy.
   */
  function CreateTableAsWritten(drv: Driver, t: Table, quote: Value -> string): (r: Issued)
  {
    if drv.dialect == PGSQL then Issued([], Fail(PgsqlDialect.NewDriverAsWritten().error))
    else
      match ColumnDefinitions(drv, t.columns, quote)
      case Err(e) => Issued([], Fail(e))
      case Ok(defs) =>
        AndThen(Issued([CreateTableStatement(drv, t.name, defs)], Pass),
          AndThen(CreateIndexes(drv, t, t.indexes),
            AndThen(SerialSetup(drv, t, LastSerial(t.columns), quote),
              Issued(ForeignKeyStatementsAsWritten(drv, t, t.foreignKeys), Pass))))
  }

  /**
   * As written, PostgreSQL's createTable fails before issuing anything.
   * MySQL's finishes exactly when the corrected one does, and then issues
   * the same statements up to the foreign keys, whose ON DELETE clauses
   * follow the update policy.
   */
  lemma CreateTableAsWrittenOrder(drv: Driver, t: Table, quote: Value -> string)
    ensures drv.dialect == PGSQL ==> CreateTableAsWritten(drv, t, quote) == Issued([], Fail(Error(Fatal, "Undefined constant Column::INTEGER")))
    ensures drv.dialect == MySQL ==> CreateTableAsWritten(drv, t, quote).outcome == CreateTable(drv, t, quote).outcome
    ensures drv.dialect == MySQL && CreateTable(drv, t, quote).outcome.Pass? ==>
      CreateTableAsWritten(drv, t, quote).stmts ==
        [CreateTableStatement(drv, t.name, ColumnDefinitions(drv, t.columns, quote).value)] + IndexStatements(drv, t, t.indexes)
        + SerialPart(drv, t, quote) + ForeignKeyStatementsAsWritten(drv, t, t.foreignKeys)
  {
    if drv.dialect == PGSQL {
      PgsqlCreateTableFails(drv, t, quote);
    } else if ColumnDefinitions(drv, t.columns, quote).Ok? {
      MysqlCreateTableSteps(drv, t, quote);
    }
  }

  lemma PgsqlCreateTableFails(drv: Driver, t: Table, quote: Value -> string)
    requires drv.dialect == PGSQL
    ensures CreateTableAsWritten(drv, t, quote) == Issued([], Fail(Error(Fatal, "Undefined constant Column::INTEGER")))
  {
    var e := PgsqlDialect.NewDriverAsWritten();
  }

  lemma MysqlCreateTableSteps(drv: Driver, t: Table, quote: Value -> string)
    requires drv.dialect == MySQL && ColumnDefinitions(drv, t.columns, quote).Ok?
    ensures CreateTableAsWritten(drv, t, quote).outcome == CreateTable(drv, t, quote).outcome
    ensures CreateTable(drv, t, quote).outcome.Pass? ==>
      CreateTableAsWritten(drv, t, quote).stmts ==
        [CreateTableStatement(drv, t.name, ColumnDefinitions(drv, t.columns, quote).value)] + IndexStatements(drv, t, t.indexes)
        + SerialPart(drv, t, quote) + ForeignKeyStatementsAsWritten(drv, t, t.foreignKeys)
  {
    var defs := ColumnDefinitions(drv, t.columns, quote);
    var a := Issued([CreateTableStatement(drv, t.name, defs.value)], Pass);
    var b := CreateIndexes(drv, t, t.indexes);
    var c := SerialSetup(drv, t, LastSerial(t.columns), quote);
    var d := Issued(ForeignKeyStatementsAsWritten(drv, t, t.foreignKeys), Pass);
    var d' := CreateForeignKeys(drv, t, t.foreignKeys);
    assert CreateTableAsWritten(drv, t, quote) == AndThen(a, AndThen(b, AndThen(c, d)));
    assert CreateTable(drv, t, quote) == AndThen(a, AndThen(b, AndThen(c, d')));
    SerialSetupPasses(drv, t, quote);
    Chain4(a, b, c, d);
    Chain4(a, b, c, d');
    if b.outcome.Pass? {
      CreateIndexesSpec(drv, t, t.indexes);
    }
  }

  /**
   * A MySQL table with a foreign key that cascades updates but restricts
   * deletes: the corrected createTable issues ON DELETE RESTRICT for it, the
   * code as written ON DELETE CASCADE, at the same position.
   */
  lemma CreateTableDeleteDiscrepancy(drv: Driver, t: Table, quote: Value -> string, k: nat)
    requires drv.dialect == MySQL && CreateTable(drv, t, quote).outcome.Pass?
    requires k < |t.foreignKeys| && t.foreignKeys[k].onUpdate == "CASCADE" && t.foreignKeys[k].onDelete == "RESTRICT"
    ensures var n := 1 + |t.indexes| + SerialCount(drv, t) + k;
      && n < |CreateTable(drv, t, quote).stmts| == |CreateTableAsWritten(drv, t, quote).stmts|
      && EndsWith(CreateTable(drv, t, quote).stmts[n], " ON DELETE RESTRICT ")
      && EndsWith(CreateTableAsWritten(drv, t, quote).stmts[n], " ON DELETE CASCADE ")
  {
    var defs := ColumnDefinitions(drv, t.columns, quote);
    assert defs.Ok? by {
      CreateTableOrder(drv, t, quote);
    }
    var head := [CreateTableStatement(drv, t.name, defs.value)] + IndexStatements(drv, t, t.indexes) + SerialPart(drv, t, quote);
    var fixed := ForeignKeyStatements(drv, t, t.foreignKeys);
    var written := ForeignKeyStatementsAsWritten(drv, t, t.foreignKeys);
    assert CreateTable(drv, t, quote).stmts == head + fixed by {
      CreateTableOrder(drv, t, quote);
    }
    assert CreateTableAsWritten(drv, t, quote).stmts == head + written by {
      MysqlCreateTableSteps(drv, t, quote);
    }
    assert |head| == 1 + |t.indexes| + SerialCount(drv, t) by {
      SerialSetupPasses(drv, t, quote);
    }
    ForeignKeyDeleteDiscrepancy(drv, t, t.foreignKeys[k]);
    SameHeadAt(head, fixed, written, k);
  }

  /** Two lists with the same head differ after it as their tails do. */
  lemma SameHeadAt(head: seq<string>, xs: seq<string>, ys: seq<string>, k: nat)
    requires k < |xs| == |ys|
    ensures |head + xs| == |head + ys| && (head + xs)[|head| + k] == xs[k] && (head + ys)[|head| + k] == ys[k]
  {
  }
}

=== FILE: expression.dfy ===
/** Query expressions. */
module Expressions {
  // Query expressions: constant values, field names, SQL function calls and
  // operators (src/Query/Operator.php, src/Query/SQLFunction.php).
  //
  // The Expression base class, FieldName and ConstantValue are not part of
  // this model. Their behaviour here: a constant binds its value and renders
  // as ":cN"; a field renders as its quoted name; `toExpression` keeps an
  // expression, turns a plain string into a field name unless strings are
  // constants, and wraps any other plain value in a new constant node.
  // A constant node's `id` stands for PHP object identity; the conversions
  // take the next free id and return the one after.
  //
  // Operator rendering belongs to unshown subclasses; it is modelled as
  // "lhs op rhs" (binary) or "op rhs" (unary), in parentheses when nested.

  import opened Wrappers
  import opened Strings
  import opened Values
  import opened Naming
  import opened Parameters

  datatype Expr =
    | Const(id: nat, value: Value)
    | Field(name: string)
    | Func(fname: string, args: seq<Expr>)
    | Op(op: string, lhs: Option<Expr>, rhs: Expr)

  /** What a constructor receives: an expression object or a plain PHP value. */
  datatype Operand = Node(e: Expr) | Plain(v: Value)

  /** toExpression(x, stringIsConstant), allocating ids from `nextId`. */
  function ToExpression(x: Operand, stringIsConstant: bool, nextId: nat): (r: (Expr, nat))
    ensures x.Node? ==> r == (x.e, nextId)
    ensures x.Plain? && x.v.VStr? && !stringIsConstant ==> r == (Field(x.v.s), nextId)
    ensures x.Plain? && !(x.v.VStr? && !stringIsConstant) ==> r == (Const(nextId, x.v), nextId + 1)
  {
    match x
    case Node(e) => (e, nextId)
    case Plain(v) =>
      if v.VStr? && !stringIsConstant then (Field(v.s), nextId)
      else (Const(nextId, v), nextId + 1)
  }

  /*** Operator ***/

  /**
   * new Operator(op, lhs, rhs): the operator must be in the subclass's list
   * (strict comparison); a null left operand stays absent (unary form), a
   * given one is converted with strings as fields; the right operand is
   * always converted, with strings as constants.
   */
  function NewOperator(valid: seq<string>, op: string, lhs: Option<Operand>, rhs: Operand, nextId: nat): (r: Result<(Expr, nat)>)
    ensures r.Ok? <==> op in valid
    ensures r.Ok? ==> r.value.0.Op? && r.value.0.op == op
    ensures r.Ok? ==> (r.value.0.lhs.None? <==> lhs.None?)
    ensures r.Ok? && lhs.Some? ==>
      r.value.0.lhs.value == ToExpression(lhs.value, false, nextId).0
      && r.value.0.rhs == ToExpression(rhs, true, ToExpression(lhs.value, false, nextId).1).0
    ensures r.Ok? && lhs.None? ==> r.value.0.rhs == ToExpression(rhs, true, nextId).0
    ensures r.Err? ==> r.error.kind == InvalidArgument
  {
    if op !in valid then Fails(InvalidArgument, "Invalid operator: " + op)
    else
      match lhs
      case None =>
        var (right, next) := ToExpression(rhs, true, nextId);
        Ok((Op(op, None, right), next))
      case Some(l) =>
        var (left, mid) := ToExpression(l, false, nextId);
        var (right, next) := ToExpression(rhs, true, mid);
        Ok((Op(op, Some(left), right), next))
  }

  /** The unary test case: no left operand, an expression right operand kept as given. */
  lemma UnaryOperatorKeepsOperands(e: Expr, nextId: nat)
    ensures NewOperator(["foo"], "foo", None, Node(e), nextId) == Ok((Op("foo", None, e), nextId))
  {
  }

  /*** SQLFunction ***/

  /** Flatten nested PHP arrays into their leaves, in order. */
  function FlattenValue(v: Value): (r: seq<Value>)
    ensures forall i :: 0 <= i < |r| ==> !r[i].VArray?
    ensures !v.VArray? ==> r == [v]
    decreases v, 1
  {
    if v.VArray? then FlattenValues(v.items) else [v]
  }

  function FlattenValues(vs: seq<Value>): (r: seq<Value>)
    ensures forall i :: 0 <= i < |r| ==> !r[i].VArray?
    ensures (forall i :: 0 <= i < |vs| ==> !vs[i].VArray?) ==> r == vs
    decreases vs, 0
  {
    if |vs| == 0 then []
    else
      var r := FlattenValue(vs[0]) + FlattenValues(vs[1..]);
      assert (forall i :: 0 <= i < |vs| ==> !vs[i].VArray?) ==> r == [vs[0]] + vs[1..];
      r
  }

  predicate Flat(args: seq<Operand>) {
    forall i :: 0 <= i < |args| ==> !(args[i].Plain? && args[i].v.VArray?)
  }

  function PlainAll(vs: seq<Value>): (r: seq<Operand>)
    ensures |r| == |vs|
    ensures forall i :: 0 <= i < |vs| ==> r[i] == Plain(vs[i])
  {
    seq(|vs|, i requires 0 <= i < |vs| => Plain(vs[i]))
  }

  /** WF::flatten_array over the argument list: arrays are replaced by their leaves. */
  function Flatten(args: seq<Operand>): (r: seq<Operand>)
    ensures Flat(r)
    ensures Flat(args) ==> r == args
    decreases |args|
  {
    if |args| == 0 then []
    else
      var head := match args[0]
        case Node(e) => [Node(e)]
        case Plain(v) => PlainAll(FlattenValue(v));
      assert Flat(head);
      var rest := Flatten(args[1..]);
      assert Flat(args) ==> Flat(args[1..]) by {
        if Flat(args) {
          forall i | 0 <= i < |args[1..]| ensures !(args[1..][i].Plain? && args[1..][i].v.VArray?) {
            assert args[1..][i] == args[i + 1];
          }
        }
      }
      assert Flat(args) ==> head == [args[0]];
      assert Flat(args) ==> [args[0]] + args[1..] == args;
      head + rest
  }

  /** Flattening twice is flattening once. */
  lemma FlattenIdempotent(args: seq<Operand>)
    ensures Flatten(Flatten(args)) == Flatten(args)
  {
  }

  /** Convert arguments in order, strings as field names. */
  function ConvertArguments(args: seq<Operand>, nextId: nat): (r: (seq<Expr>, nat))
    ensures |r.0| == |args|
    ensures r.1 >= nextId
    ensures forall i :: 0 <= i < |args| && args[i].Node? ==> r.0[i] == args[i].e
    ensures forall i :: 0 <= i < |args| && args[i].Plain? && args[i].v.VStr? ==> r.0[i] == Field(args[i].v.s)
    decreases |args|
  {
    if |args| == 0 then ([], nextId)
    else
      var (e, mid) := ToExpression(args[0], false, nextId);
      var (es, next) := ConvertArguments(args[1..], mid);
      assert forall i :: 1 <= i < |args| ==> args[i] == args[1..][i - 1];
      ([e] + es, next)
  }

  /** new SQLFunction(name, args...): flattened, then each argument added in order. */
  function NewFunction(name: string, args: seq<Operand>, nextId: nat): (r: (Expr, nat))
    ensures r.0.Func? && r.0.fname == name
    ensures |r.0.args| == |Flatten(args)|
    ensures r.0.args == ConvertArguments(Flatten(args), nextId).0
    ensures Flat(args) ==> |r.0.args| == |args|
    ensures Flat(args) ==> forall i :: 0 <= i < |args| && args[i].Node? ==> r.0.args[i] == args[i].e
  {
    var (es, next) := ConvertArguments(Flatten(args), nextId);
    (Func(name, es), next)
  }

  /** addArgument: the converted argument goes at the end. */
  function AddArgument(f: Expr, arg: Operand, nextId: nat): (r: (Expr, nat))
    requires f.Func?
    ensures r.0.Func? && r.0.fname == f.fname
    ensures r.0.args == f.args + [ToExpression(arg, false, nextId).0]
  {
    var (e, next) := ToExpression(arg, false, nextId);
    (f.(args := f.args + [e]), next)
  }

  lemma {:induction false} ConvertArgumentsAppend(args: seq<Operand>, a: Operand, nextId: nat)
    ensures ConvertArguments(args + [a], nextId).0 ==
      ConvertArguments(args, nextId).0 + [ToExpression(a, false, ConvertArguments(args, nextId).1).0]
    ensures ConvertArguments(args + [a], nextId).1 == ToExpression(a, false, ConvertArguments(args, nextId).1).1
    decreases |args|
  {
    if |args| == 0 {
      assert [] + [a] == [a];
    } else {
      assert (args + [a])[1..] == args[1..] + [a];
      ConvertArgumentsAppend(args[1..], a, ToExpression(args[0], false, nextId).1);
    }
  }

  /** Constructing with one more (non-array) argument is constructing, then adding it. */
  lemma NewFunctionThenAdd(name: string, args: seq<Operand>, a: Operand, nextId: nat)
    requires Flat(args) && !(a.Plain? && a.v.VArray?)
    ensures NewFunction(name, args + [a], nextId) ==
      AddArgument(NewFunction(name, args, nextId).0, a, NewFunction(name, args, nextId).1)
  {
    assert Flat(args + [a]);
    ConvertArgumentsAppend(args, a, nextId);
  }

  /*** Rendering ***/

  /** The constant nodes an expression contains. */
  function Ids(e: Expr): set<nat>
    decreases e, 1
  {
    match e
    case Const(id, _) => {id}
    case Field(_) => {}
    case Func(_, args) => IdsList(args)
    case Op(_, lhs, rhs) => (if lhs.Some? then Ids(lhs.value) else {}) + Ids(rhs)
  }

  function IdsList(es: seq<Expr>): set<nat>
    decreases es, 0
  {
    if |es| == 0 then {} else Ids(es[0]) + IdsList(es[1..])
  }

  function Parenthesize(s: string, nested: bool): string {
    if nested then "(" + s + ")" else s
  }

  /** The driver's toSQL for an expression; `nested` is the inner-clause flag. */
  function Render(p: Params, e: Expr, nested: bool): (r: (Params, string))
    ensures r.0.driver == p.driver && r.0.tables == p.tables && r.0.nextScope == p.nextScope
    decreases e, 1
  {
    match e
    case Const(id, v) =>
      var (q, name) := Bind(p, id, v);
      (q, ":" + name)
    case Field(name) => (p, IdentQuote(p.driver.dialect, name))
    case Func(name, args) =>
      var (q, parts) := RenderList(p, args);
      (q, name + "(" + Join(parts, ", ") + ")")
    case Op(op, None, rhs) =>
      var (q, right) := Render(p, rhs, true);
      (q, Parenthesize(op + " " + right, nested))
    case Op(op, Some(lhs), rhs) =>
      var (q1, left) := Render(p, lhs, true);
      var (q2, right) := Render(q1, rhs, true);
      (q2, Parenthesize(left + " " + op + " " + right, nested))
  }

  /** Render each expression in order with the nested flag false. */
  function RenderList(p: Params, es: seq<Expr>): (r: (Params, seq<string>))
    ensures |r.1| == |es|
    ensures r.0.driver == p.driver && r.0.tables == p.tables && r.0.nextScope == p.nextScope
    decreases es, 0
  {
    if |es| == 0 then (p, [])
    else
      var (q, first) := Render(p, es[0], false);
      var (q', rest) := RenderList(q, es[1..]);
      (q', [first] + rest)
  }

  /** A function call renders as its name verbatim, then the arguments in parentheses. */
  lemma RenderFunctionShape(p: Params, name: string, args: seq<Expr>, nested: bool)
    ensures var s := Render(p, Func(name, args), nested).1;
      StartsWith(s, name + "(") && s[|s| - 1] == ')'
    ensures |args| == 0 ==> Render(p, Func(name, args), nested) == (p, name + "()")
  {
    var s := Render(p, Func(name, args), nested).1;
    var inner := Join(RenderList(p, args).1, ", ");
    assert s == (name + "(") + inner + ")";
    assert s[..|name + "("|] == name + "(";
    if |args| == 0 {
      assert RenderList(p, args) == (p, []);
      assert name + "(" + "" + ")" == name + "()";
    }
  }

  /** `q` knows every placeholder `p` knows, under the same names. */
  predicate Extends(q: Params, p: Params) {
    && q.driver == p.driver
    && (forall id :: id in p.bound ==> id in q.bound && q.bound[id] == p.bound[id])
  }

  lemma {:induction false} RenderExtends(p: Params, e: Expr, nested: bool)
    ensures Extends(Render(p, e, nested).0, p)
    ensures Ids(e) <= Render(p, e, nested).0.bound.Keys
    decreases e, 1
  {
    match e
    case Const(id, v) =>
    case Field(_) =>
    case Func(name, args) =>
      RenderListExtends(p, args);
    case Op(op, None, rhs) =>
      RenderExtends(p, rhs, true);
    case Op(op, Some(lhs), rhs) =>
      RenderExtends(p, lhs, true);
      RenderExtends(Render(p, lhs, true).0, rhs, true);
  }

  lemma {:induction false} RenderListExtends(p: Params, es: seq<Expr>)
    ensures Extends(RenderList(p, es).0, p)
    ensures IdsList(es) <= RenderList(p, es).0.bound.Keys
    decreases es, 0
  {
    if |es| > 0 {
      RenderExtends(p, es[0], false);
      RenderListExtends(Render(p, es[0], false).0, es[1..]);
    }
  }

  /**
   * Rendering again against any parameters that extend the first result
   * gives the same text and binds nothing new: every constant node keeps
   * the placeholder it got the first time.
   */
  lemma {:induction false} RenderReplay(p: Params, e: Expr, nested: bool, q: Params)
    requires Extends(q, Render(p, e, nested).0)
    ensures Render(q, e, nested) == (q, Render(p, e, nested).1)
    decreases e, 1
  {
    match e
    case Const(id, v) =>
    case Field(_) =>
    case Func(name, args) =>
      RenderListReplay(p, args, q);
    case Op(op, None, rhs) =>
      RenderReplay(p, rhs, true, q);
    case Op(op, Some(lhs), rhs) =>
      var p1 := Render(p, lhs, true).0;
      RenderExtends(p1, rhs, true);
      RenderReplay(p, lhs, true, q);
      RenderReplay(p1, rhs, true, q);
  }

  lemma {:induction false} RenderListReplay(p: Params, es: seq<Expr>, q: Params)
    requires Extends(q, RenderList(p, es).0)
    ensures RenderList(q, es) == (q, RenderList(p, es).1)
    decreases es, 0
  {
    if |es| > 0 {
      var p1 := Render(p, es[0], false).0;
      RenderListExtends(p1, es[1..]);
      RenderReplay(p, es[0], false, q);
      RenderListReplay(p1, es[1..], q);
    }
  }

  /** Rendering the same expression twice: same text, no new placeholder. */
  lemma RenderTwice(p: Params, e: Expr, nested: bool)
    ensures var (p1, s1) := Render(p, e, nested); Render(p1, e, nested) == (p1, s1)
  {
    RenderReplay(p, e, nested, Render(p, e, nested).0);
  }

  /** Rendering only ever adds bindings; earlier placeholders stay where they are. */
  lemma {:induction false} RenderAppendsBindings(p: Params, e: Expr, nested: bool)
    ensures |p.bindings| <= |Render(p, e, nested).0.bindings|
    ensures Render(p, e, nested).0.bindings[..|p.bindings|] == p.bindings
    ensures Coherent(p) ==> Coherent(Render(p, e, nested).0)
    decreases e, 1
  {
    match e
    case Const(id, v) =>
      if Coherent(p) { BindCoherent(p, id, v); }
    case Field(_) =>
    case Func(name, args) =>
      RenderListAppendsBindings(p, args);
    case Op(op, None, rhs) =>
      RenderAppendsBindings(p, rhs, true);
    case Op(op, Some(lhs), rhs) =>
      var p1 := Render(p, lhs, true).0;
      RenderAppendsBindings(p, lhs, true);
      RenderAppendsBindings(p1, rhs, true);
      var p2 := Render(p1, rhs, true).0;
      assert p2.bindings[..|p.bindings|] == p2.bindings[..|p1.bindings|][..|p.bindings|];
  }

  lemma {:induction false} RenderListAppendsBindings(p: Params, es: seq<Expr>)
    ensures |p.bindings| <= |RenderList(p, es).0.bindings|
    ensures RenderList(p, es).0.bindings[..|p.bindings|] == p.bindings
    ensures Coherent(p) ==> Coherent(RenderList(p, es).0)
    decreases es, 0
  {
    if |es| > 0 {
      var p1 := Render(p, es[0], false).0;
      RenderAppendsBindings(p, es[0], false);
      RenderListAppendsBindings(p1, es[1..]);
      var p2 := RenderList(p1, es[1..]).0;
      assert p2.bindings[..|p.bindings|] == p2.bindings[..|p1.bindings|][..|p.bindings|];
    }
  }

  /** Extension is transitive. */
  lemma ExtendsTrans(a: Params, b: Params, c: Params)
    requires Extends(a, b) && Extends(b, c)
    ensures Extends(a, c)
  {
  }

  /** An expression whose constant nodes are all bound already renders without binding anything. */
  lemma {:induction false} RenderKnown(p: Params, e: Expr, nested: bool)
    requires Ids(e) <= p.bound.Keys
    ensures Render(p, e, nested).0 == p
    decreases e, 1
  {
    match e
    case Const(id, v) =>
    case Field(_) =>
    case Func(name, args) =>
      RenderListKnown(p, args);
    case Op(op, None, rhs) =>
      RenderKnown(p, rhs, true);
    case Op(op, Some(lhs), rhs) =>
      RenderKnown(p, lhs, true);
      RenderKnown(p, rhs, true);
  }

  lemma {:induction false} RenderListKnown(p: Params, es: seq<Expr>)
    requires IdsList(es) <= p.bound.Keys
    ensures RenderList(p, es).0 == p
    decreases es, 0
  {
    if |es| > 0 {
      RenderKnown(p, es[0], false);
      RenderListKnown(p, es[1..]);
    }
  }

  /**
   * Each item of a rendered list, rendered alone against parameters that
   * extend the list's result, gives the text the list gave it and binds nothing.
   */
  lemma {:induction false} RenderListItems(p: Params, es: seq<Expr>, q: Params)
    requires Extends(q, RenderList(p, es).0)
    ensures forall k :: 0 <= k < |es| ==> Render(q, es[k], false) == (q, RenderList(p, es).1[k])
    decreases |es|
  {
    if |es| > 0 {
      var p1 := Render(p, es[0], false).0;
      RenderListExtends(p1, es[1..]);
      ExtendsTrans(q, RenderList(p1, es[1..]).0, p1);
      RenderReplay(p, es[0], false, q);
      RenderListItems(p1, es[1..], q);
      forall k | 1 <= k < |es| ensures Render(q, es[k], false) == (q, RenderList(p, es).1[k]) {
        assert es[k] == es[1..][k - 1];
      }
    }
  }

  /** Every member's constant nodes are among the list's. */
  lemma {:induction false} IdsListMember(es: seq<Expr>, k: nat)
    requires k < |es|
    ensures Ids(es[k]) <= IdsList(es)
    decreases |es|
  {
    if k > 0 {
      IdsListMember(es[1..], k - 1);
    }
  }
}

=== FILE: insert.dfy ===
/**
 * INSERT queries (src/Query/Insert.php): a target table, the record's
 * fields with their values as expressions, an optional primary-key
 * definition, an optional duplicate-key clause and the id the database
 * reported for the inserted row.
 */
module Inserts {
  import opened Wrappers
  import opened Strings
  import opened Values
  import opened Naming
  import opened Parameters
  import opened Expressions
  import opened TableClauses
  import opened Clauses

  /**
   * A PHP array key as written: a primary-key definition may be a list or
   * a map. PHP stores integer text as the integer (NormKey).
   */
  datatype Key = KInt(i: int) | KStr(s: string)

  datatype Insert = Insert(
    table: SourceTable,
    record: seq<(string, Expr)>,
    primaryKey: Option<seq<(Key, Value)>>,
    onDuplicate: Option<DuplicateKey>,
    insertedId: Option<seq<(Key, Value)>>)

  function FieldsOf(ins: Insert): (r: seq<string>)
    ensures |r| == |ins.record| && forall i :: 0 <= i < |r| ==> r[i] == ins.record[i].0
  {
    seq(|ins.record|, i requires 0 <= i < |ins.record| => ins.record[i].0)
  }

  function ValuesOf(ins: Insert): (r: seq<Expr>)
    ensures |r| == |ins.record| && forall i :: 0 <= i < |r| ==> r[i] == ins.record[i].1
  {
    seq(|ins.record|, i requires 0 <= i < |ins.record| => ins.record[i].1)
  }

  /**
   * The record's values converted in order with strings as constants: an
   * expression is kept, every plain value becomes a new constant node whose
   * id is fresh and larger than the ids of the values before it.
   */
  function ConvertRecord(record: seq<(string, Operand)>, nextId: nat): (r: (seq<(string, Expr)>, nat))
    ensures |r.0| == |record| && r.1 >= nextId
    ensures forall i :: 0 <= i < |record| ==> r.0[i].0 == record[i].0
    ensures forall i :: 0 <= i < |record| && record[i].1.Node? ==> r.0[i].1 == record[i].1.e
    ensures forall i :: 0 <= i < |record| && record[i].1.Plain? ==>
      r.0[i].1.Const? && r.0[i].1.value == record[i].1.v && nextId <= r.0[i].1.id < r.1
    ensures forall i, j :: 0 <= i < j < |record| && record[i].1.Plain? && record[j].1.Plain? ==>
      r.0[i].1.id < r.0[j].1.id
    decreases |record|
  {
    if |record| == 0 then ([], nextId)
    else
      var (e, mid) := ToExpression(record[0].1, true, nextId);
      var (rest, next) := ConvertRecord(record[1..], mid);
      assert forall i :: 1 <= i < |record| ==> record[i] == record[1..][i - 1];
      ([(record[0].0, e)] + rest, next)
  }

  /**
   * new Insert(table, record, primary_key = []): a table name becomes a
   * source table, a source table is kept; the record is converted; an
   * empty primary-key definition is not stored. Any other table object is
   * handed to the SourceTableClause constructor, which is not part of this
   * model, and is rejected here.
   */
  function NewInsert(table: TableArg, record: seq<(string, Operand)>, pk: seq<(Key, Value)>, nextId: nat): (r: Result<(Insert, nat)>)
    ensures r.Ok? <==> table.TableName? || (table.TableObject? && table.ref.BySource?)
    ensures r.Ok? && table.TableName? ==> r.value.0.table == SourceTable(table.name, "")
    ensures r.Ok? && table.TableObject? ==> r.value.0.table == table.ref.src
    ensures r.Ok? ==> FieldsOf(r.value.0) == seq(|record|, i requires 0 <= i < |record| => record[i].0)
    ensures r.Ok? ==> r.value.0.primaryKey == (if pk == [] then None else Some(pk))
    ensures r.Ok? ==> r.value.0.onDuplicate.None? && r.value.0.insertedId.None?
  {
    var source :- match table
      case TableName(name) => Ok(SourceTable(name, ""))
      case TableObject(BySource(s)) => Ok(s)
      case TableObject(ByClause(tc)) => Fails(Fatal, "SourceTableClause of a table clause: " + tc.table)
      case OtherArg(d) => Fails(Fatal, "SourceTableClause of: " + d);
    var (entries, next) := ConvertRecord(record, nextId);
    Ok((Insert(source, entries, if pk == [] then None else Some(pk), None, None), next))
  }

  /** The update fields for the record entries whose field is not an index field, in record order. */
  function UpdatesFor(entries: seq<(string, Expr)>, indexFields: seq<string>): (r: seq<UpdateField>)
    ensures |r| <= |entries|
    ensures forall k :: 0 <= k < |r| ==>
      r[k].field !in indexFields && exists j :: 0 <= j < |entries| && entries[j] == (r[k].field, r[k].value)
    ensures forall j :: 0 <= j < |entries| && entries[j].0 !in indexFields ==>
      UpdateField(entries[j].0, entries[j].1) in r
    decreases |entries|
  {
    if |entries| == 0 then []
    else
      var rest := UpdatesFor(entries[1..], indexFields);
      assert forall j :: 1 <= j < |entries| ==> entries[j] == entries[1..][j - 1];
      if entries[0].0 in indexFields then rest
      else [UpdateField(entries[0].0, entries[0].1)] + rest
  }

  /**
   * updateOnDuplicateKey(index_fields...): every field not among the index
   * fields (strict comparison) is updated to its own insert value.
   */
  function UpdateOnDuplicateKey(ins: Insert, indexFields: seq<string>): (r: Insert)
    ensures r.onDuplicate.Some? && r.onDuplicate.value.conflicting == indexFields
    ensures r == ins.(onDuplicate := r.onDuplicate)
  {
    ins.(onDuplicate := Some(DuplicateKey(indexFields, UpdatesFor(ins.record, indexFields))))
  }

  /** An update is in the clause exactly when its field is not an index field and it pairs a field of the record with that field's value. */
  lemma UpdateOnDuplicateKeyUpdates(ins: Insert, indexFields: seq<string>, u: UpdateField)
    ensures u in UpdateOnDuplicateKey(ins, indexFields).onDuplicate.value.updates <==>
      u.field !in indexFields && (u.field, u.value) in ins.record
  {
    var us := UpdateOnDuplicateKey(ins, indexFields).onDuplicate.value.updates;
    if u.field !in indexFields && (u.field, u.value) in ins.record {
      var j :| 0 <= j < |ins.record| && ins.record[j] == (u.field, u.value);
      assert UpdateField(ins.record[j].0, ins.record[j].1) in us;
    }
    if u in us {
      var k :| 0 <= k < |us| && us[k] == u;
      var j :| 0 <= j < |ins.record| && ins.record[j] == (us[k].field, us[k].value);
    }
  }

  function SetPrimaryKey(ins: Insert, pk: seq<(Key, Value)>): (r: Insert)
    ensures r.primaryKey == Some(pk) && r == ins.(primaryKey := r.primaryKey)
  {
    ins.(primaryKey := Some(pk))
  }

  /*** setInsertId ***/

  /** The id setInsertId receives: a plain value, or a keyed array of values. */
  datatype InsertedId = IdValue(v: Value) | IdRow(entries: seq<(Key, Value)>)

  /**
   * The key PHP stores for `k`: a string that is the canonical decimal
   * text of an integer ("7", "-3"; not "07" or "-0") becomes that integer.
   */
  function NormKey(k: Key): (r: Key)
    ensures r.KStr? ==> r == k
    ensures r != k ==> k.KStr? && r.KInt? && IntToString(r.i) == k.s
  {
    if k.KStr? && IsIntKeyText(k.s) then KInt(StringToInt(k.s)) else k
  }

  /** The text of every integer is stored as that integer, and other keys stay as they are. */
  lemma NormKeyOfIntText(i: int, k: Key)
    requires k.KInt? || (k.KStr? && forall j: int :: IntToString(j) != k.s)
    ensures NormKey(KStr(IntToString(i))) == KInt(i)
    ensures NormKey(k) == k
  {
    IntToStringReads(i);
  }

  /** Normalising twice is normalising once. */
  lemma NormKeyIdempotent(k: Key)
    ensures NormKey(NormKey(k)) == NormKey(k)
  {
  }

  /** The first entry whose key names the same array slot as `k`. */
  function FirstKeyed(entries: seq<(Key, Value)>, k: Key): (r: Option<Value>)
    ensures r.Some? ==> exists j :: 0 <= j < |entries| && NormKey(entries[j].0) == NormKey(k) && entries[j].1 == r.value
    ensures r.None? ==> forall j :: 0 <= j < |entries| ==> NormKey(entries[j].0) != NormKey(k)
    decreases |entries|
  {
    if |entries| == 0 then None
    else if NormKey(entries[0].0) == NormKey(k) then Some(entries[0].1)
    else
      var r := FirstKeyed(entries[1..], k);
      assert forall j :: 1 <= j < |entries| ==> entries[j] == entries[1..][j - 1];
      r
  }

  /** The integer a key reads as when it indexes a string: an integer, or integer text. */
  function OffsetIndex(k: Key): Option<int> {
    match k
    case KInt(i) => Some(i)
    case KStr(t) => if IsIntegerText(t) then Some(StringToInt(t)) else None
  }

  /**
   * The offset `isset($s[$k])` tests in a string of length `len`: the
   * integer the key reads as, counted from the end when negative.
   */
  function StringOffset(len: nat, k: Key): (r: Option<nat>)
    ensures r.Some? <==> OffsetIndex(k).Some? && 0 <= OffsetIndex(k).value + len && OffsetIndex(k).value < len
    ensures r.Some? ==> r.value < len && r.value == OffsetIndex(k).value % len
  {
    match OffsetIndex(k)
    case None => None
    case Some(i) =>
      if 0 <= i < len then Some(i)
      else if 0 <= i + len && i < 0 then Some(i + len)
      else None
  }

  /**
   * isset($id[$field]) and the value it guards: a present, non-null entry
   * of a keyed array or of a list, under PHP's key normalisation; the
   * one-character string at that offset of a string id. Null, booleans
   * and integers hold nothing; objects are treated likewise.
   */
  function IssetAt(id: InsertedId, k: Key): (r: Option<Value>)
    ensures r.Some? ==> r.value != VNull
    ensures id.IdRow? ==> (r.Some? <==> FirstKeyed(id.entries, k).Some? && FirstKeyed(id.entries, k).value != VNull)
    ensures id.IdValue? && id.v.VStr? ==> (r.Some? <==> StringOffset(|id.v.s|, k).Some?)
    ensures id.IdValue? && id.v.VStr? && r.Some? ==> r.value == VStr([id.v.s[StringOffset(|id.v.s|, k).value]])
    ensures id.IdValue? && (IsScalar(id.v) || id.v.VNull?) && !id.v.VStr? ==> r.None?
  {
    match id
    case IdRow(entries) =>
      var v := FirstKeyed(entries, k);
      if v.Some? && v.value != VNull then v else None
    case IdValue(VArray(items)) =>
      var n := NormKey(k);
      if n.KInt? && 0 <= n.i < |items| && items[n.i] != VNull then Some(items[n.i]) else None
    case IdValue(VStr(s)) =>
      var j := StringOffset(|s|, k);
      if j.Some? then Some(VStr([s[j.value]])) else None
    case IdValue(_) => None
  }

  /** A key and its normal form find the same entry. */
  lemma IssetAtNormal(id: InsertedId, k: Key)
    ensures IssetAt(id, NormKey(k)) == IssetAt(id, k)
  {
    NormKeyIdempotent(k);
    if id.IdRow? {
      FirstKeyedNormal(id.entries, k);
    }
    if k != NormKey(k) {
      IntToStringReads(NormKey(k).i);
    }
  }

  lemma {:induction false} FirstKeyedNormal(entries: seq<(Key, Value)>, k: Key)
    ensures FirstKeyed(entries, NormKey(k)) == FirstKeyed(entries, k)
    decreases |entries|
  {
    NormKeyIdempotent(k);
    if |entries| > 0 {
      FirstKeyedNormal(entries[1..], k);
    }
  }

  /** A string id holds its characters at offsets 0 .. |s|-1 and, counted from the end, at -|s| .. -1; nothing beyond. */
  lemma StringIdOffsets(s: string, i: int)
    ensures 0 <= i < |s| ==> IssetAt(IdValue(VStr(s)), KInt(i)) == Some(VStr([s[i]]))
    ensures 0 <= i < |s| ==> IssetAt(IdValue(VStr(s)), KInt(i - |s|)) == Some(VStr([s[i]]))
    ensures (i >= |s| || i < -|s|) ==> IssetAt(IdValue(VStr(s)), KInt(i)).None?
  {
    if 0 <= i < |s| {
      assert StringOffset(|s|, KInt(i)) == Some(i);
      assert StringOffset(|s|, KInt(i - |s|)) == Some(i);
    } else if i >= |s| || i < -|s| {
      assert StringOffset(|s|, KInt(i)).None?;
    }
  }

  /** The primary-key fields the id provides, in primary-key order, under the keys PHP stores. */
  function PresentKeys(pk: seq<(Key, Value)>, id: InsertedId): (r: seq<(Key, Value)>)
    ensures |r| <= |pk|
    decreases |pk|
  {
    if |pk| == 0 then []
    else
      var rest := PresentKeys(pk[1..], id);
      match IssetAt(id, pk[0].0)
      case Some(v) => [(NormKey(pk[0].0), v)] + rest
      case None => rest
  }

  /**
   * setInsertId: a scalar id for a single-field primary key is keyed by that
   * field; then every primary-key field the id provides is recorded. A
   * scalar id with no primary key set fails, as count(null) does in PHP 8; a
   * non-scalar id with no primary key set records nothing.
   */
  function SetInsertId(ins: Insert, id: InsertedId): (r: Result<Insert>)
    ensures r.Err? <==> id.IdValue? && IsScalar(id.v) && ins.primaryKey.None?
    ensures r.Ok? ==> r.value == ins.(insertedId := r.value.insertedId) && r.value.insertedId.Some?
  {
    if id.IdValue? && IsScalar(id.v) && ins.primaryKey.None? then
      Fails(Fatal, "count(): Argument #1 ($value) must be of type Countable|array, null given")
    else
      var pk := ins.primaryKey.GetOr([]);
      var row := if id.IdValue? && IsScalar(id.v) && |pk| == 1 then IdRow([(pk[0].0, id.v)]) else id;
      Ok(ins.(insertedId := Some(PresentKeys(pk, row))))
  }

  /** An entry is recorded exactly when its key is a primary-key field (as PHP stores it) and the id holds a non-null value for it. */
  lemma {:induction false} PresentKeysMembers(pk: seq<(Key, Value)>, id: InsertedId, k: Key, v: Value)
    ensures (k, v) in PresentKeys(pk, id) <==>
      (exists j :: 0 <= j < |pk| && NormKey(pk[j].0) == k) && IssetAt(id, k) == Some(v)
    decreases |pk|
  {
    if |pk| > 0 {
      PresentKeysMembers(pk[1..], id, k, v);
      assert forall j :: 1 <= j < |pk| ==> pk[j] == pk[1..][j - 1];
      IssetAtNormal(id, pk[0].0);
      if (exists j :: 0 <= j < |pk| && NormKey(pk[j].0) == k) && IssetAt(id, k) == Some(v) {
        var j :| 0 <= j < |pk| && NormKey(pk[j].0) == k;
        if j > 0 {
          assert NormKey(pk[1..][j - 1].0) == k;
        }
      }
    }
  }

  /** A scalar id for a single-field key is recorded under that field. */
  lemma SetInsertIdSingleKey(ins: Insert, v: Value)
    requires IsScalar(v) && ins.primaryKey.Some? && |ins.primaryKey.value| == 1
    ensures SetInsertId(ins, IdValue(v)) == Ok(ins.(insertedId := Some([(NormKey(ins.primaryKey.value[0].0), v)])))
  {
    var pk := ins.primaryKey.value;
    var row := IdRow([(pk[0].0, v)]);
    assert pk[1..] == [];
    assert PresentKeys(pk[1..], row) == [];
    assert FirstKeyed([(pk[0].0, v)], pk[0].0) == Some(v);
    assert IssetAt(row, pk[0].0) == Some(v);
    assert PresentKeys(pk, row) == [(NormKey(pk[0].0), v)] + [];
    assert [(NormKey(pk[0].0), v)] + [] == [(NormKey(pk[0].0), v)];
    assert SetInsertId(ins, IdValue(v)) == Ok(ins.(insertedId := Some(PresentKeys(pk, row))));
  }

  /** A keyed id is restricted to the primary-key fields, dropping absent and null entries. */
  lemma SetInsertIdRow(ins: Insert, entries: seq<(Key, Value)>, k: Key, v: Value)
    requires ins.primaryKey.Some?
    ensures var r := SetInsertId(ins, IdRow(entries));
      r.Ok? && ((k, v) in r.value.insertedId.value <==>
        (exists j :: 0 <= j < |ins.primaryKey.value| && NormKey(ins.primaryKey.value[j].0) == k)
        && v != VNull && FirstKeyed(entries, k) == Some(v))
  {
    PresentKeysMembers(ins.primaryKey.value, IdRow(entries), k, v);
  }

  /** The insert-id test: primary key ['id' => 'id'], id 5, recorded as ['id' => 5]. */
  lemma InsertIdExample(record: seq<(string, Operand)>)
    ensures var ins := NewInsert(TableName("test_table"), record, [(KStr("id"), VStr("id"))], 0).value.0;
      SetInsertId(ins, IdValue(VInt(5))).value.insertedId == Some([(KStr("id"), VInt(5))])
  {
    var ins := NewInsert(TableName("test_table"), record, [(KStr("id"), VStr("id"))], 0).value.0;
    SetInsertIdSingleKey(ins, VInt(5));
    var id := "id";
    assert id[0] == 'i';
    assert !IsIntegerText(id);
  }

  /**
   * A string id under a two-field list key is read by offset: the key
   * ['id', 'x'] and the id "12" record [0 => "1", 1 => "2"].
   */
  lemma SetInsertIdStringOffsets(ins: Insert)
    requires ins.primaryKey == Some([(KInt(0), VStr("id")), (KInt(1), VStr("x"))])
    ensures SetInsertId(ins, IdValue(VStr("12"))) == Ok(ins.(insertedId := Some([(KInt(0), VStr("1")), (KInt(1), VStr("2"))])))
  {
    var pk := ins.primaryKey.value;
    var id := IdValue(VStr("12"));
    var s := "12";
    StringIdOffsets(s, 0);
    StringIdOffsets(s, 1);
    assert [s[0]] == "1" && [s[1]] == "2";
    assert IssetAt(id, pk[0].0) == Some(VStr("1"));
    assert IssetAt(id, pk[1..][0].0) == Some(VStr("2"));
    assert pk[1..][1..] == [];
    assert PresentKeys(pk[1..], id) == [(KInt(1), VStr("2"))] + [];
    assert PresentKeys(pk, id) == [(KInt(0), VStr("1"))] + [(KInt(1), VStr("2"))];
    assert [(KInt(0), VStr("1"))] + [(KInt(1), VStr("2"))] == [(KInt(0), VStr("1")), (KInt(1), VStr("2"))];
    assert IsScalar(VStr(s)) && |pk| != 1;
    assert SetInsertId(ins, id) == Ok(ins.(insertedId := Some(PresentKeys(pk, id))));
  }

  /*** toSQL ***/

  /** A parenthesised, comma-separated list. */
  function ListText(xs: seq<string>): (r: string)
    ensures |r| > 0 && r[0] == '('
  {
    "(" + Join(xs, ", ") + ")"
  }

  /** The parts of the rendering: INSERT INTO, table, fields, VALUES, values, and the duplicate-key clause if any. */
  function InsertParts(p: Params, ins: Insert): (r: (Params, seq<string>))
    ensures |r.1| >= 5 && r.1[0] == "INSERT INTO" && r.1[1] == RenderSource(p, ins.table)
    ensures r.1[2] == ListText(QuoteAll(p.driver.dialect, FieldsOf(ins)))
    ensures r.1[3] == "VALUES" && r.1[4] == ListText(RenderList(p, ValuesOf(ins)).1)
    ensures |r.1| == 5 <==> ins.onDuplicate.None?
    ensures ins.onDuplicate.Some? ==>
      r.1[5] == RenderDuplicateKey(RenderList(p, ValuesOf(ins)).0, ins.onDuplicate.value).1
    ensures Extends(r.0, p) && r.0.tables == p.tables && r.0.nextScope == p.nextScope
  {
    var (q, vals) := RenderList(p, ValuesOf(ins));
    RenderListExtends(p, ValuesOf(ins));
    var head := ["INSERT INTO", RenderSource(p, ins.table), ListText(QuoteAll(p.driver.dialect, FieldsOf(ins))), "VALUES", ListText(vals)];
    match ins.onDuplicate
    case None => (q, head)
    case Some(dk) =>
      RenderUpdateFieldsExtends(q, dk.updates);
      (RenderDuplicateKey(q, dk).0, head + [RenderDuplicateKey(q, dk).1])
  }

  /** toSQL: the parts joined by spaces. */
  function RenderInsert(p: Params, ins: Insert): (r: (Params, string))
    ensures StartsWith(r.1, "INSERT INTO " + RenderSource(p, ins.table) + " (")
    ensures Extends(r.0, p) && r.0.tables == p.tables && r.0.nextScope == p.nextScope
  {
    var (q, parts) := InsertParts(p, ins);
    InsertTextStart(parts, RenderSource(p, ins.table), parts[2]);
    (q, Join(parts, " "))
  }

  lemma RenderInsertText(p: Params, ins: Insert)
    ensures RenderInsert(p, ins).1 == Join(InsertParts(p, ins).1, " ")
  {
  }

  lemma InsertTextStart(parts: seq<string>, source: string, fieldList: string)
    requires |parts| >= 3 && parts[0] == "INSERT INTO" && parts[1] == source && parts[2] == fieldList
    requires |fieldList| > 0 && fieldList[0] == '('
    ensures StartsWith(Join(parts, " "), "INSERT INTO " + source + " (")
  {
    var rest := parts[2..];
    JoinTwoHead(parts, " ");
    var j := Join(rest, " ");
    JoinStartsWith(rest, " ");
    assert j == "(" + j[1..];
    var pre := "INSERT INTO " + source + " ";
    assert "INSERT INTO" + " " + source + " " == pre;
    assert Join(parts, " ") == (pre + "(") + j[1..];
    PrefixOfAppend(pre + "(", j[1..]);
  }

  lemma {:induction false} RenderUpdateFieldsExtends(p: Params, us: seq<UpdateField>)
    ensures Extends(RenderUpdateFields(p, us).0, p)
    decreases |us|
  {
    if |us| > 0 {
      var p1 := RenderUpdateField(p, us[0]).0;
      RenderExtends(p, us[0].value, false);
      RenderUpdateFieldsExtends(p1, us[1..]);
    }
  }

  /** Update fields whose values are all bound already bind nothing and show each value's placeholder. */
  lemma {:induction false} RenderUpdateFieldsKnown(q: Params, us: seq<UpdateField>)
    requires forall k :: 0 <= k < |us| ==> Ids(us[k].value) <= q.bound.Keys
    ensures RenderUpdateFields(q, us).0 == q
    ensures forall k :: 0 <= k < |us| ==>
      RenderUpdateFields(q, us).1[k] == IdentQuote(q.driver.dialect, us[k].field) + " = " + Render(q, us[k].value, false).1
    decreases |us|
  {
    if |us| > 0 {
      RenderKnown(q, us[0].value, false);
      RenderUpdateFieldsStep(q, us);
      var rest := us[1..];
      assert forall k :: 0 <= k < |rest| ==> rest[k] == us[k + 1];
      RenderUpdateFieldsKnown(q, rest);
      var all := RenderUpdateFields(q, us).1;
      var tail := RenderUpdateFields(q, rest).1;
      forall k | 1 <= k < |us|
        ensures all[k] == IdentQuote(q.driver.dialect, us[k].field) + " = " + Render(q, us[k].value, false).1
      {
        assert all[k] == tail[k - 1] && rest[k - 1] == us[k];
      }
    }
  }

  /** A first field that binds nothing leaves the rest rendered from the same parameters. */
  lemma RenderUpdateFieldsStep(q: Params, us: seq<UpdateField>)
    requires |us| > 0 && Render(q, us[0].value, false).0 == q
    ensures RenderUpdateFields(q, us).0 == RenderUpdateFields(q, us[1..]).0
    ensures RenderUpdateFields(q, us).1 == [RenderUpdateField(q, us[0]).1] + RenderUpdateFields(q, us[1..]).1
  {
  }

  /** The values the duplicate-key updates carry are bound once the VALUES list is rendered. */
  lemma UpdatesBound(p: Params, base: Insert, indexFields: seq<string>, us: seq<UpdateField>, q: Params)
    requires us == UpdatesFor(base.record, indexFields) && q == RenderList(p, ValuesOf(base)).0
    ensures forall k :: 0 <= k < |us| ==> Ids(us[k].value) <= q.bound.Keys
  {
    var vs := ValuesOf(base);
    RenderListExtends(p, vs);
    forall k | 0 <= k < |us| ensures Ids(us[k].value) <= q.bound.Keys {
      var j :| 0 <= j < |base.record| && base.record[j] == (us[k].field, us[k].value);
      IdsListMember(vs, j);
    }
  }

  /**
   * The duplicate-key clause binds no new placeholder: rendering an insert
   * whose duplicate-key clause came from updateOnDuplicateKey binds exactly
   * what its VALUES list binds.
   */
  lemma DuplicateKeyBindsNothing(p: Params, base: Insert, indexFields: seq<string>)
    ensures RenderInsert(p, UpdateOnDuplicateKey(base, indexFields)).0 == RenderList(p, ValuesOf(base)).0
  {
    var q := RenderList(p, ValuesOf(base)).0;
    var us := UpdatesFor(base.record, indexFields);
    UpdatesBound(p, base, indexFields, us, q);
    RenderUpdateFieldsKnown(q, us);
    assert ValuesOf(UpdateOnDuplicateKey(base, indexFields)) == ValuesOf(base);
  }

  /** Each duplicate-key update shows the placeholder text its field received in the VALUES list. */
  lemma DuplicateKeyReusesPlaceholders(p: Params, base: Insert, indexFields: seq<string>)
    ensures var (q, vals) := RenderList(p, ValuesOf(base));
      var us := UpdatesFor(base.record, indexFields);
      forall k :: 0 <= k < |us| ==> ShowsPlaceholder(q, base.record, vals, us[k], RenderUpdateFields(q, us).1[k])
  {
    var vs := ValuesOf(base);
    var (q, vals) := RenderList(p, vs);
    var us := UpdatesFor(base.record, indexFields);
    RenderListItems(p, vs, q);
    UpdatesBound(p, base, indexFields, us, q);
    RenderUpdateFieldsKnown(q, us);
    var texts := RenderUpdateFields(q, us).1;
    PlaceholdersFromItems(q, base.record, vs, vals, us, texts);
  }

  /**
   * When every update field is one of the record's fields, and each record value
   * renders against q to its VALUES placeholder, each update text shows that placeholder.
   */
  lemma PlaceholdersFromItems(q: Params, record: seq<(string, Expr)>, vs: seq<Expr>, vals: seq<string>,
                              us: seq<UpdateField>, texts: seq<string>)
    requires |vs| == |record| == |vals| && |texts| == |us|
    requires forall j :: 0 <= j < |vs| ==> vs[j] == record[j].1 && Render(q, vs[j], false) == (q, vals[j])
    requires forall k :: 0 <= k < |us| ==> exists j :: 0 <= j < |record| && record[j] == (us[k].field, us[k].value)
    requires forall k :: 0 <= k < |us| ==>
      texts[k] == IdentQuote(q.driver.dialect, us[k].field) + " = " + Render(q, us[k].value, false).1
    ensures forall k :: 0 <= k < |us| ==> ShowsPlaceholder(q, record, vals, us[k], texts[k])
  {
    forall k | 0 <= k < |us| ensures ShowsPlaceholder(q, record, vals, us[k], texts[k]) {
      var j :| 0 <= j < |record| && record[j] == (us[k].field, us[k].value);
      assert vs[j] == us[k].value;
      assert texts[k] == IdentQuote(q.driver.dialect, us[k].field) + " = " + vals[j];
    }
  }

  /**
   * The update text names u's field and shows the placeholder vals gave a
   * record entry carrying u's field and value (q's driver is the one the
   * VALUES list was rendered with).
   */
  ghost predicate ShowsPlaceholder(q: Params, record: seq<(string, Expr)>, vals: seq<string>, u: UpdateField, text: string) {
    exists j :: 0 <= j < |record| && j < |vals| && record[j] == (u.field, u.value)
      && text == IdentQuote(q.driver.dialect, u.field) + " = " + vals[j]
  }

  /*** The insert test's toSQL cases, against PostgreSQL parameters ***/

  const TestTable := TableObject(BySource(SourceTable("test_table", "")))

  lemma JoinFive(a: string, b: string, c: string, d: string, e: string)
    ensures Join([a, b, c, d, e], " ") == a + " " + b + " " + c + " " + d + " " + e
  {
    assert [a, b, c, d, e] == [a] + [b, c, d, e];
    assert [b, c, d, e] == [b] + [c, d, e];
    assert [c, d, e] == [c] + [d, e];
    assert [d, e] == [d] + [e];
    JoinCons(d, [e], " ");
    JoinCons(c, [d, e], " ");
    JoinCons(b, [c, d, e], " ");
    JoinCons(a, [b, c, d, e], " ");
  }

  /** The fixed parts of the rendering: target table and field list. */
  lemma InsertHead(p: Params)
    requires p.driver == Driver(PGSQL, "")
    ensures RenderSource(p, SourceTable("test_table", "")) == "\"test_table\""
    ensures Join(QuoteAll(PGSQL, ["foo"]), ", ") == "\"foo\""
  {
    TestTableSource(p);
    OneFieldJoined();
  }

  lemma TestTableSource(p: Params)
    requires p.driver == Driver(PGSQL, "")
    ensures RenderSource(p, SourceTable("test_table", "")) == "\"test_table\""
  {
    UnaliasedPgsqlSource(p, SourceTable("test_table", ""));
    QuotedTestTable();
  }

  lemma QuotedTestTable()
    ensures ['"'] + "test_table" + ['"'] == "\"test_table\""
  {
  }

  /** Without a prefix or an alias, a PostgreSQL source is its name in double quotes. */
  lemma UnaliasedPgsqlSource(p: Params, s: SourceTable)
    requires p.driver == Driver(PGSQL, "") && s.alias == ""
    ensures RenderSource(p, s) == ['"'] + s.table + ['"']
  {
    assert "" + s.table == s.table;
  }

  lemma OneFieldJoined()
    ensures Join(QuoteAll(PGSQL, ["foo"]), ", ") == "\"foo\""
  {
    assert IdentQuote(PGSQL, "foo") == "\"foo\"";
    var one := QuoteAll(PGSQL, ["foo"]);
    assert one[0] == "\"foo\"";
    assert one == ["\"foo\""];
  }

  lemma TwoFieldList()
    ensures ListText(QuoteAll(PGSQL, ["foo", "uniqueval"])) == "(\"foo\", \"uniqueval\")"
  {
    TwoFieldQuoted();
    TwoFieldJoined();
    assert "(" + "\"foo\", \"uniqueval\"" + ")" == "(\"foo\", \"uniqueval\")";
  }

  lemma TwoFieldQuoted()
    ensures QuoteAll(PGSQL, ["foo", "uniqueval"]) == ["\"foo\"", "\"uniqueval\""]
  {
    assert IdentQuote(PGSQL, "foo") == "\"foo\"";
    assert IdentQuote(PGSQL, "uniqueval") == "\"uniqueval\"";
  }

  lemma TwoFieldJoined()
    ensures Join(["\"foo\"", "\"uniqueval\""], ", ") == "\"foo\", \"uniqueval\""
  {
    var two := ["\"foo\"", "\"uniqueval\""];
    assert two[1..] == ["\"uniqueval\""];
    assert "\"foo\"" + ", " + "\"uniqueval\"" == "\"foo\", \"uniqueval\"";
  }

  lemma TwoValueList()
    ensures ListText([":c0", ":c1"]) == "(:c0, :c1)"
  {
    assert Join([":c0", ":c1"], ", ") == ":c0" + ", " + ":c1";
  }

  /** The first constant node rendered against fresh parameters is bound as c0. */
  lemma RenderFirstConst(p: Params, id: nat, v: Value)
    requires p.bindings == [] && p.bound == map[]
    ensures Render(p, Const(id, v), false) == (p.(bindings := [("c0", v)], bound := map[id := "c0"]), ":c0")
  {
    assert Placeholder(0) == "c0" by { assert NatToString(0) == "0"; }
    assert p.bindings + [("c0", v)] == [("c0", v)];
    assert p.bound[id := "c0"] == map[id := "c0"];
    assert ":" + "c0" == ":c0";
  }

  /** A second, different constant node is bound as c1. */
  lemma RenderSecondConst(p: Params, id: nat, v: Value)
    requires |p.bindings| == 1 && id !in p.bound
    ensures Render(p, Const(id, v), false) == (p.(bindings := p.bindings + [("c1", v)], bound := p.bound[id := "c1"]), ":c1")
  {
    assert Placeholder(1) == "c1" by { assert NatToString(1) == "1"; }
    assert ":" + "c1" == ":c1";
  }

  /** The VALUES list of one fresh constant renders as [":c0"]. */
  lemma RenderOneValue(p: Params, id: nat, v: Value)
    requires p.bindings == [] && p.bound == map[]
    ensures RenderList(p, [Const(id, v)]).1 == [":c0"]
  {
    RenderFirstConst(p, id, v);
    var es := [Const(id, v)];
    assert es[1..] == [];
    var p1 := Render(p, es[0], false).0;
    assert RenderList(p1, es[1..]) == (p1, []);
    assert [":c0"] + [] == [":c0"];
  }

  /** One field, one value: 'INSERT INTO "test_table" ("foo") VALUES (:c0)'. */
  lemma ToSqlOneField()
    ensures var ins := NewInsert(TestTable, [("foo", Plain(VStr("bar")))], [], 0).value.0;
      RenderInsert(NewParams(Driver(PGSQL, "")), ins).1 == "INSERT INTO \"test_table\" (\"foo\") VALUES (:c0)"
  {
    var p := NewParams(Driver(PGSQL, ""));
    var ins := NewInsert(TestTable, [("foo", Plain(VStr("bar")))], [], 0).value.0;
    var parts := OneFieldParts(p, ins);
    RenderInsertText(p, ins);
    JoinFive(parts[0], parts[1], parts[2], parts[3], parts[4]);
    OneFieldText();
  }

  /** The five parts of the one-field case. */
  lemma OneFieldParts(p: Params, ins: Insert) returns (parts: seq<string>)
    requires p == NewParams(Driver(PGSQL, ""))
    requires ins == NewInsert(TestTable, [("foo", Plain(VStr("bar")))], [], 0).value.0
    ensures parts == ["INSERT INTO", "\"test_table\"", "(\"foo\")", "VALUES", "(:c0)"]
    ensures InsertParts(p, ins).1 == parts
  {
    assert ins.record == [("foo", Const(0, VStr("bar")))];
    assert FieldsOf(ins) == ["foo"];
    assert ValuesOf(ins) == [Const(0, VStr("bar"))];
    InsertHead(p);
    RenderOneValue(p, 0, VStr("bar"));
    assert ListText(["\"foo\""]) == "(\"foo\")";
    assert ListText([":c0"]) == "(:c0)";
    parts := ["INSERT INTO", "\"test_table\"", "(\"foo\")", "VALUES", "(:c0)"];
  }

  lemma OneFieldText()
    ensures "INSERT INTO" + " " + "\"test_table\"" + " " + "(\"foo\")" + " " + "VALUES" + " " + "(:c0)" ==
      "INSERT INTO \"test_table\" (\"foo\") VALUES (:c0)"
  {
    TargetText();
    OneFieldListText();
    OneFieldValuesText();
  }

  lemma TargetText()
    ensures "INSERT INTO" + " " + "\"test_table\"" == "INSERT INTO \"test_table\""
  {
  }

  lemma OneFieldListText()
    ensures "INSERT INTO \"test_table\"" + " " + "(\"foo\")" == "INSERT INTO \"test_table\" (\"foo\")"
  {
  }

  lemma OneFieldValuesText()
    ensures "INSERT INTO \"test_table\" (\"foo\")" + " " + "VALUES" + " " + "(:c0)" ==
      "INSERT INTO \"test_table\" (\"foo\") VALUES (:c0)"
  {
  }

  /** The two-field record of the second case, with its duplicate-key clause on uniqueval. */
  function UniqueInsert(): Insert {
    var ins := NewInsert(TestTable, [("foo", Plain(VStr("bar"))), ("uniqueval", Plain(VInt(3)))], [], 0).value.0;
    UpdateOnDuplicateKey(ins, ["uniqueval"])
  }

  lemma UniqueInsertShape()
    ensures UniqueInsert().record == [("foo", Const(0, VStr("bar"))), ("uniqueval", Const(1, VInt(3)))]
    ensures UniqueInsert().onDuplicate == Some(DuplicateKey(["uniqueval"], [UpdateField("foo", Const(0, VStr("bar")))]))
  {
    var input := [("foo", Plain(VStr("bar"))), ("uniqueval", Plain(VInt(3)))];
    var rec := [("foo", Const(0, VStr("bar"))), ("uniqueval", Const(1, VInt(3)))];
    assert input[1..] == [("uniqueval", Plain(VInt(3)))];
    assert input[1..][1..] == [];
    assert ConvertRecord(input[1..][1..], 2) == ([], 2);
    assert ConvertRecord(input[1..], 1) == ([("uniqueval", Const(1, VInt(3)))] + [], 2);
    assert ToExpression(input[0].1, true, 0) == (Const(0, VStr("bar")), 1);
    var r1 := ConvertRecord(input[1..], 1);
    assert [("uniqueval", Const(1, VInt(3)))] + [] == [("uniqueval", Const(1, VInt(3)))];
    var r0 := ConvertRecord(input, 0);
    assert r0.0 == [(input[0].0, Const(0, VStr("bar")))] + r1.0;
    assert ConvertRecord(input, 0) == ([("foo", Const(0, VStr("bar")))] + [("uniqueval", Const(1, VInt(3)))], 2);
    assert [("foo", Const(0, VStr("bar")))] + [("uniqueval", Const(1, VInt(3)))] == rec;
    assert UniqueInsert().record == rec;
    assert rec[1..] == [("uniqueval", Const(1, VInt(3)))];
    assert rec[1..][1..] == [];
    assert UpdatesFor(rec[1..], ["uniqueval"]) == [];
    assert [UpdateField("foo", Const(0, VStr("bar")))] + [] == [UpdateField("foo", Const(0, VStr("bar")))];
    assert UpdatesFor(rec, ["uniqueval"]) == [UpdateField("foo", Const(0, VStr("bar")))];
  }

  /** The VALUES list binds c0 and c1. */
  lemma UniqueInsertValues(p: Params)
    requires p == NewParams(Driver(PGSQL, ""))
    ensures RenderList(p, ValuesOf(UniqueInsert())).1 == [":c0", ":c1"]
    ensures var q := RenderList(p, ValuesOf(UniqueInsert())).0;
      q.driver == p.driver && 0 in q.bound && q.bound[0] == "c0"
  {
    UniqueInsertShape();
    var vs := ValuesOf(UniqueInsert());
    assert vs == [Const(0, VStr("bar")), Const(1, VInt(3))];
    var p1 := p.(bindings := [("c0", VStr("bar"))], bound := map[0 := "c0"]);
    RenderFirstConst(p, 0, VStr("bar"));
    assert vs[1..] == [Const(1, VInt(3))];
    assert vs[1..][1..] == [];
    RenderSecondConst(p1, 1, VInt(3));
    var p2 := Render(p1, vs[1], false).0;
    assert RenderList(p2, vs[1..][1..]) == (p2, []);
    assert RenderList(p1, vs[1..]) == (p2, [":c1"] + []);
    assert [":c1"] + [] == [":c1"];
    assert RenderList(p, vs) == (p2, [":c0"] + [":c1"]);
    assert [":c0"] + [":c1"] == [":c0", ":c1"];
  }

  /** Once c0 is bound, the update clause shows it again. */
  lemma UniqueInsertDuplicate(q: Params)
    requires q.driver == Driver(PGSQL, "") && 0 in q.bound && q.bound[0] == "c0"
    ensures RenderDuplicateKey(q, DuplicateKey(["uniqueval"], [UpdateField("foo", Const(0, VStr("bar")))])).1 ==
      "ON CONFLICT (\"uniqueval\") DO UPDATE SET \"foo\" = :c0"
  {
    var us := [UpdateField("foo", Const(0, VStr("bar")))];
    UniqueUpdateText(q, us);
    ConflictTargetText();
    assert Join(["\"foo\" = :c0"], ", ") == "\"foo\" = :c0";
    ConflictText();
  }

  lemma UniqueUpdateText(q: Params, us: seq<UpdateField>)
    requires q.driver == Driver(PGSQL, "") && 0 in q.bound && q.bound[0] == "c0"
    requires us == [UpdateField("foo", Const(0, VStr("bar")))]
    ensures RenderUpdateFields(q, us).1 == ["\"foo\" = :c0"]
  {
    assert ":" + "c0" == ":c0";
    assert Render(q, us[0].value, false) == (q, ":c0");
    assert IdentQuote(PGSQL, "foo") == "\"foo\"";
    assert "\"foo\"" + " = " + ":c0" == "\"foo\" = :c0";
    assert RenderUpdateField(q, us[0]) == (q, "\"foo\" = :c0");
    assert us[1..] == [];
    assert RenderUpdateFields(q, us[1..]) == (q, []);
    assert ["\"foo\" = :c0"] + [] == ["\"foo\" = :c0"];
  }

  lemma ConflictTargetText()
    ensures Join(QuoteAll(PGSQL, ["uniqueval"]), ", ") == "\"uniqueval\""
  {
    assert IdentQuote(PGSQL, "uniqueval") == "\"uniqueval\"";
    var quoted := QuoteAll(PGSQL, ["uniqueval"]);
    assert quoted[0] == "\"uniqueval\"";
    assert quoted == ["\"uniqueval\""];
  }

  lemma ConflictText()
    ensures "ON CONFLICT (" + "\"uniqueval\"" + ") DO UPDATE SET " + "\"foo\" = :c0" ==
      "ON CONFLICT (\"uniqueval\") DO UPDATE SET \"foo\" = :c0"
  {
    ConflictHeadText();
    ConflictSetText();
  }

  lemma ConflictHeadText()
    ensures "ON CONFLICT (" + "\"uniqueval\"" + ") DO UPDATE SET " == "ON CONFLICT (\"uniqueval\") DO UPDATE SET "
  {
  }

  lemma ConflictSetText()
    ensures "ON CONFLICT (\"uniqueval\") DO UPDATE SET " + "\"foo\" = :c0" ==
      "ON CONFLICT (\"uniqueval\") DO UPDATE SET \"foo\" = :c0"
  {
  }

  /** Two fields with an update on uniqueval: the clause reuses :c0 for foo. */
  lemma ToSqlOnDuplicate()
    ensures RenderInsert(NewParams(Driver(PGSQL, "")), UniqueInsert()).1 ==
      "INSERT INTO \"test_table\" (\"foo\", \"uniqueval\") VALUES (:c0, :c1)" + " "
      + "ON CONFLICT (\"uniqueval\") DO UPDATE SET \"foo\" = :c0"
  {
    var p := NewParams(Driver(PGSQL, ""));
    var ins := UniqueInsert();
    var parts := UniqueInsertParts(p);
    RenderInsertText(p, ins);
    JoinSix(parts);
    var first := parts[0] + " " + parts[1] + " " + parts[2] + " " + parts[3] + " " + parts[4];
    FivePartsText();
    assert first == "INSERT INTO \"test_table\" (\"foo\", \"uniqueval\") VALUES (:c0, :c1)";
    assert Join(parts, " ") == first + " " + parts[5];
  }

  /** The six parts the second case renders. */
  lemma UniqueInsertParts(p: Params) returns (parts: seq<string>)
    requires p == NewParams(Driver(PGSQL, ""))
    ensures parts == ["INSERT INTO", "\"test_table\"", "(\"foo\", \"uniqueval\")", "VALUES", "(:c0, :c1)",
      "ON CONFLICT (\"uniqueval\") DO UPDATE SET \"foo\" = :c0"]
    ensures InsertParts(p, UniqueInsert()).1 == parts
  {
    UniqueInsertShape();
    UniqueInsertValues(p);
    parts := UniqueInsertPartsOf(p, UniqueInsert());
  }

  /** The parts of any insert with the second case's table, record and duplicate-key clause. */
  lemma UniqueInsertPartsOf(p: Params, ins: Insert) returns (parts: seq<string>)
    requires p == NewParams(Driver(PGSQL, ""))
    requires ins.table == SourceTable("test_table", "")
    requires ins.record == [("foo", Const(0, VStr("bar"))), ("uniqueval", Const(1, VInt(3)))]
    requires ins.onDuplicate == Some(DuplicateKey(["uniqueval"], [UpdateField("foo", Const(0, VStr("bar")))]))
    requires RenderList(p, ValuesOf(ins)).1 == [":c0", ":c1"]
    requires var q := RenderList(p, ValuesOf(ins)).0; q.driver == p.driver && 0 in q.bound && q.bound[0] == "c0"
    ensures parts == ["INSERT INTO", "\"test_table\"", "(\"foo\", \"uniqueval\")", "VALUES", "(:c0, :c1)",
      "ON CONFLICT (\"uniqueval\") DO UPDATE SET \"foo\" = :c0"]
    ensures InsertParts(p, ins).1 == parts
  {
    var q := RenderList(p, ValuesOf(ins)).0;
    UniqueInsertDuplicate(q);
    InsertPartsWithDuplicate(p, ins);
    InsertHead(p);
    assert FieldsOf(ins) == ["foo", "uniqueval"];
    TwoFieldList();
    TwoValueList();
    parts := ["INSERT INTO", "\"test_table\"", "(\"foo\", \"uniqueval\")", "VALUES", "(:c0, :c1)",
      "ON CONFLICT (\"uniqueval\") DO UPDATE SET \"foo\" = :c0"];
  }

  /** With a duplicate-key clause the parts are the five head parts followed by the clause's text. */
  lemma InsertPartsWithDuplicate(p: Params, ins: Insert)
    requires ins.onDuplicate.Some?
    ensures InsertParts(p, ins).1 == ["INSERT INTO", RenderSource(p, ins.table), ListText(QuoteAll(p.driver.dialect, FieldsOf(ins))),
        "VALUES", ListText(RenderList(p, ValuesOf(ins)).1),
        RenderDuplicateKey(RenderList(p, ValuesOf(ins)).0, ins.onDuplicate.value).1]
  {
    var (q, vals) := RenderList(p, ValuesOf(ins));
    var head := ["INSERT INTO", RenderSource(p, ins.table), ListText(QuoteAll(p.driver.dialect, FieldsOf(ins))), "VALUES", ListText(vals)];
    assert InsertParts(p, ins).1 == head + [RenderDuplicateKey(q, ins.onDuplicate.value).1];
  }

  lemma JoinSix(xs: seq<string>)
    requires |xs| == 6
    ensures Join(xs, " ") == xs[0] + " " + xs[1] + " " + xs[2] + " " + xs[3] + " " + xs[4] + " " + xs[5]
  {
    assert xs == xs[..5] + [xs[5]];
    JoinSnoc(xs[..5], xs[5], " ");
    assert xs[..5] == [xs[0], xs[1], xs[2], xs[3], xs[4]];
    JoinFive(xs[0], xs[1], xs[2], xs[3], xs[4]);
  }

  lemma FivePartsText()
    ensures "INSERT INTO" + " " + "\"test_table\"" + " " + "(\"foo\", \"uniqueval\")" + " " + "VALUES" + " " + "(:c0, :c1)" ==
      "INSERT INTO \"test_table\" (\"foo\", \"uniqueval\") VALUES (:c0, :c1)"
  {
    TargetText();
    TwoFieldListText();
    TwoFieldValuesText();
  }

  lemma TwoFieldListText()
    ensures "INSERT INTO \"test_table\"" + " " + "(\"foo\", \"uniqueval\")" == "INSERT INTO \"test_table\" (\"foo\", \"uniqueval\")"
  {
  }

  lemma TwoFieldValuesText()
    ensures "INSERT INTO \"test_table\" (\"foo\", \"uniqueval\")" + " " + "VALUES" + " " + "(:c0, :c1)" ==
      "INSERT INTO \"test_table\" (\"foo\", \"uniqueval\") VALUES (:c0, :c1)"
  {
  }
}

=== FILE: mysql.dfy ===
/**
 * The MySQL dialect (src/Driver/MySQL.php): the type mapping and its
 * first-match reverse lookup, column definitions, SET literals, the
 * multi-value match and the recovery of ENUM values from a column type.
 */
module MysqlDialect {
  import opened Wrappers
  import opened Strings
  import opened Values
  import opened Naming
  import opened ColumnModel
  import opened Parameters
  import opened Expressions

  /*** Type mapping ***/

  /** The mapping; DATETIMETZ has no MySQL type. */
  function MysqlType(t: ColumnType): (r: Option<string>)
    ensures r.None? <==> t == DATETIMETZ
  {
    match t
    case CHAR => Some("CHAR")
    case VARCHAR => Some("VARCHAR")
    case TEXT => Some("MEDIUMTEXT")
    case JSON => Some("MEDIUMTEXT")
    case ENUM => Some("ENUM")
    case BOOLEAN => Some("TINYINT")
    case TINYINT => Some("TINYINT")
    case SMALLINT => Some("SMALLINT")
    case MEDIUMINT => Some("MEDIUMINT")
    case INT => Some("INT")
    case BIGINT => Some("BIGINT")
    case FLOAT => Some("FLOAT")
    case DECIMAL => Some("DECIMAL")
    case DATETIME => Some("DATETIME")
    case DATE => Some("DATE")
    case TIME => Some("TIME")
    case BINARY => Some("MEDIUMBLOB")
    case DATETIMETZ => None
  }

  /** The position of a type's entry in the mapping, which `array_search` scans in order. */
  function Rank(t: ColumnType): nat {
    match t
    case CHAR => 0
    case VARCHAR => 1
    case TEXT => 2
    case JSON => 3
    case ENUM => 4
    case BOOLEAN => 5
    case TINYINT => 6
    case SMALLINT => 7
    case MEDIUMINT => 8
    case INT => 9
    case BIGINT => 10
    case FLOAT => 11
    case DECIMAL => 12
    case DATETIME => 13
    case DATE => 14
    case TIME => 15
    case BINARY => 16
    case DATETIMETZ => 17
  }

  /** `array_search(name, mapping)`: the first entry whose MySQL type is `name`. */
  function SearchMapping(name: string): (r: Option<ColumnType>)
    ensures r.Some? ==> MysqlType(r.value) == Some(name)
    ensures r.Some? ==> forall t: ColumnType :: MysqlType(t) == Some(name) ==> Rank(r.value) <= Rank(t)
    ensures r.None? ==> forall t: ColumnType :: MysqlType(t) != Some(name)
  {
    if name == "CHAR" then Some(CHAR)
    else if name == "VARCHAR" then Some(VARCHAR)
    else if name == "MEDIUMTEXT" then Some(TEXT)
    else if name == "ENUM" then Some(ENUM)
    else if name == "TINYINT" then Some(BOOLEAN)
    else if name == "SMALLINT" then Some(SMALLINT)
    else if name == "MEDIUMINT" then Some(MEDIUMINT)
    else if name == "INT" then Some(INT)
    else if name == "BIGINT" then Some(BIGINT)
    else if name == "FLOAT" then Some(FLOAT)
    else if name == "DECIMAL" then Some(DECIMAL)
    else if name == "DATETIME" then Some(DATETIME)
    else if name == "DATE" then Some(DATE)
    else if name == "TIME" then Some(TIME)
    else if name == "MEDIUMBLOB" then Some(BINARY)
    else None
  }

  /**
   * loadTable's reverse lookup: the upper-cased catalog type searched in
   * the mapping; the first logical type mapped to it wins, and an unknown
   * name is an unsupported type.
   */
  function ReverseType(dataType: string): (r: Result<ColumnType>)
    ensures r.Ok? ==> MysqlType(r.value) == Some(ToUpper(dataType))
    ensures r.Ok? ==> forall t: ColumnType :: MysqlType(t) == Some(ToUpper(dataType)) ==> Rank(r.value) <= Rank(t)
    ensures r.Err? <==> forall t: ColumnType :: MysqlType(t) != Some(ToUpper(dataType))
    ensures r.Err? ==> r.error.kind == UnsupportedType
  {
    var name := ToUpper(dataType);
    match SearchMapping(name)
    case None => Fails(UnsupportedType, "Unsupported field type: " + name)
    case Some(t) => Ok(t)
  }

  lemma MysqlTypeUpper(t: ColumnType)
    requires t != DATETIMETZ
    ensures ToUpper(MysqlType(t).value) == MysqlType(t).value
  {
    match t
    case CHAR | VARCHAR | TEXT | JSON | ENUM | BOOLEAN | BINARY => UpperCaseTextNames(t);
    case TINYINT | SMALLINT | MEDIUMINT | INT | BIGINT | FLOAT | DECIMAL => UpperCaseNumberNames(t);
    case DATE | TIME | DATETIME => UpperCaseTimeNames(t);
  }

  lemma UpperCaseTextNames(t: ColumnType)
    requires t.CHAR? || t.VARCHAR? || t.TEXT? || t.JSON? || t.ENUM? || t.BOOLEAN? || t.BINARY?
    ensures var name := MysqlType(t).value;
      forall i :: 0 <= i < |name| ==> !('a' <= name[i] <= 'z')
  {
  }

  lemma UpperCaseNumberNames(t: ColumnType)
    requires t.TINYINT? || t.SMALLINT? || t.MEDIUMINT? || t.INT? || t.BIGINT? || t.FLOAT? || t.DECIMAL?
    ensures var name := MysqlType(t).value;
      forall i :: 0 <= i < |name| ==> !('a' <= name[i] <= 'z')
  {
  }

  lemma UpperCaseTimeNames(t: ColumnType)
    requires t.DATE? || t.TIME? || t.DATETIME?
    ensures var name := MysqlType(t).value;
      forall i :: 0 <= i < |name| ==> !('a' <= name[i] <= 'z')
  {
  }

  /**
   * Reading back a mapped type gives the type itself, except that JSON
   * comes back as TEXT and TINYINT as BOOLEAN, the earlier entries with the
   * same MySQL type.
   */
  lemma ReverseTypeInverts(t: ColumnType)
    requires t != DATETIMETZ
    ensures ReverseType(MysqlType(t).value) ==
      Ok(if t == JSON then TEXT else if t == TINYINT then BOOLEAN else t)
  {
    MysqlTypeUpper(t);
    match t
    case CHAR | VARCHAR | TEXT | JSON | ENUM | BOOLEAN | BINARY => SearchTextNames(t);
    case TINYINT | SMALLINT | MEDIUMINT | INT | BIGINT | FLOAT | DECIMAL => SearchNumberNames(t);
    case DATE | TIME | DATETIME => SearchTimeNames(t);
  }

  lemma SearchTextNames(t: ColumnType)
    requires t.CHAR? || t.VARCHAR? || t.TEXT? || t.JSON? || t.ENUM? || t.BOOLEAN? || t.BINARY?
    ensures SearchMapping(MysqlType(t).value) == Some(if t == JSON then TEXT else t)
  {
  }

  lemma SearchNumberNames(t: ColumnType)
    requires t.TINYINT? || t.SMALLINT? || t.MEDIUMINT? || t.INT? || t.BIGINT? || t.FLOAT? || t.DECIMAL?
    ensures SearchMapping(MysqlType(t).value) == Some(if t == TINYINT then BOOLEAN else t)
  {
  }

  lemma SearchTimeNames(t: ColumnType)
    requires t.DATE? || t.TIME? || t.DATETIME?
    ensures SearchMapping(MysqlType(t).value) == Some(t)
  {
  }

  /** The catalog reports types in lower case: "mediumtext" is TEXT, "tinyint" is BOOLEAN. */
  lemma ReverseTypeLowerCase()
    ensures ReverseType("mediumtext") == Ok(TEXT) && ReverseType("tinyint") == Ok(BOOLEAN)
    ensures ReverseType("point").Err?
  {
    assert ToUpper("mediumtext") == "MEDIUMTEXT";
    assert ToUpper("tinyint") == "TINYINT";
    assert ToUpper("point") == "POINT";
  }

  /*** getColumnDefinition ***/

  function OptIntText(o: Option<int>): string {
    match o
    case None => ""
    case Some(i) => IntToString(i)
  }

  /** The ENUM value list as the definition writes it. */
  function EnumSuffix(values: seq<string>): string {
    "('" + Join(values, "','") + "')"
  }

  /** What follows the type name; an ENUM column without values hands null to implode, a type error. */
  function TypeSuffix(c: Column): (r: Result<string>)
    ensures r.Err? <==> c.ctype == ENUM && c.enumValues.None?
    ensures c.ctype == ENUM && c.enumValues.Some? ==> r == Ok(EnumSuffix(c.enumValues.value))
  {
    match c.ctype
    case CHAR => Ok("(" + OptIntText(c.maxLength) + ")")
    case VARCHAR => Ok("(" + OptIntText(c.maxLength) + ")")
    case SMALLINT => Ok("(" + OptIntText(c.precision) + ")")
    case INT => Ok("(" + OptIntText(c.precision) + ")")
    case BIGINT => Ok("(" + OptIntText(c.precision) + ")")
    case BOOLEAN => Ok("(1)")
    case DECIMAL => Ok("(" + OptIntText(c.precision) + "," + OptIntText(c.scale) + ")")
    case ENUM =>
      if c.enumValues.None? then Fails(Fatal, "implode(): Argument #2 must be of type ?array")
      else Ok(EnumSuffix(c.enumValues.value))
    case _ => Ok("")
  }

  /** The SQL keywords a default may name without quoting. */
  const DefaultKeywords: seq<string> := ["NOW()", "CURRENT_TIMESTAMP", "CURRENT_TIME", "CURRENT_DATE"]

  /**
   * The default as the definition writes it: true as 1, a keyword raw,
   * anything else through the connection's `quote`, which is not part of
   * this model and is the parameter `quote`.
   */
  function DefaultText(def: Value, quote: Value -> string): string {
    if def.VBool? then (if def.b then "1" else "0")
    else if def.VStr? && def.s in DefaultKeywords then def.s
    else quote(def)
  }

  /**
   * getColumnDefinition: quoted name, type, suffix, " NULL" or
   * " NOT NULL", and a DEFAULT clause only for a truthy default. DATETIMETZ
   * is unsupported.
   */
  function ColumnDefinition(c: Column, quote: Value -> string): (r: Result<string>)
    ensures r.Ok? <==> c.ctype != DATETIMETZ && !(c.ctype == ENUM && c.enumValues.None?)
    ensures c.ctype == DATETIMETZ ==> r.Err? && r.error.kind == UnsupportedType
    ensures r.Ok? ==> StartsWith(r.value, IdentQuote(MySQL, c.name) + " " + MysqlType(c.ctype).value + TypeSuffix(c).value)
    ensures r.Ok? ==>
      r.value == IdentQuote(MySQL, c.name) + " " + MysqlType(c.ctype).value + TypeSuffix(c).value
        + (if c.nullable then " NULL" else " NOT NULL")
        + (if Truthy(c.default) then " DEFAULT " + DefaultText(c.default, quote) else "")
    ensures r.Ok? && !Truthy(c.default) ==> EndsWith(r.value, if c.nullable then " NULL" else " NOT NULL")
    ensures r.Ok? && c.default == VBool(true) ==> EndsWith(r.value, " DEFAULT 1")
    ensures r.Ok? && c.default.VStr? && c.default.s in DefaultKeywords ==> EndsWith(r.value, " DEFAULT " + c.default.s)
    ensures r.Ok? && Truthy(c.default) && !c.default.VBool? && !(c.default.VStr? && c.default.s in DefaultKeywords) ==>
      EndsWith(r.value, " DEFAULT " + quote(c.default))
  {
    match MysqlType(c.ctype)
    case None => Fails(UnsupportedType, "Unsupported column type: " + ConstValue(c.ctype))
    case Some(typeName) =>
      var suffix :- TypeSuffix(c);
      var head := IdentQuote(MySQL, c.name) + " " + typeName + suffix;
      var nullText := if c.nullable then " NULL" else " NOT NULL";
      if !Truthy(c.default) then
        assert (head + nullText)[..|head|] == head;
        assert head + nullText + "" == head + nullText;
        Ok(head + nullText)
      else
        var tail := " DEFAULT " + DefaultText(c.default, quote);
        assert (head + nullText + tail)[..|head|] == head;
        assert (head + nullText + tail)[|head + nullText|..] == tail;
        Ok(head + nullText + tail)
  }

  /*** Reading ENUM values back ***/

  /** PHP `substr(s, 5, -1)`: drop the five-character "enum(" head and the closing parenthesis. */
  function EnumBody(columnType: string): string {
    if |columnType| >= 6 then columnType[5..|columnType| - 1] else ""
  }

  /** loadTable's ENUM recovery: split on ',' and trim the quotes of each piece. */
  function EnumValuesOf(columnType: string): (r: seq<string>)
    ensures |r| >= 1
  {
    var pieces := Split(EnumBody(columnType), ',');
    seq(|pieces|, i requires 0 <= i < |pieces| => Trim(pieces[i], '\''))
  }

  function Quoted(x: string): string {
    "'" + x + "'"
  }

  function QuotedAll(xs: seq<string>): (r: seq<string>)
    ensures |r| == |xs| && forall i :: 0 <= i < |xs| ==> r[i] == Quoted(xs[i])
  {
    seq(|xs|, i requires 0 <= i < |xs| => Quoted(xs[i]))
  }

  /** Joining with "','" inside outer quotes is joining the quoted values with ','. */
  lemma {:induction false} JoinQuoted(xs: seq<string>)
    requires |xs| > 0
    ensures "'" + Join(xs, "','") + "'" == Join(QuotedAll(xs), ",")
    decreases |xs|
  {
    if |xs| > 1 {
      JoinQuoted(xs[1..]);
      assert QuotedAll(xs) == [Quoted(xs[0])] + QuotedAll(xs[1..]);
      JoinCons(Quoted(xs[0]), QuotedAll(xs[1..]), ",");
      assert "'" + Join(xs, "','") + "'" == "'" + xs[0] + "'" + "," + ("'" + Join(xs[1..], "','") + "'");
    }
  }

  lemma TrimQuoted(x: string)
    requires '\'' !in x
    ensures Trim(Quoted(x), '\'') == x
  {
    var q := Quoted(x);
    assert q[1..] == x + "'";
    if |x| == 0 {
      assert Trim("'", '\'') == Trim("", '\'');
    } else {
      assert (x + "'")[0] == x[0];
      assert (x + "'")[..|x|] == x;
      assert Trim(x + "'", '\'') == Trim(x, '\'');
    }
  }

  /**
   * ENUM recovery inverts the ENUM rendering: the type and value list of a
   * definition read back as the values, when there is at least one value
   * and none contains ',' or "'".
   */
  lemma EnumRoundTrip(xs: seq<string>)
    requires |xs| > 0
    requires forall i :: 0 <= i < |xs| ==> ',' !in xs[i] && '\'' !in xs[i]
    ensures EnumValuesOf(MysqlType(ENUM).value + EnumSuffix(xs)) == xs
  {
    EnumBodyOfSuffix(xs);
    JoinQuoted(xs);
    SplitQuoted(xs);
    var qs := QuotedAll(xs);
    forall i | 0 <= i < |xs| ensures Trim(qs[i], '\'') == xs[i] {
      TrimQuoted(xs[i]);
    }
  }

  /** The text between "ENUM(" and the closing parenthesis is the quoted, comma-joined list. */
  lemma EnumBodyOfSuffix(xs: seq<string>)
    ensures EnumBody(MysqlType(ENUM).value + EnumSuffix(xs)) == "'" + Join(xs, "','") + "'"
  {
    var inner := "'" + Join(xs, "','") + "'";
    assert MysqlType(ENUM).value + EnumSuffix(xs) == "ENUM(" + inner + ")";
  }

  /** Quoted values free of ',' split back apart at the commas that join them. */
  lemma SplitQuoted(xs: seq<string>)
    requires |xs| > 0
    requires forall i :: 0 <= i < |xs| ==> ',' !in xs[i]
    ensures Split(Join(QuotedAll(xs), ","), ',') == QuotedAll(xs)
  {
    var qs := QuotedAll(xs);
    forall i | 0 <= i < |qs| ensures ',' !in qs[i] {
      assert qs[i] == "'" + xs[i] + "'";
    }
    SplitJoin(qs, ',');
  }

  /*** formatArray ***/

  /**
   * One SET element: strpos rejects arrays and objects with a type error;
   * a comma is rejected, then a non-scalar (null); the element is kept as
   * PHP prints it.
   */
  function FormatElement(v: Value): (r: Result<string>)
    ensures r.Ok? <==> IsScalar(v) && ',' !in ToPhpString(v).value
    ensures r.Ok? ==> r.value == ToPhpString(v).value
    ensures (v.VArray? || v.VDate? || v.VObject?) ==> r.Err? && r.error.kind == Fatal
    ensures IsScalar(v) && ',' in ToPhpString(v).value ==> r.Err? && r.error.kind == InvalidArgument
  {
    if v.VArray? || v.VDate? || v.VObject? then Fails(Fatal, "strpos(): Argument #1 must be of type string")
    else
      var text := ToPhpString(v).value;
      if ',' in text then Fails(InvalidArgument, "MySQL does not support escaping in set literals: " + text)
      else if !IsScalar(v) then Fails(InvalidArgument, "All list elements must be scalars")
      else Ok(text)
  }

  function FormatElements(vs: seq<Value>): (r: Result<seq<string>>)
    ensures r.Ok? <==> forall i :: 0 <= i < |vs| ==> FormatElement(vs[i]).Ok?
    ensures r.Ok? ==> |r.value| == |vs| && forall i :: 0 <= i < |vs| ==> r.value[i] == ToPhpString(vs[i]).value
    decreases |vs|
  {
    if |vs| == 0 then Ok([])
    else
      var first :- FormatElement(vs[0]);
      var rest :- FormatElements(vs[1..]);
      Ok([first] + rest)
  }

  /** formatArray: the elements comma-joined, with no escaping. */
  function FormatArray(vs: seq<Value>): (r: Result<string>)
    ensures r.Ok? <==> forall i :: 0 <= i < |vs| ==> IsScalar(vs[i]) && ',' !in ToPhpString(vs[i]).value
    ensures r.Ok? ==> r.value == Join(FormatElements(vs).value, ",")
  {
    var elements :- FormatElements(vs);
    Ok(Join(elements, ","))
  }

  /** Splitting a formatted non-empty list on ',' gives back each element as PHP prints it. */
  lemma FormatArrayRoundTrip(vs: seq<Value>)
    requires |vs| > 0 && FormatArray(vs).Ok?
    ensures Split(FormatArray(vs).value, ',') == FormatElements(vs).value
    ensures forall i :: 0 <= i < |vs| ==> Split(FormatArray(vs).value, ',')[i] == ToPhpString(vs[i]).value
  {
    var es := FormatElements(vs).value;
    SplitJoin(es, ',');
  }

  /** A text with a comma in it is rejected, whatever else the list holds. */
  lemma FormatArrayRejectsComma(vs: seq<Value>, i: nat)
    requires i < |vs| && vs[i].VStr? && ',' in vs[i].s
    ensures FormatArray(vs).Err?
  {
  }

  /*** matchMultipleValues ***/

  /** matchMultipleValues(field, list): FIND_IN_SET with the field, then the constant array. */
  function MatchMultipleValues(field: string, listId: nat, values: seq<Value>): (r: Expr)
    ensures r == Func("FIND_IN_SET", [Field(field), Const(listId, VArray(values))])
  {
    var (f0, _) := NewFunction("FIND_IN_SET", [], 0);
    assert Flatten([]) == [];
    var (f1, _) := AddArgument(f0, Node(Field(field)), 0);
    var (f2, _) := AddArgument(f1, Node(Const(listId, VArray(values))), 0);
    f2
  }

  /** The match renders as FIND_IN_SET over the quoted field and a fresh placeholder bound to the list. */
  lemma MatchMultipleValuesRenders(p: Params, field: string, listId: nat, values: seq<Value>)
    requires p.driver.dialect == MySQL && listId !in p.bound
    ensures var (q, s) := Render(p, MatchMultipleValues(field, listId, values), false);
      && s == "FIND_IN_SET(`" + field + "`, :" + Placeholder(|p.bindings|) + ")"
      && q.bindings == p.bindings + [(Placeholder(|p.bindings|), VArray(values))]
  {
    var ph := Placeholder(|p.bindings|);
    var list := Const(listId, VArray(values));
    var (q1, arg) := Render(p, list, false);
    assert arg == ":" + ph;
    FindInSetArgs(p, field, list);
    FindInSetText(field, ph);
  }

  lemma FindInSetArgs(p: Params, field: string, list: Expr)
    requires p.driver.dialect == MySQL
    ensures RenderList(p, [Field(field), list]) == (Render(p, list, false).0, ["`" + field + "`", Render(p, list, false).1])
  {
    var args := [Field(field), list];
    var (q1, arg) := Render(p, list, false);
    var fieldText := IdentQuote(MySQL, field);
    assert fieldText == "`" + field + "`";
    assert args[1..] == [list] && [list][1..] == [];
    assert RenderList(q1, []) == (q1, []);
    assert [arg] + [] == [arg];
    assert RenderList(p, [list]) == (q1, [arg]);
    assert Render(p, Field(field), false) == (p, fieldText);
    assert [fieldText] + [arg] == [fieldText, arg];
  }

  lemma FindInSetText(field: string, ph: string)
    ensures "FIND_IN_SET" + "(" + Join(["`" + field + "`", ":" + ph], ", ") + ")" == "FIND_IN_SET(`" + field + "`, :" + ph + ")"
  {
    var a := "`" + field + "`";
    var b := ":" + ph;
    assert Join([a, b], ", ") == a + ", " + b;
  }
}

=== FILE: mysql_catalog.dfy ===
/**
 * Reading a MySQL table back from the catalog (MySQL::loadTable in
 * src/Driver/MySQL.php).
 *
 * The information_schema and SHOW INDEX queries are not modelled: their
 * result rows are the inputs. Constraint and index rows carry one column
 * each; loadTable groups them by name in order of first appearance, as
 * PHP's ordered arrays do, which `GroupBy` models.
 *
 * Column rows are loaded in catalog order. A column whose `extra` field
 * reads auto_increment is marked serial and gets a PRIMARY index of its
 * own, which fails when the table already has a primary key.
 */
module MysqlCatalog {
  import opened Wrappers
  import opened Strings
  import opened Values
  import opened Naming
  import opened ColumnModel
  import opened TableModel
  import MysqlDialect

  /*** Grouping rows by name ***/

  /** The rows whose key is `name`, in their original order: the reference for grouping. */
  function Select<T>(rows: seq<T>, key: T -> string, name: string): (r: seq<T>)
    ensures forall i :: 0 <= i < |r| ==> key(r[i]) == name
    decreases |rows|
  {
    if |rows| == 0 then []
    else
      var last := rows[|rows| - 1];
      Select(rows[..|rows| - 1], key, name) + (if key(last) == name then [last] else [])
  }

  /** Where the group called `name` sits, if there is one. */
  function FindGroup<T>(groups: seq<(string, seq<T>)>, name: string): (r: Option<nat>)
    ensures r.Some? ==> r.value < |groups| && groups[r.value].0 == name
    ensures r.None? ==> forall i :: 0 <= i < |groups| ==> groups[i].0 != name
    decreases |groups|
  {
    if |groups| == 0 then None
    else if groups[|groups| - 1].0 == name then Some(|groups| - 1)
    else FindGroup(groups[..|groups| - 1], name)
  }

  /** `$summarized[$n][...][] = ...`: append to the group, opening it at the end when it is new. */
  function AddToGroups<T>(groups: seq<(string, seq<T>)>, name: string, row: T): seq<(string, seq<T>)> {
    match FindGroup(groups, name)
    case None => groups + [(name, [row])]
    case Some(i) => groups[i := (name, groups[i].1 + [row])]
  }

  /** The rows grouped under their keys, groups in order of first appearance. */
  function GroupBy<T>(rows: seq<T>, key: T -> string): seq<(string, seq<T>)>
    decreases |rows|
  {
    if |rows| == 0 then []
    else
      var last := rows[|rows| - 1];
      AddToGroups(GroupBy(rows[..|rows| - 1], key), key(last), last)
  }

  /** `groups` partitions `rows` by key: distinct names, each group the selected rows, every row covered. */
  predicate Partitions<T(==)>(groups: seq<(string, seq<T>)>, rows: seq<T>, key: T -> string) {
    && DistinctGroups(groups)
    && GroupsSelect(groups, rows, key)
    && Covers(groups, rows, key)
  }

  predicate DistinctGroups<T>(groups: seq<(string, seq<T>)>) {
    forall i, j :: 0 <= i < j < |groups| ==> groups[i].0 != groups[j].0
  }

  predicate GroupsSelect<T(==)>(groups: seq<(string, seq<T>)>, rows: seq<T>, key: T -> string) {
    forall i :: 0 <= i < |groups| ==> groups[i].1 == Select(rows, key, groups[i].0) && |groups[i].1| > 0
  }

  predicate Covers<T>(groups: seq<(string, seq<T>)>, rows: seq<T>, key: T -> string) {
    forall k :: 0 <= k < |rows| ==> exists i :: 0 <= i < |groups| && groups[i].0 == key(rows[k])
  }

  /** A key no row carries selects nothing. */
  lemma {:induction false} SelectAbsent<T>(rows: seq<T>, key: T -> string, name: string)
    requires forall k :: 0 <= k < |rows| ==> key(rows[k]) != name
    ensures Select(rows, key, name) == []
    decreases |rows|
  {
    if |rows| > 0 {
      var init := rows[..|rows| - 1];
      assert forall k :: 0 <= k < |init| ==> init[k] == rows[k];
      SelectAbsent(init, key, name);
    }
  }

  lemma SelectAppend<T>(rows: seq<T>, key: T -> string, row: T, m: string)
    ensures Select(rows + [row], key, m) == Select(rows, key, m) + (if key(row) == m then [row] else [])
  {
    var all := rows + [row];
    assert all[..|all| - 1] == rows && all[|all| - 1] == row;
    assert Select(all, key, m) == Select(all[..|all| - 1], key, m) + (if key(row) == m then [row] else []);
  }

  /** Every earlier row keeps its group, and the new row finds its own. */
  lemma AddToGroupsCovers<T>(groups: seq<(string, seq<T>)>, rows: seq<T>, key: T -> string, row: T)
    requires Covers(groups, rows, key)
    ensures Covers(AddToGroups(groups, key(row), row), rows + [row], key)
  {
    var all := rows + [row];
    var name := key(row);
    var g := AddToGroups(groups, name, row);
    forall k | 0 <= k < |all| ensures exists i :: 0 <= i < |g| && g[i].0 == key(all[k]) {
      if k < |rows| {
        assert all[k] == rows[k];
        var i :| 0 <= i < |groups| && groups[i].0 == key(rows[k]);
        assert g[i].0 == groups[i].0;
      } else {
        assert all[k] == row;
        if FindGroup(groups, name).None? {
          assert g[|groups|].0 == name;
        } else {
          assert g[FindGroup(groups, name).value].0 == name;
        }
      }
    }
    assert forall k :: 0 <= k < |all| ==> exists i :: 0 <= i < |g| && g[i].0 == key(all[k]);
    assert Covers(g, all, key);
  }

  /** Appending to an existing group extends its selection by the new row and leaves the others alone. */
  lemma AddToFoundGroup<T>(groups: seq<(string, seq<T>)>, rows: seq<T>, key: T -> string, row: T, i0: nat)
    requires DistinctGroups(groups) && GroupsSelect(groups, rows, key)
    requires FindGroup(groups, key(row)) == Some(i0)
    ensures DistinctGroups(AddToGroups(groups, key(row), row))
    ensures GroupsSelect(AddToGroups(groups, key(row), row), rows + [row], key)
  {
    var g := AddToGroups(groups, key(row), row);
    assert g == groups[i0 := (key(row), groups[i0].1 + [row])];
    forall i | 0 <= i < |g|
      ensures g[i].1 == Select(rows + [row], key, g[i].0) && |g[i].1| > 0
    {
      SelectAppend(rows, key, row, g[i].0);
    }
  }

  /** A new group holds just the new row, which no earlier row shares a key with. */
  lemma AddToNewGroup<T>(groups: seq<(string, seq<T>)>, rows: seq<T>, key: T -> string, row: T)
    requires Partitions(groups, rows, key)
    requires FindGroup(groups, key(row)).None?
    ensures DistinctGroups(AddToGroups(groups, key(row), row))
    ensures GroupsSelect(AddToGroups(groups, key(row), row), rows + [row], key)
  {
    var name := key(row);
    var g := AddToGroups(groups, name, row);
    assert g == groups + [(name, [row])];
    forall k | 0 <= k < |rows| ensures key(rows[k]) != name {
      var i :| 0 <= i < |groups| && groups[i].0 == key(rows[k]);
    }
    SelectAbsent(rows, key, name);
    forall i | 0 <= i < |g|
      ensures g[i].1 == Select(rows + [row], key, g[i].0) && |g[i].1| > 0
    {
      SelectAppend(rows, key, row, g[i].0);
    }
  }

  lemma AddToGroupsPartitions<T>(groups: seq<(string, seq<T>)>, rows: seq<T>, key: T -> string, row: T, all: seq<T>)
    requires Partitions(groups, rows, key) && all == rows + [row]
    ensures Partitions(AddToGroups(groups, key(row), row), all, key)
  {
    AddToGroupsCovers(groups, rows, key, row);
    match FindGroup(groups, key(row))
    case None => AddToNewGroup(groups, rows, key, row);
    case Some(i0) => AddToFoundGroup(groups, rows, key, row, i0);
  }

  /** Grouping partitions the rows by key. */
  lemma {:induction false} GroupByPartitions<T>(rows: seq<T>, key: T -> string)
    ensures Partitions(GroupBy(rows, key), rows, key)
    decreases |rows|
  {
    if |rows| > 0 {
      var init := rows[..|rows| - 1];
      var last := rows[|rows| - 1];
      assert init + [last] == rows;
      GroupByPartitions(init, key);
      AddToGroupsPartitions(GroupBy(init, key), init, key, last, rows);
    }
  }

  /** The rows `keep` accepts, in order. */
  function Filter<T(==)>(rows: seq<T>, keep: T -> bool): (r: seq<T>)
    ensures forall i :: 0 <= i < |r| ==> r[i] in rows && keep(r[i])
    ensures forall i :: 0 <= i < |rows| && keep(rows[i]) ==> rows[i] in r
    decreases |rows|
  {
    if |rows| == 0 then []
    else
      var init := rows[..|rows| - 1];
      var last := rows[|rows| - 1];
      assert rows == init + [last];
      Filter(init, keep) + (if keep(last) then [last] else [])
  }

  /*** Columns ***/

  /** A row of information_schema.columns, as getColumns returns it. */
  datatype ColumnRow = ColumnRow(
    columnName: string,
    dataType: string,
    columnType: string,
    extra: string,
    isNullable: Value,
    columnDefault: Value,
    numericPrecision: Value,
    numericScale: Value,
    characterMaximumLength: Value)

  /** The array handed to Column::factory. */
  function RowData(row: ColumnRow, dataType: Value): ColumnArray {
    ColumnArray(
      Some(VStr(row.columnName)), Some(dataType), Some(row.isNullable), Some(row.columnDefault), None,
      Some(row.numericPrecision), Some(row.numericScale), Some(row.characterMaximumLength), None)
  }

    /**
   * The column loadTable builds from one row: the type found by searching
   * the mapping for the upper-cased data type, the enum values recovered
   * from the column type. A BOOLEAN result (what "tinyint" reads as)
   * carries the constant value "BOOL", which parseArray rejects.
   */
  function ColumnFromRow(row: ColumnRow): (r: Result<Column>)
    ensures r.Ok? <==> MysqlDialect.ReverseType(row.dataType).Ok? && MysqlDialect.ReverseType(row.dataType).value != BOOLEAN
    ensures MysqlDialect.ReverseType(row.dataType).Err? ==> r == Err(MysqlDialect.ReverseType(row.dataType).error)
    ensures r.Ok? ==>
      var t := MysqlDialect.ReverseType(row.dataType).value;
      r.value == Column(
        row.columnName, t, Truthy(row.isNullable), row.columnDefault, false,
        NullableInt(row.characterMaximumLength), NullableInt(row.numericPrecision), NullableInt(row.numericScale),
        if t == ENUM then Some(MysqlDialect.EnumValuesOf(row.columnType)) else None,
        None)
  {
    var t :- MysqlDialect.ReverseType(row.dataType);
    ConstValueParses(t);
    var c :- ColumnFromArray(row.columnName, RowData(row, VStr(ConstValue(t))));
    Ok(if t == ENUM then c.(enumValues := Some(MysqlDialect.EnumValuesOf(row.columnType))) else c)
  }

  /** "enum" reads back as ENUM. */
  lemma ReverseEnum()
    ensures MysqlDialect.ReverseType("enum") == Ok(ENUM)
  {
    MysqlDialect.ReverseTypeInverts(ENUM);
    assert ToUpper("enum") == "ENUM";
  }

  /** Only what follows the five-character head counts for the enum body. */
  lemma EnumBodyIgnoresHead(a: string, b: string, s: string)
    requires |a| == |b| == 4
    ensures MysqlDialect.EnumBody(a + s) == MysqlDialect.EnumBody(b + s)
  {
    if |s| >= 2 {
      assert (a + s)[5..|a + s| - 1] == s[1..|s| - 1];
      assert (b + s)[5..|b + s| - 1] == s[1..|s| - 1];
    }
  }

  /** The enum values come back from the lower-case column type the catalog prints. */
  lemma EnumValuesReadBack(xs: seq<string>)
    requires |xs| > 0 && forall i :: 0 <= i < |xs| ==> ',' !in xs[i] && '\'' !in xs[i]
    ensures MysqlDialect.EnumValuesOf("enum" + MysqlDialect.EnumSuffix(xs)) == xs
  {
    MysqlDialect.EnumRoundTrip(xs);
    EnumBodyIgnoresHead("enum", MysqlDialect.MysqlType(ENUM).value, MysqlDialect.EnumSuffix(xs));
  }

  /** An enum column comes back as ENUM with the values it was created with. */
  lemma EnumColumnReadsBack(row: ColumnRow, xs: seq<string>)
    requires row.dataType == "enum" && row.columnType == "enum" + MysqlDialect.EnumSuffix(xs)
    requires |xs| > 0 && forall i :: 0 <= i < |xs| ==> ',' !in xs[i] && '\'' !in xs[i]
    ensures ColumnFromRow(row).Ok? && ColumnFromRow(row).value.ctype == ENUM
    ensures ColumnFromRow(row).value.enumValues == Some(xs)
  {
    ReverseEnum();
    EnumValuesReadBack(xs);
  }

  /**
   * A TINYINT column, which is how BOOLEAN columns are created, reads back
   * as BOOLEAN and so cannot be loaded.
   */
  lemma TinyintColumnFails(row: ColumnRow)
    requires row.dataType == "tinyint"
    ensures MysqlDialect.ReverseType(row.dataType) == Ok(BOOLEAN)
    ensures ColumnFromRow(row).Err?
  {
    MysqlDialect.ReverseTypeInverts(TINYINT);
    assert ToUpper("tinyint") == "TINYINT";
  }

  /** `strtolower(extra) === "auto_increment"`. */
  predicate IsAutoIncrement(row: ColumnRow) {
    ToLower(row.extra) == "auto_increment"
  }

  /** The primary key loadTable creates for an auto-increment column. */
  function SerialKey(name: string): Index {
    Index(PRIMARY, "", [name])
  }

  /** A column as loadTable leaves it: attached, and serial when it auto-increments. */
  function Loaded(tableName: string, row: ColumnRow, c: Column): Column {
    if IsAutoIncrement(row) then c.(table := Some(tableName), serial := true) else c.(table := Some(tableName))
  }

  /** The conditions under which one row joins a table. */
  predicate RowLoads(t: Table, row: ColumnRow) {
    && ColumnFromRow(row).Ok?
    && !HasColumn(t, row.columnName)
    && (IsAutoIncrement(row) ==> t.primary.None? && IsSerialType(ColumnFromRow(row).value.ctype))
  }

  /** The table and the serial column found so far. */
  datatype LoadState = LoadState(table: Table, serial: Option<string>)

  /**
   * One step of the column loop: build and add the column; an
   * auto-increment column then gets a primary key of its own and becomes
   * the serial column.
   */
  function LoadColumn(st: LoadState, row: ColumnRow): (r: Result<LoadState>)
    ensures r.Ok? <==> RowLoads(st.table, row)
    ensures r.Ok? ==> r.value.table.columns == st.table.columns + [Loaded(st.table.name, row, ColumnFromRow(row).value)]
    ensures r.Ok? && !IsAutoIncrement(row) ==> r.value.serial == st.serial && r.value.table.(columns := st.table.columns) == st.table
    ensures r.Ok? && IsAutoIncrement(row) ==>
      && r.value.serial == Some(row.columnName)
      && r.value.table.indexes == st.table.indexes + [SerialKey(row.columnName)]
      && r.value.table.primary == Some(SerialKey(row.columnName))
      && r.value.table.(columns := st.table.columns, indexes := st.table.indexes, primary := st.table.primary) == st.table
  {
    var c :- ColumnFromRow(row);
    var t1 :- AddColumn(st.table, c);
    if IsAutoIncrement(row) then
      var t2 :- AddIndex(t1, SerialKey(row.columnName));
      var s :- SetSerial(t2.columns[|t2.columns| - 1], true);
      assert t2.columns[..|t2.columns| - 1] == st.table.columns;
      Ok(LoadState(t2.(columns := t2.columns[..|t2.columns| - 1] + [s]), Some(row.columnName)))
    else Ok(LoadState(t1, st.serial))
  }

  function LoadColumns(st: LoadState, rows: seq<ColumnRow>): Result<LoadState>
    decreases |rows|
  {
    if |rows| == 0 then Ok(st)
    else
      var st1 :- LoadColumn(st, rows[0]);
      LoadColumns(st1, rows[1..])
  }

  /*** Constraints ***/

  /** A row of the constraint query: one column of one constraint. */
  datatype ConstraintRow = ConstraintRow(
    name: string,
    kind: string,
    columnName: string,
    refTable: string,
    refColumn: string)

  /** A row of the referential-constraints query: the actions of one foreign key. */
  datatype RuleRow = RuleRow(name: string, updateRule: string, deleteRule: string)

  /** The serial column's own primary-key row is skipped: its key exists already. */
  function Kept(serial: Option<string>): ConstraintRow -> bool {
    (row: ConstraintRow) => !(serial.Some? && row.kind == "PRIMARY KEY" && row.columnName == serial.value)
  }

  /** Constraint rows are grouped under their name without the table prefix. */
  function ConstraintKey(drv: Driver): ConstraintRow -> string {
    (row: ConstraintRow) => StripPrefix(drv, row.name)
  }

  function ColumnsOf(rows: seq<ConstraintRow>): (r: seq<string>)
    ensures |r| == |rows| && forall i :: 0 <= i < |rows| ==> r[i] == rows[i].columnName
  {
    seq(|rows|, i requires 0 <= i < |rows| => rows[i].columnName)
  }

  function RefColumnsOf(rows: seq<ConstraintRow>): (r: seq<string>)
    ensures |r| == |rows| && forall i :: 0 <= i < |rows| ==> r[i] == rows[i].refColumn
  {
    seq(|rows|, i requires 0 <= i < |rows| => rows[i].refColumn)
  }

  /** The key a rule row is looked up under, as written: the table prefix is stripped twice. */
  function RuleKeyAsWritten(drv: Driver, name: string): string {
    StripPrefix(drv, StripPrefix(drv, name))
  }

  /** The key a rule row is looked up under: the name without the table prefix, as for constraint rows. */
  function RuleKey(drv: Driver, name: string): string {
    StripPrefix(drv, name)
  }

  /** The key functions the two lookups file rule rows under. */
  function RuleKeyOf(drv: Driver): string -> string {
    name => RuleKey(drv, name)
  }

  function RuleKeyOfAsWritten(drv: Driver): string -> string {
    name => RuleKeyAsWritten(drv, name)
  }

  /** Row `i` is the last rule row filed under `name`. */
  predicate LastRuleAt(rules: seq<RuleRow>, keyOf: string -> string, name: string, i: int) {
    0 <= i < |rules| && keyOf(rules[i].name) == name && forall j :: i < j < |rules| ==> keyOf(rules[j].name) != name
  }

  /** The last rule row filed under `name`: later rows overwrite earlier ones. */
  function RuleFor(rules: seq<RuleRow>, keyOf: string -> string, name: string): (r: Option<RuleRow>)
    ensures r.Some? ==> exists i :: LastRuleAt(rules, keyOf, name, i) && rules[i] == r.value
    ensures r.None? ==> forall i :: 0 <= i < |rules| ==> keyOf(rules[i].name) != name
    decreases |rules|
  {
    if |rules| == 0 then None
    else
      var last := rules[|rules| - 1];
      if keyOf(last.name) == name then Some(last)
      else
        var r := RuleFor(rules[..|rules| - 1], keyOf, name);
        assert forall i :: 0 <= i < |rules| - 1 ==> rules[..|rules| - 1][i] == rules[i];
        r
  }

  /** What a group of constraint rows adds to the table. */
  datatype Constraint = IndexConstraint(index: Index) | KeyConstraint(key: ForeignKey)

  /**
   * A group becomes a foreign key, a primary key or a unique index by the
   * type of its first row; any other type is rejected. A foreign key
   * refers to the last row's table and takes the actions of the last rule
   * row filed under its name ("" when there is none).
   */
  function ConstraintOf(name: string, rows: seq<ConstraintRow>, rule: Option<RuleRow>, drv: Driver): (r: Result<Constraint>)
    requires |rows| > 0
    ensures r.Ok? <==> rows[0].kind in ["FOREIGN KEY", "PRIMARY KEY", "UNIQUE"]
    ensures r.Err? ==> r.error == Error(MalformedCatalog, "Unsupported constraint type: " + rows[0].kind)
    ensures r.Ok? && rows[0].kind == "FOREIGN KEY" ==> r.value == KeyConstraint(ForeignKey(
      name, ColumnsOf(rows), StripPrefix(drv, rows[|rows| - 1].refTable), RefColumnsOf(rows),
      if rule.Some? then rule.value.updateRule else "", if rule.Some? then rule.value.deleteRule else ""))
    ensures r.Ok? && rows[0].kind != "FOREIGN KEY" ==> r.value == IndexConstraint(Index(
      if rows[0].kind == "PRIMARY KEY" then PRIMARY else UNIQUE, name, ColumnsOf(rows)))
  {
    var kind := rows[0].kind;
    if kind == "FOREIGN KEY" then
      var update := if rule.Some? then rule.value.updateRule else "";
      var delete := if rule.Some? then rule.value.deleteRule else "";
      Ok(KeyConstraint(ForeignKey(
        name, ColumnsOf(rows), StripPrefix(drv, rows[|rows| - 1].refTable), RefColumnsOf(rows), update, delete)))
    else if kind == "PRIMARY KEY" then Ok(IndexConstraint(Index(PRIMARY, name, ColumnsOf(rows))))
    else if kind == "UNIQUE" then Ok(IndexConstraint(Index(UNIQUE, name, ColumnsOf(rows))))
    else Fails(MalformedCatalog, "Unsupported constraint type: " + kind)
  }

  function AddConstraint(t: Table, c: Constraint): Result<Table> {
    match c
    case IndexConstraint(idx) => AddIndex(t, idx)
    case KeyConstraint(fk) => Ok(AddForeignKey(t, fk))
  }

  /** The loop over the summarized constraints, each group classified and added in turn. */
  function AddGroups(drv: Driver, t: Table, groups: seq<(string, seq<ConstraintRow>)>, rules: seq<RuleRow>,
                     keyOf: string -> string): Result<Table>
    decreases |groups|
  {
    if |groups| == 0 then Ok(t)
    else if |groups[0].1| == 0 then AddGroups(drv, t, groups[1..], rules, keyOf)
    else
      var c :- ConstraintOf(groups[0].0, groups[0].1, RuleFor(rules, keyOf, groups[0].0), drv);
      var t1 :- AddConstraint(t, c);
      AddGroups(drv, t1, groups[1..], rules, keyOf)
  }

  /** The constraint a group adds when loadTable accepts it; an empty group adds nothing. */
  function GroupConstraint(drv: Driver, group: (string, seq<ConstraintRow>), rules: seq<RuleRow>,
                           keyOf: string -> string): Option<Constraint> {
    if |group.1| == 0 then None
    else
      var c := ConstraintOf(group.0, group.1, RuleFor(rules, keyOf, group.0), drv);
      if c.Ok? then Some(c.value) else None
  }

  function IndexOfConstraint(c: Option<Constraint>): seq<Index> {
    if c.Some? && c.value.IndexConstraint? then [c.value.index] else []
  }

  function KeyOfConstraint(c: Option<Constraint>): seq<ForeignKey> {
    if c.Some? && c.value.KeyConstraint? then [c.value.key] else []
  }

  /** The primary and unique indexes of the constraint groups, in group order. */
  function GroupIndexes(drv: Driver, groups: seq<(string, seq<ConstraintRow>)>, rules: seq<RuleRow>,
                        keyOf: string -> string): seq<Index>
    decreases |groups|
  {
    if |groups| == 0 then []
    else IndexOfConstraint(GroupConstraint(drv, groups[0], rules, keyOf)) + GroupIndexes(drv, groups[1..], rules, keyOf)
  }

  /** The foreign keys of the constraint groups, in group order. */
  function GroupKeys(drv: Driver, groups: seq<(string, seq<ConstraintRow>)>, rules: seq<RuleRow>,
                     keyOf: string -> string): seq<ForeignKey>
    decreases |groups|
  {
    if |groups| == 0 then []
    else KeyOfConstraint(GroupConstraint(drv, groups[0], rules, keyOf)) + GroupKeys(drv, groups[1..], rules, keyOf)
  }

  /** Adding the groups keeps the name and the columns and appends each group's index or key. */
  lemma {:induction false} AddGroupsContents(drv: Driver, t: Table, groups: seq<(string, seq<ConstraintRow>)>,
                                             rules: seq<RuleRow>, keyOf: string -> string, u: Table)
    requires AddGroups(drv, t, groups, rules, keyOf) == Ok(u)
    ensures u.name == t.name && u.columns == t.columns
    ensures u.indexes == t.indexes + GroupIndexes(drv, groups, rules, keyOf)
    ensures u.foreignKeys == t.foreignKeys + GroupKeys(drv, groups, rules, keyOf)
    decreases |groups|
  {
    if |groups| == 0 {
      assert u == t;
      assert t.indexes + [] == t.indexes && t.foreignKeys + [] == t.foreignKeys;
    } else if |groups[0].1| == 0 {
      var xs, ks := GroupIndexes(drv, groups[1..], rules, keyOf), GroupKeys(drv, groups[1..], rules, keyOf);
      assert [] + xs == xs && [] + ks == ks;
      assert GroupIndexes(drv, groups, rules, keyOf) == xs && GroupKeys(drv, groups, rules, keyOf) == ks;
      AddGroupsContents(drv, t, groups[1..], rules, keyOf, u);
    } else {
      var c := GroupConstraint(drv, groups[0], rules, keyOf);
      var t1 := AddConstraint(t, c.value).value;
      assert AddGroups(drv, t1, groups[1..], rules, keyOf) == Ok(u);
      assert t1.indexes == t.indexes + IndexOfConstraint(c) && t1.foreignKeys == t.foreignKeys + KeyOfConstraint(c);
      AddGroupsContents(drv, t1, groups[1..], rules, keyOf, u);
      var xs, ks := GroupIndexes(drv, groups[1..], rules, keyOf), GroupKeys(drv, groups[1..], rules, keyOf);
      assert GroupIndexes(drv, groups, rules, keyOf) == IndexOfConstraint(c) + xs;
      assert GroupKeys(drv, groups, rules, keyOf) == KeyOfConstraint(c) + ks;
      AppendAssoc(t.indexes, IndexOfConstraint(c), xs);
      AppendAssoc(t.foreignKeys, KeyOfConstraint(c), ks);
      assert u.indexes == (t.indexes + IndexOfConstraint(c)) + xs;
      assert u.foreignKeys == (t.foreignKeys + KeyOfConstraint(c)) + ks;
    }
  }

  /**
   * The as-written lookup misses the rules of a foreign key whose name,
   * once stripped of the table prefix, still starts with it; the corrected
   * lookup files each rule under the key its constraint rows use.
   */
  lemma RuleKeyDiscrepancy(drv: Driver, rest: string, rules: seq<RuleRow>, rule: RuleRow)
    requires |drv.prefix| > 0 && rule.name == drv.prefix + drv.prefix + rest
    requires rules == [rule]
    ensures ConstraintKey(drv)(ConstraintRow(rule.name, "FOREIGN KEY", "", "", "")) == drv.prefix + rest
    ensures RuleFor(rules, RuleKeyOf(drv), drv.prefix + rest) == Some(rule)
    ensures RuleFor(rules, RuleKeyOfAsWritten(drv), drv.prefix + rest).None?
  {
    var once := drv.prefix + rest;
    assert rule.name == drv.prefix + once;
    PrefixOfAppend(drv.prefix, once);
    assert StripPrefix(drv, rule.name) == once by {
      assert drv.prefix + StripPrefix(drv, rule.name) == drv.prefix + once;
    }
    PrefixOfAppend(drv.prefix, rest);
    assert drv.prefix + StripPrefix(drv, once) == drv.prefix + rest;
    assert StripPrefix(drv, once) == rest;
    assert |rest| < |once|;
  }

  /*** Indexes ***/

  /** A row of SHOW INDEX: one column of one index. */
  datatype IndexRow = IndexRow(keyName: string, nonUnique: int, columnName: string)

  /** Unique indexes were added with the constraints; only non-unique rows remain. */
  function NonUnique(): IndexRow -> bool {
    (row: IndexRow) => row.nonUnique != 0
  }

  function IndexKey(drv: Driver): IndexRow -> string {
    (row: IndexRow) => StripPrefix(drv, row.keyName)
  }

  /** One plain index per group of rows, columns in row order. */
  function IndexesOf(groups: seq<(string, seq<IndexRow>)>): (r: seq<Index>)
    ensures |r| == |groups|
    ensures forall i :: 0 <= i < |groups| ==>
      (r[i].kind == INDEX && r[i].name == groups[i].0 && |r[i].columns| == |groups[i].1|
       && forall j :: 0 <= j < |groups[i].1| ==> r[i].columns[j] == groups[i].1[j].columnName)
  {
    seq(|groups|, i requires 0 <= i < |groups| =>
      Index(INDEX, groups[i].0, seq(|groups[i].1|, j requires 0 <= j < |groups[i].1| => groups[i].1[j].columnName)))
  }

  /*** loadTable ***/

  /** The catalog rows loadTable reads for one table. */
  datatype CatalogRows = CatalogRows(
    columns: seq<ColumnRow>,
    constraints: seq<ConstraintRow>,
    rules: seq<RuleRow>,
    indexes: seq<IndexRow>)

  /** The constraint groups loadTable summarizes once the serial column is known. */
  function ConstraintGroups(drv: Driver, rows: seq<ConstraintRow>, serial: Option<string>): seq<(string, seq<ConstraintRow>)> {
    GroupBy(Filter(rows, Kept(serial)), ConstraintKey(drv))
  }

  function IndexGroups(drv: Driver, rows: seq<IndexRow>): seq<(string, seq<IndexRow>)> {
    GroupBy(Filter(rows, NonUnique()), IndexKey(drv))
  }

  /** The primary key the column loop gives the serial column, if there is one. */
  function SerialIndexes(serial: Option<string>): seq<Index> {
    if serial.Some? then [SerialKey(serial.value)] else []
  }

  /**
   * What loadTable builds from the catalog rows: one loaded column per
   * column row, in order; as indexes the serial column's primary key, then
   * the primary and unique constraints, then the plain indexes, each in
   * group order; as foreign keys the foreign-key constraints in group
   * order, with the actions of the rules `keyOf` files under their names.
   */
  predicate LoadedFrom(drv: Driver, tableName: string, rows: CatalogRows, keyOf: string -> string, t: Table) {
    var st := LoadColumns(LoadState(EmptyTable(tableName), None), rows.columns);
    && st.Ok?
    && t.name == tableName
    && |t.columns| == |rows.columns|
    && HoldsLoaded(t, 0, tableName, rows.columns)
    && t.indexes == SerialIndexes(st.value.serial)
         + GroupIndexes(drv, ConstraintGroups(drv, rows.constraints, st.value.serial), rows.rules, keyOf)
         + IndexesOf(IndexGroups(drv, rows.indexes))
    && t.foreignKeys == GroupKeys(drv, ConstraintGroups(drv, rows.constraints, st.value.serial), rows.rules, keyOf)
  }

  /**
   * loadTable: the columns, then the constraint groups (rule rows filed
   * under `keyOf`), then the plain index groups, then validation.
   */
  function LoadTableWith(drv: Driver, tableName: string, rows: CatalogRows, keyOf: string -> string): (r: Result<Table>)
    ensures r.Ok? ==> TableModel.Validate(r.value).Pass?
    ensures r.Ok? ==> LoadedFrom(drv, tableName, rows, keyOf, r.value)
  {
    var r := LoadSteps(drv, tableName, rows, keyOf);
    if r.Ok? then
      LoadedStages(drv, tableName, rows, keyOf, r.value);
      r
    else r
  }

  /** The steps of loadTable, in source order. */
  function LoadSteps(drv: Driver, tableName: string, rows: CatalogRows, keyOf: string -> string): (r: Result<Table>)
    ensures r.Ok? ==> TableModel.Validate(r.value).Pass?
  {
    var st :- LoadColumns(LoadState(EmptyTable(tableName), None), rows.columns);
    var t2 :- AddGroups(drv, st.table, ConstraintGroups(drv, rows.constraints, st.serial), rows.rules, keyOf);
    var t3 :- AddIndexes(t2, IndexesOf(IndexGroups(drv, rows.indexes)));
    match TableModel.Validate(t3)
    case Fail(e) => Err(e)
    case Pass => Ok(t3)
  }

  /** loadTable with rule rows filed as the constraint rows are. */
  function LoadTable(drv: Driver, tableName: string, rows: CatalogRows): (r: Result<Table>)
    ensures r.Ok? ==> TableModel.Validate(r.value).Pass?
    ensures r.Ok? ==> LoadedFrom(drv, tableName, rows, RuleKeyOf(drv), r.value)
  {
    LoadTableWith(drv, tableName, rows, RuleKeyOf(drv))
  }

  /** loadTable as written: rule rows are filed with the prefix stripped twice. */
  function LoadTableAsWritten(drv: Driver, tableName: string, rows: CatalogRows): (r: Result<Table>)
    ensures r.Ok? ==> TableModel.Validate(r.value).Pass?
    ensures r.Ok? ==> LoadedFrom(drv, tableName, rows, RuleKeyOfAsWritten(drv), r.value)
  {
    LoadTableWith(drv, tableName, rows, RuleKeyOfAsWritten(drv))
  }

  /** The three stages of loadTable put together. */
  lemma LoadedStages(drv: Driver, tableName: string, rows: CatalogRows, keyOf: string -> string, t3: Table)
    requires LoadSteps(drv, tableName, rows, keyOf) == Ok(t3)
    ensures LoadedFrom(drv, tableName, rows, keyOf, t3)
  {
    var st0 := LoadState(EmptyTable(tableName), None);
    var st, t2 := StepsOf(drv, tableName, rows, keyOf, t3);
    var groups := ConstraintGroups(drv, rows.constraints, st.serial);
    LoadColumnsResult(st0, rows.columns, st);
    LoadColumnsIndexes(st0, rows.columns, st);
    assert st.table.indexes == SerialIndexes(st.serial) by {
      LoadColumnsSerial(st0, rows.columns, st);
    }
    AddGroupsContents(drv, st.table, groups, rows.rules, keyOf, t2);
    AddIndexesFrame(t2, IndexesOf(IndexGroups(drv, rows.indexes)));
    assert t3.name == tableName && t3.columns == st.table.columns;
    assert HoldsLoaded(t3, 0, tableName, rows.columns);
    assert t3.indexes == SerialIndexes(st.serial) + GroupIndexes(drv, groups, rows.rules, keyOf)
      + IndexesOf(IndexGroups(drv, rows.indexes));
    assert t3.foreignKeys == GroupKeys(drv, groups, rows.rules, keyOf) by {
      assert st.table.foreignKeys == [];
      assert [] + GroupKeys(drv, groups, rows.rules, keyOf) == GroupKeys(drv, groups, rows.rules, keyOf);
    }
  }

  /** Two key functions that agree on every rule row find the same rule. */
  lemma {:induction false} RuleForAgrees(rules: seq<RuleRow>, k1: string -> string, k2: string -> string, name: string)
    requires forall i :: 0 <= i < |rules| ==> k1(rules[i].name) == k2(rules[i].name)
    ensures RuleFor(rules, k1, name) == RuleFor(rules, k2, name)
    decreases |rules|
  {
    if |rules| > 0 {
      var init := rules[..|rules| - 1];
      assert forall i :: 0 <= i < |init| ==> init[i] == rules[i];
      RuleForAgrees(init, k1, k2, name);
    }
  }

  /** ... and so add the same constraints. */
  lemma {:induction false} AddGroupsAgree(drv: Driver, t: Table, groups: seq<(string, seq<ConstraintRow>)>,
                                          rules: seq<RuleRow>, k1: string -> string, k2: string -> string)
    requires forall i :: 0 <= i < |rules| ==> k1(rules[i].name) == k2(rules[i].name)
    ensures AddGroups(drv, t, groups, rules, k1) == AddGroups(drv, t, groups, rules, k2)
    decreases |groups|
  {
    if |groups| > 0 {
      if |groups[0].1| == 0 {
        AddGroupsAgree(drv, t, groups[1..], rules, k1, k2);
      } else {
        RuleForAgrees(rules, k1, k2, groups[0].0);
        var c := ConstraintOf(groups[0].0, groups[0].1, RuleFor(rules, k1, groups[0].0), drv);
        if c.Ok? && AddConstraint(t, c.value).Ok? {
          AddGroupsAgree(drv, AddConstraint(t, c.value).value, groups[1..], rules, k1, k2);
        }
      }
    }
  }

  /**
   * A rule name that does not start with the table prefix twice is filed
   * under the same key by both lookups, so on such catalogs the as-written
   * loader loads exactly the corrected table.
   */
  lemma LoadTableAsWrittenAgrees(drv: Driver, tableName: string, rows: CatalogRows)
    requires forall i :: 0 <= i < |rows.rules| ==>
      !(|drv.prefix| > 0 && StartsWith(StripPrefix(drv, rows.rules[i].name), drv.prefix))
    ensures LoadTableAsWritten(drv, tableName, rows) == LoadTable(drv, tableName, rows)
  {
    var k1, k2 := RuleKeyOfAsWritten(drv), RuleKeyOf(drv);
    forall i | 0 <= i < |rows.rules|
      ensures k1(rows.rules[i].name) == k2(rows.rules[i].name)
    {
      var once := StripPrefix(drv, rows.rules[i].name);
      assert StripPrefix(drv, once) == once;
    }
    var st := LoadColumns(LoadState(EmptyTable(tableName), None), rows.columns);
    if st.Ok? {
      AddGroupsAgree(drv, st.value.table, ConstraintGroups(drv, rows.constraints, st.value.serial), rows.rules, k1, k2);
    }
    assert LoadSteps(drv, tableName, rows, k1) == LoadSteps(drv, tableName, rows, k2);
  }

  /**
   * A loaded table is valid, holds one column per column row in order,
   * and an auto-increment column is its serial column.
   */
  lemma LoadTableSpec(drv: Driver, tableName: string, rows: CatalogRows)
    requires LoadTable(drv, tableName, rows).Ok?
    ensures Valid(LoadTable(drv, tableName, rows).value)
    ensures LoadColumns(LoadState(EmptyTable(tableName), None), rows.columns).Ok?
    ensures forall i :: 0 <= i < |rows.columns| && IsAutoIncrement(rows.columns[i]) ==>
      LoadColumns(LoadState(EmptyTable(tableName), None), rows.columns).value.serial == Some(rows.columns[i].columnName)
    ensures HoldsLoaded(LoadColumns(LoadState(EmptyTable(tableName), None), rows.columns).value.table, 0, tableName, rows.columns)
    ensures HoldsLoaded(LoadTable(drv, tableName, rows).value, 0, tableName, rows.columns)
    ensures |LoadTable(drv, tableName, rows).value.columns| == |rows.columns|
  {
    var st0 := LoadState(EmptyTable(tableName), None);
    var u := LoadColumns(st0, rows.columns).value;
    LoadColumnsSerial(st0, rows.columns, u);
    LoadColumnsResult(st0, rows.columns, u);
    ValidateSpec(LoadTable(drv, tableName, rows).value);
  }

  /** A single foreign-key row forms a group of its own. */
  lemma OneKeyGroup(drv: Driver, row: ConstraintRow, serial: Option<string>)
    requires row.kind == "FOREIGN KEY"
    ensures ConstraintGroups(drv, [row], serial) == [(StripPrefix(drv, row.name), [row])]
  {
    var key := StripPrefix(drv, row.name);
    assert Kept(serial)(row);
    assert [row][..0] == [];
    assert Filter([row], Kept(serial)) == [row];
    assert GroupBy([row], ConstraintKey(drv)) == AddToGroups(GroupBy([], ConstraintKey(drv)), key, row);
    assert AddToGroups([], key, row) == [(key, [row])];
  }

  /** ... which adds one key, with the actions of the rule `keyOf` finds for it. */
  lemma OneKeyAdded(drv: Driver, t: Table, name: string, row: ConstraintRow, rules: seq<RuleRow>, keyOf: string -> string)
    requires row.kind == "FOREIGN KEY"
    ensures var rule := RuleFor(rules, keyOf, name);
      AddGroups(drv, t, [(name, [row])], rules, keyOf) == Ok(AddForeignKey(t, ForeignKey(name, [row.columnName],
        StripPrefix(drv, row.refTable), [row.refColumn],
        if rule.Some? then rule.value.updateRule else "", if rule.Some? then rule.value.deleteRule else "")))
  {
    assert ColumnsOf([row]) == [row.columnName];
    assert RefColumnsOf([row]) == [row.refColumn];
    assert [(name, [row])][1..] == [];
  }

  /** Validation looks at a foreign key's columns, not at its actions. */
  lemma ValidIgnoresActions(t: Table, fk1: ForeignKey, fk2: ForeignKey)
    requires fk1.columns == fk2.columns
    ensures Valid(AddForeignKey(t, fk1)) <==> Valid(AddForeignKey(t, fk2))
  {
    var t1, t2 := AddForeignKey(t, fk1), AddForeignKey(t, fk2);
    assert forall i :: 0 <= i < |t1.foreignKeys| ==> t1.foreignKeys[i].columns == t2.foreignKeys[i].columns;
  }

  /**
   * The discrepancy at loadTable: one foreign-key row whose name starts
   * with the table prefix twice, and its rule row. The corrected loader
   * gives the key the rule's actions; the as-written loader loads the same
   * table with a key that has none.
   */
  lemma LoadTableRuleDiscrepancy(drv: Driver, tableName: string, rows: CatalogRows, rest: string,
                                 row: ConstraintRow, rule: RuleRow)
    requires |drv.prefix| > 0 && rule.name == drv.prefix + drv.prefix + rest
    requires row.name == rule.name && row.kind == "FOREIGN KEY"
    requires rows.constraints == [row] && rows.rules == [rule] && rows.indexes == []
    requires LoadTable(drv, tableName, rows).Ok?
    ensures LoadTableAsWritten(drv, tableName, rows).Ok?
    ensures var t := LoadTable(drv, tableName, rows).value;
      && |t.foreignKeys| > 0
      && t.foreignKeys[|t.foreignKeys| - 1] == ForeignKey(drv.prefix + rest, [row.columnName],
           StripPrefix(drv, row.refTable), [row.refColumn], rule.updateRule, rule.deleteRule)
      && LoadTableAsWritten(drv, tableName, rows).value == t.(foreignKeys := t.foreignKeys[..|t.foreignKeys| - 1] +
           [ForeignKey(drv.prefix + rest, [row.columnName], StripPrefix(drv, row.refTable), [row.refColumn], "", "")])
  {
    var st := LoadColumns(LoadState(EmptyTable(tableName), None), rows.columns).value;
    var name := drv.prefix + rest;
    var fk := ForeignKey(name, [row.columnName], StripPrefix(drv, row.refTable), [row.refColumn], rule.updateRule, rule.deleteRule);
    var fkw := ForeignKey(name, [row.columnName], StripPrefix(drv, row.refTable), [row.refColumn], "", "");
    var t := AddForeignKey(st.table, fk);
    var w := AddForeignKey(st.table, fkw);
    assert ConstraintGroups(drv, rows.constraints, st.serial) == [(name, [row])] by {
      RuleKeyDiscrepancy(drv, rest, rows.rules, rule);
      OneKeyGroup(drv, row, st.serial);
    }
    assert AddGroups(drv, st.table, [(name, [row])], rows.rules, RuleKeyOf(drv)) == Ok(t)
        && AddGroups(drv, st.table, [(name, [row])], rows.rules, RuleKeyOfAsWritten(drv)) == Ok(w) by {
      RuleKeyDiscrepancy(drv, rest, rows.rules, rule);
      OneKeyAdded(drv, st.table, name, row, rows.rules, RuleKeyOf(drv));
      OneKeyAdded(drv, st.table, name, row, rows.rules, RuleKeyOfAsWritten(drv));
    }
    assert IndexesOf(IndexGroups(drv, rows.indexes)) == [];
    assert LoadTable(drv, tableName, rows) == Ok(t);
    assert TableModel.Validate(w).Pass? by {
      ValidateSpec(t);
      ValidateSpec(w);
      ValidIgnoresActions(st.table, fk, fkw);
    }
    assert LoadTableAsWritten(drv, tableName, rows) == Ok(w);
  }

  /** The serial column's primary-key row never reaches the constraint groups. */
  lemma SerialKeyRowSkipped(drv: Driver, rows: seq<ConstraintRow>, serial: string)
    ensures forall g, k :: 0 <= g < |ConstraintGroups(drv, rows, Some(serial))| && 0 <= k < |ConstraintGroups(drv, rows, Some(serial))[g].1| ==>
      var row := ConstraintGroups(drv, rows, Some(serial))[g].1[k];
      !(row.kind == "PRIMARY KEY" && row.columnName == serial)
  {
    var kept := Filter(rows, Kept(Some(serial)));
    var groups := ConstraintGroups(drv, rows, Some(serial));
    GroupByPartitions(kept, ConstraintKey(drv));
    forall g, k | 0 <= g < |groups| && 0 <= k < |groups[g].1|
      ensures !(groups[g].1[k].kind == "PRIMARY KEY" && groups[g].1[k].columnName == serial)
    {
      SelectIn(kept, ConstraintKey(drv), groups[g].0, k);
    }
  }

  /** Selected rows come from the rows. */
  lemma {:induction false} SelectIn<T>(rows: seq<T>, key: T -> string, name: string, k: nat)
    requires k < |Select(rows, key, name)|
    ensures Select(rows, key, name)[k] in rows
    decreases |rows|
  {
    var init := rows[..|rows| - 1];
    var last := rows[|rows| - 1];
    assert rows == init + [last];
    if k < |Select(init, key, name)| {
      SelectIn(init, key, name, k);
    }
  }

  /** The intermediate results of a successful loadTable. */
  lemma StepsOf(drv: Driver, tableName: string, rows: CatalogRows, keyOf: string -> string, t3: Table)
    returns (st: LoadState, t2: Table)
    requires LoadSteps(drv, tableName, rows, keyOf) == Ok(t3)
    ensures LoadColumns(LoadState(EmptyTable(tableName), None), rows.columns) == Ok(st)
    ensures AddGroups(drv, st.table, ConstraintGroups(drv, rows.constraints, st.serial), rows.rules, keyOf) == Ok(t2)
    ensures AddIndexes(t2, IndexesOf(IndexGroups(drv, rows.indexes))) == Ok(t3)
  {
    st := LoadColumns(LoadState(EmptyTable(tableName), None), rows.columns).value;
    t2 := AddGroups(drv, st.table, ConstraintGroups(drv, rows.constraints, st.serial), rows.rules, keyOf).value;
  }

  /*** The column loop, proved ***/

  /** Once a primary key exists, the loop changes nothing but the columns. */
  lemma {:induction false} LoadColumnsKeep(st: LoadState, rows: seq<ColumnRow>, u: LoadState)
    requires st.table.primary.Some?
    requires LoadColumns(st, rows) == Ok(u)
    ensures u.table.(columns := st.table.columns) == st.table
    decreases |rows|
  {
    if |rows| > 0 {
      var st1 := LoadColumn(st, rows[0]).value;
      LoadColumnsKeep(st1, rows[1..], u);
    }
  }

  /** Starting without a primary key, the loop adds at most the primary key it opens. */
  lemma {:induction false} LoadColumnsIndexes(st: LoadState, rows: seq<ColumnRow>, u: LoadState)
    requires st.table.primary.None?
    requires LoadColumns(st, rows) == Ok(u)
    ensures u.table.indexes == st.table.indexes + (if u.table.primary.Some? then [u.table.primary.value] else [])
    decreases |rows|
  {
    if |rows| == 0 {
      assert st.table.indexes + [] == st.table.indexes;
    } else {
      var st1 := LoadColumn(st, rows[0]).value;
      if IsAutoIncrement(rows[0]) {
        LoadColumnsKeep(st1, rows[1..], u);
      } else {
        LoadColumnsIndexes(st1, rows[1..], u);
      }
    }
  }

  /** Once a primary key exists, no further auto-increment column loads, and the serial column stays. */
  lemma {:induction false} LoadColumnsAfterPrimary(st: LoadState, rows: seq<ColumnRow>, u: LoadState)
    requires st.table.primary.Some?
    requires LoadColumns(st, rows) == Ok(u)
    ensures forall i :: 0 <= i < |rows| ==> !IsAutoIncrement(rows[i])
    ensures u.serial == st.serial && u.table.primary == st.table.primary
    decreases |rows|
  {
    if |rows| > 0 {
      var st1 := LoadColumn(st, rows[0]).value;
      LoadColumnsAfterPrimary(st1, rows[1..], u);
      assert forall i :: 1 <= i < |rows| ==> rows[i] == rows[1..][i - 1];
    }
  }

  /**
   * Starting without a primary key, a loaded table has at most one
   * auto-increment column: it is the serial column and its key is the
   * primary key. Without one there is no serial column and no primary key.
   */
  lemma LoadColumnsSerial(st: LoadState, rows: seq<ColumnRow>, u: LoadState)
    requires st.table.primary.None?
    requires LoadColumns(st, rows) == Ok(u)
    ensures forall i :: 0 <= i < |rows| && IsAutoIncrement(rows[i]) ==>
      u.serial == Some(rows[i].columnName) && u.table.primary == Some(SerialKey(rows[i].columnName))
    ensures (forall i :: 0 <= i < |rows| ==> !IsAutoIncrement(rows[i])) ==>
      u.serial == st.serial && u.table.primary.None?
  {
    LoadColumnsOneSerial(st, rows, u);
    if forall i :: 0 <= i < |rows| ==> !IsAutoIncrement(rows[i]) {
      LoadColumnsNoSerial(st, rows, u);
    }
  }

  /** Every auto-increment row names the serial column and its primary key. */
  lemma {:induction false} LoadColumnsOneSerial(st: LoadState, rows: seq<ColumnRow>, u: LoadState)
    requires st.table.primary.None?
    requires LoadColumns(st, rows) == Ok(u)
    ensures forall i :: 0 <= i < |rows| && IsAutoIncrement(rows[i]) ==>
      u.serial == Some(rows[i].columnName) && u.table.primary == Some(SerialKey(rows[i].columnName))
    decreases |rows|
  {
    if |rows| > 0 {
      var rest := rows[1..];
      var st1 := SerialFirst(st, rows, u);
      if IsAutoIncrement(rows[0]) {
        LoadColumnsAfterPrimary(st1, rest, u);
        forall i | 1 <= i < |rows| ensures !IsAutoIncrement(rows[i]) {
          assert rows[i] == rest[i - 1];
        }
      } else {
        LoadColumnsOneSerial(st1, rest, u);
        forall i | 1 <= i < |rows| ensures rows[i] == rest[i - 1] {
        }
      }
    }
  }

  /** Without auto-increment rows the serial column and the primary key stay as they were. */
  lemma {:induction false} LoadColumnsNoSerial(st: LoadState, rows: seq<ColumnRow>, u: LoadState)
    requires st.table.primary.None?
    requires LoadColumns(st, rows) == Ok(u)
    requires forall i :: 0 <= i < |rows| ==> !IsAutoIncrement(rows[i])
    ensures u.serial == st.serial && u.table.primary.None?
    decreases |rows|
  {
    if |rows| > 0 {
      var rest := rows[1..];
      var st1 := SerialFirst(st, rows, u);
      assert forall i :: 0 <= i < |rest| ==> rest[i] == rows[i + 1];
      LoadColumnsNoSerial(st1, rest, u);
    }
  }

  /** The first row opens the primary key exactly when it auto-increments. */
  lemma SerialFirst(st: LoadState, rows: seq<ColumnRow>, u: LoadState) returns (st1: LoadState)
    requires st.table.primary.None?
    requires |rows| > 0 && LoadColumns(st, rows) == Ok(u)
    ensures LoadColumns(st1, rows[1..]) == Ok(u)
    ensures IsAutoIncrement(rows[0]) ==>
      st1.serial == Some(rows[0].columnName) && st1.table.primary == Some(SerialKey(rows[0].columnName))
    ensures !IsAutoIncrement(rows[0]) ==> st1.serial == st.serial && st1.table.primary.None?
  {
    st1 := LoadColumn(st, rows[0]).value;
  }

  /** The column a loaded row contributes: the built column, loaded into the table. */
  function LoadedColumn(tableName: string, row: ColumnRow): Column
    requires ColumnFromRow(row).Ok?
  {
    Loaded(tableName, row, ColumnFromRow(row).value)
  }

  /** From position `base` on, `t` holds the loaded column of each row, in order. */
  predicate HoldsLoaded(t: Table, base: nat, tableName: string, rows: seq<ColumnRow>) {
    forall i :: 0 <= i < |rows| ==>
      && ColumnFromRow(rows[i]).Ok?
      && base + i < |t.columns|
      && t.columns[base + i] == LoadedColumn(tableName, rows[i])
  }

  lemma HoldsLoadedCons(t: Table, base: nat, tableName: string, rows: seq<ColumnRow>)
    requires |rows| > 0 && ColumnFromRow(rows[0]).Ok?
    requires base < |t.columns| && t.columns[base] == LoadedColumn(tableName, rows[0])
    requires HoldsLoaded(t, base + 1, tableName, rows[1..])
    ensures HoldsLoaded(t, base, tableName, rows)
  {
    forall i | 1 <= i < |rows|
      ensures ColumnFromRow(rows[i]).Ok?
      ensures base + i < |t.columns|
      ensures t.columns[base + i] == LoadedColumn(tableName, rows[i])
    {
      assert rows[i] == rows[1..][i - 1];
    }
  }

  /** The column loop keeps the table's name, keys and earlier columns and adds one loaded column per row. */
  lemma LoadColumnsResult(st: LoadState, rows: seq<ColumnRow>, u: LoadState)
    requires LoadColumns(st, rows) == Ok(u)
    ensures u.table.name == st.table.name && u.table.foreignKeys == st.table.foreignKeys
    ensures |u.table.columns| == |st.table.columns| + |rows|
    ensures u.table.columns[..|st.table.columns|] == st.table.columns
    ensures HoldsLoaded(u.table, |st.table.columns|, st.table.name, rows)
  {
    LoadColumnsFrame(st, rows, u);
    LoadColumnsAppends(st, rows, u);
  }

  lemma {:induction false} LoadColumnsFrame(st: LoadState, rows: seq<ColumnRow>, u: LoadState)
    requires LoadColumns(st, rows) == Ok(u)
    ensures u.table.name == st.table.name && u.table.foreignKeys == st.table.foreignKeys
    ensures |u.table.columns| == |st.table.columns| + |rows|
    ensures u.table.columns[..|st.table.columns|] == st.table.columns
    decreases |rows|
  {
    if |rows| > 0 {
      var st1 := LoadedFirst(st, rows, u);
      LoadColumnsFrame(st1, rows[1..], u);
      PrefixOfPrefix(u.table.columns, st1.table.columns, st.table.columns);
    }
  }

  lemma {:induction false} LoadColumnsAppends(st: LoadState, rows: seq<ColumnRow>, u: LoadState)
    requires LoadColumns(st, rows) == Ok(u)
    ensures HoldsLoaded(u.table, |st.table.columns|, st.table.name, rows)
    decreases |rows|
  {
    if |rows| > 0 {
      var st1 := LoadedFirst(st, rows, u);
      LoadColumnsAppends(st1, rows[1..], u);
      LoadColumnsFrame(st1, rows[1..], u);
      HoldsLoadedStep(u.table, st.table, st1.table, rows);
    }
  }

  /** The first row's column followed by the rest's columns are the columns of all rows. */
  lemma HoldsLoadedStep(u: Table, t: Table, t1: Table, rows: seq<ColumnRow>)
    requires |rows| > 0 && ColumnFromRow(rows[0]).Ok?
    requires t1.name == t.name && t1.columns == t.columns + [LoadedColumn(t.name, rows[0])]
    requires |t1.columns| <= |u.columns| && u.columns[..|t1.columns|] == t1.columns
    requires HoldsLoaded(u, |t1.columns|, t1.name, rows[1..])
    ensures HoldsLoaded(u, |t.columns|, t.name, rows)
  {
    PrefixOfPrefix(u.columns, t1.columns, t.columns);
    HoldsLoadedCons(u, |t.columns|, t.name, rows);
  }

  /** After the first row, the loop continues from a state whose table has the first loaded column appended. */
  lemma LoadedFirst(st: LoadState, rows: seq<ColumnRow>, u: LoadState) returns (st1: LoadState)
    requires |rows| > 0 && LoadColumns(st, rows) == Ok(u)
    ensures LoadColumns(st1, rows[1..]) == Ok(u)
    ensures st1.table.name == st.table.name && st1.table.foreignKeys == st.table.foreignKeys
    ensures ColumnFromRow(rows[0]).Ok?
    ensures st1.table.columns == st.table.columns + [LoadedColumn(st.table.name, rows[0])]
  {
    st1 := LoadColumn(st, rows[0]).value;
  }

  /** A prefix of a prefix is a prefix, and the longer prefix fixes the element after the shorter one. */
  lemma PrefixOfPrefix<T>(u: seq<T>, b: seq<T>, a: seq<T>)
    requires |b| <= |u| && u[..|b|] == b
    requires |a| < |b| && b[..|a|] == a
    ensures u[..|a|] == a && u[|a|] == b[|a|]
  {
    assert u[..|a|] == u[..|b|][..|a|];
  }
}

=== FILE: naming.dfy ===
/** The driver's naming helpers. */
module Naming {
  // The driver's naming helpers: identifier quoting, table-name prefixing and
  // prefix stripping. The driver base class is not part of this model; these
  // are the definitions the two dialect drivers rely on: an identifier is
  // wrapped in the dialect's quote character, and a prefixed name is the
  // configured prefix followed by the bare name.

  import opened Wrappers
  import opened Strings

  datatype Dialect = PGSQL | MySQL

  function QuoteChar(d: Dialect): char {
    match d
    case PGSQL => '"'
    case MySQL => '`'
  }

  /** identQuote: the identifier between two quote characters. */
  function IdentQuote(d: Dialect, x: string): (r: string)
    ensures |r| == |x| + 2
    ensures r[0] == QuoteChar(d) && r[|r| - 1] == QuoteChar(d)
    ensures r[1..|r| - 1] == x
  {
    [QuoteChar(d)] + x + [QuoteChar(d)]
  }

  /** Each name quoted as an identifier, in order. */
  function QuoteAll(d: Dialect, xs: seq<string>): (r: seq<string>)
    ensures |r| == |xs| && forall i :: 0 <= i < |xs| ==> r[i] == IdentQuote(d, xs[i])
  {
    seq(|xs|, i requires 0 <= i < |xs| => IdentQuote(d, xs[i]))
  }

  /** Reading a quoted identifier back. */
  function Unquote(d: Dialect, s: string): (r: Option<string>)
    ensures r.Some? ==> |s| >= 2 && IdentQuote(d, r.value) == s
  {
    if |s| >= 2 && s[0] == QuoteChar(d) && s[|s| - 1] == QuoteChar(d) then
      assert s == [s[0]] + s[1..|s| - 1] + [s[|s| - 1]];
      Some(s[1..|s| - 1])
    else None
  }

  /** Quoting is injective: the quoted text determines the identifier. */
  lemma UnquoteIdentQuote(d: Dialect, x: string)
    ensures Unquote(d, IdentQuote(d, x)) == Some(x)
  {
  }

  /** The driver's configuration: dialect and table-name prefix. */
  datatype Driver = Driver(dialect: Dialect, prefix: string)

  /** getName: the prefixed name, quoted unless `quote` is false. */
  function GetName(drv: Driver, name: string, quote: bool): (r: string)
    ensures !quote ==> StartsWith(r, drv.prefix) && r[|drv.prefix|..] == name
    ensures quote ==> Unquote(drv.dialect, r) == Some(drv.prefix + name)
  {
    if quote then IdentQuote(drv.dialect, drv.prefix + name) else drv.prefix + name
  }

  /** stripPrefix: drop a non-empty configured prefix from a name that starts with it. */
  function StripPrefix(drv: Driver, name: string): (r: string)
    ensures |drv.prefix| > 0 && StartsWith(name, drv.prefix) ==> drv.prefix + r == name
    ensures !(|drv.prefix| > 0 && StartsWith(name, drv.prefix)) ==> r == name
  {
    if |drv.prefix| > 0 && StartsWith(name, drv.prefix) then name[|drv.prefix|..] else name
  }

  /** Stripping undoes unquoted prefixing: catalog names map back to table names. */
  lemma {:induction false} StripGetName(drv: Driver, name: string)
    ensures StripPrefix(drv, GetName(drv, name, false)) == name
  {
    var full := drv.prefix + name;
    assert full[..|drv.prefix|] == drv.prefix;
    assert full[|drv.prefix|..] == name;
  }
}

=== FILE: parameters.dfy ===
/** Query parameters. */
module Parameters {
  // The query parameters a rendering threads through: placeholder bindings,
  // table registrations and sub-scope numbering. The Parameters class is not
  // part of this model; this is the behaviour the renderers depend on:
  //  - placeholders are named c0, c1, ... in allocation order and render as ":cN";
  //  - binding the same value node again returns its existing placeholder
  //    (a node is identified by its `id`, standing for PHP object identity);
  //  - a table's first registration decides its alias;
  //  - sub-scopes are numbered in request order and share the placeholders.

  import opened Wrappers
  import opened Strings
  import opened Values
  import opened Naming

  datatype Params = Params(
    driver: Driver,
    bindings: seq<(string, Value)>,
    bound: map<nat, string>,
    tables: seq<(string, string)>,
    nextScope: nat)

  function NewParams(drv: Driver): Params {
    Params(drv, [], map[], [], 0)
  }

  function Placeholder(k: nat): string {
    "c" + NatToString(k)
  }

  /** Different counters give different placeholder names. */
  lemma PlaceholderInjective(a: nat, b: nat)
    requires Placeholder(a) == Placeholder(b)
    ensures a == b
  {
    assert NatToString(a) == Placeholder(a)[1..];
    assert NatToString(b) == Placeholder(b)[1..];
    NatToStringInjective(a, b);
  }

  /** Every binding is named after its position, and every bound node names one of them. */
  predicate Coherent(p: Params) {
    && (forall k :: 0 <= k < |p.bindings| ==> p.bindings[k].0 == Placeholder(k))
    && (forall id :: id in p.bound ==> exists k :: 0 <= k < |p.bindings| && p.bound[id] == Placeholder(k))
  }

  /** Bind a value node: its existing placeholder, or the next fresh one. */
  function Bind(p: Params, id: nat, v: Value): (r: (Params, string))
    ensures id in p.bound ==> r == (p, p.bound[id])
    ensures id !in p.bound ==>
      && r.1 == Placeholder(|p.bindings|)
      && r.0 == p.(bindings := p.bindings + [(r.1, v)], bound := p.bound[id := r.1])
  {
    if id in p.bound then (p, p.bound[id])
    else
      var name := Placeholder(|p.bindings|);
      (p.(bindings := p.bindings + [(name, v)], bound := p.bound[id := name]), name)
  }

  lemma BindCoherent(p: Params, id: nat, v: Value)
    requires Coherent(p)
    ensures Coherent(Bind(p, id, v).0)
    ensures id in Bind(p, id, v).0.bound && Bind(p, id, v).0.bound[id] == Bind(p, id, v).1
  {
    if id !in p.bound {
      var q := Bind(p, id, v).0;
      forall j | j in q.bound ensures exists k :: 0 <= k < |q.bindings| && q.bound[j] == Placeholder(k) {
        if j == id {
          assert q.bound[j] == Placeholder(|p.bindings|);
        } else {
          var k :| 0 <= k < |p.bindings| && p.bound[j] == Placeholder(k);
          assert q.bound[j] == Placeholder(k);
        }
      }
    }
  }

  /** A freshly allocated placeholder names no earlier binding. */
  lemma BindFresh(p: Params, id: nat, v: Value)
    requires Coherent(p) && id !in p.bound
    ensures forall k :: 0 <= k < |p.bindings| ==> p.bindings[k].0 != Bind(p, id, v).1
  {
    forall k | 0 <= k < |p.bindings| ensures p.bindings[k].0 != Bind(p, id, v).1 {
      if p.bindings[k].0 == Bind(p, id, v).1 {
        PlaceholderInjective(k, |p.bindings|);
      }
    }
  }

  /** Binding a node a second time changes nothing and yields the same placeholder. */
  lemma BindAgain(p: Params, id: nat, v: Value, w: Value)
    ensures Bind(Bind(p, id, v).0, id, w) == (Bind(p, id, v).0, Bind(p, id, v).1)
  {
  }

  /** The value bound under a placeholder name, as `get` reads it. */
  function Lookup(p: Params, name: string): (r: Option<Value>)
    ensures r.Some? ==> exists k :: 0 <= k < |p.bindings| && p.bindings[k] == (name, r.value)
    ensures r.None? ==> forall k :: 0 <= k < |p.bindings| ==> p.bindings[k].0 != name
    decreases |p.bindings|
  {
    if |p.bindings| == 0 then None
    else if p.bindings[0].0 == name then Some(p.bindings[0].1)
    else
      var r := Lookup(p.(bindings := p.bindings[1..]), name);
      assert forall k :: 1 <= k < |p.bindings| ==> p.bindings[k] == p.bindings[1..][k - 1];
      r
  }

  /** Register a table under an alias; a table's first registration wins. */
  function RegisterTable(p: Params, name: string, alias: string): (r: Params)
    ensures (exists k :: 0 <= k < |p.tables| && p.tables[k].0 == name) ==> r == p
    ensures !(exists k :: 0 <= k < |p.tables| && p.tables[k].0 == name) ==>
      r == p.(tables := p.tables + [(name, alias)])
  {
    if exists k :: 0 <= k < |p.tables| && p.tables[k].0 == name then p
    else p.(tables := p.tables + [(name, alias)])
  }

  function FirstTable(tables: seq<(string, string)>, name: string): (r: Option<string>)
    ensures r.None? <==> forall k :: 0 <= k < |tables| ==> tables[k].0 != name
    ensures r.Some? ==> exists k :: 0 <= k < |tables| && tables[k] == (name, r.value)
    decreases |tables|
  {
    if |tables| == 0 then None
    else if tables[0].0 == name then Some(tables[0].1)
    else
      var r := FirstTable(tables[1..], name);
      assert forall k :: 1 <= k < |tables| ==> tables[k] == tables[1..][k - 1];
      r
  }

  /** resolveTable: the table name and its registered alias ("" when unregistered). */
  function ResolveTable(p: Params, name: string): (r: (string, string))
    ensures r.0 == name
    ensures FirstTable(p.tables, name).None? ==> r.1 == ""
    ensures FirstTable(p.tables, name).Some? ==> r.1 == FirstTable(p.tables, name).value
  {
    (name, FirstTable(p.tables, name).GetOr(""))
  }

  /** After registration a table resolves to its first alias; later registrations do not override it. */
  lemma {:induction false} RegisterThenResolve(p: Params, name: string, alias: string, other: string)
    requires FirstTable(p.tables, name).None?
    ensures ResolveTable(RegisterTable(p, name, alias), name) == (name, alias)
    ensures ResolveTable(RegisterTable(RegisterTable(p, name, alias), name, other), name) == (name, alias)
  {
    var q := RegisterTable(p, name, alias);
    assert q.tables == p.tables + [(name, alias)];
    FirstTableAppend(p.tables, name, alias);
    assert q.tables[|p.tables|].0 == name;
  }

  lemma {:induction false} FirstTableAppend(tables: seq<(string, string)>, name: string, alias: string)
    requires FirstTable(tables, name).None?
    ensures FirstTable(tables + [(name, alias)], name) == Some(alias)
    decreases |tables|
  {
    if |tables| > 0 {
      assert (tables + [(name, alias)])[1..] == tables[1..] + [(name, alias)];
      assert tables[0].0 != name;
      FirstTableAppend(tables[1..], name, alias);
    }
  }

  /** getSubScope: a known scope number is returned as is; none allocates the next number. */
  function SubScope(p: Params, id: Option<nat>): (r: (Params, nat))
    ensures id.Some? ==> r == (p, id.value)
    ensures id.None? ==> r.1 == p.nextScope && r.0 == p.(nextScope := p.nextScope + 1)
  {
    match id
    case Some(i) => (p, i)
    case None => (p.(nextScope := p.nextScope + 1), p.nextScope)
  }

  /** Fresh scope numbers strictly increase, so no two requests share one. */
  lemma SubScopeFresh(p: Params)
    ensures SubScope(p, None).1 < SubScope(SubScope(p, None).0, None).1
  {
  }
}

=== FILE: pg_catalog.dfy ===
/**
 * Reading a PostgreSQL table back from the catalog (PGSQL::loadTable,
 * getForeignKeys and getConstraints in src/Driver/PGSQL.php).
 *
 * The catalog queries themselves are not modelled: their result rows are
 * the inputs. The text the catalog prints for a constraint or an index is
 * parsed with the grammar the driver's regular expressions accept, one
 * pattern element after another (`AfterPrefix` for a literal, `TakeWhile`
 * for a greedy character class, `SkipSpace` for `\s*`).
 */
module PgsqlCatalog {
  import opened Wrappers
  import opened Strings
  import opened Values
  import opened Naming
  import opened ColumnModel
  import opened TableModel
  import PgsqlDialect

  /*** Columns ***/

  /** A row of information_schema.columns, as getColumns returns it. */
  datatype ColumnRow = ColumnRow(
    columnName: string,
    dataType: string,
    udtName: string,
    isNullable: Value,
    columnDefault: Value,
    numericPrecision: Value,
    numericScale: Value,
    characterMaximumLength: Value)

  /**
   * The type a row stands for. A user-defined type is an enum when the
   * catalog lists labels for it (`labels` stands for the pg_enum query,
   * empty when it returns no row); any other type goes through the reverse
   * mapping under its lower-cased name.
   */
  function RowType(row: ColumnRow, labels: string -> seq<string>): Option<ColumnType> {
    if row.dataType == "USER-DEFINED" then
      if |labels(row.udtName)| > 0 then Some(ENUM) else None
    else PgsqlDialect.PgReverse(ToLower(row.dataType))
  }

  /** The array handed to Column::factory: the row under the names parseArray reads. */
  function RowData(row: ColumnRow, dataType: Value): ColumnArray {
    ColumnArray(
      Some(VStr(row.columnName)), Some(dataType), Some(row.isNullable), Some(row.columnDefault), None,
      Some(row.numericPrecision), Some(row.numericScale), Some(row.characterMaximumLength), None)
  }

    /**
   * The column loadTable builds from one row, before it joins the table.
   * A user-defined type without labels fails with "Unsupported field
   * type"; an unknown built-in type reaches Column::factory as null and a
   * BOOLEAN one as the constant value "BOOL", and parseArray rejects both.
   */
  function ColumnFromRow(row: ColumnRow, labels: string -> seq<string>): (r: Result<Column>)
    ensures r.Ok? <==> RowType(row, labels).Some? && RowType(row, labels).value != BOOLEAN
    ensures r.Ok? ==> r.value == Column(
      row.columnName, RowType(row, labels).value, Truthy(row.isNullable), row.columnDefault, false,
      NullableInt(row.characterMaximumLength), NullableInt(row.numericPrecision), NullableInt(row.numericScale),
      if row.dataType == "USER-DEFINED" then Some(labels(row.udtName)) else None,
      None)
    ensures r.Err? && row.dataType == "USER-DEFINED" ==>
      r.error == Error(UnsupportedType, "Unsupported field type: " + ToLower(row.dataType))
  {
    if row.dataType == "USER-DEFINED" then
      var ls := labels(row.udtName);
      if |ls| == 0 then Fails(UnsupportedType, "Unsupported field type: " + ToLower(row.dataType))
      else
        ConstValueParses(ENUM);
        var c :- ColumnFromArray(row.columnName, RowData(row, VStr(ConstValue(ENUM))));
        Ok(c.(enumValues := Some(ls)))
    else
      match PgsqlDialect.PgReverse(ToLower(row.dataType))
      case Some(t) =>
        ConstValueParses(t);
        ColumnFromArray(row.columnName, RowData(row, VStr(ConstValue(t))))
      case None =>
        assert ToUpper("") == "";
        ColumnFromArray(row.columnName, RowData(row, VNull))
  }

  /** The logical type of a column survives the catalog when its PostgreSQL name reads back to it. */
  lemma ColumnTypeReadsBack(row: ColumnRow, labels: string -> seq<string>, t: ColumnType)
    requires t != TINYINT && t != MEDIUMINT && t != BOOLEAN && t != ENUM
    requires row.dataType == PgsqlDialect.PgType(t).value
    ensures ColumnFromRow(row, labels).Ok? && ColumnFromRow(row, labels).value.ctype == t
  {
    var name := PgsqlDialect.PgType(t).value;
    PgTypeLowerCase(t);
    assert ToLower("USER-DEFINED")[0] == 'u';
    assert name != "USER-DEFINED";
    PgsqlDialect.PgReverseInverts(t);
    assert RowType(row, labels) == Some(t);
  }

  /** PostgreSQL type names are written in lower case, so lower-casing the catalog's name keeps them. */
  lemma PgTypeLowerCase(t: ColumnType)
    ensures ToLower(PgsqlDialect.PgType(t).value) == PgsqlDialect.PgType(t).value
  {
    match t
    case CHAR | VARCHAR | TEXT | JSON | ENUM | BOOLEAN => LowerCaseTextNames(t);
    case TINYINT | SMALLINT | MEDIUMINT | INT | BIGINT | FLOAT | DECIMAL | BINARY => LowerCaseNumberNames(t);
    case DATE | TIME | DATETIME | DATETIMETZ => LowerCaseTimeNames(t);
  }

  lemma LowerCaseTextNames(t: ColumnType)
    requires t.CHAR? || t.VARCHAR? || t.TEXT? || t.JSON? || t.ENUM? || t.BOOLEAN?
    ensures var name := PgsqlDialect.PgType(t).value;
      forall i :: 0 <= i < |name| ==> !('A' <= name[i] <= 'Z')
  {
  }

  lemma LowerCaseNumberNames(t: ColumnType)
    requires t.TINYINT? || t.SMALLINT? || t.MEDIUMINT? || t.INT? || t.BIGINT? || t.FLOAT? || t.DECIMAL? || t.BINARY?
    ensures var name := PgsqlDialect.PgType(t).value;
      forall i :: 0 <= i < |name| ==> !('A' <= name[i] <= 'Z')
  {
  }

  lemma LowerCaseTimeNames(t: ColumnType)
    requires t.DATE? || t.TIME? || t.DATETIME? || t.DATETIMETZ?
    ensures var name := PgsqlDialect.PgType(t).value;
      forall i :: 0 <= i < |name| ==> !('A' <= name[i] <= 'Z')
  {
  }

  /** A default drawn from a sequence marks a serial column. */
  predicate IsNextval(v: Value) {
    v.VStr? && StartsWith(v.s, "nextval(")
  }

  /** A column as loadTable leaves it: attached, and serial without a default when it draws from a sequence. */
  function Loaded(tableName: string, row: ColumnRow, c: Column): Column {
    if IsNextval(row.columnDefault) then c.(table := Some(tableName), serial := true, default := VNull)
    else c.(table := Some(tableName))
  }

  /** The conditions under which one row joins a table. */
  predicate RowLoads(t: Table, row: ColumnRow, labels: string -> seq<string>) {
    && ColumnFromRow(row, labels).Ok?
    && !HasColumn(t, row.columnName)
    && (IsNextval(row.columnDefault) ==> IsSerialType(ColumnFromRow(row, labels).value.ctype))
  }

  /**
   * One step of loadTable's column loop: build the column, add it, and
   * when its default calls nextval, make it serial and clear the default.
   */
  function LoadColumn(t: Table, row: ColumnRow, labels: string -> seq<string>): (r: Result<Table>)
    ensures r.Ok? <==> RowLoads(t, row, labels)
    ensures r.Ok? ==> r.value == t.(columns := t.columns + [Loaded(t.name, row, ColumnFromRow(row, labels).value)])
  {
    var c :- ColumnFromRow(row, labels);
    var t1 :- AddColumn(t, c);
    if IsNextval(row.columnDefault) then
      var s :- SetSerial(t1.columns[|t1.columns| - 1], true);
      assert t1.columns[..|t1.columns| - 1] == t.columns;
      Ok(t1.(columns := t1.columns[..|t1.columns| - 1] + [s.(default := VNull)]))
    else Ok(t1)
  }

  function LoadColumns(t: Table, rows: seq<ColumnRow>, labels: string -> seq<string>): Result<Table>
    decreases |rows|
  {
    if |rows| == 0 then Ok(t)
    else
      var t1 :- LoadColumn(t, rows[0], labels);
      LoadColumns(t1, rows[1..], labels)
  }

  /** Every row can be built, its name is new, and a nextval default sits on an integer column. */
  predicate RowsLoad(t: Table, rows: seq<ColumnRow>, labels: string -> seq<string>) {
    && AllBuild(rows, labels)
    && NewNames(t, rows)
    && (forall i, j :: 0 <= i < j < |rows| ==> rows[i].columnName != rows[j].columnName)
    && SerialDefaults(rows, labels)
  }

  predicate AllBuild(rows: seq<ColumnRow>, labels: string -> seq<string>) {
    forall i :: 0 <= i < |rows| ==> ColumnFromRow(rows[i], labels).Ok?
  }

  predicate NewNames(t: Table, rows: seq<ColumnRow>) {
    forall i :: 0 <= i < |rows| ==> !HasColumn(t, rows[i].columnName)
  }

  predicate SerialDefaults(rows: seq<ColumnRow>, labels: string -> seq<string>)
    requires AllBuild(rows, labels)
  {
    forall i :: 0 <= i < |rows| && IsNextval(rows[i].columnDefault) ==>
      IsSerialType(ColumnFromRow(rows[i], labels).value.ctype)
  }

  lemma HasColumnAppend(t: Table, c: Column, name: string)
    ensures HasColumn(t.(columns := t.columns + [c]), name) <==> HasColumn(t, name) || c.name == name
  {
    var cols := t.columns + [c];
    if c.name == name {
      assert cols[|t.columns|].name == name;
    }
    if HasColumn(t, name) {
      var i :| 0 <= i < |t.columns| && t.columns[i].name == name;
      assert cols[i].name == name;
    }
  }

  lemma AllBuildCons(rows: seq<ColumnRow>, labels: string -> seq<string>)
    requires |rows| > 0
    ensures AllBuild(rows, labels) <==> ColumnFromRow(rows[0], labels).Ok? && AllBuild(rows[1..], labels)
    ensures AllBuild(rows, labels) ==>
      (SerialDefaults(rows, labels) <==>
        (IsNextval(rows[0].columnDefault) ==> IsSerialType(ColumnFromRow(rows[0], labels).value.ctype))
        && SerialDefaults(rows[1..], labels))
  {
    var rest := rows[1..];
    assert forall i :: 1 <= i < |rows| ==> rows[i] == rest[i - 1];
  }

  /** Names new to the grown table and distinct among the rest are exactly new and distinct names for the old one. */
  lemma NewNamesCons(t: Table, c: Column, rows: seq<ColumnRow>)
    requires |rows| > 0 && c.name == rows[0].columnName
    ensures (NewNames(t, rows) && forall i, j :: 0 <= i < j < |rows| ==> rows[i].columnName != rows[j].columnName)
      <==> (!HasColumn(t, c.name) && NewNames(t.(columns := t.columns + [c]), rows[1..])
        && forall i, j :: 0 <= i < j < |rows[1..]| ==> rows[1..][i].columnName != rows[1..][j].columnName)
  {
    var rest := rows[1..];
    var t1 := t.(columns := t.columns + [c]);
    assert forall i :: 1 <= i < |rows| ==> rows[i] == rest[i - 1];
    forall name: string ensures HasColumn(t1, name) <==> HasColumn(t, name) || c.name == name {
      HasColumnAppend(t, c, name);
    }
  }

  /*** Foreign keys (getForeignKeys) ***/

  /** What the catalog's text of a foreign key says; an action it leaves out is None. */
  datatype FkDefinition = FkDefinition(
    columns: seq<string>,
    referredTable: string,
    referredColumns: seq<string>,
    onUpdate: Option<string>,
    onDelete: Option<string>)

  /** `(CASCADE|RESTRICT|SET NULL)`: the policy the text starts with, and the rest. */
  function PolicyAt(s: string): (r: Option<(string, string)>)
    ensures r.Some? ==> r.value.0 in KnownPolicies && s == r.value.0 + r.value.1
  {
    match AfterPrefix(s, "CASCADE")
    case Some(rest) => Some(("CASCADE", rest))
    case None =>
      match AfterPrefix(s, "RESTRICT")
      case Some(rest) => Some(("RESTRICT", rest))
      case None =>
        match AfterPrefix(s, "SET NULL")
        case Some(rest) => Some(("SET NULL", rest))
        case None => None
  }

  /** The known policies start with different letters, so the alternation reads each one back. */
  lemma PolicyAtOf(p: string, rest: string)
    requires p in KnownPolicies
    ensures PolicyAt(p + rest) == Some((p, rest))
  {
    var s := p + rest;
    assert s[0] == p[0];
    AfterPrefixOf(p, rest);
  }

  /** `(ON UPDATE <policy>)?` and the like: the policy and the rest, or nothing consumed. */
  function ActionAt(s: string, keyword: string): (r: (Option<string>, string))
    ensures r.0.Some? ==> r.0.value in KnownPolicies && s == keyword + r.0.value + r.1
    ensures r.0.None? ==> r.1 == s
  {
    match AfterPrefix(s, keyword)
    case None => (None, s)
    case Some(rest) =>
      match PolicyAt(rest)
      case None => (None, s)
      case Some(found) => (Some(found.0), found.1)
  }

  /** `[\s]*(ON UPDATE (...))?[\s]*(ON DELETE (...))?$` over the text after the referred columns. */
  function ParseActions(s: string): (r: Option<(Option<string>, Option<string>)>)
    ensures r.Some? ==> (r.value.0.Some? ==> r.value.0.value in KnownPolicies)
    ensures r.Some? ==> (r.value.1.Some? ==> r.value.1.value in KnownPolicies)
  {
    var update := ActionAt(SkipSpace(s), "ON UPDATE ");
    var delete := ActionAt(SkipSpace(update.1), "ON DELETE ");
    if delete.1 == "" then Some((update.0, delete.0)) else None
  }

  function UpdateText(u: Option<string>): string {
    match u
    case None => ""
    case Some(p) => " " + ("ON UPDATE " + p)
  }

  function DeleteText(d: Option<string>): string {
    match d
    case None => ""
    case Some(p) => " " + ("ON DELETE " + p)
  }

  /** The actions as pg_get_constraintdef prints them, each after one space. */
  function ActionsText(u: Option<string>, d: Option<string>): string {
    UpdateText(u) + DeleteText(d)
  }

  predicate KnownAction(a: Option<string>) {
    a.Some? ==> a.value in KnownPolicies
  }

  lemma ActionAtNone(s: string, keyword: string)
    requires !StartsWith(s, keyword)
    ensures ActionAt(s, keyword) == (None, s)
  {
  }

  lemma ActionAtOf(keyword: string, p: string, rest: string)
    requires p in KnownPolicies
    ensures ActionAt(keyword + (p + rest), keyword) == (Some(p), rest)
  {
    AfterPrefixOf(keyword, p + rest);
    PolicyAtOf(p, rest);
  }

  /** The two optional action clauses, each read at the start of the text after skipped spaces. */
  lemma ParseActionsSteps(s: string, u: Option<string>, rest: string, d: Option<string>)
    requires ActionAt(SkipSpace(s), "ON UPDATE ") == (u, rest)
    requires ActionAt(SkipSpace(rest), "ON DELETE ") == (d, "")
    ensures ParseActions(s) == Some((u, d))
  {
  }

  /** One printed action clause, a space and then `keyword` and the policy, read back. */
  lemma ClauseReadsBack(keyword: string, p: string, rest: string)
    requires p in KnownPolicies
    requires |keyword| > 0 && !IsSpaceChar(keyword[0])
    ensures ActionAt(SkipSpace(" " + (keyword + (p + rest))), keyword) == (Some(p), rest)
  {
    var body := keyword + (p + rest);
    assert body[0] == keyword[0];
    SkipSpaceOf(" ", body);
    ActionAtOf(keyword, p, rest);
  }

  /** An absent action clause consumes nothing. */
  lemma ClauseAbsent(keyword: string, s: string)
    requires !StartsWith(SkipSpace(s), keyword)
    ensures ActionAt(SkipSpace(s), keyword) == (None, SkipSpace(s))
  {
  }

  lemma SkipSpaceEmpty()
    ensures SkipSpace("") == ""
  {
  }

  /** The delete clause is not an update clause. */
  lemma DeleteIsNotUpdate(q: string)
    ensures !StartsWith(SkipSpace(DeleteText(Some(q))), "ON UPDATE ")
  {
    var body := "ON DELETE " + q;
    assert DeleteText(Some(q)) == " " + body;
    SkipSpaceOf(" ", body);
    assert body[3] == 'D';
  }

  lemma DeleteTextReadsBack(d: Option<string>)
    requires KnownAction(d)
    ensures ActionAt(SkipSpace(DeleteText(d)), "ON DELETE ") == (d, "")
  {
    if d.Some? {
      assert DeleteText(d) == " " + ("ON DELETE " + (d.value + ""));
      ClauseReadsBack("ON DELETE ", d.value, "");
    } else {
      SkipSpaceEmpty();
    }
  }

  /** The actions read back from their printed form. */
  lemma ParseActionsOf(u: Option<string>, d: Option<string>)
    requires KnownAction(u) && KnownAction(d)
    ensures ParseActions(ActionsText(u, d)) == Some((u, d))
  {
    if u.Some? {
      ParseUpdateActionsOf(u, d);
    } else if d.Some? {
      ParseDeleteActionOf(d);
    } else {
      assert ActionsText(u, d) == "";
      SkipSpaceEmpty();
      ParseActionsSteps("", None, "", None);
    }
  }

  lemma ParseUpdateActionsOf(u: Option<string>, d: Option<string>)
    requires u.Some? && KnownAction(u) && KnownAction(d)
    ensures ParseActions(ActionsText(u, d)) == Some((u, d))
  {
    var dt := DeleteText(d);
    assert ActionAt(SkipSpace(dt), "ON DELETE ") == (d, "") by {
      DeleteTextReadsBack(d);
    }
    assert ActionsText(u, d) == " " + ("ON UPDATE " + (u.value + dt)) by {
      AppendAssoc(" ", "ON UPDATE " + u.value, dt);
      AppendAssoc("ON UPDATE ", u.value, dt);
    }
    assert ActionAt(SkipSpace(ActionsText(u, d)), "ON UPDATE ") == (u, dt) by {
      ClauseReadsBack("ON UPDATE ", u.value, dt);
    }
    ParseActionsSteps(ActionsText(u, d), u, dt, d);
  }

  lemma ParseDeleteActionOf(d: Option<string>)
    requires d.Some? && KnownAction(d)
    ensures ParseActions(ActionsText(None, d)) == Some((None, d))
  {
    var dt := DeleteText(d);
    DeleteTextReadsBack(d);
    assert ActionsText(None, d) == dt;
    DeleteIsNotUpdate(d.value);
    ClauseAbsent("ON UPDATE ", dt);
    var after := SkipSpace(dt);
    assert SkipSpace(after) == after by {
      SkipSpaceOf("", after);
    }
    ParseActionsSteps(ActionsText(None, d), None, after, d);
  }

  /**
   * The pattern getForeignKeys matches: `FOREIGN KEY (<list>) REFERENCES
   * <word>(<list>)` then the actions; the lists are split at ", ".
   */
  function ParseFkDefinition(def: string): (r: Option<FkDefinition>)
    ensures r.Some? ==> |r.value.columns| > 0 && |r.value.referredColumns| > 0
    ensures r.Some? ==> r.value.referredTable != "" && AllWordChars(r.value.referredTable)
    ensures r.Some? ==> KnownAction(r.value.onUpdate) && KnownAction(r.value.onDelete)
  {
    var s1 :- AfterPrefix(def, "FOREIGN KEY (");
    var cols := TakeWhile(s1, IsListChar);
    var s3 :- AfterPrefix(cols.1, ") REFERENCES ");
    var target := TakeWhile(s3, IsWordChar);
    var s5 :- AfterPrefix(target.1, "(");
    var refs := TakeWhile(s5, IsListChar);
    var s7 :- AfterPrefix(refs.1, ")");
    var actions :- ParseActions(s7);
    if cols.0 == "" || target.0 == "" || refs.0 == "" then None
    else Some(FkDefinition(SplitOn(cols.0, ", "), target.0, SplitOn(refs.0, ", "), actions.0, actions.1))
  }

  /** The definition as the catalog prints it. */
  function FkDefinitionText(d: FkDefinition): string {
    "FOREIGN KEY (" + (Join(d.columns, ", ") + (") REFERENCES " + (d.referredTable + ("(" +
      (Join(d.referredColumns, ", ") + (")" + ActionsText(d.onUpdate, d.onDelete)))))))
  }

  /** Non-empty names of word characters: what the list patterns can carry. */
  predicate PlainNames(xs: seq<string>) {
    |xs| > 0 && forall i :: 0 <= i < |xs| ==> xs[i] != "" && AllWordChars(xs[i])
  }

  predicate PrintableFk(d: FkDefinition) {
    && PlainNames(d.columns)
    && PlainNames(d.referredColumns)
    && d.referredTable != "" && AllWordChars(d.referredTable)
    && KnownAction(d.onUpdate) && KnownAction(d.onDelete)
  }

  /** A list of plain names is read back whole by the list pattern and split into the same names. */
  lemma NameListReadsBack(xs: seq<string>, after: string)
    requires PlainNames(xs)
    requires |after| > 0 && after[0] == ')'
    ensures TakeWhile(Join(xs, ", ") + after, IsListChar) == (Join(xs, ", "), after)
    ensures Join(xs, ", ") != ""
    ensures SplitOn(Join(xs, ", "), ", ") == xs
  {
    var sep := ", ";
    JoinChars(xs, sep, IsListChar);
    TakeWhileOf(Join(xs, sep), after, IsListChar);
    JoinStartsWith(xs, sep);
    assert forall i :: 0 <= i < |xs| ==> sep[0] !in xs[i] by {
      forall i | 0 <= i < |xs| ensures sep[0] !in xs[i] {
        assert forall j :: 0 <= j < |xs[i]| ==> IsWordChar(xs[i][j]);
      }
    }
    SplitOnJoin(xs, sep);
  }

  /** getForeignKeys reads the printed definition of a well-formed key back. */
  lemma {:induction false} FkDefinitionRoundTrip(d: FkDefinition)
    requires PrintableFk(d)
    ensures ParseFkDefinition(FkDefinitionText(d)) == Some(d)
  {
    var acts := ActionsText(d.onUpdate, d.onDelete);
    var refs := Join(d.referredColumns, ", ");
    var cols := Join(d.columns, ", ");
    var s7 := acts;
    var s5 := refs + (")" + s7);
    var s3 := d.referredTable + ("(" + s5);
    var s1 := cols + (") REFERENCES " + s3);
    assert FkDefinitionText(d) == "FOREIGN KEY (" + s1;
    AfterPrefixOf("FOREIGN KEY (", s1);
    NameListReadsBack(d.columns, ") REFERENCES " + s3);
    AfterPrefixOf(") REFERENCES ", s3);
    TakeWhileOf(d.referredTable, "(" + s5, IsWordChar);
    AfterPrefixOf("(", s5);
    NameListReadsBack(d.referredColumns, ")" + s7);
    AfterPrefixOf(")", s7);
    ParseActionsOf(d.onUpdate, d.onDelete);
  }

  /** A row of the foreign-key query: the constraint name and its printed definition. */
  datatype ForeignKeyRow = ForeignKeyRow(name: string, definition: string)

  /**
   * The policies as getForeignKeys computes them: the delete policy is read
   * from the update capture, and a lone ON DELETE leaves the update capture
   * empty but set, so both policies become "".
   */
  function PoliciesAsWritten(d: FkDefinition): (string, string) {
    match (d.onUpdate, d.onDelete)
    case (Some(u), Some(_)) => (u, u)
    case (Some(u), None) => (u, "RESTRICT")
    case (None, Some(_)) => ("", "")
    case (None, None) => ("RESTRICT", "RESTRICT")
  }

  /** Each policy from its own clause, RESTRICT when the clause is absent. */
  function Policies(d: FkDefinition): (string, string) {
    (d.onUpdate.GetOr("RESTRICT"), d.onDelete.GetOr("RESTRICT"))
  }

  function KeyOf(drv: Driver, name: string, d: FkDefinition, policies: (string, string)): ForeignKey {
    ForeignKey(StripPrefix(drv, name), d.columns, d.referredTable, d.referredColumns, policies.0, policies.1)
  }

  function ForeignKeyFromRowAsWritten(drv: Driver, row: ForeignKeyRow): (r: Result<ForeignKey>)
    ensures r.Err? <==> ParseFkDefinition(row.definition).None?
  {
    match ParseFkDefinition(row.definition)
    case None => Fails(MalformedCatalog, "Invalid condef: " + row.definition)
    case Some(d) => Ok(KeyOf(drv, row.name, d, PoliciesAsWritten(d)))
  }

  /** One foreign key from a catalog row, its name stripped of the table prefix. */
  function ForeignKeyFromRow(drv: Driver, row: ForeignKeyRow): (r: Result<ForeignKey>)
    ensures r.Err? <==> ParseFkDefinition(row.definition).None?
    ensures r.Err? ==> r.error == Error(MalformedCatalog, "Invalid condef: " + row.definition)
    ensures r.Ok? ==> r.value.name == StripPrefix(drv, row.name)
  {
    match ParseFkDefinition(row.definition)
    case None => Fails(MalformedCatalog, "Invalid condef: " + row.definition)
    case Some(d) => Ok(KeyOf(drv, row.name, d, Policies(d)))
  }

  /**
   * A foreign key whose definition the catalog prints is read back with
   * its columns, target and both policies, an absent action as RESTRICT.
   */
  lemma ForeignKeyRoundTrip(drv: Driver, name: string, d: FkDefinition)
    requires PrintableFk(d)
    ensures ForeignKeyFromRow(drv, ForeignKeyRow(name, FkDefinitionText(d))) == Ok(ForeignKey(
      StripPrefix(drv, name), d.columns, d.referredTable, d.referredColumns,
      d.onUpdate.GetOr("RESTRICT"), d.onDelete.GetOr("RESTRICT")))
  {
    FkDefinitionRoundTrip(d);
  }

  /** What a row yields once its definition has parsed. */
  lemma FromParsedRow(drv: Driver, row: ForeignKeyRow, d: FkDefinition)
    requires ParseFkDefinition(row.definition) == Some(d)
    ensures ForeignKeyFromRow(drv, row) == Ok(KeyOf(drv, row.name, d, Policies(d)))
    ensures ForeignKeyFromRowAsWritten(drv, row) == Ok(KeyOf(drv, row.name, d, PoliciesAsWritten(d)))
  {
  }

  /**
   * As written, a key with both actions reads back with the update policy
   * in place of its delete policy, and a key with only ON DELETE reads back
   * with two empty policies; the corrected reading keeps each policy.
   */
  lemma ForeignKeyPolicyDiscrepancy(drv: Driver, row: ForeignKeyRow, d: FkDefinition)
    requires ParseFkDefinition(row.definition) == Some(d)
    ensures d.onUpdate.Some? && d.onDelete.Some? ==>
      ForeignKeyFromRowAsWritten(drv, row).value.onDelete == d.onUpdate.value
    ensures d.onUpdate.None? && d.onDelete.Some? ==>
      ForeignKeyFromRowAsWritten(drv, row).value.onUpdate == "" && ForeignKeyFromRowAsWritten(drv, row).value.onDelete == ""
    ensures ForeignKeyFromRow(drv, row).value.onDelete == d.onDelete.GetOr("RESTRICT")
  {
    FromParsedRow(drv, row, d);
  }

  /*** Indexes and constraints (getConstraints) ***/

  /** A row of the index query: the index name, its flags and the printed index and constraint. */
  datatype ConstraintRow = ConstraintRow(
    name: string,
    isPrimary: bool,
    isUnique: bool,
    indexDef: string,
    constraintDef: string)

  /** `^PRIMARY KEY \((<list>)\)$`: the key's columns. */
  function ParsePrimaryKey(def: string): (r: Option<seq<string>>)
    ensures r.Some? ==> |r.value| > 0
  {
    var s1 :- AfterPrefix(def, "PRIMARY KEY (");
    var cols := TakeWhile(s1, IsListChar);
    if cols.0 != "" && cols.1 == ")" then Some(SplitOn(cols.0, ", ")) else None
  }

  function PrimaryKeyText(cols: seq<string>): string {
    "PRIMARY KEY (" + (Join(cols, ", ") + ")")
  }

  /** A primary key constraint reads back with its columns. */
  lemma PrimaryKeyRoundTrip(cols: seq<string>)
    requires PlainNames(cols)
    ensures ParsePrimaryKey(PrimaryKeyText(cols)) == Some(cols)
  {
    AfterPrefixOf("PRIMARY KEY (", Join(cols, ", ") + ")");
    NameListReadsBack(cols, ")");
  }

  /** `^CREATE UNIQUE INDEX \w+ ON \w+ USING (\w+) \((<list>)\)$`: the method and the columns. */
  function ParseUniqueIndex(def: string): (r: Option<(string, seq<string>)>)
    ensures r.Some? ==> r.value.0 != "" && AllWordChars(r.value.0) && |r.value.1| > 0
  {
    var s1 :- AfterPrefix(def, "CREATE UNIQUE INDEX ");
    var name := TakeWhile(s1, IsWordChar);
    var s3 :- AfterPrefix(name.1, " ON ");
    var table := TakeWhile(s3, IsWordChar);
    var s5 :- AfterPrefix(table.1, " USING ");
    var algo := TakeWhile(s5, IsWordChar);
    var s7 :- AfterPrefix(algo.1, " (");
    var cols := TakeWhile(s7, IsListChar);
    if name.0 != "" && table.0 != "" && algo.0 != "" && cols.0 != "" && cols.1 == ")" then
      Some((algo.0, SplitOn(cols.0, ", ")))
    else None
  }

  function UniqueIndexText(name: string, table: string, algo: string, cols: seq<string>): string {
    "CREATE UNIQUE INDEX " + (name + (" ON " + (table + (" USING " + (algo + (" (" + (Join(cols, ", ") + ")")))))))
  }

  predicate PlainName(s: string) {
    s != "" && AllWordChars(s)
  }

  /** A word followed by text that starts with a space is read whole by `\w+`. */
  lemma WordReadsBack(w: string, rest: string)
    requires PlainName(w) && |rest| > 0 && rest[0] == ' '
    ensures TakeWhile(w + rest, IsWordChar) == (w, rest)
  {
    TakeWhileOf(w, rest, IsWordChar);
  }

  /** A unique index reads back with its method and columns. */
  lemma UniqueIndexRoundTrip(name: string, table: string, algo: string, cols: seq<string>)
    requires PlainName(name) && PlainName(table) && PlainName(algo) && PlainNames(cols)
    ensures ParseUniqueIndex(UniqueIndexText(name, table, algo, cols)) == Some((algo, cols))
  {
    var s7 := Join(cols, ", ") + ")";
    var s5 := algo + (" (" + s7);
    var s3 := table + (" USING " + s5);
    var s1 := name + (" ON " + s3);
    assert UniqueIndexText(name, table, algo, cols) == "CREATE UNIQUE INDEX " + s1;
    AfterPrefixOf("CREATE UNIQUE INDEX ", s1);
    WordReadsBack(name, " ON " + s3);
    AfterPrefixOf(" ON ", s3);
    WordReadsBack(table, " USING " + s5);
    AfterPrefixOf(" USING ", s5);
    WordReadsBack(algo, " (" + s7);
    AfterPrefixOf(" (", s7);
    NameListReadsBack(cols, ")");
  }

  /** What the pattern of a plain index captures: the method ("" when absent), the column text, the condition. */
  datatype IndexDefinition = IndexDefinition(algorithm: string, body: string, condition: Option<string>)

  /** `(USING ([\w]+))?`: the method and the rest, or nothing consumed. */
  function UsingAt(s: string): (r: (string, string))
    ensures r.0 == "" ==> r.1 == s
    ensures r.0 != "" ==> AllWordChars(r.0) && s == "USING " + r.0 + r.1
  {
    match AfterPrefix(s, "USING ")
    case None => ("", s)
    case Some(rest) =>
      var algo := TakeWhile(rest, IsWordChar);
      if algo.0 != "" then algo else ("", s)
  }

  /** `(\s*WHERE (.*))?$` accepts the text after a closing parenthesis. */
  predicate TailOk(tail: string) {
    tail == "" || StartsWith(SkipSpace(tail), "WHERE ")
  }

  /** The condition the tail carries, if any. */
  function Condition(tail: string): Option<string> {
    AfterPrefix(SkipSpace(tail), "WHERE ")
  }

  /** Position `j` of `u` can end the greedy `(.+)\)`. */
  predicate ClosesAt(u: string, j: int) {
    1 <= j < |u| && u[j] == ')' && TailOk(u[j + 1..])
  }

  /** For each position of `u`, whether it can end the column text. */
  function CloseMarks(u: string): (r: seq<bool>)
    ensures |r| == |u| && forall k :: 0 <= k < |u| ==> r[k] == ClosesAt(u, k)
  {
    seq(|u|, k requires 0 <= k < |u| => ClosesAt(u, k))
  }

  /** The last marked position below `n`, as greedy matching finds it. */
  function LastMarkBelow(marks: seq<bool>, n: nat): (r: Option<nat>)
    requires n <= |marks|
    ensures r.Some? ==> r.value < n && marks[r.value]
    ensures r.Some? ==> forall k :: r.value < k < n ==> !marks[k]
    ensures r.None? ==> forall k :: 0 <= k < n ==> !marks[k]
    decreases n
  {
    if n == 0 then None
    else if marks[n - 1] then Some(n - 1)
    else LastMarkBelow(marks, n - 1)
  }

  /** A marked position with none after it is the last one. */
  lemma LastMarkAt(marks: seq<bool>, j: nat)
    requires j < |marks| && marks[j] && forall k :: j < k < |marks| ==> !marks[k]
    ensures LastMarkBelow(marks, |marks|) == Some(j)
  {
    var r := LastMarkBelow(marks, |marks|);
    assert r.Some?;
  }

  /**
   * `^CREATE INDEX <name> ON <table> (USING ([\w]+))?\s*\((.+)\)(\s*WHERE (.*))?$`
   * with the index and table names taken literally.
   */
  function ParseIndex(def: string, name: string, table: string): (r: Option<IndexDefinition>)
    ensures r.Some? ==> r.value.body != ""
  {
    var rest :- IndexHead(def, name, table);
    var parts :- IndexTail(rest);
    Some(IndexDefinition(parts.0, parts.1, Condition(parts.2)))
  }

  /** The literal part up to the space after the table name; the rest of the text. */
  function IndexHead(def: string, name: string, table: string): Option<string> {
    var s1 :- AfterPrefix(def, "CREATE INDEX ");
    var s2 :- AfterPrefix(s1, name);
    var s3 :- AfterPrefix(s2, " ON ");
    var s4 :- AfterPrefix(s3, table);
    AfterPrefix(s4, " ")
  }

  /** The optional method, the parenthesised column text, and the text after its closing parenthesis. */
  function IndexTail(s: string): (r: Option<(string, string, string)>)
    ensures r.Some? ==> r.value.1 != ""
  {
    var algo := UsingAt(s);
    var parts :- ParenTail(algo.1);
    Some((algo.0, parts.0, parts.1))
  }

  /** `\s*\((.+)\)` followed by the rest: the column text and what follows its last fitting parenthesis. */
  function ParenTail(after: string): (r: Option<(string, string)>)
    ensures r.Some? ==> r.value.0 != ""
  {
    var u :- AfterPrefix(SkipSpace(after), "(");
    var j :- LastMarkBelow(CloseMarks(u), |u|);
    assert ClosesAt(u, j);
    Some((u[..j], u[j + 1..]))
  }

  function UsingText(algo: string): string {
    if algo == "" then "" else "USING " + (algo + " ")
  }

  function WhereText(condition: Option<string>): string {
    match condition
    case None => ""
    case Some(c) => " WHERE " + c
  }

  /** An index as pg_get_indexdef prints it. */
  function IndexText(name: string, table: string, d: IndexDefinition): string {
    "CREATE INDEX " + (name + (" ON " + (table + (" " + (UsingText(d.algorithm) + ("(" + (d.body + (")" + WhereText(d.condition)))))))))
  }

  /** An index definition the pattern can read back unambiguously. */
  predicate PrintableIndex(d: IndexDefinition) {
    && (d.algorithm == "" || AllWordChars(d.algorithm))
    && d.body != ""
    && (d.condition.Some? ==> ')' !in d.condition.value)
  }

  lemma UsingReadsBack(algo: string, rest: string)
    requires algo == "" || AllWordChars(algo)
    requires |rest| > 0 && rest[0] == '('
    ensures UsingAt(UsingText(algo) + rest) == (algo, if algo == "" then rest else " " + rest)
    ensures SkipSpace(UsingAt(UsingText(algo) + rest).1) == rest
  {
    if algo == "" {
      assert UsingText(algo) + rest == rest;
      SkipSpaceOf("", rest);
    } else {
      assert UsingText(algo) + rest == "USING " + (algo + (" " + rest));
      AfterPrefixOf("USING ", algo + (" " + rest));
      TakeWhileOf(algo, " " + rest, IsWordChar);
      SkipSpaceOf(" ", rest);
    }
  }

  /** A printed condition is accepted after the closing parenthesis, holds none itself, and reads back. */
  lemma WhereReadsBack(condition: Option<string>)
    requires condition.Some? ==> ')' !in condition.value
    ensures TailOk(WhereText(condition))
    ensures ')' !in WhereText(condition)
    ensures Condition(WhereText(condition)) == condition
  {
    if condition.Some? {
      var c := condition.value;
      var body := "WHERE " + c;
      assert WhereText(condition) == " " + body;
      SkipSpaceOf(" ", body);
      AfterPrefixOf("WHERE ", c);
      assert ')' !in " WHERE ";
    } else {
      SkipSpaceEmpty();
    }
  }

  /** The last closing parenthesis is the one after the column text when the tail has none. */
  lemma LastCloseOf(body: string, w: string)
    requires body != ""
    requires TailOk(w) && ')' !in w
    ensures LastMarkBelow(CloseMarks(body + (")" + w)), |body + (")" + w)|) == Some(|body|)
  {
    var u := body + (")" + w);
    var marks := CloseMarks(u);
    assert marks[|body|] by {
      assert u[|body|] == ')';
      assert u[|body| + 1..] == w;
    }
    forall k | |body| < k < |marks| ensures !marks[k] {
      assert u[k] == w[k - |body| - 1] && w[k - |body| - 1] in w;
    }
    LastMarkAt(marks, |body|);
  }

  lemma ParenTailSteps(after: string, u: string, j: nat)
    requires AfterPrefix(SkipSpace(after), "(") == Some(u)
    requires LastMarkBelow(CloseMarks(u), |u|) == Some(j)
    ensures ParenTail(after) == Some((u[..j], u[j + 1..]))
  {
  }

  lemma IndexTailCompose(s: string, algo: string, after: string, body: string, w: string)
    requires UsingAt(s) == (algo, after)
    requires SkipSpace(after) == "(" + (body + (")" + w))
    requires LastMarkBelow(CloseMarks(body + (")" + w)), |body + (")" + w)|) == Some(|body|)
    ensures IndexTail(s) == Some((algo, body, w))
  {
    ParenTailAt(after, body, w);
  }

  /** Once the last close is known to follow `body`, the parenthesised text is `body` and the tail `w`. */
  lemma ParenTailAt(after: string, body: string, w: string)
    requires SkipSpace(after) == "(" + (body + (")" + w))
    requires LastMarkBelow(CloseMarks(body + (")" + w)), |body + (")" + w)|) == Some(|body|)
    ensures ParenTail(after) == Some((body, w))
  {
    var u := body + (")" + w);
    assert AfterPrefix(SkipSpace(after), "(") == Some(u) by {
      AfterPrefixOf("(", u);
    }
    ParenTailSteps(after, u, |body|);
    CloseSplit(body, w);
  }

  lemma IndexTailOf(algo: string, body: string, w: string)
    requires algo == "" || AllWordChars(algo)
    requires body != ""
    requires TailOk(w) && ')' !in w
    ensures IndexTail(UsingText(algo) + ("(" + (body + (")" + w)))) == Some((algo, body, w))
  {
    var rest := "(" + (body + (")" + w));
    var s := UsingText(algo) + rest;
    UsingReadsBack(algo, rest);
    LastCloseOf(body, w);
    IndexTailCompose(s, algo, UsingAt(s).1, body, w);
  }

  /** Cutting `body + ")" + w` around its close gives back the two pieces. */
  lemma CloseSplit(body: string, w: string)
    ensures Some(((body + (")" + w))[..|body|], (body + (")" + w))[|body| + 1..])) == Some((body, w))
  {
    SplitThree(body, ")", w);
  }

  lemma SplitThree(a: string, b: string, c: string)
    ensures (a + (b + c))[..|a|] == a
    ensures (a + (b + c))[|a| + |b|..] == c
  {
  }

  lemma IndexHeadOf(name: string, table: string, rest: string)
    ensures IndexHead("CREATE INDEX " + (name + (" ON " + (table + (" " + rest)))), name, table) == Some(rest)
  {
    var s4 := " " + rest;
    var s3 := table + s4;
    var s2 := " ON " + s3;
    var s1 := name + s2;
    AfterPrefixOf("CREATE INDEX ", s1);
    AfterPrefixOf(name, s2);
    AfterPrefixOf(" ON ", s3);
    AfterPrefixOf(table, s4);
    AfterPrefixOf(" ", rest);
  }

  /** A plain index reads back with its method, column text and condition. */
  lemma IndexRoundTrip(name: string, table: string, d: IndexDefinition)
    requires PrintableIndex(d)
    ensures ParseIndex(IndexText(name, table, d), name, table) == Some(d)
  {
    var rest := UsingText(d.algorithm) + ("(" + (d.body + (")" + WhereText(d.condition))));
    assert IndexText(name, table, d) == "CREATE INDEX " + (name + (" ON " + (table + (" " + rest))));
    IndexHeadOf(name, table, rest);
    WhereReadsBack(d.condition);
    IndexTailOf(d.algorithm, d.body, WhereText(d.condition));
  }

  /**
   * The index a constraint row describes: a primary key from the
   * constraint text; a unique index or a plain index from the index text,
   * named without the table prefix. The plain index's column text is split
   * by `explode` (explodeFunc is not part of this model); its method and
   * condition are recognised but not kept.
   */
  function IndexFromRow(drv: Driver, tableName: string, row: ConstraintRow, explode: string -> seq<string>): (r: Result<Index>)
    ensures r.Ok? ==> r.value.kind == (if row.isPrimary then PRIMARY else if row.isUnique then UNIQUE else INDEX)
    ensures r.Ok? && row.isPrimary ==>
      ParsePrimaryKey(row.constraintDef).Some? && r.value == Index(PRIMARY, "", ParsePrimaryKey(row.constraintDef).value)
    ensures r.Ok? && !row.isPrimary ==> r.value.name == StripPrefix(drv, row.name)
    ensures r.Err? ==> r.error.kind == MalformedCatalog
    ensures r.Err? <==>
      if row.isPrimary then ParsePrimaryKey(row.constraintDef).None?
      else if row.isUnique then ParseUniqueIndex(row.indexDef).None?
      else ParseIndex(row.indexDef, row.name, GetName(drv, tableName, false)).None?
  {
    if row.isPrimary then
      match ParsePrimaryKey(row.constraintDef)
      case None => Fails(MalformedCatalog, "Invalid primary key: " + row.constraintDef)
      case Some(cols) => Ok(Index(PRIMARY, "", cols))
    else if row.isUnique then
      match ParseUniqueIndex(row.indexDef)
      case None => Fails(MalformedCatalog, "Invalid unique key: " + row.indexDef)
      case Some(found) => Ok(Index(UNIQUE, StripPrefix(drv, row.name), found.1))
    else
      match ParseIndex(row.indexDef, row.name, GetName(drv, tableName, false))
      case None => Fails(MalformedCatalog, "Invalid index: " + row.indexDef)
      case Some(d) => Ok(Index(INDEX, StripPrefix(drv, row.name), explode(d.body)))
  }

  /** Catalog rows printed from well-formed indexes read back as those indexes. */
  lemma IndexRowsRoundTrip(drv: Driver, tableName: string, name: string, explode: string -> seq<string>,
                           cols: seq<string>, table: string, algo: string, d: IndexDefinition)
    requires PlainNames(cols) && PlainName(table) && PlainName(name) && PlainName(algo) && PrintableIndex(d)
    ensures IndexFromRow(drv, tableName, ConstraintRow(name, true, true, "", PrimaryKeyText(cols)), explode)
      == Ok(Index(PRIMARY, "", cols))
    ensures IndexFromRow(drv, tableName, ConstraintRow(name, false, true, UniqueIndexText(name, table, algo, cols), ""), explode)
      == Ok(Index(UNIQUE, StripPrefix(drv, name), cols))
    ensures IndexFromRow(drv, tableName,
        ConstraintRow(name, false, false, IndexText(name, GetName(drv, tableName, false), d), ""), explode)
      == Ok(Index(INDEX, StripPrefix(drv, name), explode(d.body)))
  {
    PrimaryKeyRoundTrip(cols);
    UniqueIndexRoundTrip(name, table, algo, cols);
    IndexRoundTrip(name, GetName(drv, tableName, false), d);
  }

  /*** loadTable ***/

  /** The catalog rows loadTable reads for one table. */
  datatype CatalogRows = CatalogRows(
    columns: seq<ColumnRow>,
    labels: string -> seq<string>,
    constraints: seq<ConstraintRow>,
    foreignKeys: seq<ForeignKeyRow>)

  /** The index reader loadTable applies to every constraint row. */
  function IndexReader(drv: Driver, tableName: string, explode: string -> seq<string>): ConstraintRow -> Result<Index> {
    row => IndexFromRow(drv, tableName, row, explode)
  }

  /**
   * What loadTable builds from the catalog rows: one loaded column per
   * column row, in order; one index per constraint row and one foreign
   * key per key row, each as its row reads, in row order.
   */
  predicate LoadedFrom(drv: Driver, tableName: string, rows: CatalogRows, explode: string -> seq<string>,
                       keyOf: ForeignKeyRow -> Result<ForeignKey>, t: Table) {
    && t.name == tableName
    && |t.columns| == |rows.columns|
    && HoldsLoaded(t, 0, tableName, rows.columns, rows.labels)
    && MapAll(IndexReader(drv, tableName, explode), rows.constraints) == Ok(t.indexes)
    && MapAll(keyOf, rows.foreignKeys) == Ok(t.foreignKeys)
  }

  /**
   * loadTable after the existence check: load the columns, add the
   * indexes of every constraint row, add the foreign keys, and validate.
   * Each group is parsed whole before any of it is added.
   */
  function LoadTableWith(drv: Driver, tableName: string, rows: CatalogRows, explode: string -> seq<string>,
                         keyOf: ForeignKeyRow -> Result<ForeignKey>): (r: Result<Table>)
    ensures r.Ok? ==> TableModel.Validate(r.value).Pass?
    ensures r.Ok? ==> LoadedFrom(drv, tableName, rows, explode, keyOf, r.value)
  {
    var t1 :- LoadColumns(EmptyTable(tableName), rows.columns, rows.labels);
    var idxs :- MapAll(IndexReader(drv, tableName, explode), rows.constraints);
    var t2 :- AddIndexes(t1, idxs);
    var fks :- MapAll(keyOf, rows.foreignKeys);
    var t3 := AddForeignKeys(t2, fks);
    match TableModel.Validate(t3)
    case Fail(e) => Err(e)
    case Pass =>
      LoadedStages(tableName, rows, t1, idxs, t2, fks);
      Ok(t3)
  }

  /** The stages put together: the loaded columns, then the indexes, then the keys, each appended to an empty list. */
  lemma LoadedStages(tableName: string, rows: CatalogRows, t1: Table, idxs: seq<Index>, t2: Table, fks: seq<ForeignKey>)
    requires LoadColumns(EmptyTable(tableName), rows.columns, rows.labels) == Ok(t1)
    requires AddIndexes(t1, idxs) == Ok(t2)
    ensures var t3 := AddForeignKeys(t2, fks);
      && t3.name == tableName && |t3.columns| == |rows.columns|
      && HoldsLoaded(t3, 0, tableName, rows.columns, rows.labels)
      && t3.indexes == idxs && t3.foreignKeys == fks
  {
    LoadColumnsFrame(EmptyTable(tableName), rows.columns, rows.labels, t1);
    LoadColumnsAppends(EmptyTable(tableName), rows.columns, rows.labels, t1);
    AddIndexesFrame(t1, idxs);
    assert [] + idxs == idxs && [] + fks == fks;
  }

  /** The foreign-key reader of the corrected driver, and as written. */
  function KeyReader(drv: Driver): ForeignKeyRow -> Result<ForeignKey> {
    row => ForeignKeyFromRow(drv, row)
  }

  function KeyReaderAsWritten(drv: Driver): ForeignKeyRow -> Result<ForeignKey> {
    row => ForeignKeyFromRowAsWritten(drv, row)
  }

  /** loadTable of the corrected driver. */
  function LoadTable(drv: Driver, tableName: string, rows: CatalogRows, explode: string -> seq<string>): (r: Result<Table>)
    ensures r.Ok? ==> TableModel.Validate(r.value).Pass?
    ensures r.Ok? ==> r.value.name == tableName
    ensures r.Ok? ==> LoadedFrom(drv, tableName, rows, explode, KeyReader(drv), r.value)
  {
    LoadTableWith(drv, tableName, rows, explode, KeyReader(drv))
  }

  /**
   * loadTable as written is a method of a driver that cannot be
   * constructed (PgsqlDialect.NewDriverAsWritten), so every call reports
   * the constructor's error; past it, the keys would be read by
   * ForeignKeyFromRowAsWritten.
   */
  function LoadTableAsWritten(drv: Driver, tableName: string, rows: CatalogRows, explode: string -> seq<string>): (r: Result<Table>)
    ensures r == Err(Error(Fatal, "Undefined constant Column::INTEGER"))
  {
    match PgsqlDialect.NewDriverAsWritten()
    case Err(e) => Err(e)
    case Ok(_) => LoadTableWith(drv, tableName, rows, explode, KeyReaderAsWritten(drv))
  }

  /**
   * A loaded table is valid in the sense of Table::validate, holds one
   * column per column row in order, one index per constraint row and one
   * foreign key per key row, each as its row reads, in order.
   */
  lemma LoadTableSpec(drv: Driver, tableName: string, rows: CatalogRows, explode: string -> seq<string>, t: Table)
    requires LoadTable(drv, tableName, rows, explode) == Ok(t)
    ensures Valid(t)
    ensures HoldsLoaded(t, 0, tableName, rows.columns, rows.labels)
    ensures |t.columns| == |rows.columns|
    ensures |t.indexes| == |rows.constraints|
    ensures forall i :: 0 <= i < |rows.constraints| ==> IndexFromRow(drv, tableName, rows.constraints[i], explode) == Ok(t.indexes[i])
    ensures |t.foreignKeys| == |rows.foreignKeys|
    ensures forall i :: 0 <= i < |rows.foreignKeys| ==> ForeignKeyFromRow(drv, rows.foreignKeys[i]) == Ok(t.foreignKeys[i])
  {
    assert LoadedFrom(drv, tableName, rows, explode, KeyReader(drv), t);
    ValidateSpec(t);
    ReadAll(IndexReader(drv, tableName, explode), rows.constraints, t.indexes);
    ReadAll(KeyReader(drv), rows.foreignKeys, t.foreignKeys);
  }

  /** A list every row of which read cleanly holds what each row reads as. */
  lemma ReadAll<T, U>(f: T -> Result<U>, xs: seq<T>, ys: seq<U>)
    requires MapAll(f, xs) == Ok(ys)
    ensures |ys| == |xs| && forall i :: 0 <= i < |xs| ==> f(xs[i]) == Ok(ys[i])
  {
  }

  /*** The column loop, proved ***/

  /** Loading the first row keeps the others' conditions, with its name now taken. */
  lemma RowsLoadStep(t: Table, rows: seq<ColumnRow>, labels: string -> seq<string>)
    requires |rows| > 0
    ensures LoadColumn(t, rows[0], labels).Err? ==> !RowsLoad(t, rows, labels)
    ensures LoadColumn(t, rows[0], labels).Ok? ==>
      (RowsLoad(t, rows, labels) <==> RowsLoad(LoadColumn(t, rows[0], labels).value, rows[1..], labels))
  {
    AllBuildCons(rows, labels);
    if ColumnFromRow(rows[0], labels).Ok? {
      var c := Loaded(t.name, rows[0], ColumnFromRow(rows[0], labels).value);
      NewNamesCons(t, c, rows);
    }
  }

  /**
   * The column loop loads every row exactly when each one can be built,
   * the names are new and distinct, and nextval defaults sit on integer
   * columns.
   */
  lemma {:induction false} LoadColumnsSucceeds(t: Table, rows: seq<ColumnRow>, labels: string -> seq<string>)
    ensures LoadColumns(t, rows, labels).Ok? <==> RowsLoad(t, rows, labels)
    decreases |rows|
  {
    if |rows| > 0 {
      RowsLoadStep(t, rows, labels);
      var r0 := LoadColumn(t, rows[0], labels);
      if r0.Ok? {
        LoadColumnsSucceeds(r0.value, rows[1..], labels);
      }
    }
  }

  /** A loaded table keeps its name, indexes, keys and earlier columns, and gains one column per row. */
  lemma {:induction false} LoadColumnsFrame(t: Table, rows: seq<ColumnRow>, labels: string -> seq<string>, u: Table)
    requires LoadColumns(t, rows, labels) == Ok(u)
    ensures u.(columns := t.columns) == t
    ensures |u.columns| == |t.columns| + |rows|
    ensures u.columns[..|t.columns|] == t.columns
    decreases |rows|
  {
    if |rows| > 0 {
      var t1 := LoadColumn(t, rows[0], labels).value;
      LoadColumnsFrame(t1, rows[1..], labels, u);
      assert u.columns[..|t.columns|] == u.columns[..|t1.columns|][..|t.columns|];
    }
  }

  /** The column a loaded row contributes: the built column, loaded into the table. */
  function LoadedColumn(tableName: string, row: ColumnRow, labels: string -> seq<string>): Column
    requires ColumnFromRow(row, labels).Ok?
  {
    Loaded(tableName, row, ColumnFromRow(row, labels).value)
  }

  lemma FirstLoaded(t: Table, row: ColumnRow, labels: string -> seq<string>, t1: Table)
    requires LoadColumn(t, row, labels) == Ok(t1)
    ensures ColumnFromRow(row, labels).Ok?
    ensures t1.name == t.name && |t1.columns| == |t.columns| + 1
    ensures t1.columns[|t.columns|] == LoadedColumn(t.name, row, labels)
  {
  }

  /** From position `base` on, `u` holds the loaded column of each row, in order. */
  predicate HoldsLoaded(u: Table, base: nat, tableName: string, rows: seq<ColumnRow>, labels: string -> seq<string>) {
    forall i :: 0 <= i < |rows| ==>
      && ColumnFromRow(rows[i], labels).Ok?
      && base + i < |u.columns|
      && u.columns[base + i] == LoadedColumn(tableName, rows[i], labels)
  }

  lemma HoldsLoadedCons(u: Table, base: nat, tableName: string, rows: seq<ColumnRow>, labels: string -> seq<string>)
    requires |rows| > 0
    requires ColumnFromRow(rows[0], labels).Ok?
    requires base < |u.columns| && u.columns[base] == LoadedColumn(tableName, rows[0], labels)
    requires HoldsLoaded(u, base + 1, tableName, rows[1..], labels)
    ensures HoldsLoaded(u, base, tableName, rows, labels)
  {
    forall i | 1 <= i < |rows|
      ensures ColumnFromRow(rows[i], labels).Ok?
      ensures base + i < |u.columns|
      ensures u.columns[base + i] == LoadedColumn(tableName, rows[i], labels)
    {
      assert rows[i] == rows[1..][i - 1];
    }
  }

  /** Row `i` becomes column `|t.columns| + i`. */
  lemma {:induction false} LoadColumnsAppends(t: Table, rows: seq<ColumnRow>, labels: string -> seq<string>, u: Table)
    requires LoadColumns(t, rows, labels) == Ok(u)
    ensures HoldsLoaded(u, |t.columns|, t.name, rows, labels)
    decreases |rows|
  {
    if |rows| > 0 {
      var t1 := LoadedFirst(t, rows, labels, u);
      LoadColumnsAppends(t1, rows[1..], labels, u);
      HoldsLoadedCons(u, |t.columns|, t.name, rows, labels);
    }
  }

  /** After the first row, the loop continues from a table one column longer whose new column `u` keeps. */
  lemma LoadedFirst(t: Table, rows: seq<ColumnRow>, labels: string -> seq<string>, u: Table) returns (t1: Table)
    requires |rows| > 0 && LoadColumns(t, rows, labels) == Ok(u)
    ensures LoadColumns(t1, rows[1..], labels) == Ok(u)
    ensures t1.name == t.name && |t1.columns| == |t.columns| + 1
    ensures ColumnFromRow(rows[0], labels).Ok?
    ensures |t.columns| < |u.columns| && u.columns[|t.columns|] == LoadedColumn(t.name, rows[0], labels)
  {
    t1 := LoadColumn(t, rows[0], labels).value;
    FirstLoaded(t, rows[0], labels, t1);
    LoadColumnsFrame(t1, rows[1..], labels, u);
    assert u.columns[..|t1.columns|][|t.columns|] == t1.columns[|t.columns|];
  }
}

=== FILE: pgsql.dfy ===
/**
 * The PostgreSQL dialect (src/Driver/PGSQL.php): the type mapping and its
 * reverse, column definitions, array literals and the multi-value match.
 */
module PgsqlDialect {
  import opened Wrappers
  import opened Strings
  import opened Values
  import opened Naming
  import opened ColumnModel
  import opened Parameters
  import opened Expressions

  /*** Constructing the driver ***/

  /**
   * A `Column::NAME` reference in a property default: a constant Column
   * defines, or a name it does not define.
   */
  datatype ConstantRef = Defined(t: ColumnType) | Undefined(name: string)

  /** Column defines INT, not INTEGER. */
  lemma IntegerUndefined()
    ensures TypeByName("INTEGER").None? && TypeByName("INT") == Some(INT)
  {
  }

  /**
   * Entry `i` of the `$mapping` property default as PGSQL.php spells it:
   * a Column constant and the PostgreSQL type it maps to. The INT entry
   * names `Column::INTEGER`.
   */
  function MappingEntryAsWritten(i: nat): (ConstantRef, string)
    requires i < 18
  {
    if i == 0 then (Defined(CHAR), "character")
    else if i == 1 then (Defined(VARCHAR), "character varying")
    else if i == 2 then (Defined(TEXT), "text")
    else if i == 3 then (Defined(JSON), "json")
    else if i == 4 then (Defined(ENUM), "enum")
    else if i == 5 then (Defined(BOOLEAN), "boolean")
    else if i == 6 then (Defined(SMALLINT), "smallint")
    else if i == 7 then (Defined(TINYINT), "smallint")
    else if i == 8 then (Undefined("INTEGER"), "integer")
    else if i == 9 then (Defined(MEDIUMINT), "int")
    else if i == 10 then (Defined(BIGINT), "bigint")
    else if i == 11 then (Defined(FLOAT), "double precision")
    else if i == 12 then (Defined(DECIMAL), "numeric")
    else if i == 13 then (Defined(DATETIME), "timestamp without time zone")
    else if i == 14 then (Defined(DATETIMETZ), "timestamp with time zone")
    else if i == 15 then (Defined(DATE), "date")
    else if i == 16 then (Defined(TIME), "time")
    else (Defined(BINARY), "bytea")
  }

  function MappingAsWritten(): (r: seq<(ConstantRef, string)>)
    ensures |r| == 18 && forall i :: 0 <= i < 18 ==> r[i] == MappingEntryAsWritten(i)
  {
    seq(18, i requires 0 <= i < 18 => MappingEntryAsWritten(i))
  }

  /**
   * Entry `i` of the `$reverse_mapping` property default, written constant
   * first: the Column constant a PostgreSQL type name reads back as. Its
   * 'integer' entry names `Column::INTEGER` too.
   */
  function ReverseEntryAsWritten(i: nat): (ConstantRef, string)
    requires i < 17
  {
    if i == 0 then (Defined(CHAR), "character")
    else if i == 1 then (Defined(VARCHAR), "character varying")
    else if i == 2 then (Defined(TEXT), "text")
    else if i == 3 then (Defined(JSON), "json")
    else if i == 4 then (Defined(ENUM), "enum")
    else if i == 5 then (Defined(BOOLEAN), "boolean")
    else if i == 6 then (Defined(TINYINT), "tinyint")
    else if i == 7 then (Defined(SMALLINT), "smallint")
    else if i == 8 then (Defined(BIGINT), "bigint")
    else if i == 9 then (Undefined("INTEGER"), "integer")
    else if i == 10 then (Defined(FLOAT), "double precision")
    else if i == 11 then (Defined(DECIMAL), "numeric")
    else if i == 12 then (Defined(DATETIME), "timestamp without time zone")
    else if i == 13 then (Defined(DATETIMETZ), "timestamp with time zone")
    else if i == 14 then (Defined(DATE), "date")
    else if i == 15 then (Defined(TIME), "time")
    else (Defined(BINARY), "bytea")
  }

  function ReverseAsWritten(): (r: seq<(ConstantRef, string)>)
    ensures |r| == 17 && forall i :: 0 <= i < 17 ==> r[i] == ReverseEntryAsWritten(i)
  {
    seq(17, i requires 0 <= i < 17 => ReverseEntryAsWritten(i))
  }

  /** The one correction: `Column::INTEGER` spelled `Column::INT`. */
  function Respell(c: ConstantRef): (r: ConstantRef)
    ensures c.Defined? ==> r == c
    ensures r.Undefined? <==> c.Undefined? && c.name != "INTEGER"
  {
    if c == Undefined("INTEGER") then Defined(INT) else c
  }

  function RespellAll(es: seq<(ConstantRef, string)>): (r: seq<(ConstantRef, string)>)
    ensures |r| == |es| && forall i :: 0 <= i < |es| ==> r[i] == (Respell(es[i].0), es[i].1)
  {
    seq(|es|, i requires 0 <= i < |es| => (Respell(es[i].0), es[i].1))
  }

  /** The two property defaults of the driver, their constants evaluated. */
  datatype PgMappings = PgMappings(forward: seq<(ColumnType, string)>, reverse: seq<(ColumnType, string)>)

  /**
   * Evaluating the constants of a property default, as PHP does when the
   * first driver object is created: the first undefined constant is an
   * engine error, and otherwise each entry is keyed on its constant's type.
   */
  function ResolveConstants(es: seq<(ConstantRef, string)>): (r: Result<seq<(ColumnType, string)>>)
    ensures r.Ok? <==> forall i :: 0 <= i < |es| ==> es[i].0.Defined?
    ensures r.Ok? ==> |r.value| == |es| && forall i :: 0 <= i < |es| ==> r.value[i] == (es[i].0.t, es[i].1)
    ensures r.Err? ==> exists i :: (0 <= i < |es| && es[i].0.Undefined? && (forall j :: 0 <= j < i ==> es[j].0.Defined?)
      && r.error == Error(Fatal, "Undefined constant Column::" + es[i].0.name))
    decreases |es|
  {
    if |es| == 0 then Ok([])
    else
      match es[0].0
      case Undefined(name) => Fails(Fatal, "Undefined constant Column::" + name)
      case Defined(t) =>
        var rest := ResolveConstants(es[1..]);
        assert forall i :: 1 <= i < |es| ==> es[i] == es[1..][i - 1];
        if rest.Err? then
          var k :| 0 <= k < |es[1..]| && es[1..][k].0.Undefined? && (forall j :: 0 <= j < k ==> es[1..][j].0.Defined?)
            && rest.error == Error(Fatal, "Undefined constant Column::" + es[1..][k].0.name);
          assert es[k + 1] == es[1..][k];
          Err(rest.error)
        else
          Ok([(t, es[0].1)] + rest.value)
  }

  /** `new PGSQL` with the given property defaults: both are evaluated, the mapping first. */
  function Construct(mapping: seq<(ConstantRef, string)>, reverse: seq<(ConstantRef, string)>): (r: Result<PgMappings>)
    ensures r.Ok? <==> ResolveConstants(mapping).Ok? && ResolveConstants(reverse).Ok?
    ensures r.Ok? ==> r.value == PgMappings(ResolveConstants(mapping).value, ResolveConstants(reverse).value)
    ensures ResolveConstants(mapping).Err? ==> r == Err(ResolveConstants(mapping).error)
  {
    var forward :- ResolveConstants(mapping);
    var back :- ResolveConstants(reverse);
    Ok(PgMappings(forward, back))
  }

  /**
   * Constructing the driver as written fails: evaluating `$mapping` reaches
   * `Column::INTEGER`, and PHP throws before any method of the driver can
   * run. Every operation of the PostgreSQL driver is unreachable as written.
   */
  function NewDriverAsWritten(): (r: Result<PgMappings>)
    ensures r == Err(Error(Fatal, "Undefined constant Column::INTEGER"))
  {
    MappingStopsAtInteger();
    Construct(MappingAsWritten(), ReverseAsWritten())
  }

  /** The eight entries before INTEGER name defined constants, so evaluation stops at INTEGER. */
  lemma MappingStopsAtInteger()
    ensures ResolveConstants(MappingAsWritten()) == Err(Error(Fatal, "Undefined constant Column::INTEGER"))
  {
    StopsAtInteger(MappingAsWritten());
  }

  lemma StopsAtInteger(es: seq<(ConstantRef, string)>)
    requires es == MappingAsWritten()
    ensures ResolveConstants(es) == Err(Error(Fatal, "Undefined constant Column::INTEGER"))
  {
    forall j | 0 <= j < 8
      ensures es[j].0.Defined?
    {
      assert es[j] == MappingEntryAsWritten(j);
    }
    assert es[8] == (Undefined("INTEGER"), "integer");
    ResolveStopsAt(es, 8);
  }

  /** Evaluation fails at the first undefined constant, naming it. */
  lemma {:induction false} ResolveStopsAt(es: seq<(ConstantRef, string)>, k: nat)
    requires k < |es| && es[k].0.Undefined? && forall j :: 0 <= j < k ==> es[j].0.Defined?
    ensures ResolveConstants(es) == Err(Error(Fatal, "Undefined constant Column::" + es[k].0.name))
    decreases k
  {
    if k > 0 {
      assert forall j :: 0 <= j < k - 1 ==> es[1..][j] == es[j + 1];
      ResolveStopsAt(es[1..], k - 1);
    }
  }

  /** The driver with `Column::INT` in both defaults: construction succeeds. */
  function NewDriver(): (r: Result<PgMappings>)
    ensures r.Ok?
    ensures ResolveConstants(RespellAll(MappingAsWritten())).Ok? && ResolveConstants(RespellAll(ReverseAsWritten())).Ok?
    ensures r.value.forward == ResolveConstants(RespellAll(MappingAsWritten())).value
    ensures r.value.reverse == ResolveConstants(RespellAll(ReverseAsWritten())).value
  {
    RespelledResolve();
    Construct(RespellAll(MappingAsWritten()), RespellAll(ReverseAsWritten()))
  }

  /** Both respelled defaults evaluate without error. */
  lemma RespelledResolve()
    ensures ResolveConstants(RespellAll(MappingAsWritten())).Ok?
    ensures ResolveConstants(RespellAll(ReverseAsWritten())).Ok?
  {
    RespelledDefined();
  }

  /** With INT for INTEGER, every constant either default names is defined. */
  lemma RespelledDefined()
    ensures forall i :: 0 <= i < 18 ==> RespellAll(MappingAsWritten())[i].0.Defined?
    ensures forall i :: 0 <= i < 17 ==> RespellAll(ReverseAsWritten())[i].0.Defined?
  {
    forall i | 0 <= i < 18
      ensures RespellAll(MappingAsWritten())[i].0.Defined?
    {
      EntrySlot(i);
    }
    forall i | 0 <= i < 17
      ensures RespellAll(ReverseAsWritten())[i].0.Defined?
    {
      assert ReverseAsWritten()[i] == ReverseEntryAsWritten(i);
    }
  }

  /** `$this->mapping[$type] ?? null`: a later entry for the same key overwrites an earlier one. */
  function MapLookup(es: seq<(ColumnType, string)>, t: ColumnType): (r: Option<string>)
    ensures r.Some? <==> exists i :: 0 <= i < |es| && es[i].0 == t
    ensures r.Some? ==> exists i :: 0 <= i < |es| && es[i] == (t, r.value) && forall j :: i < j < |es| ==> es[j].0 != t
  {
    match LastWithType(es, t, |es|)
    case None => None
    case Some(i) => Some(es[i].1)
  }

  /** The last of the first `n` entries keyed on `t`. */
  function LastWithType(es: seq<(ColumnType, string)>, t: ColumnType, n: nat): (r: Option<nat>)
    requires n <= |es|
    ensures r.Some? ==> r.value < n && es[r.value].0 == t && forall j :: r.value < j < n ==> es[j].0 != t
    ensures r.None? ==> forall j :: 0 <= j < n ==> es[j].0 != t
    decreases n
  {
    if n == 0 then None
    else if es[n - 1].0 == t then Some(n - 1)
    else LastWithType(es, t, n - 1)
  }

  /** `$this->reverse_mapping[$name] ?? null`, over entries written constant first. */
  function ReverseLookup(es: seq<(ColumnType, string)>, name: string): (r: Option<ColumnType>)
    ensures r.Some? <==> exists i :: 0 <= i < |es| && es[i].1 == name
    ensures r.Some? ==> exists i :: 0 <= i < |es| && es[i] == (r.value, name) && forall j :: i < j < |es| ==> es[j].1 != name
  {
    match LastWithName(es, name, |es|)
    case None => None
    case Some(i) => Some(es[i].0)
  }

  /** The last of the first `n` entries naming `name`. */
  function LastWithName(es: seq<(ColumnType, string)>, name: string, n: nat): (r: Option<nat>)
    requires n <= |es|
    ensures r.Some? ==> r.value < n && es[r.value].1 == name && forall j :: r.value < j < n ==> es[j].1 != name
    ensures r.None? ==> forall j :: 0 <= j < n ==> es[j].1 != name
    decreases n
  {
    if n == 0 then None
    else if es[n - 1].1 == name then Some(n - 1)
    else LastWithName(es, name, n - 1)
  }

  /*** Type mapping ***/

  /** The mapping with the INT entry keyed on `Column::INT`: every logical type has a PostgreSQL name. */
  function PgType(t: ColumnType): (r: Option<string>)
    ensures r.Some?
  {
    match t
    case CHAR => Some("character")
    case VARCHAR => Some("character varying")
    case TEXT => Some("text")
    case JSON => Some("json")
    case ENUM => Some("enum")
    case BOOLEAN => Some("boolean")
    case SMALLINT => Some("smallint")
    case TINYINT => Some("smallint")
    case INT => Some("integer")
    case MEDIUMINT => Some("int")
    case BIGINT => Some("bigint")
    case FLOAT => Some("double precision")
    case DECIMAL => Some("numeric")
    case DATETIME => Some("timestamp without time zone")
    case DATETIMETZ => Some("timestamp with time zone")
    case DATE => Some("date")
    case TIME => Some("time")
    case BINARY => Some("bytea")
  }

  /** reverse_mapping with 'integer' keyed to INT. */
  function PgReverse(name: string): (r: Option<ColumnType>)
    ensures r.Some? ==> name == "tinyint" || PgType(r.value) == Some(name)
  {
    if name == "character" then Some(CHAR)
    else if name == "character varying" then Some(VARCHAR)
    else if name == "text" then Some(TEXT)
    else if name == "json" then Some(JSON)
    else if name == "enum" then Some(ENUM)
    else if name == "boolean" then Some(BOOLEAN)
    else if name == "tinyint" then Some(TINYINT)
    else if name == "smallint" then Some(SMALLINT)
    else if name == "bigint" then Some(BIGINT)
    else if name == "integer" then Some(INT)
    else if name == "double precision" then Some(FLOAT)
    else if name == "numeric" then Some(DECIMAL)
    else if name == "timestamp without time zone" then Some(DATETIME)
    else if name == "timestamp with time zone" then Some(DATETIMETZ)
    else if name == "date" then Some(DATE)
    else if name == "time" then Some(TIME)
    else if name == "bytea" then Some(BINARY)
    else None
  }

  /**
   * The reverse mapping inverts the mapping, except that TINYINT comes back
   * as SMALLINT (both are 'smallint') and MEDIUMINT's 'int' has no entry.
   */
  lemma PgReverseInverts(t: ColumnType)
    ensures t != TINYINT && t != MEDIUMINT ==> PgReverse(PgType(t).value) == Some(t)
    ensures t == TINYINT ==> PgReverse(PgType(t).value) == Some(SMALLINT)
    ensures t == MEDIUMINT ==> PgReverse(PgType(t).value).None?
  {
    match t
    case CHAR | VARCHAR | TEXT | JSON | ENUM | BOOLEAN => ReverseTextNames(t);
    case TINYINT | SMALLINT | MEDIUMINT | INT | BIGINT | FLOAT | DECIMAL => ReverseNumberNames(t);
    case DATE | TIME | BINARY => ReverseTimeNames(t);
    case DATETIME | DATETIMETZ => ReverseTimestampNames(t);
  }

  lemma ReverseTextNames(t: ColumnType)
    requires t.CHAR? || t.VARCHAR? || t.TEXT? || t.JSON? || t.ENUM? || t.BOOLEAN?
    ensures t != TINYINT && t != MEDIUMINT ==> PgReverse(PgType(t).value) == Some(t)
    ensures t == TINYINT ==> PgReverse(PgType(t).value) == Some(SMALLINT)
    ensures t == MEDIUMINT ==> PgReverse(PgType(t).value).None?
  {
  }

  lemma ReverseNumberNames(t: ColumnType)
    requires t.TINYINT? || t.SMALLINT? || t.MEDIUMINT? || t.INT? || t.BIGINT? || t.FLOAT? || t.DECIMAL?
    ensures t != TINYINT && t != MEDIUMINT ==> PgReverse(PgType(t).value) == Some(t)
    ensures t == TINYINT ==> PgReverse(PgType(t).value) == Some(SMALLINT)
    ensures t == MEDIUMINT ==> PgReverse(PgType(t).value).None?
  {
  }

  lemma ReverseTimeNames(t: ColumnType)
    requires t.DATE? || t.TIME? || t.BINARY?
    ensures t != TINYINT && t != MEDIUMINT ==> PgReverse(PgType(t).value) == Some(t)
    ensures t == TINYINT ==> PgReverse(PgType(t).value) == Some(SMALLINT)
    ensures t == MEDIUMINT ==> PgReverse(PgType(t).value).None?
  {
  }

  lemma ReverseTimestampNames(t: ColumnType)
    requires t.DATETIME? || t.DATETIMETZ?
    ensures t != TINYINT && t != MEDIUMINT ==> PgReverse(PgType(t).value) == Some(t)
    ensures t == TINYINT ==> PgReverse(PgType(t).value) == Some(SMALLINT)
    ensures t == MEDIUMINT ==> PgReverse(PgType(t).value).None?
  {
  }

  /** The lookup finds an entry no later entry overwrites. */
  lemma MapLookupAt(es: seq<(ColumnType, string)>, i: int)
    requires 0 <= i < |es| && forall j :: i < j < |es| ==> es[j].0 != es[i].0
    ensures MapLookup(es, es[i].0) == Some(es[i].1)
  {
  }

  lemma ReverseLookupAt(es: seq<(ColumnType, string)>, i: int)
    requires 0 <= i < |es| && forall j :: i < j < |es| ==> es[j].1 != es[i].1
    ensures ReverseLookup(es, es[i].1) == Some(es[i].0)
  {
  }

  /** The corrected driver's entry `i` is entry `i` of PGSQL::$mapping, with INT for INTEGER. */
  lemma ForwardEntry(m: PgMappings, i: int)
    requires NewDriver() == Ok(m) && 0 <= i < 18
    ensures m.forward[i] == (Respell(MappingEntryAsWritten(i).0).t, MappingEntryAsWritten(i).1)
  {
    RespelledDefined();
    assert MappingAsWritten()[i] == MappingEntryAsWritten(i);
  }

  /** Where a logical type's entry sits in `$mapping`. */
  function MappingSlot(t: ColumnType): nat {
    match t
    case CHAR => 0
    case VARCHAR => 1
    case TEXT => 2
    case JSON => 3
    case ENUM => 4
    case BOOLEAN => 5
    case SMALLINT => 6
    case TINYINT => 7
    case INT => 8
    case MEDIUMINT => 9
    case BIGINT => 10
    case FLOAT => 11
    case DECIMAL => 12
    case DATETIME => 13
    case DATETIMETZ => 14
    case DATE => 15
    case TIME => 16
    case BINARY => 17
  }

  /** Each corrected entry sits in its own type's slot, so no two entries share a type. */
  lemma EntrySlot(i: nat)
    requires i < 18
    ensures Respell(MappingEntryAsWritten(i).0).Defined? && MappingSlot(Respell(MappingEntryAsWritten(i).0).t) == i
  {
  }

  /** A type's slot holds its entry, with the name PgType gives it. */
  lemma SlotEntry(t: ColumnType)
    ensures MappingSlot(t) < 18 && Respell(MappingEntryAsWritten(MappingSlot(t)).0) == Defined(t)
    ensures MappingEntryAsWritten(MappingSlot(t)).1 == PgType(t).value
  {
  }

  /** The corrected driver maps every logical type as PgType does. */
  lemma NewDriverMaps(m: PgMappings, t: ColumnType)
    requires NewDriver() == Ok(m)
    ensures MapLookup(m.forward, t) == PgType(t)
  {
    var f := m.forward;
    var i := MappingSlot(t);
    SlotEntry(t);
    ForwardEntry(m, i);
    forall j | i < j < |f|
      ensures f[j].0 != f[i].0
    {
      ForwardEntry(m, j);
      EntrySlot(j);
    }
    MapLookupAt(f, i);
  }

  /** Entry `i` of the corrected driver's reverse mapping is that of PGSQL::$reverse_mapping, with INT for INTEGER. */
  lemma ReverseEntry(m: PgMappings, i: int)
    requires NewDriver() == Ok(m) && 0 <= i < 17
    ensures |m.reverse| == 17
    ensures m.reverse[i] == (Respell(ReverseEntryAsWritten(i).0).t, ReverseEntryAsWritten(i).1)
  {
    RespelledDefined();
    assert ReverseAsWritten()[i] == ReverseEntryAsWritten(i);
  }

  /** No reverse entry after 'integer' has that name. */
  lemma ReverseIntegerLast(m: PgMappings)
    requires NewDriver() == Ok(m)
    ensures ReverseLookup(m.reverse, "integer") == Some(INT)
  {
    ReverseEntry(m, 9);
    forall j | 9 < j < |m.reverse|
      ensures m.reverse[j].1 != m.reverse[9].1
    {
      ReverseEntry(m, j);
      NamesAfterInteger(j);
    }
    ReverseLookupAt(m.reverse, 9);
  }

  /** The reverse entries after 'integer' name other PostgreSQL types. */
  lemma NamesAfterInteger(j: int)
    requires 9 < j < 17
    ensures ReverseEntryAsWritten(j).1 != "integer"
  {
  }

  /**
   * INT columns: as written the driver is never constructed (see
   * NewDriverAsWritten); the corrected driver maps INT to 'integer' and
   * reads 'integer' back as INT.
   */
  lemma PgIntegerDiscrepancy(m: PgMappings)
    requires NewDriver() == Ok(m)
    ensures MapLookup(m.forward, INT) == Some("integer")
    ensures ReverseLookup(m.reverse, "integer") == Some(INT) && PgReverse("integer") == Some(INT)
  {
    IntegerNames();
    NewDriverMaps(m, INT);
    ReverseIntegerLast(m);
  }

  /** The corrected mapping sends INT to 'integer' and 'integer' back to INT. */
  lemma IntegerNames()
    ensures PgType(INT) == Some("integer") && PgReverse("integer") == Some(INT)
  {
  }

  /*** getColumnDefinition ***/

  /** A nullable integer as PHP concatenates it: null prints nothing. */
  function OptIntText(o: Option<int>): string {
    match o
    case None => ""
    case Some(i) => IntToString(i)
  }

  /** The length, or precision and scale, that follows the type name. */
  function PgTypeSuffix(c: Column): string {
    match c.ctype
    case CHAR => "(" + OptIntText(c.maxLength) + ")"
    case VARCHAR => "(" + OptIntText(c.maxLength) + ")"
    case DECIMAL => "(" + OptIntText(c.precision) + "," + OptIntText(c.scale) + ")"
    case _ => ""
  }

  /**
   * The definition for a column whose type maps to `typeName`: quoted name,
   * type, suffix, nullability, and the raw default when it is truthy. A
   * default PHP cannot turn into a string is an error.
   */
  function Definition(c: Column, typeName: Option<string>): (r: Result<string>)
    ensures r.Ok? <==> typeName.Some? && (Truthy(c.default) ==> ToPhpString(c.default).Some?)
    ensures typeName.None? ==> r.Err? && r.error.kind == UnsupportedType
    ensures r.Ok? ==> StartsWith(r.value, IdentQuote(PGSQL, c.name) + " " + typeName.value + PgTypeSuffix(c))
    ensures r.Ok? && !Truthy(c.default) ==> EndsWith(r.value, if c.nullable then " NULL " else " NOT NULL ")
    ensures r.Ok? && Truthy(c.default) ==> EndsWith(r.value, " DEFAULT " + ToPhpString(c.default).value)
    ensures r.Ok? ==>
      r.value == IdentQuote(PGSQL, c.name) + " " + typeName.value + PgTypeSuffix(c)
        + (if c.nullable then " NULL " else " NOT NULL ")
        + (if Truthy(c.default) then " DEFAULT " + ToPhpString(c.default).value else "")
  {
    if typeName.None? then Fails(UnsupportedType, "Unsupported column type: " + ConstValue(c.ctype))
    else
      var head := IdentQuote(PGSQL, c.name) + " " + typeName.value + PgTypeSuffix(c);
      var nullText := if c.nullable then " NULL " else " NOT NULL ";
      if !Truthy(c.default) then
        assert (head + nullText)[..|head|] == head;
        assert head + nullText + "" == head + nullText;
        Ok(head + nullText)
      else if ToPhpString(c.default).None? then Fails(Fatal, "Object could not be converted to string")
      else
        var tail := " DEFAULT " + ToPhpString(c.default).value;
        assert (head + nullText + tail)[..|head|] == head;
        assert (head + nullText + tail)[|head + nullText|..] == tail;
        Ok(head + nullText + tail)
  }

  /**
   * getColumnDefinition as written: it is a method of a driver that cannot
   * be constructed, so no column gets a definition.
   */
  function ColumnDefinitionAsWritten(c: Column): (r: Result<string>)
    ensures r == Err(Error(Fatal, "Undefined constant Column::INTEGER"))
  {
    match NewDriverAsWritten()
    case Err(e) => Err(e)
    case Ok(drv) => Definition(c, MapLookup(drv.forward, c.ctype))
  }

  /** getColumnDefinition of the corrected driver: only an unprintable default fails. */
  function ColumnDefinition(c: Column): (r: Result<string>)
    ensures r.Ok? <==> (Truthy(c.default) ==> ToPhpString(c.default).Some?)
    ensures r.Ok? ==> StartsWith(r.value, IdentQuote(PGSQL, c.name) + " " + PgType(c.ctype).value + PgTypeSuffix(c))
    ensures r.Ok? ==>
      r.value == IdentQuote(PGSQL, c.name) + " " + PgType(c.ctype).value + PgTypeSuffix(c)
        + (if c.nullable then " NULL " else " NOT NULL ")
        + (if Truthy(c.default) then " DEFAULT " + ToPhpString(c.default).value else "")
    ensures r == Definition(c, MapLookup(NewDriver().value.forward, c.ctype))
  {
    NewDriverMaps(NewDriver().value, c.ctype);
    Definition(c, PgType(c.ctype))
  }

  /** An INT primary key: as written the driver throws first; corrected, its type is "integer". */
  lemma ColumnDefinitionDiscrepancy()
    ensures var c := NewColumn("id", INT, VNull, false);
      && ColumnDefinitionAsWritten(c) == Err(Error(Fatal, "Undefined constant Column::INTEGER"))
      && ColumnDefinition(c) == Ok("\"id\" integer NOT NULL ")
  {
    var c := NewColumn("id", INT, VNull, false);
    assert IdentQuote(PGSQL, "id") == "\"id\"";
    assert PgType(INT) == Some("integer") && PgTypeSuffix(c) == "" && !Truthy(VNull);
    assert "\"id\"" + " " + "integer" + "" + " NOT NULL " + "" == "\"id\" integer NOT NULL ";
  }

  /*** formatArray ***/

  /** What the two str_replace calls do to one character. */
  function EscapeChar(c: char): string {
    if c == '\\' then "\\\\" else if c == '"' then "\\\"" else [c]
  }

  function EscapeChars(s: string): (r: string)
    decreases |s|
  {
    if |s| == 0 then "" else EscapeChar(s[0]) + EscapeChars(s[1..])
  }

  /** Doubling backslashes first and then escaping quotes escapes each character once. */
  lemma {:induction false} TwoPassEscape(s: string)
    ensures ReplaceChar(ReplaceChar(s, '\\', "\\\\"), '"', "\\\"") == EscapeChars(s)
    decreases |s|
  {
    if |s| > 0 {
      var head := if s[0] == '\\' then "\\\\" else [s[0]];
      var inner := ReplaceChar(s[1..], '\\', "\\\\");
      assert ReplaceChar(s, '\\', "\\\\") == head + inner;
      ReplaceCharAppend(head, inner, '"', "\\\"");
      TwoPassEscape(s[1..]);
      if s[0] == '\\' {
        assert ReplaceChar(head, '"', "\\\"") == "\\\\" by {
          assert head == ['\\', '\\'];
          assert ReplaceChar(head[1..], '"', "\\\"") == "\\";
        }
      } else if s[0] == '"' {
        assert ReplaceChar(head, '"', "\\\"") == "\\\"" by {
          assert ReplaceChar(head[1..], '"', "\\\"") == "";
        }
      } else {
        assert ReplaceChar(head, '"', "\\\"") == [s[0]] by {
          assert ReplaceChar(head[1..], '"', "\\\"") == "";
        }
      }
    }
  }

  /** One array element: integers bare, other scalars quoted and escaped, anything else rejected. */
  function FormatElement(v: Value): (r: Result<string>)
    ensures r.Ok? <==> IsScalar(v)
    ensures v.VInt? ==> r == Ok(IntToString(v.i))
    ensures IsScalar(v) && !v.VInt? ==> r == Ok("\"" + EscapeChars(ToPhpString(v).value) + "\"")
    ensures r.Err? ==> r.error.kind == InvalidArgument
  {
    match v
    case VInt(i) => Ok(IntToString(i))
    case VBool(_) =>
      TwoPassEscape(ToPhpString(v).value);
      Ok("\"" + ReplaceChar(ReplaceChar(ToPhpString(v).value, '\\', "\\\\"), '"', "\\\"") + "\"")
    case VStr(s) =>
      TwoPassEscape(s);
      Ok("\"" + ReplaceChar(ReplaceChar(s, '\\', "\\\\"), '"', "\\\"") + "\"")
    case _ => Fails(InvalidArgument, "All list elements must be scalars")
  }

  function FormatElements(vs: seq<Value>): (r: Result<seq<string>>)
    ensures r.Ok? <==> forall i :: 0 <= i < |vs| ==> IsScalar(vs[i])
    ensures r.Err? ==> r.error.kind == InvalidArgument
    ensures r.Ok? ==> |r.value| == |vs| && forall i :: 0 <= i < |vs| ==> Ok(r.value[i]) == FormatElement(vs[i])
    decreases |vs|
  {
    if |vs| == 0 then Ok([])
    else
      var first :- FormatElement(vs[0]);
      var rest :- FormatElements(vs[1..]);
      Ok([first] + rest)
  }

  /** formatArray: the elements comma-joined in braces; a non-scalar element is rejected. */
  function FormatArray(vs: seq<Value>): (r: Result<string>)
    ensures r.Ok? <==> forall i :: 0 <= i < |vs| ==> IsScalar(vs[i])
    ensures r.Err? ==> r.error.kind == InvalidArgument
    ensures r.Ok? ==> StartsWith(r.value, "{") && EndsWith(r.value, "}")
  {
    var elements :- FormatElements(vs);
    Ok("{" + Join(elements, ",") + "}")
  }

  /*** Reading an array literal back ***/

  datatype ArrayElement = Bare(text: string) | Quoted(text: string)

  /** The rest of a quoted element after its opening quote: the unescaped text and what follows the closing quote. */
  function ReadQuoted(s: string): (r: Option<(string, string)>)
    ensures r.Some? ==> |r.value.1| < |s|
    decreases |s|
  {
    if |s| == 0 then None
    else if s[0] == '"' then Some(("", s[1..]))
    else if s[0] == '\\' then
      if |s| < 2 then None
      else
        match ReadQuoted(s[2..])
        case None => None
        case Some((t, rest)) => Some(([s[1]] + t, rest))
    else
      match ReadQuoted(s[1..])
      case None => None
      case Some((t, rest)) => Some(([s[0]] + t, rest))
  }

  /** Reading an escaped text stops at the first unescaped quote and recovers the text. */
  lemma {:induction false} ReadQuotedEscaped(x: string, rest: string)
    ensures ReadQuoted(EscapeChars(x) + "\"" + rest) == Some((x, rest))
    decreases |x|
  {
    var s := EscapeChars(x) + "\"" + rest;
    if |x| == 0 {
      assert s == "\"" + rest;
      assert s[1..] == rest;
    } else {
      ReadQuotedEscaped(x[1..], rest);
      var tail := EscapeChars(x[1..]) + "\"" + rest;
      assert s == EscapeChar(x[0]) + tail;
      if x[0] == '\\' || x[0] == '"' {
        assert s[1] == x[0] && s[2..] == tail;
      } else {
        assert s[0] == x[0] && s[1..] == tail;
      }
      assert [x[0]] + x[1..] == x;
    }
  }

  /** The body of an array literal: quoted or bare elements separated by commas. */
  function ParseElements(s: string): (r: Option<seq<ArrayElement>>)
    decreases |s|
  {
    if |s| > 0 && s[0] == '"' then
      match ReadQuoted(s[1..])
      case None => None
      case Some((t, rest)) =>
        if |rest| == 0 then Some([Quoted(t)])
        else if rest[0] != ',' then None
        else
          match ParseElements(rest[1..])
          case None => None
          case Some(more) => Some([Quoted(t)] + more)
    else
      match IndexOf(s, ',')
      case None => Some([Bare(s)])
      case Some(k) =>
        match ParseElements(s[k + 1..])
        case None => None
        case Some(more) => Some([Bare(s[..k])] + more)
  }

  /** A PostgreSQL array literal: "{}" or braces around the elements. */
  function ParseArray(text: string): (r: Option<seq<ArrayElement>>)
    ensures text == "{}" ==> r == Some([])
  {
    if |text| < 2 || text[0] != '{' || text[|text| - 1] != '}' then None
    else if |text| == 2 then Some([])
    else ParseElements(text[1..|text| - 1])
  }

  /** How an accepted value reads back: integers bare, other scalars quoted with their string form. */
  function Decoded(v: Value): ArrayElement {
    if v.VInt? then Bare(IntToString(v.i)) else Quoted(ToPhpString(v).GetOr(""))
  }

  function DecodedAll(vs: seq<Value>): (r: seq<ArrayElement>)
    ensures |r| == |vs| && forall i :: 0 <= i < |vs| ==> r[i] == Decoded(vs[i])
  {
    seq(|vs|, i requires 0 <= i < |vs| => Decoded(vs[i]))
  }

  lemma IntTextPlain(i: int)
    ensures |IntToString(i)| > 0 && ',' !in IntToString(i) && IntToString(i)[0] != '"'
  {
    var s := IntToString(i);
    if i < 0 {
      assert s == "-" + NatToString(-i);
      assert forall k :: 1 <= k < |s| ==> s[k] == NatToString(-i)[k - 1];
    }
  }

  /** The comma search in `a + "," + b` stops at the end of a comma-free `a`. */
  lemma IndexOfComma(a: string, b: string)
    requires ',' !in a
    ensures IndexOf(a + "," + b, ',') == Some(|a|)
  {
    assert (a + "," + b)[|a|] == ',';
  }

  /** One parsed element in front of the parse of the rest. */
  function Prepend(e: ArrayElement, rest: Option<seq<ArrayElement>>): Option<seq<ArrayElement>> {
    match rest
    case None => None
    case Some(more) => Some([e] + more)
  }

  lemma ParseBareLast(t: string)
    requires |t| > 0 && ',' !in t && t[0] != '"'
    ensures ParseElements(t) == Some([Bare(t)])
  {
  }

  lemma ParseBareThen(t: string, more: string)
    requires |t| > 0 && ',' !in t && t[0] != '"'
    ensures ParseElements(t + "," + more) == Prepend(Bare(t), ParseElements(more))
  {
    var s := t + "," + more;
    IndexOfComma(t, more);
    assert s[..|t|] == t;
    assert s[|t| + 1..] == more;
  }

  lemma ParseQuotedLast(x: string)
    ensures ParseElements("\"" + EscapeChars(x) + "\"") == Some([Quoted(x)])
  {
    var s := "\"" + EscapeChars(x) + "\"";
    ReadQuotedEscaped(x, "");
    assert s[1..] == EscapeChars(x) + "\"" + "";
  }

  lemma ParseQuotedThen(x: string, more: string)
    ensures ParseElements("\"" + EscapeChars(x) + "\"" + "," + more) == Prepend(Quoted(x), ParseElements(more))
  {
    var s := "\"" + EscapeChars(x) + "\"" + "," + more;
    ReadQuotedEscaped(x, "," + more);
    assert s[1..] == EscapeChars(x) + "\"" + ("," + more);
    assert ("," + more)[1..] == more;
  }

  /** One formatted element, alone or in front of more, parses to its decoded form. */
  lemma ParseOneElement(v: Value, more: Option<string>)
    requires IsScalar(v)
    ensures more.None? ==> ParseElements(FormatElement(v).value) == Some([Decoded(v)])
    ensures more.Some? ==>
      (ParseElements(FormatElement(v).value + "," + more.value) == Prepend(Decoded(v), ParseElements(more.value)))
  {
    if v.VInt? {
      IntTextPlain(v.i);
      if more.None? { ParseBareLast(IntToString(v.i)); } else { ParseBareThen(IntToString(v.i), more.value); }
    } else {
      var x := ToPhpString(v).value;
      if more.None? { ParseQuotedLast(x); } else { ParseQuotedThen(x, more.value); }
    }
  }

  lemma {:induction false} ParseJoinedElements(vs: seq<Value>)
    requires |vs| > 0 && FormatElements(vs).Ok?
    ensures ParseElements(Join(FormatElements(vs).value, ",")) == Some(DecodedAll(vs))
    decreases |vs|
  {
    var es := FormatElements(vs).value;
    FormatElementsCons(vs);
    DecodedAllCons(vs);
    if |vs| == 1 {
      ParseOneElement(vs[0], None);
      assert Join(es, ",") == es[0];
      assert DecodedAll(vs) == [Decoded(vs[0])];
    } else {
      ParseJoinedElements(vs[1..]);
      JoinCons(es[0], es[1..], ",");
      ParseOneElement(vs[0], Some(Join(es[1..], ",")));
    }
  }

  /** The first element's literal followed by the rest's. */
  lemma FormatElementsCons(vs: seq<Value>)
    requires |vs| > 0 && FormatElements(vs).Ok?
    ensures IsScalar(vs[0]) && FormatElement(vs[0]).Ok? && FormatElements(vs[1..]).Ok?
    ensures FormatElements(vs).value == [FormatElement(vs[0]).value] + FormatElements(vs[1..]).value
  {
  }

  lemma DecodedAllCons(vs: seq<Value>)
    requires |vs| > 0
    ensures DecodedAll(vs) == [Decoded(vs[0])] + DecodedAll(vs[1..])
  {
    var ds := DecodedAll(vs);
    var rest := DecodedAll(vs[1..]);
    forall i | 0 <= i < |rest| ensures ds[i + 1] == rest[i] {
      assert vs[1..][i] == vs[i + 1];
    }
  }

  /** Every literal formatArray produces reads back element by element: integers bare, scalars by their string form. */
  lemma FormatArrayRoundTrip(vs: seq<Value>)
    requires FormatArray(vs).Ok?
    ensures ParseArray(FormatArray(vs).value) == Some(DecodedAll(vs))
  {
    var text := FormatArray(vs).value;
    var es := FormatElements(vs).value;
    if |vs| == 0 {
      assert text == "{}";
    } else {
      ParseJoinedElements(vs);
      var body := Join(es, ",");
      JoinStartsWith(es, ",");
      if vs[0].VInt? {
        IntTextPlain(vs[0].i);
      }
      assert |body| > 0;
      assert text[1..|text| - 1] == body;
    }
  }

  /*** matchMultipleValues ***/

  /**
   * matchMultipleValues(field, list): `field = ANY(list)`, the list a
   * constant array node. ComparisonOperator is not part of this model; the
   * comparison is built as an operator node directly.
   */
  function MatchMultipleValues(field: string, listId: nat, values: seq<Value>): (r: Expr)
    ensures r.Op? && r.op == "=" && r.lhs == Some(Field(field))
    ensures r.rhs == Func("ANY", [Const(listId, VArray(values))])
  {
    var list := Const(listId, VArray(values));
    var (any, _) := NewFunction("ANY", [], 0);
    var (call, _) := AddArgument(any, Node(list), 0);
    assert Flatten([]) == [];
    Op("=", Some(Field(field)), call)
  }

  /** The match renders as the quoted field, "= ANY(", and a fresh placeholder bound to the whole list. */
  lemma MatchMultipleValuesRenders(p: Params, field: string, listId: nat, values: seq<Value>)
    requires p.driver.dialect == PGSQL && listId !in p.bound
    ensures var (q, s) := Render(p, MatchMultipleValues(field, listId, values), false);
      && s == "\"" + field + "\" = ANY(:" + Placeholder(|p.bindings|) + ")"
      && q.bindings == p.bindings + [(Placeholder(|p.bindings|), VArray(values))]
  {
    var ph := Placeholder(|p.bindings|);
    var list := Const(listId, VArray(values));
    var (q1, arg) := Render(p, list, false);
    assert arg == ":" + ph;
    AnyRenders(p, list);
    assert IdentQuote(PGSQL, field) == "\"" + field + "\"";
    AnyText(field, ph);
  }

  lemma AnyText(field: string, ph: string)
    ensures ("\"" + field + "\"") + " " + "=" + " " + ("ANY" + "(" + (":" + ph) + ")") == "\"" + field + "\" = ANY(:" + ph + ")"
  {
  }

  /** ANY over one argument renders as ANY of that argument's text. */
  lemma AnyRenders(p: Params, list: Expr)
    ensures Render(p, Func("ANY", [list]), true) == (Render(p, list, false).0, "ANY" + "(" + Render(p, list, false).1 + ")")
  {
    var (q1, arg) := Render(p, list, false);
    assert [list][0] == list && [list][1..] == [];
    assert RenderList(q1, []) == (q1, []);
    assert [arg] + [] == [arg];
    assert RenderList(p, [list]) == (q1, [arg]);
    assert Join([arg], ", ") == arg;
  }
}

=== FILE: select.dfy ===
/**
 * SELECT queries (Query/Select.php): a field list, a table, joins and the
 * single-slot WHERE, ORDER, LIMIT and OFFSET clauses, rendered in a fixed
 * order after every table has been registered.
 */
module Selects {
  import opened Wrappers
  import opened Strings
  import opened Values
  import opened Naming
  import opened Parameters
  import opened Expressions
  import opened TableClauses
  import opened Clauses

  datatype Select = Select(
    fields: seq<GetClause>,
    table: Option<TableRef>,
    joins: seq<JoinClause>,
    where: Option<WhereClause>,
    order: Option<TextClause>,
    limit: Option<TextClause>,
    offset: Option<TextClause>)

  const EmptySelect := Select([], None, [], None, None, None, None)

  /**
   * add: WHERE, table, ORDER, LIMIT and OFFSET are single slots (the last
   * one wins), fields and joins are appended, anything else is rejected.
   */
  function Add(s: Select, c: Clause): (r: Result<Select>)
    ensures r.Err? <==> c.CUpdate? || c.COther?
    ensures c.CWhere? ==> r == Ok(s.(where := Some(c.where)))
    ensures c.CTable? ==> r == Ok(s.(table := Some(c.table)))
    ensures c.CGet? ==> r == Ok(s.(fields := s.fields + [c.get]))
    ensures c.CJoin? ==> r == Ok(s.(joins := s.joins + [c.join]))
    ensures c.COrder? ==> r == Ok(s.(order := Some(c.order)))
    ensures c.CLimit? ==> r == Ok(s.(limit := Some(c.limit)))
    ensures c.COffset? ==> r == Ok(s.(offset := Some(c.offset)))
  {
    match c
    case CWhere(w) => Ok(s.(where := Some(w)))
    case CTable(t) => Ok(s.(table := Some(t)))
    case CGet(g) => Ok(s.(fields := s.fields + [g]))
    case CJoin(j) => Ok(s.(joins := s.joins + [j]))
    case COrder(o) => Ok(s.(order := Some(o)))
    case CLimit(l) => Ok(s.(limit := Some(l)))
    case COffset(o) => Ok(s.(offset := Some(o)))
    case CUpdate(_) => Fails(UnknownClause, "Unknown clause: UpdateField")
    case COther(name) => Fails(UnknownClause, "Unknown clause: " + name)
  }

  /** Which slot a clause goes to; clauses for different slots do not interact. */
  function Slot(c: Clause): nat {
    match c
    case CWhere(_) => 0
    case CTable(_) => 1
    case CGet(_) => 2
    case CJoin(_) => 3
    case COrder(_) => 4
    case CLimit(_) => 5
    case COffset(_) => 6
    case CUpdate(_) => 7
    case COther(_) => 8
  }

  function AddAll(s: Select, cs: seq<Clause>): Result<Select>
    decreases |cs|
  {
    if |cs| == 0 then Ok(s)
    else
      var s' :- Add(s, cs[0]);
      AddAll(s', cs[1..])
  }

  lemma AddAllTwo(s: Select, a: Clause, b: Clause)
    ensures AddAll(s, [a, b]) == (if Add(s, a).Err? then Add(s, a) else Add(Add(s, a).value, b))
  {
    assert [a, b][1..] == [b];
    if Add(s, a).Ok? {
      var sa := Add(s, a).value;
      assert [b][1..] == [];
      assert AddAll(sa, [b]) == Add(sa, b);
    }
  }

  /** Adding accepted clauses for different slots in either order builds the same query. */
  lemma AddCommutes(s: Select, a: Clause, b: Clause)
    requires Slot(a) != Slot(b) && Slot(a) < 7 && Slot(b) < 7
    ensures AddAll(s, [a, b]) == AddAll(s, [b, a])
  {
    AddAllTwo(s, a, b);
    AddAllTwo(s, b, a);
  }

  /** A later clause for a single slot replaces the earlier one. */
  lemma AddLastWins(s: Select, a: Clause, b: Clause)
    requires Slot(a) == Slot(b) && Slot(a) in {0, 1, 4, 5, 6}
    ensures AddAll(s, [a, b]) == Add(s, b)
  {
    AddAllTwo(s, a, b);
  }

  /** registerTables: fields, table, joins, WHERE, ORDER; only source tables register. */
  function RegisterJoins(p: Params, js: seq<JoinClause>): (r: Params)
    ensures r.driver == p.driver && r.bindings == p.bindings && r.bound == p.bound && r.nextScope == p.nextScope
    decreases |js|
  {
    if |js| == 0 then p else RegisterJoins(RegisterJoin(p, js[0]), js[1..])
  }

  function RegisterSelect(p: Params, s: Select): (r: Params)
    ensures r.driver == p.driver && r.bindings == p.bindings && r.bound == p.bound && r.nextScope == p.nextScope
  {
    var p1 := if s.table.Some? then RegisterRef(p, s.table.value) else p;
    RegisterJoins(p1, s.joins)
  }

  function RenderGets(p: Params, gs: seq<GetClause>, generate: Expr -> string): (r: (Params, seq<string>, seq<GetClause>))
    ensures |r.1| == |gs| && |r.2| == |gs|
    ensures r.0.driver == p.driver && r.0.tables == p.tables && r.0.nextScope == p.nextScope
    decreases |gs|
  {
    if |gs| == 0 then (p, [], [])
    else
      var (q, first, g) := RenderGet(p, gs[0], generate);
      var (q', rest, gs') := RenderGets(q, gs[1..], generate);
      (q', [first] + rest, [g] + gs')
  }

  function RenderJoins(p: Params, js: seq<JoinClause>): (r: (Params, seq<string>))
    ensures |r.1| == |js|
    ensures r.0.driver == p.driver && r.0.tables == p.tables && r.0.nextScope == p.nextScope
    decreases |js|
  {
    if |js| == 0 then (p, [])
    else
      var (q, first) := RenderJoin(p, js[0]);
      var (q', rest) := RenderJoins(q, js[1..]);
      (q', [first] + rest)
  }

  function OptText(t: Option<TextClause>): seq<string> {
    if t.Some? then [t.value.sql] else []
  }

  /** The FROM, join and WHERE pieces, rendered in that order. */
  function SourceParts(p: Params, s: Select): (r: (Params, seq<string>))
    ensures |r.1| == (if s.table.Some? then 1 else 0) + |s.joins| + (if s.where.Some? then 1 else 0)
    ensures s.table.Some? ==> r.1[0] == "FROM " + RenderRef(p, s.table.value)
    ensures r.0.driver == p.driver && r.0.nextScope == p.nextScope
  {
    var fromParts := if s.table.Some? then ["FROM " + RenderRef(p, s.table.value)] else [];
    var (p2, joinParts) := RenderJoins(p, s.joins);
    var (p3, whereParts) :=
      if s.where.Some? then
        var (q, w) := RenderWhere(p2, s.where.value); (q, [w])
      else (p2, []);
    (p3, fromParts + joinParts + whereParts)
  }

  /**
   * The pieces Select::toSQL joins with single spaces: "SELECT", the field
   * list or "*", "FROM <table>", each join, the WHERE clause, ORDER, LIMIT,
   * OFFSET; an absent part contributes no piece. Tables are registered
   * before anything is rendered. Also returned: the parameters after
   * rendering and the select with its generated aliases stored.
   */
  function SelectParts(p: Params, s: Select, generate: Expr -> string): (r: (Params, seq<string>, Select))
    ensures r.2 == s.(fields := r.2.fields) && |r.2.fields| == |s.fields|
    ensures r.0.driver == p.driver && r.0.nextScope == p.nextScope
  {
    var gets := RenderGets(RegisterSelect(p, s), s.fields, generate);
    var source := SourceParts(gets.0, s);
    (source.0, ["SELECT", FieldText(s, gets.1)] + source.1 + OptText(s.order) + OptText(s.limit) + OptText(s.offset),
     s.(fields := gets.2))
  }

  function FieldText(s: Select, fieldParts: seq<string>): string {
    if |s.fields| == 0 then "*" else Join(fieldParts, ", ")
  }

  /**
   * Select::toSQL: the text opens with "SELECT", a space and the field
   * list, "*" when there are no fields; the select keeps every clause and
   * only its fields change, to carry their generated aliases.
   */
  function RenderSelect(p: Params, s: Select, generate: Expr -> string): (r: (Params, string, Select))
    ensures StartsWith(r.1, "SELECT " + FieldText(s, RenderGets(RegisterSelect(p, s), s.fields, generate).1))
    ensures |s.fields| == 0 ==> StartsWith(r.1, "SELECT *")
    ensures r.2 == s.(fields := r.2.fields) && |r.2.fields| == |s.fields|
    ensures r.0.driver == p.driver && r.0.nextScope == p.nextScope
    ensures r.0 == SelectParts(p, s, generate).0 && r.1 == Join(SelectParts(p, s, generate).1, " ")
  {
    var (q, parts, s') := SelectParts(p, s, generate);
    SelectTextOpens(p, s, generate);
    (q, Join(parts, " "), s')
  }

  /** The joined pieces open with "SELECT", a space and the field text. */
  lemma SelectTextOpens(p: Params, s: Select, generate: Expr -> string)
    ensures var head := "SELECT " + FieldText(s, RenderGets(RegisterSelect(p, s), s.fields, generate).1);
      && StartsWith(Join(SelectParts(p, s, generate).1, " "), head)
      && (|s.fields| == 0 ==> StartsWith(Join(SelectParts(p, s, generate).1, " "), "SELECT *"))
  {
    var gets := RenderGets(RegisterSelect(p, s), s.fields, generate);
    var ft := FieldText(s, gets.1);
    var parts := SelectParts(p, s, generate).1;
    assert parts[0] == "SELECT" && parts[1] == ft;
    JoinOpensWithTwo(parts, " ");
    assert "SELECT" + " " + ft == "SELECT " + ft;
  }

  /**
   * Select::toSQL as written: each join is rendered with one argument,
   * where JoinClause::toSQL takes two, so PHP 8 throws ArgumentCountError
   * at the first join. A select without joins renders as corrected.
   */
  function RenderSelectAsWritten(p: Params, s: Select, generate: Expr -> string): (r: Result<(Params, string, Select)>)
    ensures r.Err? <==> |s.joins| > 0
    ensures r.Err? ==> r.error.kind == Fatal
    ensures r.Ok? ==> r.value == RenderSelect(p, s, generate)
  {
    if |s.joins| > 0 then
      Fails(Fatal, "Too few arguments to function JoinClause::toSQL(), 1 passed and exactly 2 expected")
    else
      Ok(RenderSelect(p, s, generate))
  }

  /**
   * A select with a join: as written it throws; corrected, the first join's
   * text, "type JOIN table ON condition", is one of the pieces joined.
   */
  lemma RenderSelectJoinDiscrepancy(p: Params, s: Select, generate: Expr -> string)
    requires |s.joins| > 0
    ensures RenderSelectAsWritten(p, s, generate).Err?
    ensures RenderJoin(RenderGets(RegisterSelect(p, s), s.fields, generate).0, s.joins[0]).1 in SelectParts(p, s, generate).1
  {
    var q := RenderGets(RegisterSelect(p, s), s.fields, generate).0;
    var parts := SelectParts(p, s, generate).1;
    var k := FirstJoinPiece(q, s);
    SelectPartsOrder(p, s, generate);
    assert parts[2 + k] == SourceParts(q, s).1[k];
  }

  /** The first join's text is the piece of SourceParts right after the FROM clause. */
  lemma FirstJoinPiece(q: Params, s: Select) returns (k: nat)
    requires |s.joins| > 0
    ensures k == (if s.table.Some? then 1 else 0)
    ensures k < |SourceParts(q, s).1| && SourceParts(q, s).1[k] == RenderJoin(q, s.joins[0]).1
  {
    k := if s.table.Some? then 1 else 0;
    var fromParts := if s.table.Some? then ["FROM " + RenderRef(q, s.table.value)] else [];
    var joinParts := RenderJoins(q, s.joins).1;
    assert joinParts[0] == RenderJoin(q, s.joins[0]).1;
    assert SourceParts(q, s).1[..k + |joinParts|] == fromParts + joinParts;
  }

  /** With no fields the field list is "*"; absent parts leave no trace. */
  lemma RenderBareSelect(p: Params, t: TableRef, generate: Expr -> string)
    ensures RenderSelect(p, EmptySelect.(table := Some(t)), generate).1 ==
      "SELECT * FROM " + RenderRef(RegisterRef(p, t), t)
  {
    var from := "FROM " + RenderRef(RegisterRef(p, t), t);
    BareSelectParts(p, t, generate);
    JoinThree("SELECT", "*", from, " ");
    SelectStarText(RenderRef(RegisterRef(p, t), t));
  }

  lemma SelectStarText(source: string)
    ensures "SELECT" + " " + "*" + " " + ("FROM " + source) == "SELECT * FROM " + source
  {
    assert "SELECT" + " " + "*" + " " + "FROM " == "SELECT * FROM ";
  }

  /** A select with only a table renders three pieces: "SELECT", "*" and the FROM clause. */
  lemma BareSelectParts(p: Params, t: TableRef, generate: Expr -> string)
    ensures SelectParts(p, EmptySelect.(table := Some(t)), generate).1 == ["SELECT", "*", "FROM " + RenderRef(RegisterRef(p, t), t)]
  {
    var s := EmptySelect.(table := Some(t));
    var p0 := RegisterRef(p, t);
    assert RegisterSelect(p, s) == p0;
    assert RenderGets(p0, [], generate) == (p0, [], []);
    var from := "FROM " + RenderRef(p0, t);
    assert RenderJoins(p0, []) == (p0, []);
    assert [from] + [] + [] == [from];
    assert SourceParts(p0, s).1 == [from];
    assert ["SELECT", "*"] + [from] + [] + [] + [] == ["SELECT", "*", from];
  }

  /**
   * The pieces come in the fixed order whatever order the clauses were
   * added in: "SELECT" first, then the fields, then FROM when a table is set.
   */
  lemma SelectPartsOrder(p: Params, s: Select, generate: Expr -> string)
    ensures var parts := SelectParts(p, s, generate).1;
      && |parts| >= 2 && parts[0] == "SELECT"
      && (|s.fields| == 0 ==> parts[1] == "*")
      && (s.table.Some? ==> |parts| >= 3 && StartsWith(parts[2], "FROM "))
      && |parts| == 2 + (if s.table.Some? then 1 else 0) + |s.joins| + (if s.where.Some? then 1 else 0)
           + |OptText(s.order)| + |OptText(s.limit)| + |OptText(s.offset)|
  ensures var gets := RenderGets(RegisterSelect(p, s), s.fields, generate);
      var parts := SelectParts(p, s, generate).1;
      var tail := OptText(s.order) + OptText(s.limit) + OptText(s.offset);
      && |gets.1| == |s.fields|
      && (|s.fields| > 0 ==> parts[1] == Join(gets.1, ", "))
      && |parts| >= 2 + |tail|
      && parts[2..|parts| - |tail|] == SourceParts(gets.0, s).1
      && parts[|parts| - |tail|..] == tail
  {
    var parts := SelectParts(p, s, generate).1;
    var gets := RenderGets(RegisterSelect(p, s), s.fields, generate);
    var source := SourceParts(gets.0, s).1;
    var tail := OptText(s.order) + OptText(s.limit) + OptText(s.offset);
    assert parts == ["SELECT", FieldText(s, gets.1)] + source + tail;
    assert parts[2..|parts| - |tail|] == source;
    assert parts[|parts| - |tail|..] == tail;
    if s.table.Some? {
      var p0 := RegisterSelect(p, s);
      var p1 := RenderGets(p0, s.fields, generate).0;
      var from := "FROM " + RenderRef(p1, s.table.value);
      assert parts[2] == from;
      assert from[..5] == "FROM ";
    }
  }

  /**
   * countQuery: the table, joins and WHERE clause of the query with a single
   * COUNT() field; ORDER, LIMIT and OFFSET are dropped.
   */
  function CountQuery(s: Select): (r: Select)
    ensures r.table == s.table && r.joins == s.joins && r.where == s.where
    ensures r.order.None? && r.limit.None? && r.offset.None?
    ensures |r.fields| == 1 && r.fields[0].expression == Func("COUNT", [])
  {
    Select([GetClause(Func("COUNT", []), "")], s.table, s.joins, s.where, None, None, None)
  }

  /** Counting a count query changes nothing. */
  lemma CountQueryIdempotent(s: Select)
    ensures CountQuery(CountQuery(s)) == CountQuery(s)
  {
  }

  /**
   * The count query renders the same FROM, joins and WHERE as the query it
   * counts, when that query's fields bind nothing.
   */
  lemma CountQueryKeepsSource(p: Params, s: Select, generate: Expr -> string)
    requires RenderGets(RegisterSelect(p, s), s.fields, generate).0 == RegisterSelect(p, s)
    ensures var n := |SourceParts(RegisterSelect(p, s), s).1|;
      && SelectParts(p, CountQuery(s), generate).1[2..2 + n] == SourceParts(RegisterSelect(p, s), s).1
      && SelectParts(p, s, generate).1[2..2 + n] == SourceParts(RegisterSelect(p, s), s).1
  {
    CountQuerySource(p, s, generate);
    SelectPartsSource(p, s, generate);
  }

  /** The count query's source pieces are those of the query it counts, rendered from the same registrations. */
  lemma CountQuerySource(p: Params, s: Select, generate: Expr -> string)
    ensures var src := SourceParts(RegisterSelect(p, s), s).1;
      SelectParts(p, CountQuery(s), generate).1[2..2 + |src|] == src
  {
    var c := CountQuery(s);
    var p0 := RegisterSelect(p, s);
    RegisterSelectDepends(p, s, c);
    SourcePartsDepend(p0, s, c);
    CountFieldBindsNothing(p0, generate);
    assert RenderGets(RegisterSelect(p, c), c.fields, generate).0 == p0;
    SelectPartsSource(p, c, generate);
  }

  /** Only the table and the joins decide what is registered. */
  lemma RegisterSelectDepends(p: Params, s: Select, s': Select)
    requires s.table == s'.table && s.joins == s'.joins
    ensures RegisterSelect(p, s) == RegisterSelect(p, s')
  {
  }

  /** Only the table, the joins and the WHERE clause decide SourceParts. */
  lemma SourcePartsDepend(p: Params, s: Select, s': Select)
    requires s.table == s'.table && s.joins == s'.joins && s.where == s'.where
    ensures SourceParts(p, s) == SourceParts(p, s')
  {
  }

  /** The source pieces follow "SELECT" and the field list. */
  lemma SelectPartsSource(p: Params, s: Select, generate: Expr -> string)
    ensures var src := SourceParts(RenderGets(RegisterSelect(p, s), s.fields, generate).0, s).1;
      SelectParts(p, s, generate).1[2..2 + |src|] == src
  {
    var gets := RenderGets(RegisterSelect(p, s), s.fields, generate);
    var src := SourceParts(gets.0, s).1;
    MiddleSlice(["SELECT", FieldText(s, gets.1)], src, OptText(s.order), OptText(s.limit), OptText(s.offset));
  }

  lemma MiddleSlice<T>(head: seq<T>, mid: seq<T>, a: seq<T>, b: seq<T>, c: seq<T>)
    ensures (head + mid + a + b + c)[|head|..|head| + |mid|] == mid
  {
    assert (head + mid + a + b + c) == (head + mid) + (a + b + c);
  }

  lemma CountFieldBindsNothing(p: Params, generate: Expr -> string)
    ensures RenderGets(p, [GetClause(Func("COUNT", []), "")], generate).0 == p
  {
    assert RenderList(p, []) == (p, []);
    assert Render(p, Func("COUNT", []), true).0 == p;
    var gs := [GetClause(Func("COUNT", []), "")];
    assert gs[1..] == [];
  }
}

=== FILE: strings.dfy ===
/** The PHP string functions the library relies on. */
module Strings {
  // The handful of PHP string functions the library relies on, over
  // `seq<char>`: implode, explode on one character, strpos, trim, strtoupper
  // and decimal integer formatting. Case mapping is ASCII only, as PHP's
  // byte-wise functions are.

  import opened Wrappers

  /** PHP `implode(sep, xs)`. */
  function Join(xs: seq<string>, sep: string): string
    decreases |xs|
  {
    if |xs| == 0 then ""
    else if |xs| == 1 then xs[0]
    else xs[0] + sep + Join(xs[1..], sep)
  }

  /** PHP `explode(c, s)` for a one-character separator: never empty. */
  function Split(s: string, c: char): (r: seq<string>)
    ensures |r| >= 1
    decreases |s|
  {
    if |s| == 0 then [""]
    else
      var rest := Split(s[1..], c);
      if s[0] == c then [""] + rest
      else [[s[0]] + rest[0]] + rest[1..]
  }

  /** Splitting a text free of the separator gives the text back alone. */
  lemma {:induction false} SplitNoSeparator(s: string, c: char)
    requires c !in s
    ensures Split(s, c) == [s]
    decreases |s|
  {
    if |s| > 0 {
      assert c !in s[1..] by {
        forall k | 0 <= k < |s[1..]| ensures s[1..][k] != c {
          assert s[1..][k] == s[k + 1];
        }
      }
      SplitNoSeparator(s[1..], c);
      assert [s[0]] + s[1..] == s;
    }
  }

  /** The first separator in `a + [c] + b` ends the first piece when `a` is free of `c`. */
  lemma {:induction false} SplitAtFirst(a: string, c: char, b: string)
    requires c !in a
    ensures Split(a + [c] + b, c) == [a] + Split(b, c)
    decreases |a|
  {
    if |a| == 0 {
      assert a + [c] + b == [c] + b;
      assert ([c] + b)[1..] == b;
    } else {
      var s := a + [c] + b;
      assert s[0] == a[0];
      assert s[1..] == a[1..] + [c] + b;
      assert c !in a[1..] by {
        forall k | 0 <= k < |a[1..]| ensures a[1..][k] != c {
          assert a[1..][k] == a[k + 1];
        }
      }
      SplitAtFirst(a[1..], c, b);
      assert [a[0]] + a[1..] == a;
    }
  }

  /** explode inverts implode when no piece contains the separator. */
  lemma {:induction false} SplitJoin(xs: seq<string>, c: char)
    requires |xs| > 0
    requires forall i :: 0 <= i < |xs| ==> c !in xs[i]
    ensures Split(Join(xs, [c]), c) == xs
    decreases |xs|
  {
    if |xs| == 1 {
      SplitNoSeparator(xs[0], c);
    } else {
      SplitJoin(xs[1..], c);
      SplitAtFirst(xs[0], c, Join(xs[1..], [c]));
      assert [xs[0]] + xs[1..] == xs;
    }
  }

  /** PHP `explode(sep, s)` for a separator of any non-empty length. */
  function SplitOn(s: string, sep: string): (r: seq<string>)
    requires |sep| > 0
    ensures |r| >= 1
    decreases |s|
  {
    if |s| == 0 then [""]
    else if StartsWith(s, sep) then [""] + SplitOn(s[|sep|..], sep)
    else
      var rest := SplitOn(s[1..], sep);
      [[s[0]] + rest[0]] + rest[1..]
  }

  /** A text without the separator's first character is a single piece. */
  lemma {:induction false} SplitOnNoSeparator(s: string, sep: string)
    requires |sep| > 0 && sep[0] !in s
    ensures SplitOn(s, sep) == [s]
    decreases |s|
  {
    if |s| > 0 {
      assert s[0] != sep[0];
      assert sep[0] !in s[1..] by {
        forall k | 0 <= k < |s[1..]| ensures s[1..][k] != sep[0] {
          assert s[1..][k] == s[k + 1];
        }
      }
      SplitOnNoSeparator(s[1..], sep);
      assert [s[0]] + s[1..] == s;
    }
  }

  lemma {:induction false} SplitOnAtFirst(a: string, sep: string, b: string)
    requires |sep| > 0 && sep[0] !in a
    ensures SplitOn(a + sep + b, sep) == [a] + SplitOn(b, sep)
    decreases |a|
  {
    var s := a + sep + b;
    if |a| == 0 {
      assert s == sep + b;
      assert s[..|sep|] == sep;
      assert s[|sep|..] == b;
    } else {
      assert s[0] == a[0] && a[0] != sep[0];
      assert s[1..] == a[1..] + sep + b;
      assert sep[0] !in a[1..] by {
        forall k | 0 <= k < |a[1..]| ensures a[1..][k] != sep[0] {
          assert a[1..][k] == a[k + 1];
        }
      }
      SplitOnAtFirst(a[1..], sep, b);
      assert [a[0]] + a[1..] == a;
    }
  }

  /** explode inverts implode when no piece contains the separator's first character. */
  lemma {:induction false} SplitOnJoin(xs: seq<string>, sep: string)
    requires |xs| > 0 && |sep| > 0
    requires forall i :: 0 <= i < |xs| ==> sep[0] !in xs[i]
    ensures SplitOn(Join(xs, sep), sep) == xs
    decreases |xs|
  {
    if |xs| == 1 {
      SplitOnNoSeparator(xs[0], sep);
    } else {
      SplitOnJoin(xs[1..], sep);
      SplitOnAtFirst(xs[0], sep, Join(xs[1..], sep));
      assert [xs[0]] + xs[1..] == xs;
    }
  }

  /** PHP `str_replace(c, with, s)` for a one-character search string. */
  function ReplaceChar(s: string, c: char, with: string): (r: string)
    ensures c !in s ==> r == s
    decreases |s|
  {
    if |s| == 0 then ""
    else (if s[0] == c then with else [s[0]]) + ReplaceChar(s[1..], c, with)
  }

  /** Replacement works piece by piece. */
  lemma {:induction false} ReplaceCharAppend(a: string, b: string, c: char, with: string)
    ensures ReplaceChar(a + b, c, with) == ReplaceChar(a, c, with) + ReplaceChar(b, c, with)
    decreases |a|
  {
    if |a| > 0 {
      assert (a + b)[1..] == a[1..] + b;
      ReplaceCharAppend(a[1..], b, c, with);
    } else {
      assert a + b == b;
    }
  }

  /** PCRE `\w`: ASCII letters, digits and the underscore. */
  predicate IsWordChar(c: char) {
    'a' <= c <= 'z' || 'A' <= c <= 'Z' || IsDigit(c) || c == '_'
  }

  /** PCRE `\s`: space, tab, line feed, vertical tab, form feed, carriage return. */
  predicate IsSpaceChar(c: char) {
    c == ' ' || c == '\t' || c == '\n' || c == '\r' || c as int == 11 || c as int == 12
  }

  /** The characters of the PCRE class `[\w\d\s,_]` the catalog's column lists use. */
  predicate IsListChar(c: char) {
    IsWordChar(c) || IsSpaceChar(c) || c == ','
  }

  /** The length of the longest prefix of `s` whose characters all satisfy `p`: a greedy PCRE run. */
  function Span(s: string, p: char -> bool): (r: nat)
    ensures r <= |s|
    ensures forall i :: 0 <= i < r ==> p(s[i])
    ensures r < |s| ==> !p(s[r])
    decreases |s|
  {
    if |s| == 0 || !p(s[0]) then 0
    else
      var n := Span(s[1..], p);
      assert forall i :: 1 <= i < 1 + n ==> s[i] == s[1..][i - 1];
      1 + n
  }

  /** A run ends where its characters stop. */
  lemma SpanOf(a: string, b: string, p: char -> bool)
    requires forall i :: 0 <= i < |a| ==> p(a[i])
    requires |b| > 0 ==> !p(b[0])
    ensures Span(a + b, p) == |a|
  {
    var s := a + b;
    assert forall i :: 0 <= i < |a| ==> s[i] == a[i];
    assert |b| > 0 ==> s[|a|] == b[0];
  }

  /** PCRE `\s*`: the text after its leading whitespace. */
  function SkipSpace(s: string): (r: string)
    ensures |r| <= |s| && r == s[|s| - |r|..]
    ensures |r| > 0 ==> !IsSpaceChar(r[0])
  {
    s[Span(s, IsSpaceChar)..]
  }

  /** Leading whitespace followed by a non-space start is skipped exactly. */
  lemma SkipSpaceOf(a: string, b: string)
    requires forall i :: 0 <= i < |a| ==> IsSpaceChar(a[i])
    requires |b| > 0 ==> !IsSpaceChar(b[0])
    ensures SkipSpace(a + b) == b
  {
    SpanOf(a, b, IsSpaceChar);
    assert (a + b)[|a|..] == b;
  }

  /** The text after `lit`, when `s` starts with it: matching a literal in a pattern. */
  function AfterPrefix(s: string, lit: string): (r: Option<string>)
    ensures r.Some? <==> StartsWith(s, lit)
    ensures r.Some? ==> s == lit + r.value
  {
    if StartsWith(s, lit) then
      assert s == s[..|lit|] + s[|lit|..];
      Some(s[|lit|..])
    else None
  }

  lemma AfterPrefixOf(lit: string, rest: string)
    ensures AfterPrefix(lit + rest, lit) == Some(rest)
  {
    PrefixOfAppend(lit, rest);
    assert (lit + rest)[|lit|..] == rest;
  }

  /** A greedy run of characters satisfying `p`, and the text after it. */
  function TakeWhile(s: string, p: char -> bool): (r: (string, string))
    ensures s == r.0 + r.1
    ensures forall i :: 0 <= i < |r.0| ==> p(r.0[i])
    ensures |r.1| > 0 ==> !p(r.1[0])
  {
    var n := Span(s, p);
    assert s == s[..n] + s[n..];
    (s[..n], s[n..])
  }

  /** The greedy run stops exactly where the characters stop satisfying `p`. */
  lemma TakeWhileOf(a: string, b: string, p: char -> bool)
    requires forall i :: 0 <= i < |a| ==> p(a[i])
    requires |b| > 0 ==> !p(b[0])
    ensures TakeWhile(a + b, p) == (a, b)
  {
    SpanOf(a, b, p);
    assert (a + b)[..|a|] == a;
    assert (a + b)[|a|..] == b;
  }

  /** Joining texts whose characters all satisfy `p` with such a separator gives such a text. */
  lemma {:induction false} JoinChars(xs: seq<string>, sep: string, p: char -> bool)
    requires forall i, j :: 0 <= i < |xs| && 0 <= j < |xs[i]| ==> p(xs[i][j])
    requires forall j :: 0 <= j < |sep| ==> p(sep[j])
    ensures forall j :: 0 <= j < |Join(xs, sep)| ==> p(Join(xs, sep)[j])
    decreases |xs|
  {
    if |xs| > 1 {
      JoinChars(xs[1..], sep, p);
      var rest := Join(xs[1..], sep);
      var whole := xs[0] + sep + rest;
      forall j | 0 <= j < |whole| ensures p(whole[j]) {
        if j < |xs[0]| {
          assert whole[j] == xs[0][j];
        } else if j < |xs[0]| + |sep| {
          assert whole[j] == sep[j - |xs[0]|];
        } else {
          assert whole[j] == rest[j - |xs[0]| - |sep|];
        }
      }
    }
  }

  predicate AllWordChars(s: string) {
    forall i :: 0 <= i < |s| ==> IsWordChar(s[i])
  }

  predicate EndsWith(s: string, suffix: string) {
    |suffix| <= |s| && s[|s| - |suffix|..] == suffix
  }

  lemma PrefixOfAppend(a: string, b: string)
    ensures StartsWith(a + b, a)
  {
    assert (a + b)[..|a|] == a;
  }

  lemma SuffixOfAppend(a: string, b: string)
    ensures EndsWith(a + b, b)
  {
    assert (a + b)[|a + b| - |b|..] == b;
  }

  lemma Concat3(a: string, b: string, c: string)
    ensures StartsWith(a + b + c, a) && EndsWith(a + b + c, c)
  {
    assert (a + b + c)[..|a|] == a;
    assert (a + b + c)[|a + b + c| - |c|..] == c;
  }

  lemma AppendAssoc<T>(a: seq<T>, b: seq<T>, c: seq<T>)
    ensures a + (b + c) == (a + b) + c
  {
  }

  /** Two texts ending in suffixes that differ in their last `k` characters differ. */
  lemma EndsWithDiffer(s: string, t: string, x: string, y: string, k: nat)
    requires EndsWith(s, x) && EndsWith(t, y)
    requires k <= |x| && k <= |y| && x[|x| - k..] != y[|y| - k..]
    ensures s != t
  {
    assert s[|s| - k..] == x[|x| - k..];
    assert t[|t| - k..] == y[|y| - k..];
  }

  /** Joining n pieces puts the separator between them: the length adds up. */
  lemma {:induction false} JoinLength(xs: seq<string>, sep: string)
    requires |xs| > 0
    ensures |Join(xs, sep)| == SumLengths(xs) + (|xs| - 1) * |sep|
    decreases |xs|
  {
    if |xs| > 1 {
      JoinLength(xs[1..], sep);
    }
  }

  /** Joining a head onto a non-empty list puts one separator after it. */
  lemma JoinCons(x: string, xs: seq<string>, sep: string)
    requires |xs| > 0
    ensures Join([x] + xs, sep) == x + sep + Join(xs, sep)
  {
    assert ([x] + xs)[1..] == xs;
  }

  /** Joining onto a non-empty list puts one separator before the last piece. */
  lemma {:induction false} JoinSnoc(xs: seq<string>, y: string, sep: string)
    requires |xs| > 0
    ensures Join(xs + [y], sep) == Join(xs, sep) + sep + y
    decreases |xs|
  {
    if |xs| == 1 {
      assert xs + [y] == [xs[0]] + [y];
      JoinCons(xs[0], [y], sep);
    } else {
      assert xs + [y] == [xs[0]] + (xs[1..] + [y]);
      JoinCons(xs[0], xs[1..] + [y], sep);
      JoinSnoc(xs[1..], y, sep);
      assert [xs[0]] + xs[1..] == xs;
      JoinCons(xs[0], xs[1..], sep);
    }
  }

  /** Three pieces joined: each separated from the next by one separator. */
  lemma JoinThree(a: string, b: string, c: string, sep: string)
    ensures Join([a, b, c], sep) == a + sep + b + sep + c
  {
    assert [a, b, c][1..] == [b, c];
    assert [b, c][1..] == [c];
    assert Join([b, c], sep) == b + sep + c;
  }

  /** The first two pieces, each followed by the separator, then the rest joined. */
  lemma JoinTwoHead(xs: seq<string>, sep: string)
    requires |xs| >= 3
    ensures Join(xs, sep) == (xs[0] + sep + xs[1] + sep) + Join(xs[2..], sep)
  {
    assert xs[1..][1..] == xs[2..];
    assert Join(xs, sep) == xs[0] + sep + (xs[1] + sep + Join(xs[2..], sep));
  }

  /** A joined list of two or more pieces opens with the first two and a separator between them. */
  lemma JoinOpensWithTwo(xs: seq<string>, sep: string)
    requires |xs| >= 2
    ensures StartsWith(Join(xs, sep), xs[0] + sep + xs[1])
  {
    var rest := xs[2..];
    var tail := if |rest| == 0 then [] else sep + Join(rest, sep);
    assert xs[1..][1..] == rest;
    if |rest| > 0 {
      JoinCons(xs[1], rest, sep);
      assert xs[1..] == [xs[1]] + rest;
    }
    assert Join(xs, sep) == xs[0] + sep + xs[1] + tail;
    PrefixOfAppend(xs[0] + sep + xs[1], tail);
  }

  /** A joined list opens with its first piece. */
  lemma JoinStartsWith(xs: seq<string>, sep: string)
    requires |xs| > 0
    ensures StartsWith(Join(xs, sep), xs[0])
  {
    if |xs| > 1 {
      var s := Join(xs, sep);
      assert s == xs[0] + (sep + Join(xs[1..], sep));
      assert s[..|xs[0]|] == xs[0];
    }
  }

  function SumLengths(xs: seq<string>): nat
    decreases |xs|
  {
    if |xs| == 0 then 0 else |xs[0]| + SumLengths(xs[1..])
  }

  predicate StartsWith(s: string, prefix: string) {
    |prefix| <= |s| && s[..|prefix|] == prefix
  }

  /** `strpos(s, sub) !== false`: `sub` occurs somewhere in `s`. */
  predicate ContainsText(s: string, sub: string)
    decreases |s|
  {
    StartsWith(s, sub) || (|s| > 0 && ContainsText(s[1..], sub))
  }

  /** PHP `strpos(s, c)` for one character: the first position, if any. */
  function IndexOf(s: string, c: char): (r: Option<nat>)
    ensures r.None? <==> c !in s
    ensures r.Some? ==> r.value < |s| && s[r.value] == c && c !in s[..r.value]
    decreases |s|
  {
    if |s| == 0 then None
    else if s[0] == c then Some(0)
    else
      match IndexOf(s[1..], c)
      case None => None
      case Some(k) =>
        assert s[..k + 1] == [s[0]] + s[1..][..k];
        Some(k + 1)
  }

  function UpperChar(c: char): char {
    if 'a' <= c <= 'z' then (c as int - 32) as char else c
  }

  function LowerChar(c: char): char {
    if 'A' <= c <= 'Z' then (c as int + 32) as char else c
  }

  /** PHP `strtoupper` on ASCII text. */
  function ToUpper(s: string): (r: string)
    ensures |r| == |s|
    ensures forall i :: 0 <= i < |s| ==> r[i] == UpperChar(s[i])
  {
    seq(|s|, i requires 0 <= i < |s| => UpperChar(s[i]))
  }

  /** PHP `strtolower` on ASCII text. */
  function ToLower(s: string): (r: string)
    ensures |r| == |s|
    ensures forall i :: 0 <= i < |s| ==> r[i] == LowerChar(s[i])
  {
    seq(|s|, i requires 0 <= i < |s| => LowerChar(s[i]))
  }

  /** PHP `trim(s, [c])`: drop every leading and trailing `c`. */
  function Trim(s: string, c: char): (r: string)
    ensures |r| == 0 || (r[0] != c && r[|r| - 1] != c)
    ensures c !in s ==> r == s
    decreases |s|
  {
    if |s| == 0 then s
    else if s[0] == c then Trim(s[1..], c)
    else if s[|s| - 1] == c then Trim(s[..|s| - 1], c)
    else s
  }

  function DigitChar(d: nat): char
    requires d < 10
  {
    ('0' as int + d) as char
  }

  predicate IsDigit(c: char) {
    '0' <= c <= '9'
  }

  /** The decimal text PHP prints for a natural number. */
  function NatToString(n: nat): (r: string)
    ensures |r| >= 1
    ensures forall i :: 0 <= i < |r| ==> IsDigit(r[i])
    decreases n
  {
    if n < 10 then [DigitChar(n)] else NatToString(n / 10) + [DigitChar(n % 10)]
  }

  /** Different numbers print differently, so counter-based names never collide. */
  lemma {:induction false} NatToStringInjective(a: nat, b: nat)
    requires NatToString(a) == NatToString(b)
    ensures a == b
    decreases a
  {
    var sa, sb := NatToString(a), NatToString(b);
    if a >= 10 && b >= 10 {
      assert sa[|sa| - 1] == sb[|sb| - 1];
      assert a % 10 == b % 10;
      assert sa[..|sa| - 1] == NatToString(a / 10);
      assert sb[..|sb| - 1] == NatToString(b / 10);
      NatToStringInjective(a / 10, b / 10);
    }
  }

  /** The decimal text PHP prints for an integer. */
  function IntToString(i: int): string {
    if i < 0 then "-" + NatToString(-i) else NatToString(i)
  }

  /** Leading decimal digits of `s` and their value, as PHP's `(int)` cast reads them. */
  function DigitPrefixValue(s: string, acc: nat): nat
    decreases |s|
  {
    if |s| == 0 || !IsDigit(s[0]) then acc
    else DigitPrefixValue(s[1..], acc * 10 + (s[0] as int - '0' as int))
  }

  /** PHP `(int)` of a string, limited to an optional minus sign and decimal digits. */
  function StringToInt(s: string): int {
    if |s| > 0 && s[0] == '-' then 0 - DigitPrefixValue(s[1..], 0) else DigitPrefixValue(s, 0)
  }

  /** Reading one more digit shifts the value read so far by one place. */
  lemma {:induction false} DigitPrefixSnoc(s: string, c: char, acc: nat)
    requires forall i :: 0 <= i < |s| ==> IsDigit(s[i])
    requires IsDigit(c)
    ensures DigitPrefixValue(s + [c], acc) == DigitPrefixValue(s, acc) * 10 + (c as int - '0' as int)
    decreases |s|
  {
    if |s| == 0 {
      assert (s + [c])[1..] == [];
    } else {
      assert (s + [c])[1..] == s[1..] + [c];
      DigitPrefixSnoc(s[1..], c, acc * 10 + (s[0] as int - '0' as int));
    }
  }

  /** The digits PHP prints for a number read back as that number. */
  lemma {:induction false} NatToStringReads(n: nat)
    ensures DigitPrefixValue(NatToString(n), 0) == n
    decreases n
  {
    if n >= 10 {
      NatToStringReads(n / 10);
      DigitPrefixSnoc(NatToString(n / 10), DigitChar(n % 10), 0);
    } else {
      assert NatToString(n)[1..] == [];
    }
  }

  /** The text PHP prints for an integer is integer text, and `(int)` reads it back. */
  lemma IntToStringReads(i: int)
    ensures IsIntegerText(IntToString(i)) && StringToInt(IntToString(i)) == i
  {
    if i < 0 {
      NatToStringReads(-i);
      assert IntToString(i)[1..] == NatToString(-i);
    } else {
      NatToStringReads(i);
    }
  }

  /** An optional minus sign followed by at least one digit and nothing else. */
  predicate IsIntegerText(s: string) {
    IsDigitText(if |s| > 0 && s[0] == '-' then s[1..] else s)
  }

  /**
   * Text PHP stores as an integer when it is used as an array key: the
   * canonical decimal text of an integer ("7", "-3"; not "07" or "-0").
   */
  predicate IsIntKeyText(s: string) {
    IsIntegerText(s) && IntToString(StringToInt(s)) == s
  }

  /** At least one digit and nothing else. */
  predicate IsDigitText(s: string) {
    |s| > 0 && forall i :: 0 <= i < |s| ==> IsDigit(s[i])
  }
}

=== FILE: table.dfy ===
/** A table description. */
module TableModel {
  // A table description (Table.php): a name, the columns in insertion order
  // (names unique), the index list, the foreign-key list and the recorded
  // PRIMARY index.
  //
  // The Index and ForeignKey classes are not part of this model; they are
  // records of the fields the table and the drivers read from them. PHP
  // object identity (`$this->primary !== $index`) becomes value equality.

  import opened Wrappers
  import opened Strings
  import opened Values
  import opened ColumnModel

  datatype IndexKind = PRIMARY | UNIQUE | INDEX

  /** Column entries are names, possibly followed by modifiers ("name DESC") or expressions. */
  datatype Index = Index(kind: IndexKind, name: string, columns: seq<string>)

  /** Policies are the strings the catalog reports ("CASCADE", "RESTRICT", "SET NULL", ...). */
  datatype ForeignKey = ForeignKey(
    name: string,
    columns: seq<string>,
    referredTable: string,
    referredColumns: seq<string>,
    onUpdate: string,
    onDelete: string)

  /** The policies the foreign-key constants stand for. */
  const KnownPolicies: seq<string> := ["CASCADE", "RESTRICT", "SET NULL"]

  datatype Table = Table(
    name: string,
    columns: seq<Column>,
    indexes: seq<Index>,
    foreignKeys: seq<ForeignKey>,
    primary: Option<Index>)

  function EmptyTable(name: string): Table {
    Table(name, [], [], [], None)
  }

  predicate HasColumn(t: Table, name: string) {
    exists i :: 0 <= i < |t.columns| && t.columns[i].name == name
  }

  function ColumnNames(cols: seq<Column>): (r: seq<string>)
    ensures |r| == |cols|
    ensures forall i :: 0 <= i < |cols| ==> r[i] == cols[i].name
  {
    seq(|cols|, i requires 0 <= i < |cols| => cols[i].name)
  }

  predicate UniqueNames(cols: seq<Column>) {
    forall i, j :: 0 <= i < j < |cols| ==> cols[i].name != cols[j].name
  }

  /** The first position holding an element called `name`. */
  function FirstNamed<T>(xs: seq<T>, nameOf: T -> string, name: string): (r: Option<nat>)
    ensures r.None? <==> forall i :: 0 <= i < |xs| ==> nameOf(xs[i]) != name
    ensures r.Some? ==> r.value < |xs| && nameOf(xs[r.value]) == name
    ensures r.Some? ==> forall i :: 0 <= i < r.value ==> nameOf(xs[i]) != name
    decreases |xs|
  {
    if |xs| == 0 then None
    else if nameOf(xs[0]) == name then Some(0)
    else
      match FirstNamed(xs[1..], nameOf, name)
      case None => None
      case Some(k) => Some(k + 1)
  }

  /** Delete the first element called `name`; nothing changes when there is none. */
  function RemoveFirstNamed<T>(xs: seq<T>, nameOf: T -> string, name: string): (r: seq<T>)
    ensures FirstNamed(xs, nameOf, name).None? ==> r == xs
    ensures FirstNamed(xs, nameOf, name).Some? ==>
      var k := FirstNamed(xs, nameOf, name).value; r == xs[..k] + xs[k + 1..]
  {
    match FirstNamed(xs, nameOf, name)
    case None => xs
    case Some(k) => xs[..k] + xs[k + 1..]
  }

  function ColumnNamed(c: Column): string { c.name }
  function IndexNamed(i: Index): string { i.name }
  function ForeignKeyNamed(f: ForeignKey): string { f.name }

  /*** Mutators ***/

  /**
   * addColumn: a name already present is rejected; otherwise the column is
   * attached and appended, unless setTable rejects a second serial column.
   * In this version a rejected column leaves the table unchanged.
   */
  function AddColumn(t: Table, c: Column): (r: Result<Table>)
    ensures r.Ok? <==> !HasColumn(t, c.name) && !(c.serial && OtherSerial(c.name, t.columns))
    ensures HasColumn(t, c.name) ==> r.Err? && r.error.message == "Duplicate column name '" + c.name + "'"
    ensures r.Ok? ==> r.value == t.(columns := t.columns + [c.(table := Some(t.name))])
  {
    if HasColumn(t, c.name) then Fails(SchemaViolation, "Duplicate column name '" + c.name + "'")
    else
      OtherSerialAppend(c, t.columns);
      var attached :- SetTable(c, t.name, t.columns + [c]);
      Ok(t.(columns := t.columns + [attached]))
  }

  /** setTable iterates the table's columns after the column was stored; its own entry never counts. */
  lemma OtherSerialAppend(c: Column, cols: seq<Column>)
    ensures OtherSerial(c.name, cols + [c]) <==> OtherSerial(c.name, cols)
  {
    if OtherSerial(c.name, cols) {
      var i :| 0 <= i < |cols| && cols[i].name != c.name && cols[i].serial;
      assert (cols + [c])[i] == cols[i];
    }
  }

  /**
   * addColumn as written: the column is stored before setTable's serial
   * check, so when that check throws the column stays in the map
   * (detached). Returned: the table after the call and whether it threw.
   */
  function AddColumnAsWritten(t: Table, c: Column): (r: (Table, Outcome))
    ensures HasColumn(t, c.name) ==> r == (t, Fail(Error(SchemaViolation, "Duplicate column name '" + c.name + "'")))
    ensures !HasColumn(t, c.name) && c.serial && OtherSerial(c.name, t.columns) ==>
      r.0 == t.(columns := t.columns + [c]) && r.1.Fail?
  {
    if HasColumn(t, c.name) then (t, Fail(Error(SchemaViolation, "Duplicate column name '" + c.name + "'")))
    else
      OtherSerialAppend(c, t.columns);
      var stored := t.(columns := t.columns + [c]);
      match SetTable(c, t.name, t.columns + [c])
      case Err(e) => (stored, Fail(e))
      case Ok(attached) => (t.(columns := t.columns + [attached]), Pass)
  }

  /** A second serial column: rejected both ways, but as written it stays in the table. */
  lemma AddColumnDiscrepancy()
    ensures var id := NewColumn("id", INT, VNull, false).(serial := true);
      var other := NewColumn("other_id", INT, VNull, false).(serial := true);
      var t := Table("t", [id.(table := Some("t"))], [], [], None);
      && AddColumnAsWritten(t, other).1.Fail?
      && HasColumn(AddColumnAsWritten(t, other).0, "other_id")
      && AddColumn(t, other).Err?
  {
    var id := NewColumn("id", INT, VNull, false).(serial := true);
    var other := NewColumn("other_id", INT, VNull, false).(serial := true);
    var t := Table("t", [id.(table := Some("t"))], [], [], None);
    assert t.columns[0].name != other.name;
    assert (t.columns + [other])[0] == t.columns[0];
    assert OtherSerial(other.name, t.columns + [other]);
    assert OtherSerial(other.name, t.columns);
    var after := AddColumnAsWritten(t, other).0;
    assert after.columns[1].name == "other_id";
  }

  /** getColumn: the column called `name`, or an error. */
  function GetColumn(t: Table, name: string): (r: Result<Column>)
    ensures r.Ok? <==> HasColumn(t, name)
    ensures r.Ok? ==> r.value.name == name && r.value in t.columns
  {
    match FirstNamed(t.columns, ColumnNamed, name)
    case None => Fails(UnknownName, "Unknown column: " + name)
    case Some(k) => Ok(t.columns[k])
  }

  predicate InSomeIndex(t: Table, name: string) {
    exists i, j :: 0 <= i < |t.indexes| && 0 <= j < |t.indexes[i].columns| && t.indexes[i].columns[j] == name
  }

  predicate InSomeForeignKey(t: Table, name: string) {
    exists i, j :: 0 <= i < |t.foreignKeys| && 0 <= j < |t.foreignKeys[i].columns| && t.foreignKeys[i].columns[j] == name
  }

  function WithoutColumn(cols: seq<Column>, name: string): (r: seq<Column>)
    ensures forall i :: 0 <= i < |r| ==> r[i].name != name && r[i] in cols
    ensures forall c :: c in cols && c.name != name ==> c in r
    decreases |cols|
  {
    if |cols| == 0 then []
    else if cols[0].name == name then WithoutColumn(cols[1..], name)
    else [cols[0]] + WithoutColumn(cols[1..], name)
  }

  /**
   * removeColumn with the reference checks comparing names: a column not in
   * the table, or named by an index or a foreign key, is rejected; otherwise
   * only that name leaves the column list.
   */
  function RemoveColumn(t: Table, c: Column): (r: Result<Table>)
    ensures r.Ok? <==> HasColumn(t, c.name) && !InSomeIndex(t, c.name) && !InSomeForeignKey(t, c.name)
    ensures r.Ok? ==> r.value == t.(columns := WithoutColumn(t.columns, c.name))
    ensures r.Ok? ==> !HasColumn(r.value, c.name)
    ensures r.Ok? ==> forall n :: n != c.name ==> (HasColumn(r.value, n) <==> HasColumn(t, n))
  {
    if !HasColumn(t, c.name) then Fails(UnknownName, "Column is not part of this table")
    else if InSomeIndex(t, c.name) then Fails(SchemaViolation, "Cannot remove column that is in an index")
    else if InSomeForeignKey(t, c.name) then Fails(SchemaViolation, "Cannot remove column that is in a foreign key")
    else
      var r := t.(columns := WithoutColumn(t.columns, c.name));
      assert forall n :: n != c.name && HasColumn(t, n) ==> HasColumn(r, n) by {
        forall n | n != c.name && HasColumn(t, n) ensures HasColumn(r, n) {
          var i :| 0 <= i < |t.columns| && t.columns[i].name == n;
          assert t.columns[i] in r.columns;
          var j :| 0 <= j < |r.columns| && r.columns[j] == t.columns[i];
        }
      }
      assert forall n :: HasColumn(r, n) ==> HasColumn(t, n) by {
        forall n | HasColumn(r, n) ensures HasColumn(t, n) {
          var i :| 0 <= i < |r.columns| && r.columns[i].name == n;
          assert r.columns[i] in t.columns;
          var j :| 0 <= j < |t.columns| && t.columns[j] == r.columns[i];
        }
      }
      Ok(r)
  }

  predicate AnyIndexHasColumns(t: Table) {
    exists i :: 0 <= i < |t.indexes| && |t.indexes[i].columns| > 0
  }

  predicate AnyForeignKeyHasColumns(t: Table) {
    exists i :: 0 <= i < |t.foreignKeys| && |t.foreignKeys[i].columns| > 0
  }

  /**
   * removeColumn as written: `$c->getName()` is called on each index and
   * foreign-key column entry, which are strings, so the first entry met is
   * a fatal error; and when no entry is met the column is removed and then
   * `setTable(null)` violates the `Table` parameter type. The call never
   * succeeds.
   */
  function RemoveColumnAsWritten(t: Table, c: Column): (r: (Table, Outcome))
    ensures r.1.Fail?
    ensures !HasColumn(t, c.name) ==> r.0 == t && r.1.error.kind == UnknownName
    ensures HasColumn(t, c.name) && (AnyIndexHasColumns(t) || AnyForeignKeyHasColumns(t)) ==>
      r.0 == t && r.1.error.kind == Fatal
  {
    if !HasColumn(t, c.name) then (t, Fail(Error(UnknownName, "Column is not part of this table")))
    else if AnyIndexHasColumns(t) || AnyForeignKeyHasColumns(t) then
      (t, Fail(Error(Fatal, "Call to a member function getName() on string")))
    else
      (t.(columns := WithoutColumn(t.columns, c.name)), Fail(Error(Fatal, "setTable(): Argument must be of type Table, null given")))
  }

  /** An unreferenced column: removal fails as written and succeeds once corrected. */
  lemma RemoveColumnDiscrepancy()
    ensures var id := NewColumn("id", INT, VNull, false).(table := Some("t"));
      var note := NewColumn("note", TEXT, VNull, true).(table := Some("t"));
      var t := Table("t", [id, note], [Index(PRIMARY, "pk", ["id"])], [], Some(Index(PRIMARY, "pk", ["id"])));
      RemoveColumnAsWritten(t, note).1.Fail? && RemoveColumn(t, note).Ok?
  {
    var id := NewColumn("id", INT, VNull, false).(table := Some("t"));
    var note := NewColumn("note", TEXT, VNull, true).(table := Some("t"));
    var t := Table("t", [id, note], [Index(PRIMARY, "pk", ["id"])], [], Some(Index(PRIMARY, "pk", ["id"])));
    assert t.columns[1].name == "note";
    assert !InSomeIndex(t, "note") by {
      assert t.indexes[0].columns == ["id"];
    }
  }

  /** addForeignKey: appended, unchecked. */
  function AddForeignKey(t: Table, fk: ForeignKey): (r: Table)
    ensures r.foreignKeys == t.foreignKeys + [fk]
    ensures r.(foreignKeys := t.foreignKeys) == t
  {
    t.(foreignKeys := t.foreignKeys + [fk])
  }

  /** getForeignKey: the first key of that name, or an error. */
  function GetForeignKey(t: Table, name: string): (r: Result<ForeignKey>)
    ensures r.Ok? <==> exists i :: 0 <= i < |t.foreignKeys| && t.foreignKeys[i].name == name
    ensures r.Ok? ==> r.value.name == name && r.value in t.foreignKeys
    ensures r.Ok? ==> exists k :: (0 <= k < |t.foreignKeys| && t.foreignKeys[k] == r.value &&
      forall j :: 0 <= j < k ==> t.foreignKeys[j].name != name)
  {
    match FirstNamed(t.foreignKeys, ForeignKeyNamed, name)
    case None => Fails(UnknownName, "Unknown foreign key: " + name)
    case Some(k) => Ok(t.foreignKeys[k])
  }

  /** removeForeignKey: the first key with the same name goes; no match changes nothing. */
  function RemoveForeignKey(t: Table, fk: ForeignKey): (r: Table)
    ensures (forall i :: 0 <= i < |t.foreignKeys| ==> t.foreignKeys[i].name != fk.name) ==> r == t
    ensures r.(foreignKeys := t.foreignKeys) == t
    ensures forall k ::
      (0 <= k < |t.foreignKeys| && t.foreignKeys[k].name == fk.name
       && (forall i :: 0 <= i < k ==> t.foreignKeys[i].name != fk.name)) ==>
      r.foreignKeys == t.foreignKeys[..k] + t.foreignKeys[k + 1..]
  {
    RemoveFirstAt(t.foreignKeys, ForeignKeyNamed, fk.name);
    t.(foreignKeys := RemoveFirstNamed(t.foreignKeys, ForeignKeyNamed, fk.name))
  }

  /** Whatever position holds the first element called `name` is the one removed. */
  lemma RemoveFirstAt<T>(xs: seq<T>, nameOf: T -> string, name: string)
    ensures forall k ::
      (0 <= k < |xs| && nameOf(xs[k]) == name && (forall i :: 0 <= i < k ==> nameOf(xs[i]) != name)) ==>
      RemoveFirstNamed(xs, nameOf, name) == xs[..k] + xs[k + 1..]
  {
    var f := FirstNamed(xs, nameOf, name);
    forall k | 0 <= k < |xs| && nameOf(xs[k]) == name && (forall i :: 0 <= i < k ==> nameOf(xs[i]) != name)
      ensures RemoveFirstNamed(xs, nameOf, name) == xs[..k] + xs[k + 1..]
    {
      assert f.Some?;
      assert f.value == k;
    }
  }

  /** addIndex: a second PRIMARY index is rejected; every accepted index is appended. */
  function AddIndex(t: Table, idx: Index): (r: Result<Table>)
    ensures r.Err? <==> idx.kind == PRIMARY && t.primary.Some?
    ensures r.Ok? ==> r.value.indexes == t.indexes + [idx]
    ensures r.Ok? ==> r.value.primary == (if idx.kind == PRIMARY then Some(idx) else t.primary)
    ensures r.Ok? ==> r.value.(indexes := t.indexes, primary := t.primary) == t
  {
    if idx.kind == PRIMARY && t.primary.Some? then
      Fails(SchemaViolation, "A table can have only one primary key")
    else
      var primary := if idx.kind == PRIMARY then Some(idx) else t.primary;
      Ok(t.(indexes := t.indexes + [idx], primary := primary))
  }

  /** getIndex: the first index of that name, or an error. */
  function GetIndex(t: Table, name: string): (r: Result<Index>)
    ensures r.Ok? <==> exists i :: 0 <= i < |t.indexes| && t.indexes[i].name == name
    ensures r.Ok? ==> r.value.name == name && r.value in t.indexes
    ensures r.Ok? ==> exists k :: (0 <= k < |t.indexes| && t.indexes[k] == r.value &&
      forall j :: 0 <= j < k ==> t.indexes[j].name != name)
  {
    match FirstNamed(t.indexes, IndexNamed, name)
    case None => Fails(UnknownName, "Unknown index: " + name)
    case Some(k) => Ok(t.indexes[k])
  }

  /**
   * removeIndex: a PRIMARY index other than the recorded one is rejected;
   * otherwise a PRIMARY index clears the recorded slot, and the first index
   * with the same name is deleted.
   */
  function RemoveIndex(t: Table, idx: Index): (r: Result<Table>)
    ensures r.Err? <==> idx.kind == PRIMARY && t.primary != Some(idx)
    ensures r.Ok? ==> r.value.primary == (if idx.kind == PRIMARY then None else t.primary)
    ensures r.Ok? ==> r.value.indexes == RemoveFirstNamed(t.indexes, IndexNamed, idx.name)
    ensures r.Ok? ==> r.value.(indexes := t.indexes, primary := t.primary) == t
  {
    if idx.kind == PRIMARY && t.primary != Some(idx) then
      Fails(SchemaViolation, "Cannot remove primary - it is not")
    else
      var primary := if idx.kind == PRIMARY then None else t.primary;
      Ok(t.(primary := primary, indexes := RemoveFirstNamed(t.indexes, IndexNamed, idx.name)))
  }

  /** Look up every column a list names, in order, failing on the first unknown one. */
  function LookupColumns(t: Table, names: seq<string>): (r: Result<seq<Column>>)
    ensures r.Ok? <==> forall i :: 0 <= i < |names| ==> HasColumn(t, names[i])
    ensures r.Ok? ==> |r.value| == |names| && forall i :: 0 <= i < |names| ==> r.value[i].name == names[i]
    decreases |names|
  {
    if |names| == 0 then Ok([])
    else
      match GetColumn(t, names[0])
      case Err(e) => Err(e)
      case Ok(c) =>
        match LookupColumns(t, names[1..])
        case Err(e) =>
          assert !HasColumn(t, names[1..][0]) || exists i :: 0 <= i < |names[1..]| && !HasColumn(t, names[1..][i]);
          Err(e)
        case Ok(cs) => Ok([c] + cs)
  }

  /** getPrimaryColumns: none without a recorded PRIMARY index, else its columns in order. */
  function GetPrimaryColumns(t: Table): (r: Result<Option<seq<Column>>>)
    ensures t.primary.None? ==> r == Ok(None)
    ensures t.primary.Some? ==>
      (r.Ok? <==> forall i :: 0 <= i < |t.primary.value.columns| ==> HasColumn(t, t.primary.value.columns[i]))
    ensures r.Ok? && t.primary.Some? ==> r.value.Some? && ColumnNames(r.value.value) == t.primary.value.columns
  {
    match t.primary
    case None => Ok(None)
    case Some(p) =>
      var cols :- LookupColumns(t, p.columns);
      Ok(Some(cols))
  }

  /*** validate ***/

  /** A serial name PHP treats as false ("" or "0") switches the serial checks off. */
  predicate SerialActive(name: string) {
    name != "" && name != "0"
  }

  /**
   * The PRIMARY index check of validate: the index lists exactly the serial
   * column. PHP compares the entry with `!==` against the serial name as its
   * array key, which is an integer for integer text, so such a name never
   * matches.
   */
  predicate PrimaryIsSerial(entries: seq<string>, serial: string) {
    entries == [serial] && !IsIntKeyText(serial)
  }

  predicate AtMostOneSerial(cols: seq<Column>) {
    forall i, j :: 0 <= i < |cols| && 0 <= j < |cols| && cols[i].serial && cols[j].serial ==> i == j
  }

  /** The name of the first serial column. */
  function SerialName(cols: seq<Column>): (r: Option<string>)
    ensures r.None? <==> forall i :: 0 <= i < |cols| ==> !cols[i].serial
    ensures r.Some? ==> exists i :: 0 <= i < |cols| && cols[i].serial && cols[i].name == r.value
    decreases |cols|
  {
    if |cols| == 0 then None
    else if cols[0].serial then Some(cols[0].name)
    else
      var r := SerialName(cols[1..]);
      assert r.Some? ==> exists i :: 0 <= i < |cols[1..]| && cols[1..][i].serial && cols[1..][i].name == r.value;
      r
  }

  /**
   * The column an index entry names: entries with '(' are expressions and
   * skipped; otherwise anything after the first space is a modifier.
   */
  function IndexColumnTarget(entry: string): Option<string> {
    if '(' in entry then None
    else
      match IndexOf(entry, ' ')
      case None => Some(entry)
      case Some(p) => Some(entry[..p])
  }

  predicate EntryKnown(t: Table, entry: string) {
    IndexColumnTarget(entry).None? || HasColumn(t, IndexColumnTarget(entry).value)
  }

  /** What validate demands, stated declaratively. */
  predicate Valid(t: Table) {
    && AtMostOneSerial(t.columns)
    && (SerialName(t.columns).Some? && SerialActive(SerialName(t.columns).value) ==>
         && (forall i :: 0 <= i < |t.indexes| && t.indexes[i].kind == PRIMARY ==>
               PrimaryIsSerial(t.indexes[i].columns, SerialName(t.columns).value))
         && (exists i :: 0 <= i < |t.indexes| && t.indexes[i].kind == PRIMARY))
    && (forall i, j :: 0 <= i < |t.indexes| && 0 <= j < |t.indexes[i].columns| ==> EntryKnown(t, t.indexes[i].columns[j]))
    && (forall i, j :: 0 <= i < |t.foreignKeys| && 0 <= j < |t.foreignKeys[i].columns| ==>
          HasColumn(t, t.foreignKeys[i].columns[j]))
  }

  /** The column scan: a second serial column is an error, otherwise the serial name if any. */
  function ScanSerial(cols: seq<Column>, found: Option<string>): Result<Option<string>>
    decreases |cols|
  {
    if |cols| == 0 then Ok(found)
    else if cols[0].serial then
      if found.Some? then Fails(SchemaViolation, "Duplicate serial column")
      else ScanSerial(cols[1..], Some(cols[0].name))
    else ScanSerial(cols[1..], found)
  }

  function CheckEntries(t: Table, idx: Index, entries: seq<string>): Outcome
    decreases |entries|
  {
    if |entries| == 0 then Pass
    else if EntryKnown(t, entries[0]) then CheckEntries(t, idx, entries[1..])
    else Fail(Error(SchemaViolation, "Index " + idx.name + " used unknown column " + IndexColumnTarget(entries[0]).value))
  }

  /** The index loop: the PRIMARY/serial check, then the column check, index by index. */
  function CheckIndexes(t: Table, idxs: seq<Index>, serial: Option<string>, pkey: bool): Result<bool>
    decreases |idxs|
  {
    if |idxs| == 0 then Ok(pkey)
    else
      var idx := idxs[0];
      var isSerialPrimary := idx.kind == PRIMARY && serial.Some? && SerialActive(serial.value);
      if isSerialPrimary && !PrimaryIsSerial(idx.columns, serial.value) then
        Fails(SchemaViolation, "The serial column must be the primary key")
      else
        match CheckEntries(t, idx, idx.columns)
        case Fail(e) => Err(e)
        case Pass => CheckIndexes(t, idxs[1..], serial, pkey || isSerialPrimary)
  }

  function CheckForeignKeys(t: Table, fks: seq<ForeignKey>): Outcome
    decreases |fks|
  {
    if |fks| == 0 then Pass
    else if forall j :: 0 <= j < |fks[0].columns| ==> HasColumn(t, fks[0].columns[j]) then CheckForeignKeys(t, fks[1..])
    else Fail(Error(SchemaViolation, "The foreign key " + fks[0].name + " used unknown column"))
  }

  /** validate, in the order Table::validate checks. */
  function Validate(t: Table): Outcome {
    match ScanSerial(t.columns, None)
    case Err(e) => Fail(e)
    case Ok(serial) =>
      match CheckIndexes(t, t.indexes, serial, false)
      case Err(e) => Fail(e)
      case Ok(pkey) =>
        if serial.Some? && SerialActive(serial.value) && !pkey then
          Fail(Error(SchemaViolation, "The serial column must be the primary key"))
        else CheckForeignKeys(t, t.foreignKeys)
  }

  lemma {:induction false} ScanSerialSpec(cols: seq<Column>)
    ensures ScanSerial(cols, None).Ok? <==> AtMostOneSerial(cols)
    ensures ScanSerial(cols, None).Ok? ==> ScanSerial(cols, None).value == SerialName(cols)
    decreases |cols|
  {
    if |cols| > 0 {
      ScanSerialSpec(cols[1..]);
      if cols[0].serial {
        ScanSerialAfterFound(cols[1..], cols[0].name);
        if AtMostOneSerial(cols) {
          assert forall i :: 0 <= i < |cols[1..]| ==> !cols[1..][i].serial by {
            forall i | 0 <= i < |cols[1..]| ensures !cols[1..][i].serial {
              assert cols[1..][i] == cols[i + 1];
            }
          }
        } else {
          var i, j :| 0 <= i < |cols| && 0 <= j < |cols| && cols[i].serial && cols[j].serial && i != j;
          var k := if i == 0 then j else i;
          assert cols[1..][k - 1].serial;
        }
      } else {
        AtMostOneSerialTail(cols);
      }
    }
  }

  lemma AtMostOneSerialTail(cols: seq<Column>)
    requires |cols| > 0 && !cols[0].serial
    ensures AtMostOneSerial(cols) <==> AtMostOneSerial(cols[1..])
  {
    if AtMostOneSerial(cols[1..]) {
      forall i, j | 0 <= i < |cols| && 0 <= j < |cols| && cols[i].serial && cols[j].serial ensures i == j {
        assert cols[1..][i - 1] == cols[i] && cols[1..][j - 1] == cols[j];
      }
    }
    if AtMostOneSerial(cols) {
      forall i, j | 0 <= i < |cols[1..]| && 0 <= j < |cols[1..]| && cols[1..][i].serial && cols[1..][j].serial
        ensures i == j
      {
        assert cols[1..][i] == cols[i + 1] && cols[1..][j] == cols[j + 1];
      }
    }
  }

  lemma {:induction false} ScanSerialAfterFound(cols: seq<Column>, name: string)
    ensures ScanSerial(cols, Some(name)).Ok? <==> forall i :: 0 <= i < |cols| ==> !cols[i].serial
    ensures ScanSerial(cols, Some(name)).Ok? ==> ScanSerial(cols, Some(name)).value == Some(name)
    decreases |cols|
  {
    if |cols| > 0 && !cols[0].serial {
      ScanSerialAfterFound(cols[1..], name);
      assert forall i :: 1 <= i < |cols| ==> cols[i] == cols[1..][i - 1];
    }
  }

  lemma {:induction false} CheckEntriesSpec(t: Table, idx: Index, entries: seq<string>)
    ensures CheckEntries(t, idx, entries).Pass? <==> forall j :: 0 <= j < |entries| ==> EntryKnown(t, entries[j])
    decreases |entries|
  {
    if |entries| > 0 {
      CheckEntriesSpec(t, idx, entries[1..]);
      assert forall j :: 1 <= j < |entries| ==> entries[j] == entries[1..][j - 1];
    }
  }

  predicate IndexesOk(t: Table, idxs: seq<Index>, serial: Option<string>) {
    && (serial.Some? && SerialActive(serial.value) ==>
          forall i :: 0 <= i < |idxs| && idxs[i].kind == PRIMARY ==> PrimaryIsSerial(idxs[i].columns, serial.value))
    && (forall i, j :: 0 <= i < |idxs| && 0 <= j < |idxs[i].columns| ==> EntryKnown(t, idxs[i].columns[j]))
  }

  predicate HasPrimary(idxs: seq<Index>) {
    exists i :: 0 <= i < |idxs| && idxs[i].kind == PRIMARY
  }

  lemma {:induction false} CheckIndexesSpec(t: Table, idxs: seq<Index>, serial: Option<string>, pkey: bool)
    ensures CheckIndexes(t, idxs, serial, pkey).Ok? <==> IndexesOk(t, idxs, serial)
    ensures CheckIndexes(t, idxs, serial, pkey).Ok? ==>
      CheckIndexes(t, idxs, serial, pkey).value == (pkey || (serial.Some? && SerialActive(serial.value) && HasPrimary(idxs)))
    decreases |idxs|
  {
    if |idxs| > 0 {
      var idx := idxs[0];
      CheckEntriesSpec(t, idx, idx.columns);
      var isSerialPrimary := idx.kind == PRIMARY && serial.Some? && SerialActive(serial.value);
      CheckIndexesSpec(t, idxs[1..], serial, pkey || isSerialPrimary);
      HasPrimaryCons(idxs);
      IndexesOkCons(t, idxs, serial);
    }
  }

  lemma HasPrimaryCons(idxs: seq<Index>)
    requires |idxs| > 0
    ensures HasPrimary(idxs) <==> idxs[0].kind == PRIMARY || HasPrimary(idxs[1..])
  {
    if HasPrimary(idxs[1..]) {
      var i :| 0 <= i < |idxs[1..]| && idxs[1..][i].kind == PRIMARY;
      assert idxs[i + 1].kind == PRIMARY;
    }
    if HasPrimary(idxs) && idxs[0].kind != PRIMARY {
      var i :| 0 <= i < |idxs| && idxs[i].kind == PRIMARY;
      assert idxs[1..][i - 1].kind == PRIMARY;
    }
  }

  lemma IndexesOkCons(t: Table, idxs: seq<Index>, serial: Option<string>)
    requires |idxs| > 0
    ensures IndexesOk(t, idxs, serial) <==>
      && !(idxs[0].kind == PRIMARY && serial.Some? && SerialActive(serial.value) && !PrimaryIsSerial(idxs[0].columns, serial.value))
      && (forall j :: 0 <= j < |idxs[0].columns| ==> EntryKnown(t, idxs[0].columns[j]))
      && IndexesOk(t, idxs[1..], serial)
  {
    assert forall i :: 1 <= i < |idxs| ==> idxs[i] == idxs[1..][i - 1];
    var idx := idxs[0];
    if IndexesOk(t, idxs[1..], serial) && !(idx.kind == PRIMARY && serial.Some? && SerialActive(serial.value) && !PrimaryIsSerial(idx.columns, serial.value))
       && (forall j :: 0 <= j < |idx.columns| ==> EntryKnown(t, idx.columns[j])) {
      forall i, j | 0 <= i < |idxs| && 0 <= j < |idxs[i].columns| ensures EntryKnown(t, idxs[i].columns[j]) {
        if i > 0 {
          assert idxs[1..][i - 1].columns[j] == idxs[i].columns[j];
        }
      }
    }
  }

  lemma {:induction false} CheckForeignKeysSpec(t: Table, fks: seq<ForeignKey>)
    ensures CheckForeignKeys(t, fks).Pass? <==>
      forall i, j :: 0 <= i < |fks| && 0 <= j < |fks[i].columns| ==> HasColumn(t, fks[i].columns[j])
    decreases |fks|
  {
    if |fks| > 0 {
      CheckForeignKeysSpec(t, fks[1..]);
      assert forall i :: 1 <= i < |fks| ==> fks[i] == fks[1..][i - 1];
    }
  }

  /**
   * validate passes exactly on valid tables: at most one serial column; an
   * active serial column is the sole column of every PRIMARY index and some
   * PRIMARY index exists; every index entry that names a column names an
   * existing one; every foreign-key column exists.
   */
  lemma ValidateSpec(t: Table)
    ensures Validate(t).Pass? <==> Valid(t)
  {
    ScanSerialSpec(t.columns);
    if AtMostOneSerial(t.columns) {
      var serial := SerialName(t.columns);
      CheckIndexesSpec(t, t.indexes, serial, false);
      CheckForeignKeysSpec(t, t.foreignKeys);
    }
  }

  /** Two serial columns never validate. */
  lemma ValidateRejectsTwoSerials(t: Table, i: nat, j: nat)
    requires i < j < |t.columns| && t.columns[i].serial && t.columns[j].serial
    ensures Validate(t).Fail?
  {
    ValidateSpec(t);
  }

  /** An active serial column with no PRIMARY index never validates. */
  lemma ValidateRejectsSerialWithoutPrimary(t: Table)
    requires SerialName(t.columns).Some? && SerialActive(SerialName(t.columns).value)
    requires forall i :: 0 <= i < |t.indexes| ==> t.indexes[i].kind != PRIMARY
    ensures Validate(t).Fail?
  {
    ValidateSpec(t);
  }

  /**
   * An active serial column whose name is integer text never validates:
   * PHP holds its name as an integer key, which no index entry is identical to.
   */
  lemma ValidateRejectsIntegerSerial(t: Table)
    requires SerialName(t.columns).Some? && SerialActive(SerialName(t.columns).value)
    requires IsIntKeyText(SerialName(t.columns).value)
    ensures Validate(t).Fail?
  {
    ValidateSpec(t);
  }

  /*** The structured (array) form ***/

  datatype TableArray = TableArray(
    name: string,
    columns: seq<(string, ColumnArray)>,
    indexes: Option<seq<Index>>,
    foreignKeys: Option<seq<ForeignKey>>)

  function ColumnArrays(cols: seq<Column>): (r: seq<(string, ColumnArray)>)
    ensures |r| == |cols|
    ensures forall i :: 0 <= i < |cols| ==> r[i] == (cols[i].name, ColumnModel.ToArray(cols[i]))
  {
    seq(|cols|, i requires 0 <= i < |cols| => (cols[i].name, ColumnModel.ToArray(cols[i])))
  }

  /** toArray: columns keyed by name in order; index and key lists only when non-empty. */
  function ToArray(t: Table): (r: TableArray)
    ensures r.name == t.name && r.columns == ColumnArrays(t.columns)
    ensures r.indexes.Some? <==> |t.indexes| > 0
    ensures r.foreignKeys.Some? <==> |t.foreignKeys| > 0
    ensures r.indexes.Some? ==> r.indexes.value == t.indexes
    ensures r.foreignKeys.Some? ==> r.foreignKeys.value == t.foreignKeys
  {
    TableArray(
      t.name,
      ColumnArrays(t.columns),
      if |t.indexes| > 0 then Some(t.indexes) else None,
      if |t.foreignKeys| > 0 then Some(t.foreignKeys) else None)
  }

  /** Column::factory's intended effect: a column built from the parsed array under the given name. */
  function ColumnFromArray(name: string, data: ColumnArray): Result<Column> {
    var parsed :- ParseArray(data.(columnName := Some(VStr(name))));
    Ok(ColumnFromParsed(name, parsed))
  }

  function AddColumns(t: Table, cols: seq<(string, ColumnArray)>): Result<Table>
    decreases |cols|
  {
    if |cols| == 0 then Ok(t)
    else
      var c :- ColumnFromArray(cols[0].0, cols[0].1);
      var t' :- AddColumn(t, c);
      AddColumns(t', cols[1..])
  }

  function AddIndexes(t: Table, idxs: seq<Index>): Result<Table>
    decreases |idxs|
  {
    if |idxs| == 0 then Ok(t)
    else
      var t' :- AddIndex(t, idxs[0]);
      AddIndexes(t', idxs[1..])
  }

  /** Adding indexes appends them and changes nothing but the indexes and the primary key. */
  lemma {:induction false} AddIndexesFrame(t: Table, idxs: seq<Index>)
    requires AddIndexes(t, idxs).Ok?
    ensures AddIndexes(t, idxs).value.(indexes := t.indexes, primary := t.primary) == t
    ensures AddIndexes(t, idxs).value.indexes == t.indexes + idxs
    decreases |idxs|
  {
    if |idxs| > 0 {
      var t1 := AddIndex(t, idxs[0]).value;
      AddIndexesFrame(t1, idxs[1..]);
      assert t.indexes + idxs == (t.indexes + [idxs[0]]) + idxs[1..];
    }
  }

  function AddForeignKeys(t: Table, fks: seq<ForeignKey>): (r: Table)
    ensures r == t.(foreignKeys := t.foreignKeys + fks)
    decreases |fks|
  {
    if |fks| == 0 then t
    else
      assert t.foreignKeys + fks == (t.foreignKeys + [fks[0]]) + fks[1..];
      AddForeignKeys(AddForeignKey(t, fks[0]), fks[1..])
  }

  /** initFromArray: columns, then indexes, then foreign keys, then validate. */
  function InitFromArray(a: TableArray): Result<Table> {
    var withColumns :- AddColumns(EmptyTable(a.name), a.columns);
    var withIndexes :- AddIndexes(withColumns, a.indexes.GetOr([]));
    var full := AddForeignKeys(withIndexes, a.foreignKeys.GetOr([]));
    match Validate(full)
    case Fail(e) => Err(e)
    case Pass => Ok(full)
  }

  /** Whatever initFromArray returns has passed validate. */
  lemma InitFromArrayValidates(a: TableArray)
    requires InitFromArray(a).Ok?
    ensures Validate(InitFromArray(a).value).Pass?
    ensures Valid(InitFromArray(a).value)
  {
    ValidateSpec(InitFromArray(a).value);
  }

  /** At most one PRIMARY index, and the recorded one is it. */
  predicate PrimaryRecorded(t: Table) {
    && (forall i, j ::
          (0 <= i < |t.indexes| && 0 <= j < |t.indexes| && t.indexes[i].kind == PRIMARY && t.indexes[j].kind == PRIMARY)
          ==> i == j)
    && (t.primary.None? <==> !HasPrimary(t.indexes))
    && (t.primary.Some? ==> t.primary.value in t.indexes && t.primary.value.kind == PRIMARY)
  }

  /** The shape every table built through the mutators has, plus array-safe columns. */
  predicate RoundTrippable(t: Table) {
    && UniqueNames(t.columns)
    && (forall i :: 0 <= i < |t.columns| ==> t.columns[i].table == Some(t.name) && ArrayFaithful(t.columns[i]))
    && PrimaryRecorded(t)
  }

  lemma {:induction false} AddColumnsReplays(t: Table, base: Table, n: nat)
    requires n <= |t.columns|
    requires RoundTrippable(t) && AtMostOneSerial(t.columns)
    requires base == Table(t.name, t.columns[..n], [], [], None)
    ensures AddColumns(base, ColumnArrays(t.columns)[n..]) == Ok(Table(t.name, t.columns, [], [], None))
    decreases |t.columns| - n
  {
    var arrays := ColumnArrays(t.columns);
    if n == |t.columns| {
      assert t.columns[..n] == t.columns;
    } else {
      assert arrays[n..][0] == (t.columns[n].name, ColumnModel.ToArray(t.columns[n]));
      var next := AddColumnReplays(t, base, n);
      assert arrays[n..][1..] == arrays[n + 1..];
      AddColumnsReplays(t, next, n + 1);
    }
  }

  /** One step of the replay: the n-th exported column is added back as it was. */
  lemma AddColumnReplays(t: Table, base: Table, n: nat) returns (next: Table)
    requires n < |t.columns|
    requires RoundTrippable(t) && AtMostOneSerial(t.columns)
    requires base == Table(t.name, t.columns[..n], [], [], None)
    ensures next == Table(t.name, t.columns[..n + 1], [], [], None)
    ensures var c := t.columns[n];
      ColumnFromArray(c.name, ColumnModel.ToArray(c)).Ok? && AddColumn(base, ColumnFromArray(c.name, ColumnModel.ToArray(c)).value) == Ok(next)
  {
    var c := t.columns[n];
    assert c.table == Some(t.name) && ArrayFaithful(c);
    var rebuilt := ColumnRebuilt(c);
    PrefixAdmits(t, n);
    assert rebuilt.(table := Some(t.name)) == c;
    next := base.(columns := base.columns + [c]);
    AddRebuilt(base, rebuilt, c);
    assert t.columns[..n + 1] == t.columns[..n] + [c];
  }

  /** A column the table admits is appended carrying the table's name. */
  lemma AddRebuilt(base: Table, rebuilt: Column, c: Column)
    requires !HasColumn(base, rebuilt.name) && !(rebuilt.serial && OtherSerial(rebuilt.name, base.columns))
    requires c == rebuilt.(table := Some(base.name))
    ensures AddColumn(base, rebuilt) == Ok(base.(columns := base.columns + [c]))
  {
  }

  /** An array-safe column's exported entry reads back as the column without its table. */
  lemma ColumnRebuilt(c: Column) returns (rebuilt: Column)
    requires ArrayFaithful(c)
    ensures rebuilt == c.(table := None)
    ensures ColumnFromArray(c.name, ColumnModel.ToArray(c)) == Ok(rebuilt)
  {
    ColumnRoundTrip(c);
    assert ColumnModel.ToArray(c).(columnName := Some(VStr(c.name))) == ColumnModel.ToArray(c);
    rebuilt := c.(table := None);
  }

  /** The columns before the n-th neither share its name nor, when it is serial, hold another serial column. */
  lemma PrefixAdmits(t: Table, n: nat)
    requires n < |t.columns|
    requires UniqueNames(t.columns) && AtMostOneSerial(t.columns)
    ensures !HasColumn(Table(t.name, t.columns[..n], [], [], None), t.columns[n].name)
    ensures !(t.columns[n].serial && OtherSerial(t.columns[n].name, t.columns[..n]))
  {
    var base := Table(t.name, t.columns[..n], [], [], None);
    var c := t.columns[n];
    forall i | 0 <= i < |base.columns| ensures base.columns[i].name != c.name {
      assert base.columns[i] == t.columns[i];
    }
  }

  lemma {:induction false} AddIndexesReplays(t: Table, base: Table, n: nat)
    requires n <= |t.indexes|
    requires PrimaryRecorded(t)
    requires base.indexes == t.indexes[..n]
    requires base.primary == (if HasPrimary(t.indexes[..n]) then t.primary else None)
    ensures AddIndexes(base, t.indexes[n..]) == Ok(base.(indexes := t.indexes, primary := t.primary))
    decreases |t.indexes| - n
  {
    if n == |t.indexes| {
      assert t.indexes[..n] == t.indexes;
      assert HasPrimary(t.indexes) <==> t.primary.Some?;
    } else {
      var idx := t.indexes[n];
      assert t.indexes[n..][0] == idx;
      assert t.indexes[..n + 1] == t.indexes[..n] + [idx];
      if idx.kind == PRIMARY {
        assert !HasPrimary(t.indexes[..n]);
        assert t.primary.Some?;
        var p := t.primary.value;
        var k :| 0 <= k < |t.indexes| && t.indexes[k] == p;
        assert k == n;
        assert HasPrimary(t.indexes[..n + 1]) by {
          assert t.indexes[..n + 1][n].kind == PRIMARY;
        }
      } else {
        assert HasPrimary(t.indexes[..n + 1]) <==> HasPrimary(t.indexes[..n]) by {
          if HasPrimary(t.indexes[..n + 1]) {
            var i :| 0 <= i < n + 1 && t.indexes[..n + 1][i].kind == PRIMARY;
            assert i < n && t.indexes[..n][i].kind == PRIMARY;
          }
          if HasPrimary(t.indexes[..n]) {
            var i :| 0 <= i < n && t.indexes[..n][i].kind == PRIMARY;
            assert t.indexes[..n + 1][i].kind == PRIMARY;
          }
        }
      }
      var next := AddIndex(base, idx).value;
      assert t.indexes[n..][1..] == t.indexes[n + 1..];
      AddIndexesReplays(t, next, n + 1);
    }
  }

  /**
   * Exporting a valid table built through the mutators and importing it
   * again gives the same table.
   */
  lemma ArrayRoundTrip(t: Table)
    requires RoundTrippable(t) && Valid(t)
    ensures InitFromArray(ToArray(t)) == Ok(t)
  {
    var a := ToArray(t);
    var withColumns := Table(t.name, t.columns, [], [], None);
    var withIndexes := withColumns.(indexes := t.indexes, primary := t.primary);
    ValidateSpec(t);
    ColumnsReplayed(t);
    IndexesReplayed(t);
    ForeignKeysReplayed(t);
    InitFromArrayStages(a, withColumns, withIndexes);
  }

  /** The exported foreign keys, added last, complete the table; the export hands back the parts it holds. */
  lemma ForeignKeysReplayed(t: Table)
    ensures ToArray(t).indexes.GetOr([]) == t.indexes && ToArray(t).foreignKeys.GetOr([]) == t.foreignKeys
    ensures AddForeignKeys(Table(t.name, t.columns, t.indexes, [], t.primary), t.foreignKeys) == t
  {
  }

  /** The exported columns, added to an empty table of the same name, give back the columns. */
  lemma ColumnsReplayed(t: Table)
    requires RoundTrippable(t) && AtMostOneSerial(t.columns)
    ensures AddColumns(EmptyTable(t.name), ColumnArrays(t.columns)) == Ok(Table(t.name, t.columns, [], [], None))
  {
    assert t.columns[..0] == [];
    assert ColumnArrays(t.columns)[0..] == ColumnArrays(t.columns);
    AddColumnsReplays(t, EmptyTable(t.name), 0);
  }

  /** The exported indexes, added after the columns, give back the indexes and the recorded primary key. */
  lemma IndexesReplayed(t: Table)
    requires PrimaryRecorded(t)
    ensures AddIndexes(Table(t.name, t.columns, [], [], None), t.indexes) ==
      Ok(Table(t.name, t.columns, t.indexes, [], t.primary))
  {
    assert t.indexes[..0] == [] && t.indexes[0..] == t.indexes;
    assert !HasPrimary(t.indexes[..0]);
    AddIndexesReplays(t, Table(t.name, t.columns, [], [], None), 0);
  }

  /** initFromArray as its three stages followed by a passing validate. */
  lemma InitFromArrayStages(a: TableArray, withColumns: Table, withIndexes: Table)
    requires AddColumns(EmptyTable(a.name), a.columns) == Ok(withColumns)
    requires AddIndexes(withColumns, a.indexes.GetOr([])) == Ok(withIndexes)
    requires Validate(AddForeignKeys(withIndexes, a.foreignKeys.GetOr([]))).Pass?
    ensures InitFromArray(a) == Ok(AddForeignKeys(withIndexes, a.foreignKeys.GetOr([])))
  {
  }

  /*** The constructor ***/

  /** The arguments after the name: the type switch of Table::__construct, closed. */
  datatype TablePart = PartColumn(column: Column) | PartIndex(index: Index) | PartForeignKey(fk: ForeignKey)

  /** new Table(name, parts...): each part is added in order through its mutator. */
  function NewTable(name: string, parts: seq<TablePart>): (r: Result<Table>)
    ensures r.Ok? ==> r.value.name == name
    ensures |parts| == 0 ==> r == Ok(EmptyTable(name))
    ensures r.Ok? ==> r.value.columns == ColumnParts(name, parts)
    ensures r.Ok? ==> r.value.indexes == IndexParts(parts)
    ensures r.Ok? ==> r.value.foreignKeys == KeyParts(parts)
  {
    AddPartsContents(EmptyTable(name), parts);
    AddParts(EmptyTable(name), parts)
  }

  /** The column parts in order, each attached to table `name`. */
  function ColumnParts(name: string, parts: seq<TablePart>): seq<Column>
    decreases |parts|
  {
    if |parts| == 0 then []
    else ColumnsOfPart(name, parts[0]) + ColumnParts(name, parts[1..])
  }

  function ColumnsOfPart(name: string, p: TablePart): seq<Column> {
    if p.PartColumn? then [p.column.(table := Some(name))] else []
  }

  function IndexesOfPart(p: TablePart): seq<Index> {
    if p.PartIndex? then [p.index] else []
  }

  function KeysOfPart(p: TablePart): seq<ForeignKey> {
    if p.PartForeignKey? then [p.fk] else []
  }

  /** The index parts in order. */
  function IndexParts(parts: seq<TablePart>): seq<Index>
    decreases |parts|
  {
    if |parts| == 0 then []
    else IndexesOfPart(parts[0]) + IndexParts(parts[1..])
  }

  /** The foreign-key parts in order. */
  function KeyParts(parts: seq<TablePart>): seq<ForeignKey>
    decreases |parts|
  {
    if |parts| == 0 then []
    else KeysOfPart(parts[0]) + KeyParts(parts[1..])
  }

  /** Adding parts appends the columns, indexes and keys among them, each in order. */
  lemma {:induction false} AddPartsContents(t: Table, parts: seq<TablePart>)
    ensures AddParts(t, parts).Ok? ==> AddParts(t, parts).value.columns == t.columns + ColumnParts(t.name, parts)
    ensures AddParts(t, parts).Ok? ==> AddParts(t, parts).value.indexes == t.indexes + IndexParts(parts)
    ensures AddParts(t, parts).Ok? ==> AddParts(t, parts).value.foreignKeys == t.foreignKeys + KeyParts(parts)
    decreases |parts|
  {
    if |parts| > 0 && AddPart(t, parts[0]).Ok? {
      var t1 := AddPart(t, parts[0]).value;
      assert AddParts(t, parts) == AddParts(t1, parts[1..]);
      AddPartsContents(t1, parts[1..]);
      PartsStep(t, t1, parts);
    }
  }

  /** One step of the induction: the first part's contribution comes first. */
  lemma PartsStep(t: Table, t1: Table, parts: seq<TablePart>)
    requires |parts| > 0 && AddPart(t, parts[0]) == Ok(t1)
    ensures t1.columns + ColumnParts(t1.name, parts[1..]) == t.columns + ColumnParts(t.name, parts)
    ensures t1.indexes + IndexParts(parts[1..]) == t.indexes + IndexParts(parts)
    ensures t1.foreignKeys + KeyParts(parts[1..]) == t.foreignKeys + KeyParts(parts)
  {
    AppendAssoc(t.columns, ColumnsOfPart(t.name, parts[0]), ColumnParts(t.name, parts[1..]));
    AppendAssoc(t.indexes, IndexesOfPart(parts[0]), IndexParts(parts[1..]));
    AppendAssoc(t.foreignKeys, KeysOfPart(parts[0]), KeyParts(parts[1..]));
  }

  /** Adding one part: a column, an index or a foreign key, each by its own add method. */
  function AddPart(t: Table, p: TablePart): (r: Result<Table>)
    ensures r.Ok? ==> r.value.name == t.name
    ensures r.Ok? ==> r.value.columns == t.columns + ColumnsOfPart(t.name, p)
    ensures r.Ok? ==> r.value.indexes == t.indexes + IndexesOfPart(p)
    ensures r.Ok? ==> r.value.foreignKeys == t.foreignKeys + KeysOfPart(p)
  {
    match p
    case PartColumn(c) => AddColumn(t, c)
    case PartIndex(i) => AddIndex(t, i)
    case PartForeignKey(f) => Ok(AddForeignKey(t, f))
  }

  function AddParts(t: Table, parts: seq<TablePart>): (r: Result<Table>)
    ensures r.Ok? ==> r.value.name == t.name
    decreases |parts|
  {
    if |parts| == 0 then Ok(t)
    else
      var t' :- AddPart(t, parts[0]);
      AddParts(t', parts[1..])
  }
}

=== FILE: table_clause.dfy ===
/** Table references in queries. */
module TableClauses {
  // Table references in queries (src/Query/TableClause.php).
  //
  // A TableClause names a table, optionally with an alias and with prefixing
  // switchable off. The SourceTableClause class is not part of this model:
  // here a source table is a table name with an alias ("" for none); it
  // registers itself with the parameters and renders as the prefixed, quoted
  // name followed by " AS <alias>" when it has an alias.

  import opened Wrappers
  import opened Strings
  import opened Values
  import opened Naming
  import opened Parameters

  datatype TableClause = TableClause(table: string, alias: Option<string>, dontPrefix: bool)

  datatype SourceTable = SourceTable(table: string, alias: string)

  /** A table clause object as the query classes receive it. */
  datatype TableRef = ByClause(tc: TableClause) | BySource(src: SourceTable)

  /** What a query constructor or setter may be handed as its table. */
  datatype TableArg = TableName(name: string) | TableObject(ref: TableRef) | OtherArg(description: string)

  /** new TableClause(...): exactly one argument, the table name. */
  function NewTableClause(args: seq<string>): (r: Result<TableClause>)
    ensures r.Ok? <==> |args| == 1
    ensures r.Ok? ==> r.value == TableClause(args[0], None, false)
    ensures r.Err? ==> r.error.kind == InvalidArgument
  {
    if |args| != 1 then
      Fails(InvalidArgument, "TableClause constructor takes exactly one argument. Use SourceTableClause to provide an alias")
    else Ok(TableClause(args[0], None, false))
  }

  /** PHP `empty` on a string: "" and "0". */
  predicate EmptyText(s: string) {
    s == "" || s == "0"
  }

  /** getPrefix: the alias unless it is empty, else the table name. */
  function GetPrefix(tc: TableClause): (r: string)
    ensures tc.alias.Some? && !EmptyText(tc.alias.value) ==> r == tc.alias.value
    ensures tc.alias.None? || EmptyText(tc.alias.value) ==> r == tc.table
  {
    if tc.alias.Some? && Truthy(VStr(tc.alias.value)) then tc.alias.value else tc.table
  }

  function SetTable(tc: TableClause, table: string): (r: TableClause)
    ensures r.table == table && r.alias == tc.alias && r.dontPrefix == tc.dontPrefix
  {
    tc.(table := table)
  }

  function SetAlias(tc: TableClause, alias: string): (r: TableClause)
    ensures r.alias == Some(alias) && r.table == tc.table && r.dontPrefix == tc.dontPrefix
  {
    tc.(alias := Some(alias))
  }

  function SetDisablePrefixing(tc: TableClause, dontPrefix: bool): (r: TableClause)
    ensures r.dontPrefix == dontPrefix && r.table == tc.table && r.alias == tc.alias
  {
    tc.(dontPrefix := dontPrefix)
  }

  /** The setters touch disjoint fields, so they commute; the prefix follows a non-empty alias. */
  lemma SettersIndependent(tc: TableClause, table: string, alias: string, dontPrefix: bool)
    ensures SetAlias(SetTable(tc, table), alias) == SetTable(SetAlias(tc, alias), table)
    ensures SetDisablePrefixing(SetAlias(tc, alias), dontPrefix) == SetAlias(SetDisablePrefixing(tc, dontPrefix), alias)
    ensures GetPrefix(SetTable(SetAlias(tc, alias), table)) == (if EmptyText(alias) then table else alias)
  {
  }

  /**
   * TableClause::toSQL: the quoted resolved alias when it is non-empty and
   * differs from the resolved name; otherwise the quoted bare name when
   * prefixing is disabled, and the driver's prefixed name when not.
   */
  function RenderTableClause(p: Params, tc: TableClause): (r: string)
  {
    var (tname, talias) := ResolveTable(p, tc.table);
    if Truthy(VStr(talias)) && talias != tname then IdentQuote(p.driver.dialect, talias)
    else if tc.dontPrefix then IdentQuote(p.driver.dialect, tname)
    else GetName(p.driver, tname, true)
  }

  /** The three rendering outcomes, stated against the registration the parameters hold. */
  lemma RenderTableClauseCases(p: Params, tc: TableClause)
    ensures var a := FirstTable(p.tables, tc.table);
      && (a.Some? && !EmptyText(a.value) && a.value != tc.table ==>
            Unquote(p.driver.dialect, RenderTableClause(p, tc)) == Some(a.value))
      && (!(a.Some? && !EmptyText(a.value) && a.value != tc.table) && tc.dontPrefix ==>
            Unquote(p.driver.dialect, RenderTableClause(p, tc)) == Some(tc.table))
      && (!(a.Some? && !EmptyText(a.value) && a.value != tc.table) && !tc.dontPrefix ==>
            Unquote(p.driver.dialect, RenderTableClause(p, tc)) == Some(p.driver.prefix + tc.table))
  {
    var a := FirstTable(p.tables, tc.table);
    var talias := ResolveTable(p, tc.table).1;
    if a.Some? && !EmptyText(a.value) && a.value != tc.table {
      UnquoteIdentQuote(p.driver.dialect, a.value);
    } else if tc.dontPrefix {
      UnquoteIdentQuote(p.driver.dialect, tc.table);
    }
  }

  /** A table never registered renders by its own (prefixed) name. */
  lemma RenderUnregistered(p: Params, tc: TableClause)
    requires FirstTable(p.tables, tc.table).None?
    ensures RenderTableClause(p, tc) ==
      (if tc.dontPrefix then IdentQuote(p.driver.dialect, tc.table) else GetName(p.driver, tc.table, true))
  {
  }

  /** A source table registers its alias with the parameters. */
  function RegisterSource(p: Params, s: SourceTable): (r: Params)
    ensures r.driver == p.driver && r.bindings == p.bindings && r.bound == p.bound && r.nextScope == p.nextScope
  {
    RegisterTable(p, s.table, s.alias)
  }

  function RenderSource(p: Params, s: SourceTable): (r: string)
    ensures StartsWith(r, GetName(p.driver, s.table, true))
  {
    var name := GetName(p.driver, s.table, true);
    if s.alias == "" then name else name + " AS " + IdentQuote(p.driver.dialect, s.alias)
  }

  function RegisterRef(p: Params, t: TableRef): (r: Params)
    ensures r.driver == p.driver && r.bindings == p.bindings && r.bound == p.bound && r.nextScope == p.nextScope
  {
    match t
    case ByClause(_) => p
    case BySource(s) => RegisterSource(p, s)
  }

  function RenderRef(p: Params, t: TableRef): string {
    match t
    case ByClause(tc) => RenderTableClause(p, tc)
    case BySource(s) => RenderSource(p, s)
  }

  function RefTable(t: TableRef): string {
    match t
    case ByClause(tc) => tc.table
    case BySource(s) => s.table
  }
}

=== FILE: union_clause.dfy ===
/**
 * UNION clauses (src/Query/UnionClause.php): a normalised type and a
 * select rendered in a sub-scope whose number the clause remembers.
 */
module Unions {
  import opened Wrappers
  import opened Strings
  import opened Values
  import opened Naming
  import opened Parameters
  import opened Expressions
  import opened TableClauses
  import opened Clauses
  import opened Selects

  datatype UnionClause = UnionClause(utype: string, select: Select, subScope: Option<nat>)

  /** The valid_types table: "ALL" to ALL, "" and "DISTINCT" to DISTINCT. */
  function UnionType(t: string): (r: Option<string>)
    ensures r.Some? <==> t in ["ALL", "", "DISTINCT"]
    ensures r.Some? ==> r.value in ["ALL", "DISTINCT"]
    ensures r.Some? ==> (r.value == "ALL" <==> t == "ALL")
  {
    if t == "ALL" then Some("ALL")
    else if t == "" || t == "DISTINCT" then Some("DISTINCT")
    else None
  }

  /** setType: an unlisted type (letter case included) is rejected and the clause keeps its type. */
  function SetType(u: UnionClause, t: string): (r: Result<UnionClause>)
    ensures r.Ok? <==> UnionType(t).Some?
    ensures r.Ok? ==> r.value == u.(utype := UnionType(t).value)
    ensures r.Err? ==> r.error.kind == QueryMalformed && StartsWith(r.error.message, "Invalid UNION type")
  {
    match UnionType(t)
    case None =>
      var msg := "Invalid UNION type: " + t;
      assert msg[..|"Invalid UNION type"|] == "Invalid UNION type";
      Fails(QueryMalformed, msg)
    case Some(v) => Ok(u.(utype := v))
  }

  /** new UnionClause(type, select): the query is set, then the type. */
  function NewUnion(t: string, s: Select): (r: Result<UnionClause>)
    ensures r.Ok? <==> UnionType(t).Some?
    ensures r.Ok? ==> r.value.select == s && r.value.utype == UnionType(t).value && r.value.subScope.None?
  {
    SetType(UnionClause("", s, None), t)
  }

  /** Normalisation is a fixpoint: setting a clause's own type again changes nothing. */
  lemma SetTypeIdempotent(u: UnionClause, t: string)
    requires SetType(u, t).Ok?
    ensures SetType(SetType(u, t).value, SetType(u, t).value.utype) == SetType(u, t)
  {
  }

  /**
   * UnionClause::toSQL: "UNION <type> (<select>)", the select rendered in
   * the sub-scope the clause remembers, or a new one on first render.
   */
  function RenderUnion(p: Params, u: UnionClause, generate: Expr -> string): (r: (Params, string, UnionClause))
    ensures u.subScope.None? ==> r.2.subScope == Some(p.nextScope) && r.0.nextScope == p.nextScope + 1
    ensures u.subScope.Some? ==> r.2.subScope == u.subScope && r.0.nextScope == p.nextScope
    ensures r.2.utype == u.utype
    ensures r.1 == "UNION " + u.utype + " (" + RenderSelect(SubScope(p, u.subScope).0, u.select, generate).1 + ")"
  {
    var (scope, id) := SubScope(p, u.subScope);
    var (q, sql, s') := RenderSelect(scope, u.select, generate);
    (q, "UNION " + u.utype + " (" + sql + ")", u.(subScope := Some(id), select := s'))
  }

  /** Rendering again requests the stored sub-scope: no further scope number is used up. */
  lemma RenderUnionReusesScope(p: Params, u: UnionClause, generate: Expr -> string)
    ensures var (p1, _, u1) := RenderUnion(p, u, generate);
      RenderUnion(p1, u1, generate).2.subScope == u1.subScope
      && RenderUnion(p1, u1, generate).0.nextScope == p1.nextScope
  {
  }

  /** The query of the union test: all rows of foo where a equals true. */
  function FooWhereATrue(): Select {
    var cond := Op("=", Some(Field("a")), Const(0, VBool(true)));
    Select([], Some(BySource(SourceTable("foo", ""))), [], Some(WhereClause(cond)), None, None, None)
  }

  /** Q::equals('a', true): the string is a field, the boolean a constant. */
  lemma EqualsBuildsCondition()
    ensures NewOperator(["="], "=", Some(Plain(VStr("a"))), Plain(VBool(true)), 0) ==
      Ok((Op("=", Some(Field("a")), Const(0, VBool(true))), 1))
  {
  }

  /** The union test's condition, rendered against fresh PostgreSQL parameters. */
  lemma WhereExample(p0: Params)
    requires p0.driver.dialect == PGSQL && p0.bindings == [] && p0.bound == map[]
    ensures var cond := Op("=", Some(Field("a")), Const(0, VBool(true)));
      RenderWhere(p0, WhereClause(cond)) ==
        (p0.(bindings := [("c0", VBool(true))], bound := map[0 := "c0"]), "WHERE \"a\" = :c0")
  {
    var cond := Op("=", Some(Field("a")), Const(0, VBool(true)));
    assert NatToString(0) == "0";
    assert Placeholder(0) == "c0";
    var pw := p0.(bindings := [("c0", VBool(true))], bound := map[0 := "c0"]);
    assert p0.bindings + [("c0", VBool(true))] == [("c0", VBool(true))];
    assert p0.bound[0 := "c0"] == map[0 := "c0"];
    assert Bind(p0, 0, VBool(true)) == (pw, "c0");
    assert IdentQuote(PGSQL, "a") == "\"a\"";
    assert Render(p0, Field("a"), true) == (p0, "\"a\"");
    assert ":" + "c0" == ":c0";
    assert Render(p0, Const(0, VBool(true)), true) == (pw, ":c0");
    assert "\"a\"" + " " + "=" + " " + ":c0" == "\"a\" = :c0";
    assert Render(p0, cond, false) == (pw, "\"a\" = :c0");
    assert "WHERE " + "\"a\" = :c0" == "WHERE \"a\" = :c0";
  }

  /** The union test's select, as pieces, against fresh PostgreSQL parameters. */
  lemma SelectExampleParts(scope: Params, generate: Expr -> string)
    requires scope.driver == Driver(PGSQL, "") && scope.bindings == [] && scope.bound == map[] && scope.tables == []
    ensures SelectParts(scope, FooWhereATrue(), generate).1 == ["SELECT", "*", "FROM \"foo\"", "WHERE \"a\" = :c0"]
    ensures SelectParts(scope, FooWhereATrue(), generate).0.bindings == [("c0", VBool(true))]
  {
    var s := FooWhereATrue();
    var p0 := RegisterSelect(scope, s);
    assert p0 == scope.(tables := [("foo", "")]);
    assert RenderGets(p0, [], generate) == (p0, [], []);
    assert RenderRef(p0, BySource(SourceTable("foo", ""))) == "\"foo\"";
    var from := "FROM \"foo\"";
    assert "FROM " + "\"foo\"" == from;
    assert RenderJoins(p0, []) == (p0, []);
    var where := "WHERE \"a\" = :c0";
    WhereExample(p0);
    var pw := p0.(bindings := [("c0", VBool(true))], bound := map[0 := "c0"]);
    assert SourceParts(p0, s) == (pw, [from] + [] + [where]);
    var parts := SelectParts(scope, s, generate).1;
    assert parts == ["SELECT", "*"] + [from] + [] + [where] + [] + [] + [];
  }

  /** The union test's select, rendered against fresh PostgreSQL parameters. */
  lemma SelectExample(scope: Params, generate: Expr -> string)
    requires scope.driver == Driver(PGSQL, "") && scope.bindings == [] && scope.bound == map[] && scope.tables == []
    ensures RenderSelect(scope, FooWhereATrue(), generate).1 == "SELECT * FROM \"foo\" WHERE \"a\" = :c0"
    ensures RenderSelect(scope, FooWhereATrue(), generate).0.bindings == [("c0", VBool(true))]
  {
    SelectExampleParts(scope, generate);
    JoinFour("SELECT", "*", "FROM \"foo\"", "WHERE \"a\" = :c0");
    SelectHeadText();
    SelectWhereText();
  }

  lemma SelectHeadText()
    ensures "SELECT" + " " + "*" + " " + "FROM \"foo\"" == "SELECT * FROM \"foo\""
  {
  }

  lemma SelectWhereText()
    ensures "SELECT * FROM \"foo\"" + " " + "WHERE \"a\" = :c0" == "SELECT * FROM \"foo\" WHERE \"a\" = :c0"
  {
  }

  lemma JoinFour(a: string, b: string, c: string, d: string)
    ensures Join([a, b, c, d], " ") == a + " " + b + " " + c + " " + d
  {
    var xs := [a, b, c, d];
    assert xs[1..] == [b, c, d];
    assert xs[1..][1..] == [c, d];
    assert xs[1..][1..][1..] == [d];
    assert Join(xs[1..][1..][1..], " ") == d;
    assert Join(xs[1..][1..], " ") == c + " " + d;
    assert Join(xs[1..], " ") == b + " " + (c + " " + d);
  }

  lemma UnionAllText()
    ensures "UNION " + "ALL" + " (" + "SELECT * FROM \"foo\" WHERE \"a\" = :c0" + ")" ==
      "UNION ALL (SELECT * FROM \"foo\" WHERE \"a\" = :c0)"
  {
    UnionHeadText();
    UnionInnerText();
    UnionCloseText();
  }

  lemma UnionHeadText()
    ensures "UNION " + "ALL" + " (" == "UNION ALL ("
  {
  }

  lemma UnionInnerText()
    ensures "UNION ALL (" + "SELECT * FROM \"foo\" WHERE \"a\" = :c0" == "UNION ALL (SELECT * FROM \"foo\" WHERE \"a\" = :c0"
  {
  }

  lemma UnionCloseText()
    ensures "UNION ALL (SELECT * FROM \"foo\" WHERE \"a\" = :c0" + ")" == "UNION ALL (SELECT * FROM \"foo\" WHERE \"a\" = :c0)"
  {
  }

  /** The rendering the union test expects, with the value bound under c0. */
  lemma UnionAllExample(generate: Expr -> string)
    ensures var u := NewUnion("ALL", FooWhereATrue()).value;
      var r := RenderUnion(NewParams(Driver(PGSQL, "")), u, generate);
      r.1 == "UNION ALL (SELECT * FROM \"foo\" WHERE \"a\" = :c0)"
      && Lookup(r.0, "c0") == Some(VBool(true))
  {
    var p := NewParams(Driver(PGSQL, ""));
    var scope := SubScope(p, None).0;
    SelectExample(scope, generate);
    var u := NewUnion("ALL", FooWhereATrue()).value;
    assert u.utype == "ALL" && u.subScope.None?;
    var sel := RenderSelect(scope, FooWhereATrue(), generate);
    var r := RenderUnion(p, u, generate);
    assert r.0 == sel.0;
    assert r.1 == "UNION " + "ALL" + " (" + sel.1 + ")";
    UnionAllText();
    assert r.0.bindings[0].0 == "c0";
  }
}

=== FILE: update.dfy ===
/**
 * UPDATE queries (src/Query/Update.php): a target table, joins, the field
 * updates and an optional WHERE clause, assembled from clause objects.
 */
module Updates {
  import opened Wrappers
  import opened Strings
  import opened Values
  import opened Naming
  import opened Parameters
  import opened Expressions
  import opened TableClauses
  import opened Clauses
  import opened Selects

  datatype Update = Update(
    table: Option<SourceTable>,
    joins: seq<JoinClause>,
    updates: seq<UpdateField>,
    where: Option<WhereClause>)

  const EmptyUpdate := Update(None, [], [], None)

  /** The source table a table clause object stands for: a plain table clause loses its alias. */
  function SourceOf(t: TableRef): (r: SourceTable)
    ensures r.table == RefTable(t)
    ensures t.BySource? ==> r == t.src
    ensures t.ByClause? ==> r.alias == ""
  {
    match t
    case ByClause(tc) => SourceTable(tc.table, "")
    case BySource(s) => s
  }

  /** setTable: a source table is kept, a table clause or a name becomes a source table, anything else is rejected. */
  function SetTable(u: Update, t: TableArg): (r: Result<Update>)
    ensures r.Ok? <==> !t.OtherArg?
    ensures r.Ok? ==> r.value.joins == u.joins && r.value.updates == u.updates && r.value.where == u.where
    ensures r.Ok? && t.TableName? ==> r.value.table == Some(SourceTable(t.name, ""))
    ensures r.Ok? && t.TableObject? ==> r.value.table == Some(SourceOf(t.ref))
    ensures r.Err? ==> r.error.kind == InvalidArgument
  {
    match t
    case TableName(name) => Ok(u.(table := Some(SourceTable(name, ""))))
    case TableObject(ref) => Ok(u.(table := Some(SourceOf(ref))))
    case OtherArg(d) => Fails(InvalidArgument, "Invalid table: " + d)
  }

  /** The clauses an update accepts. */
  predicate Accepted(c: Clause) {
    c.CWhere? || c.CTable? || c.CJoin? || c.CUpdate?
  }

  /** add: a WHERE clause replaces, a table is set, a join or an update field is appended; any other clause is rejected. */
  function Add(u: Update, c: Clause): (r: Result<Update>)
    ensures r.Ok? <==> Accepted(c)
    ensures r.Err? ==> r.error.kind == UnknownClause
    ensures r.Ok? ==> r.value.where == (if c.CWhere? then Some(c.where) else u.where)
    ensures r.Ok? ==> r.value.table == (if c.CTable? then Some(SourceOf(c.table)) else u.table)
    ensures r.Ok? ==> r.value.joins == u.joins + (if c.CJoin? then [c.join] else [])
    ensures r.Ok? ==> r.value.updates == u.updates + (if c.CUpdate? then [c.update] else [])
  {
    match c
    case CWhere(w) => Ok(u.(where := Some(w)))
    case CTable(t) => SetTable(u, TableObject(t))
    case CJoin(j) => Ok(u.(joins := u.joins + [j]))
    case CUpdate(f) => Ok(u.(updates := u.updates + [f]))
    case _ => Fails(UnknownClause, "Unknown clause: " + ClauseName(c))
  }

  function ClauseName(c: Clause): string {
    match c
    case CWhere(_) => "WhereClause"
    case CTable(_) => "TableClause"
    case CGet(_) => "GetClause"
    case CJoin(_) => "JoinClause"
    case COrder(_) => "OrderClause"
    case CLimit(_) => "LimitClause"
    case COffset(_) => "OffsetClause"
    case CUpdate(_) => "UpdateField"
    case COther(name) => name
  }

  /** The constructor: each clause added in order. */
  function AddAll(u: Update, cs: seq<Clause>): (r: Result<Update>)
    decreases |cs|
  {
    if |cs| == 0 then Ok(u)
    else
      var u1 :- Add(u, cs[0]);
      AddAll(u1, cs[1..])
  }

  function NewUpdate(cs: seq<Clause>): (r: Result<Update>) {
    AddAll(EmptyUpdate, cs)
  }

  /** The update fields among the clauses, in order. */
  function UpdatesIn(cs: seq<Clause>): (r: seq<UpdateField>)
    ensures forall f :: f in r <==> CUpdate(f) in cs
    decreases |cs|
  {
    if |cs| == 0 then []
    else
      assert cs == [cs[0]] + cs[1..];
      (if cs[0].CUpdate? then [cs[0].update] else []) + UpdatesIn(cs[1..])
  }

  /** The joins among the clauses, in order. */
  function JoinsIn(cs: seq<Clause>): (r: seq<JoinClause>)
    ensures forall j :: j in r <==> CJoin(j) in cs
    decreases |cs|
  {
    if |cs| == 0 then []
    else
      assert cs == [cs[0]] + cs[1..];
      (if cs[0].CJoin? then [cs[0].join] else []) + JoinsIn(cs[1..])
  }

  /**
   * Adding a list of clauses succeeds exactly when each is accepted; then
   * joins and updates are appended in clause order, and the last WHERE and
   * the last table clause win (earlier values stay when there is none).
   */
  lemma AddAllSpec(u: Update, cs: seq<Clause>)
    ensures AddAll(u, cs).Ok? <==> forall i :: 0 <= i < |cs| ==> Accepted(cs[i])
    ensures AddAll(u, cs).Ok? ==>
      && AddAll(u, cs).value.updates == u.updates + UpdatesIn(cs)
      && AddAll(u, cs).value.joins == u.joins + JoinsIn(cs)
    ensures AddAll(u, cs).Ok? && (forall i :: 0 <= i < |cs| ==> !cs[i].CWhere?) ==>
      AddAll(u, cs).value.where == u.where
    ensures AddAll(u, cs).Ok? ==> forall i :: (0 <= i < |cs| && cs[i].CWhere? && (forall j :: i < j < |cs| ==> !cs[j].CWhere?)) ==>
      AddAll(u, cs).value.where == Some(cs[i].where)
    ensures AddAll(u, cs).Ok? && (forall i :: 0 <= i < |cs| ==> !cs[i].CTable?) ==>
      AddAll(u, cs).value.table == u.table
    ensures AddAll(u, cs).Ok? ==> forall i :: (0 <= i < |cs| && cs[i].CTable? && (forall j :: i < j < |cs| ==> !cs[j].CTable?)) ==>
      AddAll(u, cs).value.table == Some(SourceOf(cs[i].table))
  {
    AddAllAccepts(u, cs);
    AddAllAppends(u, cs);
    AddAllWhere(u, cs);
    AddAllTable(u, cs);
  }

  lemma {:induction false} AddAllAccepts(u: Update, cs: seq<Clause>)
    ensures AddAll(u, cs).Ok? <==> forall i :: 0 <= i < |cs| ==> Accepted(cs[i])
    decreases |cs|
  {
    if |cs| > 0 {
      var r0 := Add(u, cs[0]);
      if r0.Ok? {
        AddAllAccepts(r0.value, cs[1..]);
        assert forall i :: 1 <= i < |cs| ==> cs[i] == cs[1..][i - 1];
      }
    }
  }

  lemma AddAllAppends(u: Update, cs: seq<Clause>)
    ensures AddAll(u, cs).Ok? ==>
      && AddAll(u, cs).value.updates == u.updates + UpdatesIn(cs)
      && AddAll(u, cs).value.joins == u.joins + JoinsIn(cs)
  {
    AddAllUpdates(u, cs);
    AddAllJoins(u, cs);
  }

  lemma {:induction false} AddAllUpdates(u: Update, cs: seq<Clause>)
    ensures AddAll(u, cs).Ok? ==> AddAll(u, cs).value.updates == u.updates + UpdatesIn(cs)
    decreases |cs|
  {
    if |cs| > 0 {
      var r0 := Add(u, cs[0]);
      if r0.Ok? {
        AddAllUpdates(r0.value, cs[1..]);
        var c := cs[0];
        assert UpdatesIn(cs) == (if c.CUpdate? then [c.update] else []) + UpdatesIn(cs[1..]);
        assert u.updates + UpdatesIn(cs) == (u.updates + (if c.CUpdate? then [c.update] else [])) + UpdatesIn(cs[1..]);
      }
    }
  }

  lemma {:induction false} AddAllJoins(u: Update, cs: seq<Clause>)
    ensures AddAll(u, cs).Ok? ==> AddAll(u, cs).value.joins == u.joins + JoinsIn(cs)
    decreases |cs|
  {
    if |cs| > 0 {
      var r0 := Add(u, cs[0]);
      if r0.Ok? {
        AddAllJoins(r0.value, cs[1..]);
        var c := cs[0];
        assert JoinsIn(cs) == (if c.CJoin? then [c.join] else []) + JoinsIn(cs[1..]);
        assert u.joins + JoinsIn(cs) == (u.joins + (if c.CJoin? then [c.join] else [])) + JoinsIn(cs[1..]);
      }
    }
  }

  lemma {:induction false} AddAllWhere(u: Update, cs: seq<Clause>)
    ensures AddAll(u, cs).Ok? && (forall i :: 0 <= i < |cs| ==> !cs[i].CWhere?) ==>
      AddAll(u, cs).value.where == u.where
    ensures AddAll(u, cs).Ok? ==> forall i :: (0 <= i < |cs| && cs[i].CWhere? && (forall j :: i < j < |cs| ==> !cs[j].CWhere?)) ==>
      AddAll(u, cs).value.where == Some(cs[i].where)
    decreases |cs|
  {
    if |cs| > 0 && Add(u, cs[0]).Ok? {
      var u1 := Add(u, cs[0]).value;
      var rest := cs[1..];
      AddAllWhere(u1, rest);
      forall j | 0 <= j < |rest| ensures rest[j] == cs[j + 1] {
      }
    }
  }

  lemma {:induction false} AddAllTable(u: Update, cs: seq<Clause>)
    ensures AddAll(u, cs).Ok? && (forall i :: 0 <= i < |cs| ==> !cs[i].CTable?) ==>
      AddAll(u, cs).value.table == u.table
    ensures AddAll(u, cs).Ok? ==> forall i :: (0 <= i < |cs| && cs[i].CTable? && (forall j :: i < j < |cs| ==> !cs[j].CTable?)) ==>
      AddAll(u, cs).value.table == Some(SourceOf(cs[i].table))
    decreases |cs|
  {
    if |cs| > 0 && Add(u, cs[0]).Ok? {
      var u1 := Add(u, cs[0]).value;
      var rest := cs[1..];
      AddAllTable(u1, rest);
      forall j | 0 <= j < |rest| ensures rest[j] == cs[j + 1] {
      }
    }
  }

  /** A GET, ORDER, LIMIT or OFFSET clause anywhere makes the constructor fail. */
  lemma NewUpdateRejects(cs: seq<Clause>, i: nat)
    requires i < |cs| && !Accepted(cs[i])
    ensures NewUpdate(cs).Err?
  {
    AddAllSpec(EmptyUpdate, cs);
  }

  /** where(condition): the condition replaces any earlier WHERE clause. */
  function Where(u: Update, condition: Expr): (r: Update)
    ensures r.where == Some(WhereClause(condition))
    ensures r.table == u.table && r.joins == u.joins && r.updates == u.updates
  {
    u.(where := Some(WhereClause(condition)))
  }

  /*** toSQL ***/

  function WhereParts(p: Params, w: Option<WhereClause>): (r: (Params, seq<string>))
    ensures w.None? ==> r == (p, [])
    ensures w.Some? ==> r == (RenderWhere(p, w.value).0, [RenderWhere(p, w.value).1])
  {
    if w.Some? then (RenderWhere(p, w.value).0, [RenderWhere(p, w.value).1]) else (p, [])
  }

  /**
   * Update::toSQL: "UPDATE", the table, each join, "SET", the rendered
   * updates separated by commas, the WHERE clause; joined by spaces.
   * Without updates it fails with "Nothing to update". An update without a
   * table hands null to the driver, which is not part of this model; here
   * that fails too.
   */
  function RenderUpdate(p: Params, u: Update): (r: Result<(Params, string)>)
    ensures r.Ok? <==> u.table.Some? && |u.updates| > 0
    ensures r.Err? && u.table.Some? ==> r.error == Error(QueryMalformed, "Nothing to update")
    ensures r.Ok? ==> StartsWith(r.value.1, "UPDATE " + RenderSource(p, u.table.value) + " ")
    ensures r.Ok? ==>
      var (p1, joinParts) := RenderJoins(p, u.joins);
      var (p2, updateParts) := RenderUpdateFields(p1, u.updates);
      var (p3, whereParts) := WhereParts(p2, u.where);
      && |joinParts| == |u.joins| && |updateParts| == |u.updates| && |whereParts| == (if u.where.Some? then 1 else 0)
      && r.value == (p3, Join(["UPDATE", RenderSource(p, u.table.value)] + joinParts + ["SET", Join(updateParts, ", ")] + whereParts, " "))
  {
    if u.table.None? then Fails(QueryMalformed, "No table to update")
    else
      var source := RenderSource(p, u.table.value);
      var (p1, joinParts) := RenderJoins(p, u.joins);
      var (p2, updateParts) := RenderUpdateFields(p1, u.updates);
      if |updateParts| == 0 then Fails(QueryMalformed, "Nothing to update")
      else
        var (p3, whereParts) := WhereParts(p2, u.where);
        var parts := ["UPDATE", source] + joinParts + ["SET", Join(updateParts, ", ")] + whereParts;
        UpdateTextStart(parts, source);
        Ok((p3, Join(parts, " ")))
  }

  lemma UpdateTextStart(parts: seq<string>, source: string)
    requires |parts| >= 3 && parts[0] == "UPDATE" && parts[1] == source
    ensures StartsWith(Join(parts, " "), "UPDATE " + source + " ")
  {
    JoinTwoHead(parts, " ");
    var pre := "UPDATE " + source + " ";
    assert "UPDATE" + " " + source + " " == pre;
    PrefixOfAppend(pre, Join(parts[2..], " "));
  }

  /*** Rendering keeps earlier placeholders ***/

  predicate KeepsBindings(p: Params, q: Params) {
    |p.bindings| <= |q.bindings| && q.bindings[..|p.bindings|] == p.bindings
    && (Coherent(p) ==> Coherent(q))
  }

  lemma KeepsBindingsTrans(a: Params, b: Params, c: Params)
    requires KeepsBindings(a, b) && KeepsBindings(b, c)
    ensures KeepsBindings(a, c)
  {
    assert c.bindings[..|a.bindings|] == c.bindings[..|b.bindings|][..|a.bindings|];
  }

  lemma {:induction false} RenderJoinsKeeps(p: Params, js: seq<JoinClause>)
    ensures KeepsBindings(p, RenderJoins(p, js).0)
    decreases |js|
  {
    if |js| > 0 {
      var p1 := RenderJoin(p, js[0]).0;
      RenderAppendsBindings(p, js[0].condition, true);
      RenderJoinsKeeps(p1, js[1..]);
      KeepsBindingsTrans(p, p1, RenderJoins(p1, js[1..]).0);
    }
  }

  lemma {:induction false} RenderUpdateFieldsKeeps(p: Params, us: seq<UpdateField>)
    ensures KeepsBindings(p, RenderUpdateFields(p, us).0)
    decreases |us|
  {
    if |us| > 0 {
      var p1 := RenderUpdateField(p, us[0]).0;
      RenderAppendsBindings(p, us[0].value, false);
      RenderUpdateFieldsKeeps(p1, us[1..]);
      KeepsBindingsTrans(p, p1, RenderUpdateFields(p1, us[1..]).0);
    }
  }

  /** Rendering an update only appends placeholders and keeps them named by position. */
  lemma RenderUpdateKeeps(p: Params, u: Update)
    requires RenderUpdate(p, u).Ok?
    ensures KeepsBindings(p, RenderUpdate(p, u).value.0)
  {
    var p1 := RenderJoins(p, u.joins).0;
    var p2 := RenderUpdateFields(p1, u.updates).0;
    RenderJoinsKeeps(p, u.joins);
    RenderUpdateFieldsKeeps(p1, u.updates);
    KeepsBindingsTrans(p, p1, p2);
    if u.where.Some? {
      RenderAppendsBindings(p2, u.where.value.condition, false);
      KeepsBindingsTrans(p, p2, RenderWhere(p2, u.where.value).0);
    }
  }
}

=== FILE: values.dfy ===
/** PHP values as the library sees them. */
module Values {
  // PHP values as the library sees them: a tagged datatype in place of PHP's
  // dynamic typing. Floating-point numbers are carried as numeric text, so no
  // floating-point arithmetic is needed; DateTime instances and other objects
  // are opaque.

  import opened Wrappers
  import opened Strings

  datatype Value =
    | VNull
    | VBool(b: bool)
    | VInt(i: int)
    | VStr(s: string)
    | VArray(items: seq<Value>)
    | VDate(text: string)                 // a DateTime instance
    | VObject(jsonSerializable: bool)     // any other object

  /** PHP truthiness: what `if ($v)` and `$v == true` decide. */
  predicate Truthy(v: Value) {
    match v
    case VNull => false
    case VBool(b) => b
    case VInt(i) => i != 0
    case VStr(s) => s != "" && s != "0"
    case VArray(items) => |items| > 0
    case VDate(_) => true
    case VObject(_) => true
  }

  /** PHP `is_scalar`: booleans, integers and strings (and floats, carried as text). */
  predicate IsScalar(v: Value) {
    v.VBool? || v.VInt? || v.VStr?
  }

  /** PHP string conversion; objects without `__toString` have none. */
  function ToPhpString(v: Value): Option<string> {
    match v
    case VNull => Some("")
    case VBool(b) => Some(if b then "1" else "")
    case VInt(i) => Some(IntToString(i))
    case VStr(s) => Some(s)
    case VArray(_) => Some("Array")
    case VDate(_) => None
    case VObject(_) => None
  }

  /** Numeric text: an optional minus sign, digits, and at most one decimal point. */
  predicate IsNumericText(s: string) {
    var body := if |s| > 0 && s[0] == '-' then s[1..] else s;
    && (exists i :: 0 <= i < |body| && IsDigit(body[i]))
    && (forall i :: 0 <= i < |body| ==> IsDigit(body[i]) || body[i] == '.')
    && (forall i, j :: 0 <= i < j < |body| && body[i] == '.' ==> body[j] != '.')
  }

  /** PHP `is_numeric`. */
  predicate IsNumeric(v: Value) {
    v.VInt? || (v.VStr? && IsNumericText(v.s))
  }

  /** An integer, or text that spells one: the integer check the library uses. */
  predicate IsIntVal(v: Value) {
    v.VInt? || (v.VStr? && IsIntegerText(v.s))
  }

  /** PHP `(int)` cast. */
  function IntCast(v: Value): int {
    match v
    case VNull => 0
    case VBool(b) => if b then 1 else 0
    case VInt(i) => i
    case VStr(s) => StringToInt(s)
    case VArray(items) => if |items| > 0 then 1 else 0
    case VDate(_) => 1
    case VObject(_) => 1
  }

  /** `null` for absent, the integer otherwise: how a nullable integer is stored in an array. */
  function OptIntValue(o: Option<int>): (v: Value)
    ensures o.None? <==> v == VNull
  {
    match o
    case None => VNull
    case Some(i) => VInt(i)
  }

  function StrValues(xs: seq<string>): (r: seq<Value>)
    ensures |r| == |xs|
    ensures forall i :: 0 <= i < |xs| ==> r[i] == VStr(xs[i])
  {
    seq(|xs|, i requires 0 <= i < |xs| => VStr(xs[i]))
  }
}

=== FILE: wrappers.dfy ===
/** Result types shared by the whole model. */
module Wrappers {
  // Failure-compatible result types shared by the whole model.
  //
  // Every exception the PHP library throws becomes an `Err` carrying an
  // `Error`: the kind says which failure family it belongs to, the message
  // mirrors the text the library puts in the exception.


  datatype Option<+T> = None | Some(value: T) {
    function GetOr(default: T): T {
      match this
      case Some(v) => v
      case None => default
    }

    predicate IsFailure() {
      None?
    }

    function PropagateFailure<U>(): Option<U>
      requires None?
    {
      None
    }

    function Extract(): T
      requires Some?
    {
      value
    }
  }

  /** The failure families the library distinguishes. */
  datatype ErrorKind =
    | InvalidArgument     // malformed construction input
    | UnknownClause       // a clause a query does not accept
    | QueryMalformed      // a query that cannot be compiled
    | UnsupportedType     // a logical or native type without a mapping
    | MalformedCatalog    // catalog text the parser does not accept
    | SchemaViolation     // a Table or Column invariant is broken
    | UnknownName         // lookup of a column, index or key that is absent
    | Fatal               // a PHP engine error (undefined method, type error)

  datatype Error = Error(kind: ErrorKind, message: string)

  datatype Result<+T> = Ok(value: T) | Err(error: Error) {
    predicate IsFailure() {
      Err?
    }

    function PropagateFailure<U>(): Result<U>
      requires Err?
    {
      Err(error)
    }

    function Extract(): T
      requires Ok?
    {
      value
    }
  }

  /** A check that either passes or fails with an error. */
  datatype Outcome = Pass | Fail(error: Error) {
    predicate IsFailure() {
      Fail?
    }

    function PropagateFailure<U>(): Result<U>
      requires Fail?
    {
      Err(error)
    }
  }

  function Need(condition: bool, error: Error): (r: Outcome)
    ensures r.Pass? <==> condition
  {
    if condition then Pass else Fail(error)
  }

  function Fails<T>(kind: ErrorKind, message: string): Result<T> {
    Err(Error(kind, message))
  }

  /** Step `k` is the first one over `xs` that fails. */
  predicate FirstFailure<T, U>(f: T -> Result<U>, xs: seq<T>, k: int) {
    0 <= k < |xs| && f(xs[k]).Err? && forall i :: 0 <= i < k ==> f(xs[i]).Ok?
  }

  /** A sequence that applies `f` to every element is `f` of the first followed by the same for the rest. */
  lemma MapCons<T, U>(f: T -> U, xs: seq<T>, ys: seq<U>, tail: seq<U>)
    requires |xs| > 0 && |ys| == |xs| && |tail| == |xs| - 1
    requires forall i :: 0 <= i < |xs| ==> ys[i] == f(xs[i])
    requires forall i :: 0 <= i < |tail| ==> tail[i] == f(xs[1..][i])
    ensures ys == [f(xs[0])] + tail
  {
    forall i | 0 <= i < |tail| ensures ys[i + 1] == tail[i] {
      assert xs[1..][i] == xs[i + 1];
    }
  }

  /**
   * Applying a fallible step to each element in order: the results when
   * every step succeeds, else the error of the first step that fails.
   */
  function MapAll<T, U>(f: T -> Result<U>, xs: seq<T>): (r: Result<seq<U>>)
    ensures r.Ok? <==> forall i :: 0 <= i < |xs| ==> f(xs[i]).Ok?
    ensures r.Ok? ==> |r.value| == |xs| && forall i :: 0 <= i < |xs| ==> r.value[i] == f(xs[i]).value
    ensures r.Err? ==> exists k :: FirstFailure(f, xs, k) && r.error == f(xs[k]).error
    decreases |xs|
  {
    if |xs| == 0 then Ok([])
    else
      var y :- f(xs[0]);
      var ys :- MapAll(f, xs[1..]);
      assert forall i :: 1 <= i < |xs| ==> xs[i] == xs[1..][i - 1];
      Ok([y] + ys)
  }
}
